=== FILE: README.md ===
# gbdte core in Dafny

gbdte fits gradient-boosted decision trees with linear leaves. A tree is
split on the *interpolating* features. Each leaf holds a weight vector that
is dotted with the *extrapolating* (extra) features of a row, so a tree can
extrapolate in time. This project models three parts of the repository:

- **The Poisson legacy engine** (`golang/poisson_legacy`), in these modules:
  - `PoissonMatrix`: building a `PMatrix` and slicing it by a row mask.
  - `PoissonUtils`: the per-column argsort `gax`, gathers, cumulative sums,
    object counting and the threshold choice.
  - `PoissonLoss`, `PoissonExtraLoss`, `PoissonLinear`, `PoissonWholeLoss`:
    the four whole-loss variants (first or next tree, with or without extra
    features) and the regularised linear solve.
  - `PoissonSplit`, `PoissonTree`, `PoissonBooster`: choosing the split,
    building the tree recursively, prediction and training.
- **The extra-boost engine** (`golang/extra_boost/ebl`), in these modules:
  - `EblRange`: the integer range iterator.
  - `EblMatrix`: matrix validation and the row split.
  - `EblScan`: the two-pass incremental Newton scan of one feature column and
    the choice of the best cut.
  - `EblTree`: the best split over all columns and the arena-style tree
    builder.
  - `EblPredict`: the predict operator.
  - `EblBooster`: training stages, learning curves and booster prediction.
- **The ROC AUC metric** (`python/extra_boost_py/metrics.py`): average ranks
  with ties and the rank-sum AUC, as module `RocAuc`.

Shared modules:

- `Numeric`: reals, sums, vectors, matrices.
- `Ordering`: the stable argsort.
- `Boundaries`: the positions where a sorted column changes value.
- `Masks`: row masks and filtering.
- `Wrappers`: `Option` and `Result`.

The model follows these conventions:

- A Go `float64` is a Dafny `real`.
- A Go panic or returned error is a `Failure` carrying an `Error`:
  `ShapeMismatch`, `EmptyInput`, `SingularSystem` or `InvalidModel`.
- A Python `nan` AUC is `None`.
- Library numerics enter as function-valued parameters. These are the linear
  solver (`Solver`), `log`, the loss derivatives, the learning-curve metrics
  and the no-split leaf weights.

## Model

| member | source | states |
|---|---|---|
| Ordering.SortOrder | golang/poisson_legacy/utils.go:91-98 | the argsort of a column is a permutation of the row indices that visits values in nondecreasing order, with equal values in ascending row index |
| Ordering.SortedUnique | golang/poisson_legacy/utils.go:91-98 | two permutations that are both stably sorted by the same column are equal, so the stable argsort is determined by the column alone |
| Ordering.FirstMin | golang/extra_boost/ebl/find_the_best_split.go:163-174 | the index chosen by a strict-less-than scan is a minimum, and every earlier entry is strictly larger |
| Boundaries.BreakIffDistinct | golang/extra_boost/ebl/find_the_best_split.go:84 | a sorted column has a value boundary exactly when it is not constant, and every boundary is a strict increase |
| Boundaries.DistinctCount | golang/extra_boost/ebl/find_the_best_split.go:84 | the number of boundaries of a sorted column is its number of distinct values minus one |
| Boundaries.MirroredBreaksAre | golang/extra_boost/ebl/find_the_best_split.go:163-170 | the boundaries met by the backward pass are the forward boundaries mirrored (t becomes h-2-t), in increasing order |
| Masks.FilterPartition | golang/poisson_legacy/utils.go:360-390 | slicing by a mask and by its complement splits the elements into two parts whose multisets add up to the whole |
| PoissonUtils.EdgePenalty | golang/poisson_legacy/utils.go:61-71 | for n rows, n-1 non-negative penalties, entry i being the distance from i to n/2; empty when n <= 1 |
| PoissonUtils.EdgePenaltyShape | golang/poisson_legacy/utils.go:61-71 | the penalty falls strictly towards the middle and rises strictly after it, so unbalanced cuts are penalised more |
| PoissonUtils.MakeGax | golang/poisson_legacy/utils.go:73-104 | fails exactly on an empty or ragged matrix; otherwise column j of the result is a stable argsort of feature column j |
| PoissonUtils.GaxUnique | golang/poisson_legacy/utils.go:73-104 | any two index matrices that satisfy the argsort description for the same features are equal |
| PoissonUtils.SortedThresholdsNondecreasing | golang/poisson_legacy/utils.go:106-119 | features taken along the argsort are nondecreasing down every column |
| PoissonUtils.GatherVector | golang/poisson_legacy/utils.go:121-149 | entry (i, j) is the value of the row the argsort puts at position i of column j |
| PoissonUtils.GatherExtra | golang/poisson_legacy/utils.go:151-166 | entry (i, j) is the extra-feature row the argsort puts at position i of column j |
| PoissonUtils.CumsumForward2D | golang/poisson_legacy/utils.go:168-185 | entry (i, j) is the sum of column j over rows 0..i |
| PoissonUtils.CumsumBackward2D | golang/poisson_legacy/utils.go:187-204 | entry (i, j) is the sum of column j over rows i..n-1 |
| PoissonUtils.CumsumMeet2D | golang/poisson_legacy/utils.go:168-204 | the prefix sum to i plus the suffix sum from i+1 is the column total, and both directions agree on the total |
| PoissonUtils.CumsumForward3D | golang/poisson_legacy/utils.go:206-226 | every fibre (j, k) holds its prefix sums down the rows |
| PoissonUtils.CumsumBackward3D | golang/poisson_legacy/utils.go:228-248 | every fibre (j, k) holds its suffix sums down the rows |
| PoissonUtils.CumsumMeet3D | golang/poisson_legacy/utils.go:206-248 | for every fibre, the forward sum to i plus the backward sum from i+1 is the fibre total |
| PoissonUtils.CumsumForward4D | golang/poisson_legacy/utils.go:250-272 | every fibre (j, k, l) holds its prefix sums down the rows |
| PoissonUtils.CumsumBackward4D | golang/poisson_legacy/utils.go:274-296 | every fibre (j, k, l) holds its suffix sums down the rows |
| PoissonUtils.CumsumMeet4D | golang/poisson_legacy/utils.go:250-296 | for every fibre, the forward sum to i plus the backward sum from i+1 is the fibre total |
| PoissonUtils.RunCountsGrouped | golang/poisson_legacy/utils.go:298-317 | when equal ids sit together, the running count at i is the number of distinct ids among the first i+1 |
| PoissonUtils.CountObjectsSteps | golang/poisson_legacy/utils.go:298-317 | the object count starts at 1 and grows by one exactly where the sorted id changes |
| PoissonUtils.CountObjectsExample | golang/poisson_legacy/utils.go:298-317 | on ids 101,101,101,102,102,103 and a three-column argsort, the counts are the run numbers of each column |
| PoissonUtils.ReverseRowsInvolution | golang/poisson_legacy/utils.go:319-330 | reversing the rows twice gives back the original |
| PoissonUtils.CountObjectsBackwardColumn | golang/poisson_legacy/pmatrix.go:475-478 | the backward count at i is the forward count of the reversed argsort at n-1-i |
| PoissonUtils.Dedup | golang/poisson_legacy/utils.go:336-343 | maps every value to its slot in the de-duplicated list, first to slot 0 and last to the last slot |
| PoissonUtils.DedupStrict | golang/poisson_legacy/utils.go:336-343 | on a sorted column, the de-duplicated values are strictly increasing |
| PoissonUtils.ClampIndex | golang/poisson_legacy/utils.go:347-356 | the index is kept when in range; otherwise it is clamped to 0 or n-1 |
| PoissonUtils.SmartThreshold | golang/poisson_legacy/utils.go:332-358 | no threshold exactly when there are fewer than two values or all are equal; otherwise the midpoint of two distinct values |
| PoissonUtils.SmartThresholdSeparates | golang/poisson_legacy/utils.go:332-358 | some value lies below the threshold and some value lies at or above it |
| PoissonUtils.SmartThresholdPartition | golang/poisson_legacy/utils.go:332-358 | which sorted values fall below the threshold, in terms of the clamped index and whether its value equals the maximum |
| PoissonMatrix.ClampFreqs | golang/poisson_legacy/pmatrix.go:37-44 | each frequency is kept when at least 1, and raised to 1 otherwise |
| PoissonMatrix.NewPMatrixFromDense | golang/poisson_legacy/pmatrix.go:19-90 | fails exactly on the listed shape errors; otherwise a valid matrix with clamped frequencies, the given features, psi only when non-empty, and the argsort of the features |
| PoissonMatrix.IntegrateFunctions | golang/poisson_legacy/pmatrix.go:140-153 | psi[k] is the rectangle-rule integral of time function k over the grid |
| PoissonMatrix.NewPMatrixFromIterables | golang/poisson_legacy/pmatrix.go:92-162 | fails exactly on the length errors or a bad feature matrix; extra features exist exactly when functions and times are given; psi exists exactly when there are extra features and at least two grid points |
| PoissonMatrix.GetSlice | golang/poisson_legacy/pmatrix.go:168-189 | fails exactly on a wrong-length or all-false mask; otherwise a valid matrix of the selected rows, with every per-row field filtered by the mask and a freshly computed argsort |
| PoissonMatrix.GetSliceComplement | golang/poisson_legacy/pmatrix.go:168-189 | the slices by a mask and by its complement have heights that add up to the whole |
| PoissonLinear.SolveLinearSystem | golang/poisson_legacy/linear.go:7-32 | an answer exists exactly when the system is non-empty and the solver solves the regularised system on the leading gradient entries; the answer has the system's size |
| PoissonLinear.SolveLinearSystemSolves | golang/poisson_legacy/linear.go:7-32 | for a sound solver, the answer w satisfies (H + lambda I) w = g |
| PoissonLoss.PrefixTotal | golang/poisson_legacy/pmatrix.go:213-221 | the forward cumulative sum at i is the sum of the values of the first i+1 rows in the argsort of column j |
| PoissonLoss.SuffixTotal | golang/poisson_legacy/pmatrix.go:223-241 | the backward cumulative sum at i is the sum over rows i..n-1 in the argsort of column j |
| PoissonLoss.FirstSplitLoss | golang/poisson_legacy/pmatrix.go:243-255 | the loss of cutting after i is the Poisson loss of the upper group plus that of the lower group plus the edge penalty |
| PoissonLoss.WholeLossFirstTree | golang/poisson_legacy/pmatrix.go:204-278 | succeeds on every valid matrix, which has at least one row, so the empty-dataset error cannot arise; the split losses, the sorted thresholds, the constant-rate deltas of both sides, and the whole-column rate as the current delta |
| PoissonLoss.NewtonStepMinimises | golang/poisson_legacy/pmatrix.go:397-439 | with positive curvature, the Newton step minimises the quadratic model, and the reported gain is twice that minimum |
| PoissonLoss.NextUpDelta | golang/poisson_legacy/pmatrix.go:397-419 | the upper delta is the Newton step on the prefix sums, clamped from below so that bias plus delta stays at least lambda |
| PoissonLoss.NextDownDelta | golang/poisson_legacy/pmatrix.go:397-419 | the lower delta is the Newton step on the suffix sums, clamped in the same way at the row below the cut |
| PoissonLoss.NextSplitLoss | golang/poisson_legacy/pmatrix.go:430-439 | the split loss is the sum of the Newton gains of the two sides |
| PoissonLoss.WholeLossNextTree | golang/poisson_legacy/pmatrix.go:370-454 | fails exactly on a bias of the wrong length; otherwise the losses, deltas and current delta above |
| PoissonLoss.NextDeltasKeepRatePositive | golang/poisson_legacy/pmatrix.go:408-419 | after the clamp, the sorted row at the cut keeps bias + delta >= lambda: the row gax[i][j] with the up delta and the row gax[i+1][j] with the down delta; other rows of the leaf are not bounded |
| PoissonExtraLoss.SolveAll | golang/poisson_legacy/pmatrix.go:319-332 | fails exactly when some cell's regularised system has no answer; otherwise every cell holds the solver's answer |
| PoissonExtraLoss.SolveAllSolves | golang/poisson_legacy/pmatrix.go:319-332 | for a sound solver, every cell's weights solve its regularised system for both sides |
| PoissonExtraLoss.FirstExtraHessSums | golang/poisson_legacy/pmatrix.go:290-314 | the upper and lower Hessians are prefix and suffix sums of the outer products of the sorted extra rows |
| PoissonExtraLoss.FirstExtraGradSums | golang/poisson_legacy/pmatrix.go:290-314 | the gradients are prefix and suffix sums of frequency-weighted extra rows |
| PoissonExtraLoss.WholeLossFirstTreeExtra | golang/poisson_legacy/pmatrix.go:280-368 | fails exactly without extra features, without columns, or on an unsolvable cell; otherwise the losses are minus the two sides' weight-gradient products, with the matching deltas |
| PoissonExtraLoss.NextExtraHessSums | golang/poisson_legacy/pmatrix.go:491-504 | the Hessians are prefix and suffix sums of frequency-weighted outer products divided by the squared bias |
| PoissonExtraLoss.NextExtraGradSums | golang/poisson_legacy/pmatrix.go:475-524 | the gradients are the object count times psi minus prefix or suffix sums of frequency times extra row over bias |
| PoissonExtraLoss.NegatedWeightsSolve | golang/poisson_legacy/pmatrix.go:526-543 | the negated weights solve the regularised systems for the negated gradients |
| PoissonExtraLoss.WholeLossNextTreeExtra | golang/poisson_legacy/pmatrix.go:456-579 | the three input errors in the source's order, failure exactly when the inputs are not ready or a cell is unsolvable, and otherwise the extra-loss result |
| PoissonWholeLoss.WholeLoss | golang/poisson_legacy/pmatrix.go:191-202 | dispatches on whether there is a bias and whether there are extra features, to exactly one of the four variants |
| PoissonWholeLoss.WholeLossFailures | golang/poisson_legacy/pmatrix.go:191-202 | on a valid matrix, the first tree without extras never fails; the next tree fails exactly on a bias of the wrong length; a missing psi fails |
| PoissonSplit.BestIndices | golang/poisson_legacy/split.go:21-32 | per column, the first row index of minimal split loss |
| PoissonSplit.FeatureOrder | golang/poisson_legacy/split.go:34-41 | a permutation of the columns, by ascending minimal loss |
| PoissonSplit.ChooseFeature | golang/poisson_legacy/split.go:43-80 | no choice exactly when there is at most one row or no column has a threshold; otherwise the first column in loss order that has a threshold |
| PoissonSplit.ChosenFeatureMinimal | golang/poisson_legacy/split.go:34-80 | any column with a strictly smaller minimal loss than the chosen one has no threshold |
| PoissonSplit.MakeSplit | golang/poisson_legacy/split.go:52-78 | the left mask holds exactly the rows whose feature is below the threshold, the right mask is its complement, and the deltas are copied or nil |
| PoissonSplit.SplitIsProper | golang/poisson_legacy/split.go:43-80 | both sides of a chosen split contain at least one row |
| PoissonSplit.Split | golang/poisson_legacy/split.go:8-82 | a nil matrix fails; a whole-loss error propagates; otherwise the loss has the expected shape and the result is the chosen split |
| PoissonTree.LeafPredict | golang/poisson_legacy/tree.go:18-48 | an empty leaf fails, a one-element leaf is a constant, and a longer leaf is dotted with extra features of the same length |
| PoissonTree.PredictAtRoute | golang/poisson_legacy/tree.go:18-48 | prediction is the leaf prediction of the leaf reached by following the thresholds |
| PoissonTree.LeafDot | golang/poisson_legacy/tree.go:38-44 | the loop computes the dot product of leaf weights and extra features |
| PoissonTree.PriorFinish | golang/poisson_legacy/tree.go:109-114 | growth stops exactly when the parent is at or beyond the maximum depth |
| PoissonTree.LeafFromPrediction | golang/poisson_legacy/tree.go:116-130 | fails exactly without a prediction; otherwise a leaf whose weights are the prediction scaled by 1 (first tree) or by the learning rate |
| PoissonTree.BuildTreeHelper | golang/poisson_legacy/tree.go:54-107 | a built tree is well formed, splits only on existing columns, and has depths bounded by the maximum depth; it is the leaf from the prediction at the depth limit, when Split finds no split, and when a side of the split has fewer than two rows; an error of Split is passed on |
| PoissonTree.BuildBelow | golang/poisson_legacy/tree.go:59-71 | below the depth limit, an error of Split is passed on and no split gives the leaf from the prediction |
| PoissonTree.BuildSplit | golang/poisson_legacy/tree.go:74-105 | a GetSlice error on either side is passed on, a side with fewer than two rows gives the leaf from the prediction, and a split node carries the split's feature, threshold and depth |
| PoissonTree.BuildSplitChildren | golang/poisson_legacy/tree.go:95-105 | the children of a split node are built from the left and right slices with sliced bias and the split's up and down deltas, and each slice has at least two rows |
| PoissonTree.BuildTree | golang/poisson_legacy/tree.go:50-52 | the root is an inner node at depth 1 of a well-formed tree; with no prediction at the root, building fails when Split fails, finds no split, or leaves a side with fewer than two rows |
| PoissonBooster.PredictTree | golang/poisson_legacy/booster.go:65-80 | succeeds exactly when every row predicts, and then holds each row's prediction |
| PoissonBooster.PredictRowsFirstError | golang/poisson_legacy/booster.go:65-80 | the error reported is that of the first row that fails |
| PoissonBooster.SumTreesAppend | golang/poisson_legacy/booster.go:43-63 | the prediction of a concatenation of trees is the sum of the two parts' predictions |
| PoissonBooster.BoosterPredict | golang/poisson_legacy/booster.go:43-63 | an empty booster fails; otherwise the result is the sum of the trees' predictions |
| PoissonBooster.FindZero | golang/poisson_legacy/booster.go:31-37 | reports a zero exactly when some entry is zero |
| PoissonBooster.Train | golang/poisson_legacy/booster.go:9-41 | a nil matrix fails; a trained booster has max(0, rounds) trees, each grown from the sum of the earlier ones, and with the zero check on no partial sum has a zero |
| PoissonBooster.TrainTrees | golang/poisson_legacy/booster.go:9-41 | with the real tree builder, tree s is exactly the tree built from the bias of trees 0..s-1 |
| EblRange.ElementsAt | golang/extra_boost/ebl/range.go:13-35 | the k-th element visited is start + k*step, and the range is exhausted exactly after the last one |
| EblRange.GetNextElements | golang/extra_boost/ebl/range.go:23-35 | the range has a next element exactly when its element list is non-empty; GetNext returns the head and leaves the tail |
| EblRange.UnitStepCount | golang/extra_boost/ebl/range.go:18-35 | a unit-step range visits end-start (or start-end) positions, or none |
| EblRange.BackwardElements | golang/extra_boost/ebl/range.go:18-35 | the range h-1 down to 0 visits h-1-k at step k |
| EblRange.DistToMiddleMirror | golang/extra_boost/ebl/range.go:38-40 | the distance is non-negative, zero only at the centre (begin+end-1)/2, and symmetric about it |
| EblRange.BackwardCentre | golang/extra_boost/ebl/range.go:38-40 | the forward range's centre is (h-1)/2, and as written the backward range's centre is (h-3)/2 |
| EblMatrix.ValidatedDimensions | golang/extra_boost/ebl/ematrix.go:151-165 | succeeds exactly on consistent shapes, and the height, width and depth are then returned; it reports the extra-height error before the target-height error |
| EblMatrix.LeftMask | golang/extra_boost/ebl/ematrix.go:94-100 | a row goes left exactly when its feature is below the threshold |
| EblMatrix.Split | golang/extra_boost/ebl/ematrix.go:89-146 | succeeds exactly when both sides are non-empty and record ids cover the rows; the two heights add up and each bias matches its side |
| EblMatrix.SideRows | golang/extra_boost/ebl/ematrix.go:118-142 | row k of a side is the k-th selected row of the parent, with its features, target, record id and bias |
| EblMatrix.SplitDirection | golang/extra_boost/ebl/ematrix.go:118-142 | every left row is below the threshold and every right row is at or above it |
| EblMatrix.SplitRecordIds | golang/extra_boost/ebl/ematrix.go:118-142 | the record ids of the two sides together are the parent's, as multisets |
| EblScan.RawHessian | golang/extra_boost/ebl/find_the_best_split.go:268-281 | one symmetric outer product of the extra row per row |
| EblScan.FlushIntermediate | golang/extra_boost/ebl/find_the_best_split.go:112-119 | the gradient and Hessian are reset to zeros |
| EblScan.StepFrom | golang/extra_boost/ebl/find_the_best_split.go:92-97 | the step's weights are the negated solution, its loss is the penalty minus the weight-gradient product, and it records the row's feature value |
| EblScan.StepSolves | golang/extra_boost/ebl/find_the_best_split.go:85-92 | for a sound solver, minus the step's weights solves (H + lambda I) w = g |
| EblScan.PassOf | golang/extra_boost/ebl/find_the_best_split.go:30-109 | fails only on a singular system; an empty range gives no steps, zero and nil; a non-empty successful pass has a total |
| EblScan.IterateSplits | golang/extra_boost/ebl/find_the_best_split.go:30-109 | the loop computes exactly the pass definition |
| EblScan.StepsContent | golang/extra_boost/ebl/find_the_best_split.go:56-105 | the pass emits one step per value boundary, and step i is the statistic solved at the i-th boundary |
| EblScan.DownSteps | golang/extra_boost/ebl/find_the_best_split.go:252-254 | the forward pass's steps sit at the sorted column's boundaries and carry the value there |
| EblScan.BackwardValues | golang/extra_boost/ebl/find_the_best_split.go:258-260 | step k of the backward pass carries the sorted value at h-1 minus the k-th mirrored boundary |
| EblScan.SelectTheBestSplitCluster | golang/extra_boost/ebl/find_the_best_split.go:153-176 | panics exactly on unequal pass lengths; valid exactly when there are steps; then the first index of minimal paired score, with its deltas and the midpoint threshold |
| EblScan.ColumnSorted | golang/extra_boost/ebl/find_the_best_split.go:236 | the column read along the argsort is nondecreasing |
| EblScan.ScanForSplitCluster | golang/extra_boost/ebl/find_the_best_split.go:227-265 | zero extra depth or a short bias fails; a result records the column, the row count and the total-pass weights |
| EblScan.ScanOutcome | golang/extra_boost/ebl/find_the_best_split.go:227-265 | the scan succeeds exactly when both passes do, and is then the selection over their steps |
| EblScan.ScanValidIffDistinct | golang/extra_boost/ebl/find_the_best_split.go:153-176 | a column yields a valid split exactly when it has two different values |
| EblScan.ScanBest | golang/extra_boost/ebl/find_the_best_split.go:163-174 | the chosen score is the loss of cutting at the chosen boundary, and the deltas are the two sides' solved weights |
| EblScan.ScanLeast | golang/extra_boost/ebl/find_the_best_split.go:163-174 | the chosen cut's loss is at most every other cut's loss and strictly below every earlier one |
| EblScan.ScanThreshold | golang/extra_boost/ebl/find_the_best_split.go:170 | the threshold is the midpoint of two rows' values with no row value strictly between them |
| EblTree.NewTreeNode | golang/extra_boost/ebl/tree.go:39-41 | a fresh node is neither a leaf nor linked, with zero counters |
| EblTree.NewTreeNodeFromSplitInfo | golang/extra_boost/ebl/tree.go:45-53 | an inner node carrying the split's feature, threshold, row count and current loss |
| EblTree.NewLeafNode | golang/extra_boost/ebl/tree.go:82-92 | leaf weights are the data scaled by the learning rate; the record ids are left empty, as the source leaves them nil |
| EblTree.SelectColumnSpec | golang/extra_boost/ebl/tree.go:230-252 | no column exactly when none is valid; otherwise the first valid column of least loss |
| EblTree.TheBestSplit | golang/extra_boost/ebl/tree.go:205-253 | a chosen split is valid, is on an existing column, and is that column's scan result |
| EblTree.TheBestSplitChoice | golang/extra_boost/ebl/tree.go:205-253 | succeeds exactly when every column's scan does; none exactly when no column is valid; otherwise the best column |
| EblTree.BestSplitNoneIffConstant | golang/extra_boost/ebl/tree.go:205-253 | no split is found exactly when every feature column is constant |
| EblTree.MakeLeafNode | golang/extra_boost/ebl/tree.go:159-201 | appends one leaf node and one leaf, and the leaf's record ids and row count cover the matrix |
| EblTree.LeafOf | golang/extra_boost/ebl/tree.go:181-198 | a given leaf keeps its weights; otherwise the weights are the root delta scaled by the learning rate, and nil record ids are filled from the matrix |
| EblTree.BuildTree | golang/extra_boost/ebl/tree.go:124-157 | the result extends the arena with a subtree whose leaves cover the matrix's rows and record ids, rooted at the returned index |
| EblTree.GrowSplit | golang/extra_boost/ebl/tree.go:135-151 | the split node tests the split's feature against its threshold and records its object count and current loss, not marked no-split; its left child follows it and its right child follows the left subtree; the children's leaves cover the two halves and carry the split's scaled up and down deltas |
| EblTree.BuildTreeStep | golang/extra_boost/ebl/tree.go:132-156 | the node is a leaf exactly when no split was tried or none was found, and it is marked no-split in the second case; when a split was tried and the search returned one, the node is GrowSplit on exactly that split |
| EblTree.RootLeaf | golang/extra_boost/ebl/tree.go:132-191 | a root becomes a leaf exactly when no split exists; its weights are then the no-split delta scaled by the learning rate |
| EblTree.ChildLeaf | golang/extra_boost/ebl/tree.go:132-183 | a child becomes a leaf exactly when not tried or no split exists, and keeps the weights its parent gave it |
| EblTree.NewTree | golang/extra_boost/ebl/tree.go:113-121 | a valid arena whose root counts all rows and whose leaves hold every row and record id once |
| EblTree.RootSplit | golang/extra_boost/ebl/tree.go:132-151 | a root that is built is the node of the best split over all columns when the search returned one, with the left half's leaves carrying its scaled up delta and the right half's its scaled down delta |
| EblTree.NewTreeRoot | golang/extra_boost/ebl/tree.go:113-151 | the root of a tree NewTree builds is the node of the best split over all columns when the search returned one, with the halves' leaves carrying the scaled up and down deltas |
| EblTree.ConstantFeaturesSingleNode | golang/extra_boost/ebl/tree.go:113-157 | the tree is a single no-split leaf exactly when every feature column is constant |
| EblPredict.Descend | golang/extra_boost/ebl/ebooster.go:19-26 | a successful descent ends at a leaf inside the arena |
| EblPredict.DescendTotal | golang/extra_boost/ebl/ebooster.go:19-26 | in a well-formed subtree arena, descent always succeeds and ends inside the subtree |
| EblPredict.RowOperator | golang/extra_boost/ebl/ebooster.go:18-28 | succeeds exactly when the descent reaches a leaf with weights of the tree's depth, and returns those weights |
| EblPredict.PredictOperator | golang/extra_boost/ebl/ebooster.go:14-31 | succeeds exactly when there are rows, the depth is positive and every row has an operator; row p is row p's leaf weights |
| EblPredict.RowOperatorTotal | golang/extra_boost/ebl/ebooster.go:14-31 | on a valid tree whose leaves all carry D weights, every row at least as wide as the tested features has an operator |
| EblPredict.TreePredictValue | golang/extra_boost/ebl/ebooster.go:34-46 | each row's value is its leaf weights dotted with its extra features |
| EblPredict.PredictIgnoresCurve | golang/extra_boost/ebl/ebooster.go:34-46 | the prediction does not depend on the learning-curve row |
| EblBooster.AddUp | golang/extra_boost/ebl/ebooster.go:109-125 | sums the first max(1, n) tree predictions, and fails when there are fewer trees |
| EblBooster.PredictValue | golang/extra_boost/ebl/ebooster.go:109-125 | with enough trees the result is the sum of the used trees' predictions; too few trees fail, as the source indexes out of range |
| EblBooster.AccumulateSplit | golang/extra_boost/ebl/ebooster.go:119-122 | the sum of m+n predictions is the sum of the first m plus the sum of the next n |
| EblBooster.Message | golang/extra_boost/ebl/ematrix.go:26-50 | succeeds exactly when the tree predicts and any accumulated test bias has the prediction's length; the reported value is logloss or RMSE (per the loss kind) of the test bias plus this tree's prediction |
| EblBooster.InitialBias | golang/extra_boost/ebl/ebooster.go:72-75 | a given bias is used; otherwise zeros of the training height |
| EblBooster.TrainWith | golang/extra_boost/ebl/ebooster.go:69-106 | the booster has max(0, stages) trees and the monitor titles |
| EblBooster.StagesState | golang/extra_boost/ebl/ebooster.go:93-104 | after k stages, the bias is the initial bias plus the sum of the k trees' predictions, and every monitor's test bias is its running sum |
| EblBooster.TrainedBooster | golang/extra_boost/ebl/ebooster.go:69-106 | every tree s was grown from the bias of stages 0..s-1, and its curve row holds the monitors' values at that stage |
| EblBooster.NewEBoosterStage | golang/extra_boost/ebl/ebooster.go:93-104 | tree s is the tree built on the initial bias plus the sum of trees 0..s-1; curve entry i is the metric of the sum of trees 0..s on monitor i |
| RocAuc.AverageRanks | python/extra_boost_py/metrics.py:6-17 | the ranks are the 1-based mid-ranks, ties sharing the average of their positions |
| RocAuc.RankSum | python/extra_boost_py/metrics.py:6-17 | mid-ranks add up to n(n+1)/2 |
| RocAuc.RankOrder | python/extra_boost_py/metrics.py:6-17 | equal values share a rank, a smaller value has a strictly smaller rank, and ranks lie in 1..n |
| RocAuc.PairScoreSymmetric | python/extra_boost_py/metrics.py:33 | the pair wins of xs over ys and of ys over xs (ties counting half) add up to the number of pairs |
| RocAuc.MannWhitney | python/extra_boost_py/metrics.py:26-33 | the fraction of positive-negative pairs ordered correctly, ties half, lies in [0, 1] |
| RocAuc.AucIsMannWhitney | python/extra_boost_py/metrics.py:26-33 | for 0/1 labels, the rank-sum formula equals the Mann-Whitney pair fraction |
| RocAuc.RocAucScore | python/extra_boost_py/metrics.py:20-34 | unequal lengths fail; otherwise the rank-sum formula, none when a class is empty, and for 0/1 labels the pair fraction in [0, 1] |

## Left out

- Numeric.FDiv: a Go `float64` is modelled as an exact real, with no rounding, overflow, Inf or NaN. A division by zero yields 0 where Go yields Inf or NaN. This covers the split midpoints, the Newton steps and the Poisson ratios.
- PoissonSplit.FeatureOrder: `sort.Slice` is not stable, so Go leaves the order of equal minimal losses unspecified. The model takes ascending column index, one of the orders Go may produce.
- EblPredict.Descend: the source walks the arena until it reaches a leaf, and loops forever on a cyclic arena. The model gives the walk fuel (the arena size), so a cycle becomes `InvalidModel`. DescendTotal proves the fuel suffices on arenas the builder produces.
- RocAuc.RocAucScore: NaN scores cannot be represented; the ordering assumes real numbers. The `ndim` check is absent because sequences are one-dimensional. `nan` is `None`.
- RocAuc.AverageRanks: `np.empty` is modelled as a zero-filled sequence that the loop overwrites completely.
- PoissonLinear.SolveLinearSystem: the gonum linear solver is a parameter. Its answer is read back as d entries (`Fit`): a shorter answer is padded with zeros and a longer one is truncated. Only the lemmas assume that it solves the system.
- EblScan.ScanForSplitCluster: the loss derivatives `lossDer1`/`lossDer2` (MSE and logloss) are abstract functions of the loss kind. The matrix inverse is the solver parameter.
- EblScan.ColumnScan: `columnArgsort` is not part of this model. It is taken to be the same stable argsort as `makeGax`.
- EblScan.IterateSplits: on a one-element range the source's current index is never assigned and stays 0. The model reproduces this, and both ranges the scan uses then process position 0.
- EblPredict.RowOperatorTotal: a tree the builder produced is not proved to carry D weights in every leaf. A root leaf's weights come from the no-split solve, which is a parameter whose length is left open, so the lemma takes the leaf widths as a precondition.
- EblTree.BuildTree: `solveNoSplitDelta` is a parameter (the no-split leaf weights). Which training row reaches which leaf is not stated as a lemma, because it is too expensive for the prover in this arena encoding. The leaves' row and record-id coverage is stated instead.
- EblTree.MakeLeafNode: the `deltaCurrent` branch for a root leaf cannot be reached, because TheBestSplit returns only valid splits. RootLeaf shows that a root leaf always takes the no-split weights.
- EblTree.NewLeafNode: the source ignores its record-id argument. Nil record ids are an empty sequence.
- EblBooster.TrainWith: `NewEBooster` adds each stage's predictions into the caller's bias matrix in place. The model returns new values and leaves the caller's bias alone.
- EblBooster.Message: `Logloss` and `Rmse` are parameters (`Metrics`).
- EblRange.ElementsAt: a range with step 0 never ends in the source. The model requires a non-zero step, and every range the core builds has step 1 or -1.
- PoissonTree.BuildTreeHelper: `log` (first-tree Poisson loss) and the solver are parameters (`Numerics`).
- Concurrency: `threadsNum` and the task pool in TheBestSplit only parallelise the per-column scans. The model scans columns in order.
- Input and output are not modelled: `Save`, `Load`, `Dump`, `ReadNpy`, `ReadEMatrix`, `SetDescription`, graphviz drawing and `log.Printf` messages.
- The Poisson extra-feature cumulative sums index `data[0][0]`, so zero columns panic in Go. The model reports `ShapeMismatch` there.
- The gonum `NewDense` panics on a zero dimension. This is why `EblMatrix.Split` fails when a side is empty and `EblScan.ScanForSplitCluster` fails at extra depth 0. `EblMatrix.Split` does not model the same panic for an extra width of 0 (ematrix.go:108-109): on that input it succeeds. The tree builder never calls it there, because the scan has already failed at extra depth 0.

=== FILE: boundaries.dfy ===
/** Boundaries between runs of equal values in a sequence: position t is a
    boundary when the value changes between t and t + 1. A split search
    over a sorted column can only cut at such a boundary. */
module Boundaries {
  predicate IsBreak(v: seq<real>, t: int) {
    0 <= t && t + 1 < |v| && v[t] != v[t + 1]
  }

  predicate Increasing(xs: seq<int>) {
    forall i, j :: 0 <= i < j < |xs| ==> xs[i] < xs[j]
  }

  /** The boundaries below c, in increasing order. */
  function Breaks(v: seq<real>, c: nat): (bs: seq<int>)
    requires c <= |v|
    ensures forall i :: 0 <= i < |bs| ==> 0 <= bs[i] < c && IsBreak(v, bs[i])
  {
    if c == 0 then []
    else Breaks(v, c - 1) + (if IsBreak(v, c - 1) then [c - 1] else [])
  }

  /** The boundaries are listed in increasing order. */
  lemma {:induction false} BreaksIncreasing(v: seq<real>, c: nat)
    requires c <= |v|
    ensures Increasing(Breaks(v, c))
  {
    if c > 0 {
      BreaksIncreasing(v, c - 1);
    }
  }

  lemma FirstMember(a: seq<int>)
    ensures |a| > 0 ==> a[0] in a
  {
  }

  /** An increasing sequence is determined by its set of members. */
  lemma {:induction false} IncreasingUnique(a: seq<int>, b: seq<int>)
    requires Increasing(a) && Increasing(b)
    requires forall x :: x in a <==> x in b
    ensures a == b
    decreases |a| + |b|
  {
    if |a| == 0 || |b| == 0 {
      // a member of the non-empty one would be a member of the empty one
      FirstMember(a);
      FirstMember(b);
    } else {
      var x, y := a[|a| - 1], b[|b| - 1];
      assert x in b && y in a;
      var a', b' := a[..|a| - 1], b[..|b| - 1];
      forall z ensures z in a' <==> z in b' {
        if z in a' {
          assert z in b && z < x;
        }
        if z in b' {
          assert z in a && z < y;
        }
      }
      IncreasingUnique(a', b');
      assert a == a' + [x] && b == b' + [y];
    }
  }

  /** The sequence read backwards. */
  function Mirror(v: seq<real>): (r: seq<real>)
    ensures |r| == |v|
    ensures forall t :: 0 <= t < |v| ==> r[t] == v[|v| - 1 - t]
  {
    seq(|v|, t requires 0 <= t < |v| => v[|v| - 1 - t])
  }

  /** Boundary t of the mirrored sequence is boundary |v| - 2 - t of v. */
  lemma MirrorBreak(v: seq<real>, t: int)
    ensures IsBreak(Mirror(v), t) <==> IsBreak(v, |v| - 2 - t)
  {
  }

  /** The boundaries of v mirrored, in increasing order. */
  function MirroredBreaks(v: seq<real>): (ms: seq<int>)
    ensures |ms| == |Breaks(v, |v|)|
    ensures var bs := Breaks(v, |v|); forall i :: 0 <= i < |bs| ==> ms[|bs| - 1 - i] == |v| - 2 - bs[i]
  {
    var bs := Breaks(v, |v|);
    seq(|bs|, j requires 0 <= j < |bs| => |v| - 2 - bs[|bs| - 1 - j])
  }

  lemma MirroredIncreasing(v: seq<real>)
    ensures Increasing(MirroredBreaks(v))
  {
    var bs, ms := Breaks(v, |v|), MirroredBreaks(v);
    BreaksIncreasing(v, |v|);
    forall i, j | 0 <= i < j < |ms| ensures ms[i] < ms[j] {
      assert ms[|bs| - 1 - (|bs| - 1 - i)] == |v| - 2 - bs[|bs| - 1 - i];
      assert ms[|bs| - 1 - (|bs| - 1 - j)] == |v| - 2 - bs[|bs| - 1 - j];
    }
  }

  lemma MirroredInBreaks(v: seq<real>, j: int)
    requires 0 <= j < |MirroredBreaks(v)|
    ensures MirroredBreaks(v)[j] in Breaks(Mirror(v), |v|)
  {
    var bs, ms := Breaks(v, |v|), MirroredBreaks(v);
    var i := |ms| - 1 - j;
    assert ms[|bs| - 1 - i] == |v| - 2 - bs[i];
    assert IsBreak(v, bs[i]);
    MirrorBreak(v, ms[j]);
    var k := BreakIndex(Mirror(v), |v|, ms[j]);
  }

  /** Where a boundary sits in the list of boundaries. */
  lemma {:induction false} BreakIndex(v: seq<real>, c: nat, t: int) returns (i: nat)
    requires 0 <= t < c <= |v| && IsBreak(v, t)
    ensures i < |Breaks(v, c)| && Breaks(v, c)[i] == t
  {
    if t < c - 1 {
      i := BreakIndex(v, c - 1, t);
    } else {
      i := |Breaks(v, c - 1)|;
    }
  }

  lemma BreaksInMirrored(v: seq<real>, k: nat)
    requires k < |Breaks(Mirror(v), |v|)|
    ensures Breaks(Mirror(v), |v|)[k] in MirroredBreaks(v)
  {
    var bs, ms, rs := Breaks(v, |v|), MirroredBreaks(v), Breaks(Mirror(v), |v|);
    var x := rs[k];
    assert IsBreak(Mirror(v), x);
    MirrorBreak(v, x);
    var i := BreakIndex(v, |v|, |v| - 2 - x);
    assert ms[|bs| - 1 - i] == x;
  }

  /** Read backwards, the boundaries are the same ones mirrored: the i-th
      boundary b from the front is boundary h - 2 - b from the back, and it is
      the (m - 1 - i)-th there. */
  lemma BreaksMirror(v: seq<real>)
    ensures var h, bs, rs := |v|, Breaks(v, |v|), Breaks(Mirror(v), |v|);
      |rs| == |bs| && forall i :: 0 <= i < |bs| ==> rs[|bs| - 1 - i] == h - 2 - bs[i]
  {
    MirroredBreaksAre(v);
  }

  /** BreaksMirror at the i-th boundary of a sequence of length h. */
  lemma MirrorIndex(v: seq<real>, h: nat, i: nat)
    requires h == |v| && i < |Breaks(v, h)|
    ensures var bs, rs := Breaks(v, h), Breaks(Mirror(v), h);
      |rs| == |bs| && rs[|bs| - 1 - i] == h - 2 - bs[i]
  {
    BreaksMirror(v);
  }

  lemma MirroredBreaksAre(v: seq<real>)
    ensures MirroredBreaks(v) == Breaks(Mirror(v), |v|)
  {
    var ms, rs := MirroredBreaks(v), Breaks(Mirror(v), |v|);
    forall j | 0 <= j < |ms| ensures ms[j] in rs {
      MirroredInBreaks(v, j);
    }
    forall k | 0 <= k < |rs| ensures rs[k] in ms {
      BreaksInMirrored(v, k);
    }
    MirroredIncreasing(v);
    BreaksIncreasing(Mirror(v), |v|);
    IncreasingUnique(ms, rs);
  }

  predicate Nondecreasing(v: seq<real>) {
    forall i, j :: 0 <= i <= j < |v| ==> v[i] <= v[j]
  }

  /** A sorted sequence without boundaries is constant. */
  lemma {:induction false} NoBreakConstant(v: seq<real>, k: nat)
    requires k < |v| && forall t :: 0 <= t < |v| ==> !IsBreak(v, t)
    ensures v[k] == v[0]
  {
    if k > 0 {
      NoBreakConstant(v, k - 1);
      assert !IsBreak(v, k - 1);
    }
  }

  /** A sorted sequence has a boundary exactly when it holds two different
      values; at a boundary the value strictly increases. */
  lemma BreakIffDistinct(v: seq<real>)
    requires Nondecreasing(v)
    ensures |Breaks(v, |v|)| > 0 <==> exists i, j :: 0 <= i < |v| && 0 <= j < |v| && v[i] != v[j]
    ensures forall t :: IsBreak(v, t) ==> v[t] < v[t + 1]
  {
    if |Breaks(v, |v|)| == 0 {
      forall t | 0 <= t < |v| ensures !IsBreak(v, t) {
        if IsBreak(v, t) {
          var i := BreakIndex(v, |v|, t);
        }
      }
      forall i, j | 0 <= i < |v| && 0 <= j < |v| ensures v[i] == v[j] {
        NoBreakConstant(v, i);
        NoBreakConstant(v, j);
      }
    } else {
      var b := Breaks(v, |v|)[0];
      assert v[b] != v[b + 1];
    }
  }

  /** The boundaries below c only look at the first c + 1 entries. */
  lemma {:induction false} BreaksPrefix(v: seq<real>, k: nat, c: nat)
    requires c < k <= |v|
    ensures Breaks(v[..k], c) == Breaks(v, c)
  {
    if c > 0 {
      BreaksPrefix(v, k, c - 1);
      assert IsBreak(v[..k], c - 1) <==> IsBreak(v, c - 1);
    }
  }

  /** The set of values a sequence holds. */
  function Values(v: seq<real>): set<real> {
    set i | 0 <= i < |v| :: v[i]
  }

  /** Dropping the last entry drops the last boundary, if it is one. */
  lemma BreaksDropLast(v: seq<real>)
    requires |v| >= 2
    ensures |Breaks(v, |v|)| ==
      |Breaks(v[..|v| - 1], |v| - 1)| + (if v[|v| - 2] != v[|v| - 1] then 1 else 0)
  {
    var n := |v|;
    BreaksPrefix(v, n - 1, n - 2);
    assert Breaks(v, n) == Breaks(v, n - 1);
    assert Breaks(v[..n - 1], n - 1) == Breaks(v[..n - 1], n - 2);
  }

  /** The last entry of a sorted sequence is new exactly when it differs
      from the one before. */
  lemma ValuesDropLast(v: seq<real>)
    requires Nondecreasing(v) && |v| >= 2
    ensures |Values(v)| == |Values(v[..|v| - 1])| + (if v[|v| - 2] != v[|v| - 1] then 1 else 0)
  {
    var n := |v|;
    var v' := v[..n - 1];
    assert Values(v) == Values(v') + {v[n - 1]};
    if v[n - 2] != v[n - 1] {
      // every earlier entry is at most v[n - 2], which is below v[n - 1]
      forall i | 0 <= i < n - 1 ensures v'[i] < v[n - 1] {
        assert v[i] <= v[n - 2];
      }
    } else {
      assert v[n - 1] == v'[n - 2];
    }
  }

  /** A sorted non-empty sequence holds one more distinct value than it has
      boundaries. */
  lemma {:induction false} DistinctCount(v: seq<real>)
    requires Nondecreasing(v) && |v| > 0
    ensures |Values(v)| == |Breaks(v, |v|)| + 1
  {
    var n := |v|;
    if n == 1 {
      assert Values(v) == {v[0]};
    } else {
      DistinctCount(v[..n - 1]);
      BreaksDropLast(v);
      ValuesDropLast(v);
    }
  }
}

=== FILE: ebl_booster.dfy ===
/** The extra-boost booster: trees trained one after the other on the
    running sum of the earlier trees' predictions, a learning curve per
    monitored data set, and the additive prediction of the first n trees. */
module EblBooster {
  import opened Wrappers
  import opened Numeric
  import opened EblMatrix
  import opened EblScan
  import opened EblTree
  import opened EblPredict

  datatype EBooster = EBooster(trees: seq<OneTree>, learningCurveTitles: seq<string>)

  // ------------------------------------------------------ summing trees

  /** The first n outcomes succeed with vectors of length h. */
  predicate Uniform(ps: seq<Result<Vec>>, n: nat, h: nat)
    requires n <= |ps|
  {
    forall k :: 0 <= k < n ==> ps[k].Success? && |ps[k].value| == h
  }

  /** start plus the first n outcomes, added one after the other the way
      mat.Dense.Add does it: the first failing outcome ends the sum, and
      adding vectors of different lengths panics. */
  function Accumulate(start: Vec, ps: seq<Result<Vec>>, n: nat): (r: Result<Vec>)
    requires n <= |ps|
    ensures r.Success? <==> Uniform(ps, n, |start|)
    ensures r.Success? ==> |r.value| == |start|
    decreases n
  {
    if n == 0 then Success(start)
    else
      var acc :- Accumulate(start, ps, n - 1);
      var p :- ps[n - 1];
      if |acc| != |p| then Failure(ShapeMismatch("bias")) else Success(VecAdd(acc, p))
  }

  /** Entry i of each of the first n outcomes. */
  function Entries(ps: seq<Result<Vec>>, n: nat, h: nat, i: nat): (r: seq<real>)
    requires n <= |ps| && Uniform(ps, n, h) && i < h
    ensures |r| == n
    ensures forall k :: 0 <= k < n ==> r[k] == ps[k].value[i]
  {
    seq(n, k requires 0 <= k < n => ps[k].value[i])
  }

  /** Entry i of the sum is entry i of start plus the total of entry i of
      the outcomes. */
  lemma {:induction false} AccumulateEntry(start: Vec, ps: seq<Result<Vec>>, n: nat, i: nat)
    requires n <= |ps| && Uniform(ps, n, |start|) && i < |start|
    ensures Accumulate(start, ps, n).value[i] == start[i] + Total(Entries(ps, n, |start|, i))
    decreases n
  {
    if n > 0 {
      AccumulateEntry(start, ps, n - 1, i);
      SumCongruent(Entries(ps, n - 1, |start|, i), Entries(ps, n, |start|, i), 0, n - 1);
    }
  }

  /** Starting from a vector instead of zeros adds that vector. */
  lemma {:induction false} AccumulateShift(start: Vec, ps: seq<Result<Vec>>, n: nat)
    requires n <= |ps| && Uniform(ps, n, |start|)
    ensures Accumulate(start, ps, n).Success? && Accumulate(Zeros(|start|), ps, n).Success?
    ensures Accumulate(start, ps, n).value == VecAdd(start, Accumulate(Zeros(|start|), ps, n).value)
    decreases n
  {
    if n == 0 {
      assert VecAdd(start, Zeros(|start|)) == start;
    } else {
      AccumulateShift(start, ps, n - 1);
      VecAddAssoc(start, Accumulate(Zeros(|start|), ps, n - 1).value, ps[n - 1].value);
    }
  }

  /** The sum of the first n outcomes only looks at those outcomes. */
  lemma {:induction false} AccumulateFrame(start: Vec, a: seq<Result<Vec>>, b: seq<Result<Vec>>, n: nat)
    requires n <= |a| && n <= |b| && a[..n] == b[..n]
    ensures Accumulate(start, a, n) == Accumulate(start, b, n)
    decreases n
  {
    if n > 0 {
      assert a[n - 1] == a[..n][n - 1] == b[..n][n - 1] == b[n - 1];
      assert a[..n - 1] == a[..n][..n - 1];
      assert b[..n - 1] == b[..n][..n - 1];
      AccumulateFrame(start, a, b, n - 1);
    }
  }

  /** Once a sum fails, adding more outcomes keeps that failure. */
  lemma {:induction false} AccumulateStuck(start: Vec, ps: seq<Result<Vec>>, k: nat, n: nat)
    requires k <= n <= |ps| && Accumulate(start, ps, k).Failure?
    ensures Accumulate(start, ps, n) == Accumulate(start, ps, k)
    decreases n
  {
    if n > k {
      AccumulateStuck(start, ps, k, n - 1);
    }
  }

  /** When the first k outcomes add up and outcome k fails, every sum over
      more than k outcomes fails with outcome k's error. */
  lemma AccumulateFirstError(start: Vec, ps: seq<Result<Vec>>, k: nat, n: nat)
    requires k < n <= |ps| && Uniform(ps, k, |start|) && ps[k].Failure?
    ensures Accumulate(start, ps, n) == Failure(ps[k].error)
  {
    AccumulateStuck(start, ps, k + 1, n);
  }

  /** One outcome on top of zeros is that outcome. */
  lemma AccumulateOne(ps: seq<Result<Vec>>, h: nat)
    requires 0 < |ps| && (ps[0].Success? ==> |ps[0].value| == h)
    ensures Accumulate(Zeros(h), ps, 1) == ps[0]
  {
    if ps[0].Success? {
      assert VecAdd(Zeros(h), ps[0].value) == ps[0].value;
    }
  }

  /** Additivity: the sum of the first m + n outcomes is the sum of the
      first m plus the sum of the n after them. */
  lemma {:induction false} AccumulateSplit(ps: seq<Result<Vec>>, h: nat, m: nat, n: nat)
    requires m + n <= |ps| && Uniform(ps, m + n, h)
    ensures Accumulate(Zeros(h), ps, m).Success? && Accumulate(Zeros(h), ps[m..], n).Success?
    ensures Accumulate(Zeros(h), ps, m + n).value ==
      VecAdd(Accumulate(Zeros(h), ps, m).value, Accumulate(Zeros(h), ps[m..], n).value)
    decreases n
  {
    var rest := ps[m..];
    assert Uniform(rest, n, h) by {
      forall k | 0 <= k < n ensures rest[k].Success? && |rest[k].value| == h {
        assert rest[k] == ps[m + k];
      }
    }
    var front := Accumulate(Zeros(h), ps, m).value;
    if n == 0 {
      assert VecAdd(front, Zeros(h)) == front;
    } else {
      AccumulateSplit(ps, h, m, n - 1);
      assert rest[n - 1] == ps[m + n - 1];
      VecAddAssoc(front, Accumulate(Zeros(h), rest, n - 1).value, ps[m + n - 1].value);
    }
  }

  /** A tree's prediction on a data set, as a value the booster can be
      handed; the engine's own is TreePrediction. */
  type Predictor = (OneTree, Mat, Mat) -> Result<Vec>

  /** OneTree.PredictValue on any pair of matrices: a gonum matrix is always
      rectangular, so ragged extra features are reported as a shape error. */
  function TreePrediction(t: OneTree, inter: Mat, extra: Mat): (r: Result<Vec>)
    ensures r.Success? ==> |r.value| == |inter|
  {
    if Dense(extra) then TreePredictValue(t, inter, extra) else Failure(ShapeMismatch("extra features"))
  }

  /** A predictor whose answers have one row per input row and do not
      depend on the learning-curve row a tree carries. */
  ghost predicate GoodPredictor(pv: Predictor) {
    && (forall t: OneTree, inter: Mat, extra: Mat :: pv(t, inter, extra).Success? ==> |pv(t, inter, extra).value| == |inter|)
    && (forall t: OneTree, row: seq<real>, inter: Mat, extra: Mat ::
          pv(t.(learningCurveRow := row), inter, extra) == pv(t, inter, extra))
  }

  lemma TreePredictionGood()
    ensures GoodPredictor(TreePrediction)
  {
    forall t: OneTree, row: seq<real>, inter: Mat, extra: Mat
      ensures TreePrediction(t.(learningCurveRow := row), inter, extra) == TreePrediction(t, inter, extra) {
      if Dense(extra) {
        PredictIgnoresCurve(t, row, inter, extra);
      }
    }
  }

  /** The predictions of the trees on (inter, extra), one outcome per
      tree. */
  function Preds(pv: Predictor, trees: seq<OneTree>, inter: Mat, extra: Mat): (ps: seq<Result<Vec>>)
    ensures |ps| == |trees|
    ensures forall k :: 0 <= k < |trees| ==> ps[k] == pv(trees[k], inter, extra)
  {
    seq(|trees|, k requires 0 <= k < |trees| => pv(trees[k], inter, extra))
  }

  /** The predictions of the first n trees added up from zero. */
  function SumTrees(trees: seq<OneTree>, n: nat, inter: Mat, extra: Mat): (r: Result<Vec>)
    requires n <= |trees|
    ensures r.Success? <==> forall k :: 0 <= k < n ==> TreePrediction(trees[k], inter, extra).Success?
    ensures r.Success? ==> |r.value| == |inter|
  {
    var ps := Preds(TreePrediction, trees, inter, extra);
    assert Uniform(ps, n, |inter|) <==> forall k :: 0 <= k < n ==> TreePrediction(trees[k], inter, extra).Success?;
    Accumulate(Zeros(|inter|), ps, n)
  }

  // --------------------------------------------------------- prediction

  /** How many trees EBooster.PredictValue adds up: the given number or all
      of them, and always at least the first tree. */
  function TreesUsed(b: EBooster, treesNumber: Option<int>): (n: nat)
    ensures n >= 1
  {
    var n := if treesNumber.Some? then treesNumber.value else |b.trees|;
    if n < 1 then 1 else n
  }

  /** The loop of EBooster.PredictValue over per-tree outcomes: outcome 0,
      then outcomes 1..n-1 added one by one; an outcome index past the end
      is an index panic, the first failing outcome ends the loop. */
  method AddUp(ps: seq<Result<Vec>>, h: nat, n: int) returns (r: Result<Vec>)
    requires 0 < |ps| && (ps[0].Success? ==> |ps[0].value| == h)
    ensures var used := if n < 1 then 1 else n;
      used <= |ps| ==> r == Accumulate(Zeros(h), ps, used)
    ensures var used := if n < 1 then 1 else n;
      used > |ps| ==> r.Failure?
  {
    var used := if n < 1 then 1 else n;
    AccumulateOne(ps, h);
    if ps[0].Failure? {
      if used <= |ps| {
        AccumulateFirstError(Zeros(h), ps, 0, used);
      }
      return ps[0];
    }
    var prediction := ps[0].value;
    var i := 1;
    while i < n
      invariant 1 <= i <= used && i <= |ps|
      invariant Accumulate(Zeros(h), ps, i) == Success(prediction)
    {
      if i >= |ps| {
        return Failure(InvalidModel("tree index"));
      }
      if ps[i].Failure? {
        if used <= |ps| {
          AccumulateFirstError(Zeros(h), ps, i, used);
        }
        return ps[i];
      }
      if |ps[i].value| != |prediction| {
        if used <= |ps| {
          AccumulateStuck(Zeros(h), ps, i + 1, used);
        }
        return Failure(ShapeMismatch("bias"));
      }
      prediction := VecAdd(prediction, ps[i].value);
      i := i + 1;
    }
    return Success(prediction);
  }

  /** EBooster.PredictValue: the prediction of tree 0, then the predictions
      of trees 1..n-1 added row by row, where n is the given tree count or
      all trees. A booster without trees, or a count beyond the last tree,
      is an index panic. */
  method PredictValue(b: EBooster, inter: Mat, extra: Mat, treesNumber: Option<int>) returns (r: Result<Vec>)
    ensures TreesUsed(b, treesNumber) <= |b.trees| ==> r == SumTrees(b.trees, TreesUsed(b, treesNumber), inter, extra)
    ensures TreesUsed(b, treesNumber) > |b.trees| ==> r.Failure?
  {
    if |b.trees| == 0 {
      return Failure(InvalidModel("tree index"));
    }
    var n := if treesNumber.Some? then treesNumber.value else |b.trees|;
    r := AddUp(Preds(TreePrediction, b.trees, inter, extra), |inter|, n);
  }

  // ------------------------------------------------------ learning curve

  /** The two learning-curve metrics, Logloss (on raw scores, through the
      sigmoid) and Rmse; both are outside this model. */
  datatype Metrics = Metrics(logloss: (Mat, Vec) -> real, rmse: (Mat, Vec) -> real)

  function CurveValue(m: Metrics, useLogloss: bool, target: Mat, scores: Vec): real {
    if useLogloss then m.logloss(target, scores) else m.rmse(target, scores)
  }

  /** EMatrix.Message for one monitored data set: the tree's prediction
      becomes the data set's running score on the first call and is added to
      it afterwards; the curve value is the metric of the new score. Adding
      scores of different lengths panics. Returns the new score and the
      curve value. */
  function Message(pv: Predictor, em: EMatrix, tree: OneTree, testBias: Option<Vec>, useLogloss: bool, m: Metrics)
    : (r: Result<(Vec, real)>)
    ensures r.Success? ==> r.value.1 == CurveValue(m, useLogloss, em.target, r.value.0)
    ensures r.Success? <==> (pv(tree, em.inter, em.extra).Success? &&
      (testBias.Some? ==> |testBias.value| == |pv(tree, em.inter, em.extra).value|))
  {
    var pred :- pv(tree, em.inter, em.extra);
    var score :- match testBias
      case None => Success(pred)
      case Some(acc) => if |acc| != |pred| then Failure(ShapeMismatch("test bias")) else Success(VecAdd(acc, pred));
    Success((score, CurveValue(m, useLogloss, em.target, score)))
  }

  // ----------------------------------------------------------- training

  /** What NewEBooster reads: the training matrix, the number of stages,
      the tree settings, the monitored data sets and an optional starting
      bias. The worker count only spreads the split search over threads. */
  datatype EBoosterParams = EBoosterParams(
    matrix: EMatrix, nStages: int, tree: TreeParams, printMessages: seq<EMatrix>, bias: Option<Vec>)

  /** The learning curve is reported in logloss space exactly when the
      trees are fitted with the log loss. */
  function UseLogloss(ps: EBoosterParams): bool {
    ps.tree.loss.kind == LogLoss
  }

  function Title(em: EMatrix): string {
    if em.description.Some? then em.description.value else ""
  }

  function Titles(mons: seq<EMatrix>): (ts: seq<string>)
    ensures |ts| == |mons|
  {
    seq(|mons|, i requires 0 <= i < |mons| => Title(mons[i]))
  }

  /** The bias of the first tree: the given one, or zeros of the training
      height (a zero-height matrix cannot be allocated). */
  function InitialBias(ps: EBoosterParams): (r: Result<Vec>)
    ensures ps.bias.Some? ==> r == Success(ps.bias.value)
    ensures ps.bias.None? ==> (r.Success? <==> |ps.matrix.inter| > 0)
    ensures ps.bias.None? && r.Success? ==> r.value == Zeros(|ps.matrix.inter|)
  {
    if ps.bias.Some? then Success(ps.bias.value)
    else if |ps.matrix.inter| == 0 then Failure(EmptyInput("bias"))
    else Success(Zeros(|ps.matrix.inter|))
  }

  /** The tree builder one stage calls on the running bias: NewTree with the
      training matrix and tree settings fixed. */
  type Grower = Vec -> Result<OneTree>

  /** The state between stages: the trees so far, the running bias on the
      training rows and the running score of every monitored data set (nil
      before the first stage). */
  datatype Progress = Progress(trees: seq<OneTree>, bias: Vec, testBiases: seq<Option<Vec>>)

  /** The learning-curve values of one tree, one per monitored data set, and
      the data sets' new scores; the first failing data set ends the
      stage. */
  function Messages(ps: EBoosterParams, pv: Predictor, m: Metrics, tree: OneTree, testBiases: seq<Option<Vec>>)
    : (r: Result<seq<(Vec, real)>>)
    requires |testBiases| == |ps.printMessages|
    ensures r.Success? ==> |r.value| == |ps.printMessages|
    ensures r.Success? ==> forall i :: 0 <= i < |ps.printMessages| ==>
      Message(pv, ps.printMessages[i], tree, testBiases[i], UseLogloss(ps), m) == Success(r.value[i])
  {
    var mons := ps.printMessages;
    Collect(seq(|mons|, i requires 0 <= i < |mons| => Message(pv, mons[i], tree, testBiases[i], UseLogloss(ps), m)))
  }

  /** The tree as the booster keeps it: its learning-curve row extended by
      one value per monitored data set. */
  function WithCurve(tree: OneTree, msgs: seq<(Vec, real)>): (t: OneTree)
    ensures t.d == tree.d && t.treeNodes == tree.treeNodes && t.leafNodes == tree.leafNodes
    ensures |t.learningCurveRow| == |tree.learningCurveRow| + |msgs|
    ensures forall i :: 0 <= i < |msgs| ==> t.learningCurveRow[|tree.learningCurveRow| + i] == msgs[i].1
  {
    tree.(learningCurveRow := tree.learningCurveRow + seq(|msgs|, i requires 0 <= i < |msgs| => msgs[i].1))
  }

  /** One stage of NewEBooster: build a tree on the running bias, add its
      training predictions to the bias (lengths must agree), keep the tree
      and report it on every monitored data set. */
  function Stage(ps: EBoosterParams, grow: Grower, pv: Predictor, m: Metrics, st: Progress): (r: Result<Progress>)
    requires |st.testBiases| == |ps.printMessages|
    ensures r.Success? ==> |r.value.testBiases| == |ps.printMessages| && |r.value.trees| == |st.trees| + 1
    ensures r.Success? ==> r.value.trees[..|st.trees|] == st.trees
  {
    var tree :- grow(st.bias);
    var delta :- pv(tree, ps.matrix.inter, ps.matrix.extra);
    if |delta| != |st.bias| then Failure(ShapeMismatch("bias"))
    else
      var msgs :- Messages(ps, pv, m, tree, st.testBiases);
      Success(Progress(st.trees + [WithCurve(tree, msgs)], VecAdd(st.bias, delta),
                       seq(|msgs|, i requires 0 <= i < |msgs| => Some(msgs[i].0))))
  }

  /** The first k stages, from the initial bias and no monitor scores. */
  function Stages(ps: EBoosterParams, grow: Grower, pv: Predictor, m: Metrics, b0: Vec, k: nat): (r: Result<Progress>)
    ensures r.Success? ==> |r.value.testBiases| == |ps.printMessages| && |r.value.trees| == k
    decreases k
  {
    if k == 0 then Success(Progress([], b0, seq(|ps.printMessages|, i => None)))
    else
      var st :- Stages(ps, grow, pv, m, b0, k - 1);
      Stage(ps, grow, pv, m, st)
  }

  function StageCount(ps: EBoosterParams): nat {
    if ps.nStages < 0 then 0 else ps.nStages
  }

  /** NewEBooster with the tree builder and the tree prediction as
      parameters: one title per monitored data set, then NStages stages
      (none for a negative count). */
  function TrainWith(ps: EBoosterParams, grow: Grower, pv: Predictor, m: Metrics): (r: Result<EBooster>)
    ensures r.Success? ==> |r.value.trees| == StageCount(ps)
    ensures r.Success? ==> r.value.learningCurveTitles == Titles(ps.printMessages)
  {
    var b0 :- InitialBias(ps);
    var st :- Stages(ps, grow, pv, m, b0, StageCount(ps));
    Success(EBooster(st.trees, Titles(ps.printMessages)))
  }

  // ------------------------------------------------ what training keeps

  /** A kept tree without its last k learning-curve values. */
  function Bare(t: OneTree, k: nat): OneTree
    requires k <= |t.learningCurveRow|
  {
    t.(learningCurveRow := t.learningCurveRow[..|t.learningCurveRow| - k])
  }

  /** Value i of the last k learning-curve values of a kept tree. */
  function CurveAt(t: OneTree, k: nat, i: nat): real
    requires i < k <= |t.learningCurveRow|
  {
    t.learningCurveRow[|t.learningCurveRow| - k + i]
  }

  /** The first s trees of a run add up the same within any longer run. */
  lemma SumPrefix(pv: Predictor, start: Vec, a: seq<OneTree>, b: seq<OneTree>, s: nat, inter: Mat, extra: Mat)
    requires s <= |a| <= |b| && b[..|a|] == a
    ensures Accumulate(start, Preds(pv, a, inter, extra), s) == Accumulate(start, Preds(pv, b, inter, extra), s)
  {
    var pa, pb := Preds(pv, a, inter, extra), Preds(pv, b, inter, extra);
    forall k | 0 <= k < s ensures pa[k] == pb[k] {
      assert b[..|a|][k] == b[k];
    }
    assert pa[..s] == pb[..s];
    AccumulateFrame(start, pa, pb, s);
  }

  /** What one stage leaves behind: the kept tree is the grown tree with
      one curve value per monitored data set; its training predictions were
      added to the bias; every data set's score moved on by one Message. */
  lemma StageFacts(ps: EBoosterParams, grow: Grower, pv: Predictor, m: Metrics, st: Progress, st2: Progress)
    requires GoodPredictor(pv) && |st.testBiases| == |ps.printMessages|
    requires Stage(ps, grow, pv, m, st) == Success(st2)
    ensures var t, mons := st2.trees[|st.trees|], ps.printMessages;
      && |mons| <= |t.learningCurveRow|
      && grow(st.bias) == Success(Bare(t, |mons|))
      && pv(t, ps.matrix.inter, ps.matrix.extra).Success?
      && |st.bias| == |pv(t, ps.matrix.inter, ps.matrix.extra).value|
      && st2.bias == VecAdd(st.bias, pv(t, ps.matrix.inter, ps.matrix.extra).value)
    ensures var t, mons := st2.trees[|st.trees|], ps.printMessages;
      |mons| <= |t.learningCurveRow| &&
      forall i :: 0 <= i < |mons| ==> (st2.testBiases[i].Some? &&
        Message(pv, mons[i], t, st.testBiases[i], UseLogloss(ps), m) == Success((st2.testBiases[i].value, CurveAt(t, |mons|, i))))
  {
    var tree := grow(st.bias).value;
    var msgs := Messages(ps, pv, m, tree, st.testBiases).value;
    var t := WithCurve(tree, msgs);
    assert st2.trees[|st.trees|] == t;
    assert t == tree.(learningCurveRow := t.learningCurveRow);
    assert t.learningCurveRow[..|tree.learningCurveRow|] == tree.learningCurveRow;
  }

  /** The first j stages are the start of the first k. */
  lemma {:induction false} StagesPrefix(ps: EBoosterParams, grow: Grower, pv: Predictor, m: Metrics, b0: Vec, j: nat, k: nat)
    requires j <= k && Stages(ps, grow, pv, m, b0, k).Success?
    ensures Stages(ps, grow, pv, m, b0, j).Success?
    ensures Stages(ps, grow, pv, m, b0, j).value.trees == Stages(ps, grow, pv, m, b0, k).value.trees[..j]
    decreases k
  {
    var after := Stages(ps, grow, pv, m, b0, k).value.trees;
    if j < k {
      StagesPrefix(ps, grow, pv, m, b0, j, k - 1);
      assert after[..j] == after[..k - 1][..j];
    } else {
      assert after[..k] == after;
    }
  }

  /** A monitored data set's score after k stages: the first k trees'
      predictions on it added up, nil before the first stage. */
  ghost predicate ScoreAfter(pv: Predictor, em: EMatrix, trees: seq<OneTree>, k: nat, score: Option<Vec>)
    requires k <= |trees|
  {
    if k == 0 then score.None?
    else
      var sum := Accumulate(Zeros(|em.inter|), Preds(pv, trees, em.inter, em.extra), k);
      sum.Success? && score == Some(sum.value)
  }

  /** One Message moves a data set's score from k trees to k + 1. */
  lemma MessageScore(pv: Predictor, em: EMatrix, trees: seq<OneTree>, k: nat, score: Option<Vec>, useLogloss: bool,
                     m: Metrics, next: Vec, value: real)
    requires GoodPredictor(pv) && k < |trees| && ScoreAfter(pv, em, trees, k, score)
    requires Message(pv, em, trees[k], score, useLogloss, m) == Success((next, value))
    ensures ScoreAfter(pv, em, trees, k + 1, Some(next))
  {
    if k == 0 {
      AccumulateOne(Preds(pv, trees, em.inter, em.extra), |em.inter|);
    }
  }

  /** One stage adds the new tree's training predictions to the bias. */
  lemma StepBias(ps: EBoosterParams, grow: Grower, pv: Predictor, m: Metrics, b0: Vec, st1: Progress, st: Progress)
    requires GoodPredictor(pv) && |st1.testBiases| == |ps.printMessages| && Stage(ps, grow, pv, m, st1) == Success(st)
    requires Accumulate(b0, Preds(pv, st1.trees, ps.matrix.inter, ps.matrix.extra), |st1.trees|) == Success(st1.bias)
    ensures Accumulate(b0, Preds(pv, st.trees, ps.matrix.inter, ps.matrix.extra), |st.trees|) == Success(st.bias)
  {
    StageFacts(ps, grow, pv, m, st1, st);
    SumPrefix(pv, b0, st1.trees, st.trees, |st1.trees|, ps.matrix.inter, ps.matrix.extra);
  }

  /** One stage moves every monitored data set's score on by the new
      tree. */
  lemma StepScores(ps: EBoosterParams, grow: Grower, pv: Predictor, m: Metrics, st1: Progress, st: Progress)
    requires GoodPredictor(pv) && |st1.testBiases| == |ps.printMessages| && Stage(ps, grow, pv, m, st1) == Success(st)
    requires forall i :: 0 <= i < |ps.printMessages| ==>
      ScoreAfter(pv, ps.printMessages[i], st1.trees, |st1.trees|, st1.testBiases[i])
    ensures forall i :: 0 <= i < |ps.printMessages| ==>
      ScoreAfter(pv, ps.printMessages[i], st.trees, |st.trees|, st.testBiases[i])
  {
    var mons, k := ps.printMessages, |st1.trees|;
    StageFacts(ps, grow, pv, m, st1, st);
    forall i | 0 <= i < |mons| ensures ScoreAfter(pv, mons[i], st.trees, k + 1, st.testBiases[i]) {
      SumPrefix(pv, Zeros(|mons[i].inter|), st1.trees, st.trees, k, mons[i].inter, mons[i].extra);
      MessageScore(pv, mons[i], st.trees, k, st1.testBiases[i], UseLogloss(ps), m,
                   st.testBiases[i].value, CurveAt(st.trees[k], |mons|, i));
    }
  }

  /** After k stages the bias is the initial bias plus the training
      predictions of the k trees, and each monitored data set's score is
      the sum of the k trees' predictions on it. */
  lemma {:induction false} StagesState(ps: EBoosterParams, grow: Grower, pv: Predictor, m: Metrics, b0: Vec, k: nat)
    requires GoodPredictor(pv) && Stages(ps, grow, pv, m, b0, k).Success?
    ensures var st := Stages(ps, grow, pv, m, b0, k).value;
      Accumulate(b0, Preds(pv, st.trees, ps.matrix.inter, ps.matrix.extra), k) == Success(st.bias)
    ensures var st := Stages(ps, grow, pv, m, b0, k).value;
      forall i :: 0 <= i < |ps.printMessages| ==> ScoreAfter(pv, ps.printMessages[i], st.trees, k, st.testBiases[i])
    decreases k
  {
    if k > 0 {
      StagesState(ps, grow, pv, m, b0, k - 1);
      var st1 := Stages(ps, grow, pv, m, b0, k - 1).value;
      var st := Stages(ps, grow, pv, m, b0, k).value;
      StepBias(ps, grow, pv, m, b0, st1, st);
      StepScores(ps, grow, pv, m, st1, st);
    }
  }

  /** What the booster records about the tree of stage s: without its
      curve values it is what the builder made of the initial bias plus the
      training predictions of trees 0..s-1. */
  ghost predicate GrownAt(ps: EBoosterParams, grow: Grower, pv: Predictor, b0: Vec, trees: seq<OneTree>, s: nat)
    requires s < |trees|
  {
    var bias := Accumulate(b0, Preds(pv, trees, ps.matrix.inter, ps.matrix.extra), s);
    && |ps.printMessages| <= |trees[s].learningCurveRow|
    && bias.Success? && grow(bias.value) == Success(Bare(trees[s], |ps.printMessages|))
  }

  /** Curve value i of the tree of stage s is the metric of the summed
      predictions of trees 0..s on monitored data set i. */
  ghost predicate CurveAtStage(ps: EBoosterParams, pv: Predictor, m: Metrics, trees: seq<OneTree>, s: nat, i: nat)
    requires s < |trees| && i < |ps.printMessages| <= |trees[s].learningCurveRow|
  {
    var em := ps.printMessages[i];
    var score := Accumulate(Zeros(|em.inter|), Preds(pv, trees, em.inter, em.extra), s + 1);
    score.Success? && CurveAt(trees[s], |ps.printMessages|, i) == CurveValue(m, UseLogloss(ps), em.target, score.value)
  }

  ghost predicate KeptAt(ps: EBoosterParams, grow: Grower, pv: Predictor, m: Metrics, b0: Vec, trees: seq<OneTree>, s: nat)
    requires s < |trees|
  {
    && GrownAt(ps, grow, pv, b0, trees, s)
    && forall i :: 0 <= i < |ps.printMessages| ==> CurveAtStage(ps, pv, m, trees, s, i)
  }

  /** The tree a stage adds satisfies GrownAt in any run that extends it. */
  lemma GrownStep(ps: EBoosterParams, grow: Grower, pv: Predictor, m: Metrics, b0: Vec, st1: Progress, st: Progress,
                  trees: seq<OneTree>)
    requires GoodPredictor(pv) && |st1.testBiases| == |ps.printMessages| && Stage(ps, grow, pv, m, st1) == Success(st)
    requires Accumulate(b0, Preds(pv, st1.trees, ps.matrix.inter, ps.matrix.extra), |st1.trees|) == Success(st1.bias)
    requires |st.trees| <= |trees| && trees[..|st.trees|] == st.trees
    ensures GrownAt(ps, grow, pv, b0, trees, |st1.trees|)
  {
    var s := |st1.trees|;
    StageFacts(ps, grow, pv, m, st1, st);
    assert st1.trees == st.trees[..s] == trees[..|st.trees|][..s];
    assert trees[s] == st.trees[s];
    SumPrefix(pv, b0, st1.trees, trees, s, ps.matrix.inter, ps.matrix.extra);
  }

  /** A Message whose new score is the sum of trees 0..s reports the metric
      of that sum, in any run that extends those trees. */
  lemma CurveStep(ps: EBoosterParams, pv: Predictor, m: Metrics, st: Progress, trees: seq<OneTree>,
                  tb: Option<Vec>, i: nat)
    requires GoodPredictor(pv) && 0 < |st.trees| <= |trees| && trees[..|st.trees|] == st.trees
    requires i < |ps.printMessages| <= |trees[|st.trees| - 1].learningCurveRow| && i < |st.testBiases|
    requires ScoreAfter(pv, ps.printMessages[i], st.trees, |st.trees|, st.testBiases[i])
    requires Message(pv, ps.printMessages[i], trees[|st.trees| - 1], tb, UseLogloss(ps), m) ==
      Success((st.testBiases[i].value, CurveAt(trees[|st.trees| - 1], |ps.printMessages|, i)))
    ensures CurveAtStage(ps, pv, m, trees, |st.trees| - 1, i)
  {
    var em := ps.printMessages[i];
    SumPrefix(pv, Zeros(|em.inter|), st.trees, trees, |st.trees|, em.inter, em.extra);
  }

  /** The tree a stage adds satisfies CurveAtStage in any run that extends
      it. */
  lemma CurvesStep(ps: EBoosterParams, grow: Grower, pv: Predictor, m: Metrics, st1: Progress, st: Progress,
                   trees: seq<OneTree>)
    requires GoodPredictor(pv) && |st1.testBiases| == |ps.printMessages| && Stage(ps, grow, pv, m, st1) == Success(st)
    requires forall i :: 0 <= i < |ps.printMessages| ==>
      ScoreAfter(pv, ps.printMessages[i], st.trees, |st.trees|, st.testBiases[i])
    requires |st.trees| <= |trees| && trees[..|st.trees|] == st.trees
    ensures |ps.printMessages| <= |trees[|st1.trees|].learningCurveRow|
    ensures forall i :: 0 <= i < |ps.printMessages| ==> CurveAtStage(ps, pv, m, trees, |st1.trees|, i)
  {
    var s := |st1.trees|;
    StageFacts(ps, grow, pv, m, st1, st);
    assert trees[s] == trees[..|st.trees|][s];
    forall i | 0 <= i < |ps.printMessages| ensures CurveAtStage(ps, pv, m, trees, s, i) {
      CurveStep(ps, pv, m, st, trees, st1.testBiases[i], i);
    }
  }

  /** Every stage of a run of K stages is recorded as KeptAt. */
  lemma StageKept(ps: EBoosterParams, grow: Grower, pv: Predictor, m: Metrics, b0: Vec, k: nat, s: nat)
    requires GoodPredictor(pv) && s < k && Stages(ps, grow, pv, m, b0, k).Success?
    ensures KeptAt(ps, grow, pv, m, b0, Stages(ps, grow, pv, m, b0, k).value.trees, s)
  {
    StagesPrefix(ps, grow, pv, m, b0, s + 1, k);
    StagesState(ps, grow, pv, m, b0, s);
    StagesState(ps, grow, pv, m, b0, s + 1);
    var st1 := Stages(ps, grow, pv, m, b0, s).value;
    var st := Stages(ps, grow, pv, m, b0, s + 1).value;
    var trees := Stages(ps, grow, pv, m, b0, k).value.trees;
    GrownStep(ps, grow, pv, m, b0, st1, st, trees);
    CurvesStep(ps, grow, pv, m, st1, st, trees);
  }

  /** A booster trained with a good predictor: NStages trees, one title per
      monitored data set, and every tree recorded as KeptAt. */
  lemma TrainedBooster(ps: EBoosterParams, grow: Grower, pv: Predictor, m: Metrics, b: EBooster)
    requires GoodPredictor(pv) && TrainWith(ps, grow, pv, m) == Success(b)
    ensures InitialBias(ps).Success?
    ensures |b.trees| == StageCount(ps) && |b.learningCurveTitles| == |ps.printMessages|
    ensures forall i :: 0 <= i < |ps.printMessages| ==> b.learningCurveTitles[i] == Title(ps.printMessages[i])
    ensures forall s :: 0 <= s < |b.trees| ==> KeptAt(ps, grow, pv, m, InitialBias(ps).value, b.trees, s)
  {
    var b0 := InitialBias(ps).value;
    forall s | 0 <= s < |b.trees| ensures KeptAt(ps, grow, pv, m, b0, b.trees, s) {
      StageKept(ps, grow, pv, m, b0, StageCount(ps), s);
    }
  }

  // ------------------------------------------------------------ NewEBooster

  /** NewEBooster: training with NewTree as the tree builder on the training
      matrix and the trees' own predictions as the bias updates. */
  function NewEBooster(ps: EBoosterParams, m: Metrics): (r: Result<EBooster>)
    requires DenseParts(ps.matrix)
  {
    TrainWith(ps, b => NewTree(ps.matrix, b, ps.tree), TreePrediction, m)
  }

  /** With the trees' own predictions, the score behind a curve value is
      the summed prediction of the first s + 1 trees. */
  lemma CurveIsSum(ps: EBoosterParams, m: Metrics, trees: seq<OneTree>, s: nat, i: nat)
    requires s < |trees| && i < |ps.printMessages| <= |trees[s].learningCurveRow|
    requires CurveAtStage(ps, TreePrediction, m, trees, s, i)
    ensures var em := ps.printMessages[i];
      var score := SumTrees(trees, s + 1, em.inter, em.extra);
      score.Success? && CurveAt(trees[s], |ps.printMessages|, i) == CurveValue(m, UseLogloss(ps), em.target, score.value)
  {
    var em := ps.printMessages[i];
    assert SumTrees(trees, s + 1, em.inter, em.extra) ==
      Accumulate(Zeros(|em.inter|), Preds(TreePrediction, trees, em.inter, em.extra), s + 1);
  }

  /** What a trained booster holds about stage s: the tree, without its
      curve values, is what NewTree builds on the initial bias plus the
      predictions of trees 0..s-1 on the training rows, and curve value i is
      the metric of the prediction of trees 0..s on monitored data set i,
      which is what EBooster.PredictValue returns for s + 1 trees. */
  lemma NewEBoosterStage(ps: EBoosterParams, m: Metrics, b: EBooster, s: nat)
    requires DenseParts(ps.matrix) && NewEBooster(ps, m) == Success(b) && s < |b.trees|
    ensures |b.trees| == StageCount(ps) && b.learningCurveTitles == Titles(ps.printMessages)
    ensures InitialBias(ps).Success? && |ps.printMessages| <= |b.trees[s].learningCurveRow|
    ensures s == 0 ==>
      NewTree(ps.matrix, InitialBias(ps).value, ps.tree) == Success(Bare(b.trees[0], |ps.printMessages|))
    ensures s > 0 ==> (
      var sum := SumTrees(b.trees, s, ps.matrix.inter, ps.matrix.extra);
      && sum.Success? && |InitialBias(ps).value| == |sum.value|
      && NewTree(ps.matrix, VecAdd(InitialBias(ps).value, sum.value), ps.tree) ==
         Success(Bare(b.trees[s], |ps.printMessages|)))
    ensures forall i :: 0 <= i < |ps.printMessages| ==> (
      var em := ps.printMessages[i];
      var score := SumTrees(b.trees, s + 1, em.inter, em.extra);
      score.Success? && CurveAt(b.trees[s], |ps.printMessages|, i) == CurveValue(m, UseLogloss(ps), em.target, score.value))
  {
    var grow: Grower := bias => NewTree(ps.matrix, bias, ps.tree);
    var b0 := InitialBias(ps).value;
    TreePredictionGood();
    TrainedBooster(ps, grow, TreePrediction, m, b);
    assert KeptAt(ps, grow, TreePrediction, m, b0, b.trees, s);
    forall i | 0 <= i < |ps.printMessages|
      ensures var em := ps.printMessages[i];
        var score := SumTrees(b.trees, s + 1, em.inter, em.extra);
        score.Success? && CurveAt(b.trees[s], |ps.printMessages|, i) == CurveValue(m, UseLogloss(ps), em.target, score.value)
    {
      CurveIsSum(ps, m, b.trees, s, i);
    }
    if s > 0 {
      var preds := Preds(TreePrediction, b.trees, ps.matrix.inter, ps.matrix.extra);
      assert Uniform(preds, s, |b0|);
      assert |b0| == |ps.matrix.inter| by { assert |preds[0].value| == |ps.matrix.inter|; }
      AccumulateShift(b0, preds, s);
    }
  }
}

=== FILE: ebl_matrix.dfy ===
/** The data set of the extra-boost engine: interpolating features (the
    ones splits test), extra features (the ones a leaf's weights multiply),
    a one-column target and the record ids of the rows. */
module EblMatrix {
  import opened Wrappers
  import opened Numeric
  import opened Masks

  datatype EMatrix = EMatrix(
    inter: Mat,
    extra: Mat,
    target: Mat,
    recordIds: seq<int>,
    description: Option<string>)

  /** A dense matrix: every row as wide as the first. */
  predicate Dense(m: Mat) {
    IsRect(m, Width(m))
  }

  predicate DenseParts(em: EMatrix) {
    Dense(em.inter) && Dense(em.extra) && Dense(em.target)
  }

  /** The shape every split search relies on: extra features and target
      have one row per object and the target is one column wide (so there
      is at least one row). */
  predicate Shaped(em: EMatrix) {
    DenseParts(em) &&
    |em.extra| == |em.inter| && |em.target| == |em.inter| && Width(em.target) == 1
  }

  /** validatedDimensions: the height h, the width w of the interpolating
      features and the depth d of the extra features, or a panic naming the
      first inconsistent dimension (extra height, target height, target
      width, in that order). */
  function ValidatedDimensions(em: EMatrix): (r: Result<(nat, nat, nat)>)
    requires DenseParts(em)
    ensures r.Success? <==> Shaped(em)
    ensures r.Success? ==> r.value == (|em.inter|, Width(em.inter), Width(em.extra)) && r.value.0 > 0
    ensures |em.extra| != |em.inter| ==> r == Failure(ShapeMismatch("extra height"))
    ensures |em.extra| == |em.inter| && |em.target| != |em.inter| ==> r == Failure(ShapeMismatch("target height"))
  {
    var h := |em.inter|;
    if |em.extra| != h then Failure(ShapeMismatch("extra height"))
    else if |em.target| != h then Failure(ShapeMismatch("target height"))
    else if Width(em.target) != 1 then Failure(ShapeMismatch("target width"))
    else Success((h, Width(em.inter), Width(em.extra)))
  }

  /** The rows that go left: feature f below the threshold. */
  function LeftMask(inter: Mat, f: nat, threshold: real): (r: seq<bool>)
    requires forall p :: 0 <= p < |inter| ==> f < |inter[p]|
    ensures |r| == |inter|
    ensures forall p :: 0 <= p < |inter| ==> (r[p] <==> inter[p][f] < threshold)
  {
    seq(|inter|, p requires 0 <= p < |inter| => inter[p][f] < threshold)
  }

  /** The two halves of a split matrix and the matching halves of the bias. */
  datatype Halves = Halves(left: EMatrix, right: EMatrix, leftBias: Vec, rightBias: Vec)

  /** The rows of em (and of the bias) picked by a mask, in their order. */
  function Side(em: EMatrix, bias: Vec, mask: seq<bool>): (r: (EMatrix, Vec))
    requires Shaped(em) && |bias| >= |em.inter| && |em.recordIds| >= |em.inter|
    requires |mask| == |em.inter|
    ensures var h := |em.inter|; var n := CountTrue(mask, h);
      |r.0.inter| == |r.0.extra| == |r.0.target| == |r.0.recordIds| == |r.1| == n
  {
    var h := |em.inter|;
    (EMatrix(Filter(em.inter, mask), Filter(em.extra, mask), Filter(em.target, mask),
             Filter(em.recordIds[..h], mask), None),
     Filter(bias[..h], mask))
  }

  /** EMatrix.Split: row p goes to the left half when its feature f is below
      the threshold and to the right half otherwise; both halves keep the
      parent's row order and every per-row array moves with its row. A half
      with no rows is a zero-sized allocation, which panics, and so does a
      record-id list shorter than the matrix. */
  function Split(em: EMatrix, bias: Vec, f: nat, threshold: real): (r: Result<Halves>)
    requires Shaped(em) && f < Width(em.inter) && |bias| >= |em.inter|
    ensures var mask := LeftMask(em.inter, f, threshold); var h := |em.inter|;
      r.Success? <==>
        CountTrue(mask, h) > 0 && CountTrue(Not(mask), h) > 0 && |em.recordIds| >= h
    ensures r.Success? ==>
      |r.value.left.inter| + |r.value.right.inter| == |em.inter| &&
      |r.value.leftBias| == |r.value.left.inter| && |r.value.rightBias| == |r.value.right.inter|
  {
    var h := |em.inter|;
    var mask := LeftMask(em.inter, f, threshold);
    CountComplement(mask, h);
    if CountTrue(mask, h) == 0 || CountTrue(Not(mask), h) == 0 then Failure(EmptyInput("split side"))
    else if |em.recordIds| < h then Failure(ShapeMismatch("record ids"))
    else
      var (left, leftBias) := Side(em, bias, mask);
      var (right, rightBias) := Side(em, bias, Not(mask));
      Success(Halves(left, right, leftBias, rightBias))
  }

  /** Both halves have the parent's shape: dense, one extra row and one
      target row per object, the same widths. */
  lemma SplitShaped(em: EMatrix, bias: Vec, f: nat, threshold: real)
    requires Shaped(em) && f < Width(em.inter) && |bias| >= |em.inter|
    requires Split(em, bias, f, threshold).Success?
    ensures var s := Split(em, bias, f, threshold).value;
      Shaped(s.left) && Shaped(s.right) &&
      IsRect(s.left.inter, Width(em.inter)) && IsRect(s.right.inter, Width(em.inter)) &&
      IsRect(s.left.extra, Width(em.extra)) && IsRect(s.right.extra, Width(em.extra)) &&
      |s.left.recordIds| == |s.left.inter| && |s.right.recordIds| == |s.right.inter|
  {
    var mask := LeftMask(em.inter, f, threshold);
    SideShaped(em, bias, mask);
    SideShaped(em, bias, Not(mask));
  }

  lemma SideShaped(em: EMatrix, bias: Vec, mask: seq<bool>)
    requires Shaped(em) && |bias| >= |em.inter| && |em.recordIds| >= |em.inter|
    requires |mask| == |em.inter| && CountTrue(mask, |em.inter|) > 0
    ensures var s := Side(em, bias, mask).0;
      Shaped(s) && IsRect(s.inter, Width(em.inter)) && IsRect(s.extra, Width(em.extra))
  {
    var s := Side(em, bias, mask).0;
    FilterAll(em.inter, mask);
    FilterAll(em.extra, mask);
    FilterAll(em.target, mask);
    assert |s.inter| > 0;
    assert IsRect(s.target, 1);
  }

  /** Row k of a half is the parent row Selected(mask)[k]: its interpolating
      and extra features, target, record id and bias all come from that one
      row, and later rows of the half come from later parent rows. */
  lemma SideRows(em: EMatrix, bias: Vec, mask: seq<bool>, k: nat)
    requires Shaped(em) && |bias| >= |em.inter| && |em.recordIds| >= |em.inter|
    requires |mask| == |em.inter| && k < CountTrue(mask, |em.inter|)
    ensures var h := |em.inter|; var p := Selected(mask, h)[k]; var s := Side(em, bias, mask);
      p < h && mask[p] &&
      s.0.inter[k] == em.inter[p] && s.0.extra[k] == em.extra[p] && s.0.target[k] == em.target[p] &&
      s.0.recordIds[k] == em.recordIds[p] && s.1[k] == bias[p]
  {
    var h := |em.inter|;
    FilterAt(em.inter, mask, k);
    FilterAt(em.extra, mask, k);
    FilterAt(em.target, mask, k);
    FilterAt(em.recordIds[..h], mask, k);
    FilterAt(bias[..h], mask, k);
  }

  /** Every row of a half is a parent row with all of its data, the rows
      taken in the parent's order. */
  predicate FromRows(em: EMatrix, bias: Vec, mask: seq<bool>, half: EMatrix, halfBias: Vec)
    requires Shaped(em) && |bias| >= |em.inter| && |em.recordIds| >= |em.inter|
    requires |mask| == |em.inter|
    requires |half.inter| == |half.extra| == |half.target| == |half.recordIds| == |halfBias| == CountTrue(mask, |em.inter|)
  {
    forall k :: 0 <= k < |half.inter| ==>
      var p := Selected(mask, |em.inter|)[k];
      p < |em.inter| && mask[p] && half.inter[k] == em.inter[p] && half.extra[k] == em.extra[p] &&
      half.target[k] == em.target[p] && half.recordIds[k] == em.recordIds[p] && halfBias[k] == bias[p]
  }

  lemma SideFromRows(em: EMatrix, bias: Vec, mask: seq<bool>)
    requires Shaped(em) && |bias| >= |em.inter| && |em.recordIds| >= |em.inter|
    requires |mask| == |em.inter|
    ensures var s := Side(em, bias, mask); FromRows(em, bias, mask, s.0, s.1)
  {
    forall k | 0 <= k < CountTrue(mask, |em.inter|) {
      SideRows(em, bias, mask, k);
    }
  }

  /** The halves of a successful split are the two sides of the mask
      `feature f below the threshold`. */
  lemma SplitSides(em: EMatrix, bias: Vec, f: nat, threshold: real)
    requires Shaped(em) && f < Width(em.inter) && |bias| >= |em.inter|
    requires Split(em, bias, f, threshold).Success?
    ensures var mask := LeftMask(em.inter, f, threshold);
      var l, r := Side(em, bias, mask), Side(em, bias, Not(mask));
      Split(em, bias, f, threshold).value == Halves(l.0, r.0, l.1, r.1)
  {
  }

  /** Every row of the left half has feature f below the threshold and every
      row of the right half does not. */
  lemma SplitDirection(em: EMatrix, bias: Vec, f: nat, threshold: real)
    requires Shaped(em) && f < Width(em.inter) && |bias| >= |em.inter|
    requires Split(em, bias, f, threshold).Success?
    ensures var s := Split(em, bias, f, threshold).value;
      (forall k :: 0 <= k < |s.left.inter| ==> s.left.inter[k][f] < threshold) &&
      (forall k :: 0 <= k < |s.right.inter| ==> s.right.inter[k][f] >= threshold)
  {
    var s := Split(em, bias, f, threshold).value;
    var mask := LeftMask(em.inter, f, threshold);
    SplitSides(em, bias, f, threshold);
    forall k | 0 <= k < |s.left.inter| ensures s.left.inter[k][f] < threshold {
      SideRows(em, bias, mask, k);
    }
    forall k | 0 <= k < |s.right.inter| ensures s.right.inter[k][f] >= threshold {
      SideRows(em, bias, Not(mask), k);
    }
  }

  /** The record ids of the two halves together are exactly the parent's
      record ids, each id once per occurrence. */
  lemma SplitRecordIds(em: EMatrix, bias: Vec, f: nat, threshold: real)
    requires Shaped(em) && f < Width(em.inter) && |bias| >= |em.inter|
    requires Split(em, bias, f, threshold).Success?
    ensures var s := Split(em, bias, f, threshold).value;
      multiset(s.left.recordIds) + multiset(s.right.recordIds) == multiset(em.recordIds[..|em.inter|])
  {
    var mask := LeftMask(em.inter, f, threshold);
    FilterPartition(em.recordIds[..|em.inter|], mask, Not(mask));
  }
}

=== FILE: ebl_predict.dfy ===
/** Prediction with one extra-boost tree: every row walks the node arena
    from the root to a leaf, the leaf's weight vector becomes that row of the
    prediction operator, and the predicted value of a row is the operator
    row dotted with the row's extra features. */
module EblPredict {
  import opened Wrappers
  import opened Numeric
  import opened EblMatrix
  import opened EblTree

  /** The walk from node ind to a leaf: left when the row's feature is below
      the node's threshold, right otherwise. A node index outside the arena
      is an index panic and a feature column outside the row a matrix-access
      panic. On a cyclic arena the source loops for ever; here the walk has
      fuel and running out of it is reported as an invalid model. */
  function Descend(nodes: seq<TreeNode>, row: Vec, ind: int, fuel: nat): (r: Result<nat>)
    ensures r.Success? ==> r.value < |nodes| && IsLeaf(nodes[r.value])
    decreases fuel
  {
    if !(0 <= ind < |nodes|) then Failure(InvalidModel("node index"))
    else if IsLeaf(nodes[ind]) then Success(ind)
    else
      var n := nodes[ind];
      if !(0 <= n.featureNumber < |row|) then Failure(ShapeMismatch("interpolating features"))
      else if fuel == 0 then Failure(InvalidModel("cyclic tree"))
      else Descend(nodes, row, if row[n.featureNumber] < n.threshold then n.leftIndex else n.rightIndex, fuel - 1)
  }

  /** The nodes of [lo, hi) form closed subtrees: every internal node there
      has both children after it and before hi. */
  predicate Closed(nodes: seq<TreeNode>, lo: nat, hi: nat)
    requires lo <= hi <= |nodes|
  {
    forall j :: lo <= j < hi && !IsLeaf(nodes[j]) ==>
      j < nodes[j].leftIndex < hi && j < nodes[j].rightIndex < hi
  }

  /** A walk that ends on a leaf ends there with any larger fuel too. */
  lemma {:induction false} DescendFuel(nodes: seq<TreeNode>, row: Vec, ind: int, fuel: nat, more: nat)
    requires fuel <= more && Descend(nodes, row, ind, fuel).Success?
    ensures Descend(nodes, row, ind, more) == Descend(nodes, row, ind, fuel)
    decreases fuel
  {
    if 0 <= ind < |nodes| && !IsLeaf(nodes[ind]) {
      var n := nodes[ind];
      var next := if row[n.featureNumber] < n.threshold then n.leftIndex else n.rightIndex;
      DescendFuel(nodes, row, next, fuel - 1, more - 1);
    }
  }

  /** A walk that starts inside a closed block of nodes stays inside it, so
      it only depends on the nodes of that block, and it ends after fewer
      steps than the block has nodes: fuel hi - ind is enough. */
  lemma {:induction false} DescendFrame(a: seq<TreeNode>, b: seq<TreeNode>, row: Vec, ind: nat, lo: nat, hi: nat,
                                        fuel: nat)
    requires lo <= ind < hi <= |a| && hi <= |b| && Closed(a, lo, hi)
    requires forall j :: lo <= j < hi ==> a[j] == b[j]
    ensures Descend(a, row, ind, fuel) == Descend(b, row, ind, fuel)
    ensures Descend(a, row, ind, fuel).Success? ==> lo <= Descend(a, row, ind, fuel).value < hi
    decreases fuel
  {
    if !IsLeaf(a[ind]) {
      var n := a[ind];
      if 0 <= n.featureNumber < |row| && fuel > 0 {
        var next := if row[n.featureNumber] < n.threshold then n.leftIndex else n.rightIndex;
        DescendFrame(a, b, row, next, lo, hi, fuel - 1);
      }
    }
  }

  /** In a closed block whose internal nodes test features the row has, the
      walk from any node of the block reaches a leaf of the block, given at
      least as much fuel as there are nodes after the start. */
  lemma {:induction false} DescendTotal(nodes: seq<TreeNode>, row: Vec, ind: nat, lo: nat, hi: nat, fuel: nat)
    requires lo <= ind < hi <= |nodes| && Closed(nodes, lo, hi) && fuel >= hi - ind
    requires forall j :: lo <= j < hi && !IsLeaf(nodes[j]) ==> 0 <= nodes[j].featureNumber < |row|
    ensures Descend(nodes, row, ind, fuel).Success?
    ensures lo <= Descend(nodes, row, ind, fuel).value < hi
    decreases fuel
  {
    if !IsLeaf(nodes[ind]) {
      var n := nodes[ind];
      var next := if row[n.featureNumber] < n.threshold then n.leftIndex else n.rightIndex;
      DescendTotal(nodes, row, next, lo, hi, fuel - 1);
    }
  }

  /** The weight vector of the leaf a row reaches from the root: the row's
      line of the prediction operator. A leaf index outside the leaf list is
      an index panic; a weight vector of the wrong length makes SetRow
      panic. */
  function RowOperator(t: OneTree, row: Vec): (r: Result<Vec>)
    ensures r.Success? <==> (Descend(t.treeNodes, row, 0, |t.treeNodes|).Success? &&
      var li := t.treeNodes[Descend(t.treeNodes, row, 0, |t.treeNodes|).value].leafIndex;
      0 <= li < |t.leafNodes| && |t.leafNodes[li].prediction| == t.d)
    ensures r.Success? ==>
      var li := t.treeNodes[Descend(t.treeNodes, row, 0, |t.treeNodes|).value].leafIndex;
      r.value == t.leafNodes[li].prediction
  {
    var ind :- Descend(t.treeNodes, row, 0, |t.treeNodes|);
    var li := t.treeNodes[ind].leafIndex;
    if !(0 <= li < |t.leafNodes|) then Failure(InvalidModel("leaf index"))
    else if |t.leafNodes[li].prediction| != t.d then Failure(ShapeMismatch("leaf prediction"))
    else Success(t.leafNodes[li].prediction)
  }

  function RowOperators(t: OneTree, inter: Mat): (rs: seq<Result<Vec>>)
    ensures |rs| == |inter|
    ensures forall p :: 0 <= p < |inter| ==> rs[p] == RowOperator(t, inter[p])
  {
    seq(|inter|, p requires 0 <= p < |inter| => RowOperator(t, inter[p]))
  }

  /** OneTree.PredictOperator: an h x D matrix whose row p is the weight
      vector of the leaf row p reaches. A zero-sized matrix panics; the rows
      are filled in order, so the first row that fails decides the error. */
  function PredictOperator(t: OneTree, inter: Mat): (r: Result<Mat>)
    ensures r.Success? ==> |r.value| == |inter| > 0 && t.d > 0 && IsRect(r.value, t.d)
    ensures r.Success? ==> forall p :: 0 <= p < |inter| ==> RowOperator(t, inter[p]) == Success(r.value[p])
    ensures r.Success? <==> |inter| > 0 && t.d > 0 && forall p :: 0 <= p < |inter| ==> RowOperator(t, inter[p]).Success?
  {
    CollectFailure(RowOperators(t, inter));
    if |inter| == 0 || t.d == 0 then Failure(EmptyInput("prediction operator"))
    else Collect(RowOperators(t, inter))
  }

  /** Every leaf carries D weights. */
  predicate LeafWidths(t: OneTree) {
    forall k :: 0 <= k < |t.leafNodes| ==> |t.leafNodes[k].prediction| == t.d
  }

  /** On a well-formed tree whose leaves carry D weights, every row at least
      as wide as the features the tree tests has an operator row: the walk
      from the root always ends on a leaf. */
  lemma RowOperatorTotal(t: OneTree, w: nat, row: Vec)
    requires ValidTree(t, w) && LeafWidths(t) && |row| >= w
    ensures RowOperator(t, row).Success?
  {
    var nodes := t.treeNodes;
    assert Closed(nodes, 0, |nodes|) by {
      forall j | 0 <= j < |nodes| && !IsLeaf(nodes[j]) ensures j < nodes[j].leftIndex < |nodes| {
        assert NodeOk(t, j, w);
      }
      forall j | 0 <= j < |nodes| && !IsLeaf(nodes[j]) ensures j < nodes[j].rightIndex < |nodes| {
        assert NodeOk(t, j, w);
      }
    }
    forall j | 0 <= j < |nodes| && !IsLeaf(nodes[j]) ensures 0 <= nodes[j].featureNumber < |row| {
      assert NodeOk(t, j, w);
    }
    DescendTotal(nodes, row, 0, 0, |nodes|, |nodes|);
    assert NodeOk(t, Descend(nodes, row, 0, |nodes|).value, w);
  }

  /** OneTree.PredictValue: row p of the prediction is the operator row p
      dotted with the first D extra features of row p. Reading an extra
      feature outside the matrix panics. */
  function TreePredictValue(t: OneTree, inter: Mat, extra: Mat): (r: Result<Vec>)
    requires Dense(extra)
    ensures r.Success? <==> PredictOperator(t, inter).Success? && |extra| >= |inter| && Width(extra) >= t.d
    ensures r.Success? ==> (|r.value| == |inter| &&
      forall p :: 0 <= p < |inter| ==> r.value[p] == Dot(PredictOperator(t, inter).value[p], extra[p][..t.d]))
  {
    var op :- PredictOperator(t, inter);
    if |extra| < |inter| || Width(extra) < t.d then Failure(ShapeMismatch("extra features"))
    else Success(seq(|inter|, p requires 0 <= p < |inter| => Dot(op[p], extra[p][..t.d])))
  }

  /** The learning-curve row a tree carries plays no part in its
      predictions. */
  lemma PredictIgnoresCurve(t: OneTree, row: seq<real>, inter: Mat, extra: Mat)
    requires Dense(extra)
    ensures TreePredictValue(t.(learningCurveRow := row), inter, extra) == TreePredictValue(t, inter, extra)
  {
    assert RowOperators(t.(learningCurveRow := row), inter) == RowOperators(t, inter);
  }
}

=== FILE: ebl_range.dfy ===
/** The integer iterator of the extra-boost scanner: the half-open interval
    from `begin` towards `end`, visited with a signed step. The scanner walks
    the sorted rows forwards with NewRange(0, h, 1) and backwards with
    NewRange(h - 1, -1, -1). */
module EblRange {
  import opened Numeric

  datatype Range = Range(begin: int, end: int, step: int, pos: int)

  /** A fresh iterator; its cursor starts on `start`. */
  function NewRange(start: int, end: int, step: int): Range {
    Range(start, end, step, start)
  }

  /** More values remain: the cursor has not reached `end` in the direction
      of the step (a zero step counts as backwards). */
  predicate HasNext(r: Range) {
    if r.step > 0 then r.pos < r.end else r.pos > r.end
  }

  /** The value under the cursor, and the iterator moved one step on. */
  function GetNext(r: Range): (int, Range) {
    (r.pos, r.(pos := r.pos + r.step))
  }

  /** Distance from a point to the centre (begin + end - 1) / 2 of the
      interval. */
  function DistToMiddle(r: Range, point: int): real {
    Abs(point as real - ((r.begin as real) + (r.end as real) - 1.0) / 2.0)
  }

  /** The values the iterator yields from its current position on. A zero
      step would never stop, so the step must be non-zero. */
  function Elements(r: Range): (s: seq<int>)
    requires r.step != 0
    decreases if r.step > 0 then r.end - r.pos else r.pos - r.end
  {
    if HasNext(r) then [r.pos] + Elements(r.(pos := r.pos + r.step)) else []
  }

  /** The k-th value is pos + k * step; every value passes HasNext and the
      position after the last one does not. */
  lemma {:induction false} ElementsAt(r: Range)
    requires r.step != 0
    ensures forall k :: 0 <= k < |Elements(r)| ==> Elements(r)[k] == r.pos + k * r.step
    ensures forall k :: 0 <= k < |Elements(r)| ==> HasNext(r.(pos := Elements(r)[k]))
    ensures !HasNext(r.(pos := r.pos + |Elements(r)| * r.step))
    decreases if r.step > 0 then r.end - r.pos else r.pos - r.end
  {
    if HasNext(r) {
      var r' := r.(pos := r.pos + r.step);
      ElementsAt(r');
      var s, rest := Elements(r), Elements(r');
      assert s == [r.pos] + rest;
      forall k | 1 <= k < |s| ensures s[k] == r.pos + k * r.step {
        assert s[k] == rest[k - 1] == r.pos + r.step + (k - 1) * r.step;
      }
      assert r.pos + |s| * r.step == r'.pos + |rest| * r.step;
    }
  }

  /** GetNext hands out exactly the values Elements lists, one per call, and
      HasNext says whether any are left. */
  lemma GetNextElements(r: Range)
    requires r.step != 0
    ensures HasNext(r) <==> |Elements(r)| > 0
    ensures HasNext(r) ==>
      GetNext(r).0 == Elements(r)[0] && GetNext(r).1.step == r.step &&
      Elements(GetNext(r).1) == Elements(r)[1..]
  {
  }

  /** A unit step yields every integer between the cursor and `end`. */
  lemma {:induction false} UnitStepCount(r: Range)
    requires r.step == 1 || r.step == -1
    ensures |Elements(r)| == if r.step == 1 then (if r.pos < r.end then r.end - r.pos else 0)
                             else (if r.pos > r.end then r.pos - r.end else 0)
    decreases if r.step > 0 then r.end - r.pos else r.pos - r.end
  {
    if HasNext(r) {
      UnitStepCount(r.(pos := r.pos + r.step));
    }
  }

  /** The forward range of the scanner visits 0, 1, ..., h - 1. */
  lemma ForwardElements(h: nat)
    ensures |Elements(NewRange(0, h, 1))| == h
    ensures forall k :: 0 <= k < h ==> Elements(NewRange(0, h, 1))[k] == k
  {
    UnitStepCount(NewRange(0, h, 1));
    ElementsAt(NewRange(0, h, 1));
  }

  /** The backward range of the scanner visits h - 1, h - 2, ..., 0. */
  lemma BackwardElements(h: nat)
    ensures var el := Elements(NewRange(h - 1, -1, -1));
      |el| == h && forall k :: 0 <= k < h ==> el[k] == h - 1 - k
  {
    UnitStepCount(NewRange(h - 1, -1, -1));
    ElementsAt(NewRange(h - 1, -1, -1));
  }

  /** The distance is never negative, vanishes exactly at the centre, and is
      the same for two points mirrored about the centre. */
  lemma DistToMiddleMirror(r: Range, p: int)
    ensures DistToMiddle(r, p) >= 0.0
    ensures DistToMiddle(r, p) == 0.0 <==> 2 * p == r.begin + r.end - 1
    ensures DistToMiddle(r, p) == DistToMiddle(r, r.begin + r.end - 1 - p)
  {
  }

  /** The backward range of height h is centred on (h - 3) / 2, one row below
      the centre (h - 1) / 2 of the forward range. */
  lemma BackwardCentre(h: nat, p: int)
    ensures DistToMiddle(NewRange(0, h, 1), p) == Abs(p as real - (h as real - 1.0) / 2.0)
    ensures DistToMiddle(NewRange(h - 1, -1, -1), p) == Abs(p as real - (h as real - 3.0) / 2.0)
  {
  }
}

=== FILE: ebl_scan.dfy ===
/** The split search of the extra-boost engine for one interpolating
    feature: the rows are sorted by the feature, a forward and a backward
    pass accumulate gradient and Hessian of the extra-feature weights and
    solve for the weight change at every boundary between runs of equal
    values, and the best pairing of a forward and a backward boundary gives
    the threshold. */
module EblScan {
  import opened Wrappers
  import opened Numeric
  import opened Ordering
  import opened EblRange
  import opened EblMatrix
  import opened Boundaries

  /** The loss of a split search: its family and its first and second
      derivatives by the bias, as functions of (target, bias). */
  datatype LossKind = MseLoss | LogLoss
  datatype SplitLoss = SplitLoss(kind: LossKind, der1: (real, real) -> real, der2: (real, real) -> real)

  /** The state after passing one run of equal feature values. */
  datatype OneStepInfo = OneStepInfo(deltaLoss: real, deltaWeight: Vec, interFeature: real)

  /** The outcome of one pass: a step per boundary and the totals over the
      whole range (no total weight on an empty range). */
  datatype Pass = Pass(steps: seq<OneStepInfo>, totalDeltaLoss: real, totalDeltaWeight: Option<Vec>)

  /** What a pass reads and never changes: the matrix, the column q, the
      argsort of that column, the bias, the loss, the extra depth d, the
      per-row Hessians, the ridge lambda, the weight of the balance penalty
      and the linear solver. */
  datatype Scan = Scan(
    em: EMatrix, q: nat, order: seq<nat>, bias: Vec, loss: SplitLoss, d: nat,
    raw: seq<Mat>, lambda: real, unbalanced: real, solve: Solver)

  predicate Square(m: Mat, d: nat) {
    |m| == d && IsRect(m, d)
  }

  predicate ScanReady(s: Scan) {
    var h := |s.em.inter|;
    Shaped(s.em) && s.q < Width(s.em.inter) && IsRect(s.em.extra, s.d) &&
    |s.order| == h && InRange(s.order, h) && |s.bias| >= h &&
    |s.raw| == h && (forall p :: 0 <= p < h ==> Square(s.raw[p], s.d))
  }

  /** All entries are positions in the sort order. */
  predicate Indexes(ks: seq<int>, n: nat) {
    forall i :: 0 <= i < |ks| ==> 0 <= ks[i] < n
  }

  /** A range the scanner may walk: it terminates and stays inside the sort
      order. */
  predicate Fits(s: Scan, r: Range) {
    r.step != 0 && Indexes(Elements(r), |s.order|)
  }

  /** The feature value at position k of the sort order. */
  function Value(s: Scan, k: nat): real
    requires ScanReady(s) && k < |s.order|
  {
    s.em.inter[s.order[k]][s.q]
  }

  /** The gradient contribution der1 * extra of the row at position k. */
  function GradTerm(s: Scan, k: nat): (r: Vec)
    requires ScanReady(s) && k < |s.order|
    ensures |r| == s.d
  {
    var p := s.order[k];
    VecScale(s.loss.der1(s.em.target[p][0], s.bias[p]), s.em.extra[p])
  }

  /** The Hessian contribution der2 * raw of the row at position k. */
  function HessTerm(s: Scan, k: nat): (r: Mat)
    requires ScanReady(s) && k < |s.order|
    ensures Square(r, s.d)
  {
    var p := s.order[k];
    MatScale(s.loss.der2(s.em.target[p][0], s.bias[p]), s.raw[p])
  }

  /** The gradient accumulated from g0 over the positions ks, in order. */
  function GradAfter(s: Scan, g0: Vec, ks: seq<int>): (r: Vec)
    requires ScanReady(s) && |g0| == s.d && Indexes(ks, |s.order|)
    ensures |r| == s.d
    decreases |ks|
  {
    if |ks| == 0 then g0
    else VecAdd(GradAfter(s, g0, ks[..|ks| - 1]), GradTerm(s, ks[|ks| - 1]))
  }

  /** The Hessian accumulated from h0 over the positions ks, in order. */
  function HessAfter(s: Scan, h0: Mat, ks: seq<int>): (r: Mat)
    requires ScanReady(s) && Square(h0, s.d) && Indexes(ks, |s.order|)
    ensures Square(r, s.d)
    decreases |ks|
  {
    if |ks| == 0 then h0
    else MatAdd(HessAfter(s, h0, ks[..|ks| - 1]), HessTerm(s, ks[|ks| - 1]))
  }

  /** The positions IterateSplits actually processes: the range's own, except
      that a one-element range processes position 0, because the loop's
      current index is then never assigned and keeps its zero value. */
  function Processed(el: seq<int>, n: nat): (ps: seq<int>)
    requires Indexes(el, n)
    ensures |ps| == |el| && Indexes(ps, n)
  {
    if |el| == 1 then assert 0 <= el[0] < n; [0] else el
  }

  /** A solver answer of the wrong length counts as no answer. */
  function SolveStep(solve: Solver, a: Mat, g: Vec): (r: Option<Vec>)
    ensures r.Some? ==> |r.value| == |g| && solve(a, g) == r
    ensures solve(a, g).Some? && |solve(a, g).value| == |g| ==> r.Some?
  {
    match solve(a, g)
    case None => None
    case Some(w) => if |w| == |g| then Some(w) else None
  }

  /** The balance penalty of a boundary at position cur: the weight of the
      penalty times the distance to the centre of the range. */
  function Penalty(s: Scan, r: Range, cur: int): real {
    s.unbalanced * DistToMiddle(r, cur)
  }

  /** The statistic of a boundary at position cur, from the solution w of
      (H + lambda I) w = g: the loss change is the balance penalty of the
      position minus w.g, the weight change is -w. */
  function StepFrom(s: Scan, r: Range, g: Vec, cur: nat, w: Vec): (st: OneStepInfo)
    requires ScanReady(s) && cur < |s.order| && |w| == |g|
    ensures |st.deltaWeight| == |g| && st.interFeature == Value(s, cur)
    ensures st.deltaLoss == Penalty(s, r, cur) - Dot(w, g)
    ensures forall i :: 0 <= i < |w| ==> st.deltaWeight[i] == -w[i]
  {
    OneStepInfo(Penalty(s, r, cur) - Dot(w, g), Negate(w), Value(s, cur))
  }

  /** One boundary statistic; a singular system is a panic. */
  function StepAt(s: Scan, r: Range, g: Vec, hess: Mat, cur: nat): (res: Result<OneStepInfo>)
    requires ScanReady(s) && cur < |s.order| && |g| == s.d && Square(hess, s.d)
    ensures res.Failure? ==> res.error == SingularSystem
    ensures res.Success? ==> |res.value.deltaWeight| == s.d && res.value.interFeature == Value(s, cur)
  {
    match SolveStep(s.solve, AddDiag(hess, s.lambda), g)
    case None => Failure(SingularSystem)
    case Some(w) => Success(StepFrom(s, r, g, cur, w))
  }

  /** With a sound solver, the weight change of a step is -w for the
      solution w of the regularised Newton system (H + lambda I) w = g. */
  lemma StepSolves(s: Scan, r: Range, g: Vec, hess: Mat, cur: nat)
    requires ScanReady(s) && cur < |s.order| && |g| == s.d && Square(hess, s.d) && SoundSolver(s.solve)
    requires StepAt(s, r, g, hess, cur).Success?
    ensures var w := Negate(StepAt(s, r, g, hess, cur).value.deltaWeight);
      IsRect(AddDiag(hess, s.lambda), |w|) && MatVec(AddDiag(hess, s.lambda), w) == g
  {
    var a := AddDiag(hess, s.lambda);
    var w := SolveStep(s.solve, a, g).value;
    assert IsRect(a, |g|) && |a| == |g| && s.solve(a, g) == Some(w);
    assert StepAt(s, r, g, hess, cur).value == StepFrom(s, r, g, cur, w);
    NegateTwice(w);
  }

  /** The loss change of a step is the balance penalty of its position minus
      w.g, for w minus its weight change. */
  lemma StepLoss(s: Scan, r: Range, g: Vec, hess: Mat, cur: nat)
    requires ScanReady(s) && cur < |s.order| && |g| == s.d && Square(hess, s.d)
    requires StepAt(s, r, g, hess, cur).Success?
    ensures var st := StepAt(s, r, g, hess, cur).value;
      st.deltaLoss == Penalty(s, r, cur) - Dot(Negate(st.deltaWeight), g)
  {
    var w := SolveStep(s.solve, AddDiag(hess, s.lambda), g).value;
    assert StepAt(s, r, g, hess, cur).value == StepFrom(s, r, g, cur, w);
    NegateTwice(w);
  }

  /** Iteration t emits a step when it is not the last one and the feature
      value changes between positions t and t + 1 of the range. */
  predicate Emits(s: Scan, el: seq<int>, t: nat)
    requires ScanReady(s) && Indexes(el, |s.order|)
  {
    t + 1 < |el| && Value(s, el[t]) != Value(s, el[t + 1])
  }

  /** The steps emitted by the first c iterations of a pass, each solved from
      the sums over the positions processed so far. */
  function StepsUpTo(s: Scan, r: Range, g0: Vec, h0: Mat, c: nat): (res: Result<seq<OneStepInfo>>)
    requires ScanReady(s) && Fits(s, r) && |g0| == s.d && Square(h0, s.d)
    requires c <= |Elements(r)|
    ensures res.Failure? ==> res.error == SingularSystem
  {
    if c == 0 then Success([])
    else
      var prev :- StepsUpTo(s, r, g0, h0, c - 1);
      var el := Elements(r);
      var ps := Processed(el, |s.order|);
      if Emits(s, el, c - 1) then
        var step :- StepAt(s, r, GradAfter(s, g0, ps[..c]), HessAfter(s, h0, ps[..c]), ps[c - 1]);
        Success(prev + [step])
      else Success(prev)
  }

  /** A whole pass: no steps and no totals on an empty range; otherwise the
      emitted steps, and the loss and weight changes solved from the sums
      over every processed position. */
  function PassOf(s: Scan, r: Range, g0: Vec, h0: Mat): (res: Result<Pass>)
    requires ScanReady(s) && Fits(s, r) && |g0| == s.d && Square(h0, s.d)
    ensures res.Failure? ==> res.error == SingularSystem
    ensures |Elements(r)| == 0 ==> res == Success(Pass([], 0.0, None))
    ensures res.Success? && |Elements(r)| > 0 ==> res.value.totalDeltaWeight.Some?
  {
    var el := Elements(r);
    if |el| == 0 then Success(Pass([], 0.0, None))
    else
      var steps :- StepsUpTo(s, r, g0, h0, |el|);
      var ps := Processed(el, |s.order|);
      var total :- StepAt(s, r, GradAfter(s, g0, ps), HessAfter(s, h0, ps), ps[|el| - 1]);
      Success(Pass(steps, total.deltaLoss, Some(total.deltaWeight)))
  }

  /** Once a prefix of the pass fails, so does every longer prefix. */
  lemma {:induction false} StepsFailPersist(s: Scan, r: Range, g0: Vec, h0: Mat, c: nat, c': nat)
    requires ScanReady(s) && Fits(s, r) && |g0| == s.d && Square(h0, s.d)
    requires c <= c' <= |Elements(r)|
    requires StepsUpTo(s, r, g0, h0, c).Failure?
    ensures StepsUpTo(s, r, g0, h0, c') == Failure(SingularSystem)
    decreases c' - c
  {
    if c < c' {
      StepsFailPersist(s, r, g0, h0, c, c' - 1);
    }
  }

  /** The sums over one more processed position. */
  lemma AccumulateNext(s: Scan, g0: Vec, h0: Mat, ps: seq<int>, c: nat)
    requires ScanReady(s) && |g0| == s.d && Square(h0, s.d) && Indexes(ps, |s.order|)
    requires c < |ps|
    ensures GradAfter(s, g0, ps[..c + 1]) == VecAdd(GradAfter(s, g0, ps[..c]), GradTerm(s, ps[c]))
    ensures HessAfter(s, h0, ps[..c + 1]) == MatAdd(HessAfter(s, h0, ps[..c]), HessTerm(s, ps[c]))
  {
    assert ps[..c + 1][..c] == ps[..c];
  }

  /** One more iteration of a pass: its step is appended when it emits, a
      failed solve fails the prefix, and nothing changes otherwise. */
  lemma StepsExtend(s: Scan, r: Range, g0: Vec, h0: Mat, c: nat, steps: seq<OneStepInfo>)
    requires ScanReady(s) && Fits(s, r) && |g0| == s.d && Square(h0, s.d)
    requires c < |Elements(r)| && StepsUpTo(s, r, g0, h0, c) == Success(steps)
    ensures var el := Elements(r); var ps := Processed(el, |s.order|);
      var st := StepAt(s, r, GradAfter(s, g0, ps[..c + 1]), HessAfter(s, h0, ps[..c + 1]), ps[c]);
      StepsUpTo(s, r, g0, h0, c + 1) ==
        if !Emits(s, el, c) then Success(steps)
        else if st.Failure? then Failure(SingularSystem)
        else Success(steps + [st.value])
  {
  }

  /** The statistic of a boundary depends on the range only through its
      bounds. */
  lemma StepFromBounds(s: Scan, r: Range, r': Range, g: Vec, cur: nat, w: Vec)
    requires ScanReady(s) && cur < |s.order| && |w| == |g|
    requires r.begin == r'.begin && r.end == r'.end
    ensures StepFrom(s, r, g, cur, w) == StepFrom(s, r', g, cur, w)
  {
    assert DistToMiddle(r, cur) == DistToMiddle(r', cur);
  }

  /** The running state of a pass: gradient and Hessian sums, the steps
      emitted so far and the totals once the last position is done. */
  datatype Acc = Acc(grad: Vec, hess: Mat, steps: seq<OneStepInfo>, total: Option<OneStepInfo>)

  /** The state after the first c iterations is the one the reference pass
      describes. */
  predicate AccAfter(s: Scan, r0: Range, g0: Vec, h0: Mat, c: nat, acc: Acc)
    requires ScanReady(s) && Fits(s, r0) && |g0| == s.d && Square(h0, s.d)
    requires c <= |Elements(r0)|
  {
    var el := Elements(r0);
    var ps := Processed(el, |s.order|);
    acc.grad == GradAfter(s, g0, ps[..c]) && acc.hess == HessAfter(s, h0, ps[..c]) &&
    StepsUpTo(s, r0, g0, h0, c) == Success(acc.steps) &&
    (0 < c == |el| ==> acc.total.Some? && StepAt(s, r0, acc.grad, acc.hess, ps[c - 1]) == Success(acc.total.value))
  }

  /** The body of the IterateSplits loop after the cursor has moved: add the
      current row's gradient and Hessian, and at a boundary or at the end
      solve for the step; a singular system fails the whole pass. */
  method Absorb(s: Scan, r0: Range, g0: Vec, h0: Mat, r: Range, currentInd: int, nextInd: int,
                last: bool, acc: Acc, ghost c: nat) returns (res: Result<Acc>)
    requires ScanReady(s) && Fits(s, r0) && |g0| == s.d && Square(h0, s.d)
    requires c < |Elements(r0)| && AccAfter(s, r0, g0, h0, c, acc)
    requires r.begin == r0.begin && r.end == r0.end
    requires var el := Elements(r0); var n := |el|;
      currentInd == Processed(el, |s.order|)[c] &&
      nextInd == el[if c + 1 < n then c + 1 else n - 1] && (last <==> c + 1 == n)
    ensures res.Success? ==> AccAfter(s, r0, g0, h0, c + 1, res.value)
    ensures res.Failure? ==> res.error == SingularSystem && PassOf(s, r0, g0, h0) == Failure(SingularSystem)
  {
    ghost var el := Elements(r0);
    ghost var n := |el|;
    ghost var ps := Processed(el, |s.order|);
    AccumulateNext(s, g0, h0, ps, c);
    var grad := VecAdd(acc.grad, GradTerm(s, currentInd));
    var hess := MatAdd(acc.hess, HessTerm(s, currentInd));
    var normHess := AddDiag(hess, s.lambda);
    StepsExtend(s, r0, g0, h0, c, acc.steps);
    var steps, total := acc.steps, acc.total;
    assert Value(s, currentInd) != Value(s, nextInd) || last <==> Emits(s, el, c) || c + 1 == n;
    if Value(s, currentInd) != Value(s, nextInd) || last {
      var w := SolveStep(s.solve, normHess, grad);
      if w.None? {
        if c + 1 < n {
          StepsFailPersist(s, r0, g0, h0, c + 1, n);
        }
        return Failure(SingularSystem);
      }
      var step := StepFrom(s, r, grad, currentInd, w.value);
      StepFromBounds(s, r, r0, grad, currentInd, w.value);
      if !last {
        steps := steps + [step];
      } else {
        total := Some(step);
      }
    }
    return Success(Acc(grad, hess, steps, total));
  }

  /** IterateSplits: walks the range once, adding each processed row's
      gradient and Hessian to the running sums and solving at every boundary
      and at the end. The result is the pass PassOf describes. */
  method IterateSplits(s: Scan, r0: Range, g0: Vec, h0: Mat) returns (res: Result<Pass>)
    requires ScanReady(s) && Fits(s, r0) && |g0| == s.d && Square(h0, s.d)
    ensures res == PassOf(s, r0, g0, h0)
  {
    GetNextElements(r0);
    if !HasNext(r0) {
      return Success(Pass([], 0.0, None));
    }
    ghost var el := Elements(r0);
    ghost var n := |el|;
    var nx := GetNext(r0);
    var nextInd := nx.0;
    var r := nx.1;
    var currentInd := 0;
    var last := false;
    var acc := Acc(g0, h0, [], None);
    ghost var c: nat := 0;
    assert Processed(el, |s.order|)[..0] == [];
    while HasNext(r) || !last
      invariant c <= n
      invariant r.step == r0.step && r.begin == r0.begin && r.end == r0.end
      invariant Elements(r) == el[if c + 1 <= n then c + 1 else n..]
      invariant last <==> c == n
      invariant nextInd == el[if c < n then c else n - 1]
      invariant currentInd == if c == 0 then 0 else nextInd
      invariant AccAfter(s, r0, g0, h0, c, acc)
      decreases n - c
    {
      GetNextElements(r);
      if HasNext(r) {
        currentInd := nextInd;
        nx := GetNext(r);
        nextInd := nx.0;
        r := nx.1;
      } else {
        last := true;
      }
      var next := Absorb(s, r0, g0, h0, r, currentInd, nextInd, last, acc, c);
      if next.Failure? {
        return Failure(next.error);
      }
      acc := next.value;
      currentInd := nextInd;
      c := c + 1;
    }
    assert Processed(el, |s.order|)[..n] == Processed(el, |s.order|);
    return Success(Pass(acc.steps, acc.total.value.deltaLoss, Some(acc.total.value.deltaWeight)));
  }

  /** The feature values met along a range. */
  function Along(s: Scan, el: seq<int>): (v: seq<real>)
    requires ScanReady(s) && Indexes(el, |s.order|)
    ensures |v| == |el| && forall t :: 0 <= t < |el| ==> v[t] == Value(s, el[t])
  {
    seq(|el|, t requires 0 <= t < |el| => Value(s, el[t]))
  }

  /** The statistic solved at iteration b of a pass: from the sums over the
      processed positions up to and including the b-th. */
  function SolvedStep(s: Scan, r: Range, g0: Vec, h0: Mat, b: int): Result<OneStepInfo>
    requires ScanReady(s) && Fits(s, r) && |g0| == s.d && Square(h0, s.d)
    requires 0 <= b < |Elements(r)|
  {
    var ps := Processed(Elements(r), |s.order|);
    StepAt(s, r, GradAfter(s, g0, ps[..b + 1]), HessAfter(s, h0, ps[..b + 1]), ps[b])
  }

  /** The steps of a successful prefix sit exactly at the boundaries of the
      values met so far: step i is solved at the i-th boundary. */
  lemma {:induction false} StepsContent(s: Scan, r: Range, g0: Vec, h0: Mat, c: nat)
    requires ScanReady(s) && Fits(s, r) && |g0| == s.d && Square(h0, s.d)
    requires c <= |Elements(r)| && StepsUpTo(s, r, g0, h0, c).Success?
    ensures var bs := Breaks(Along(s, Elements(r)), c); var steps := StepsUpTo(s, r, g0, h0, c).value;
      |steps| == |bs| && forall i :: 0 <= i < |bs| ==> SolvedStep(s, r, g0, h0, bs[i]) == Success(steps[i])
  {
    if c > 0 {
      var el := Elements(r);
      var v := Along(s, el);
      var prev := StepsUpTo(s, r, g0, h0, c - 1);
      assert prev.Success?;
      StepsContent(s, r, g0, h0, c - 1);
      StepsExtend(s, r, g0, h0, c - 1, prev.value);
      assert Emits(s, el, c - 1) <==> IsBreak(v, c - 1);
      var bs, steps := Breaks(v, c), StepsUpTo(s, r, g0, h0, c).value;
      forall i | 0 <= i < |bs| ensures SolvedStep(s, r, g0, h0, bs[i]) == Success(steps[i]) {
        if i < |Breaks(v, c - 1)| {
          assert bs[i] == Breaks(v, c - 1)[i] && steps[i] == prev.value[i];
        }
      }
    }
  }

  /** The column values in sort order. */
  function SortedColumn(s: Scan): (v: seq<real>)
    requires ScanReady(s)
    ensures |v| == |s.order| && forall k :: 0 <= k < |s.order| ==> v[k] == Value(s, k)
  {
    seq(|s.order|, k requires 0 <= k < |s.order| => Value(s, k))
  }

  /** The forward range of the scanner processes positions 0 .. h - 1 and
      meets the sorted column as it is. */
  lemma ForwardPass(s: Scan)
    requires ScanReady(s)
    ensures var el := Elements(NewRange(0, |s.order|, 1));
      Fits(s, NewRange(0, |s.order|, 1)) && Processed(el, |s.order|) == el &&
      Along(s, el) == SortedColumn(s) && forall k :: 0 <= k < |el| ==> el[k] == k
  {
    ForwardElements(|s.order|);
    var el := Elements(NewRange(0, |s.order|, 1));
    assert Along(s, el) == SortedColumn(s);
  }

  /** The backward range processes positions h - 1 down to 0 and meets the
      sorted column mirrored. */
  lemma BackwardPass(s: Scan)
    requires ScanReady(s)
    ensures var h := |s.order|; var el := Elements(NewRange(h - 1, -1, -1));
      Fits(s, NewRange(h - 1, -1, -1)) && Processed(el, h) == el &&
      Along(s, el) == Mirror(SortedColumn(s)) && forall k :: 0 <= k < |el| ==> el[k] == h - 1 - k
  {
    var h := |s.order|;
    BackwardElements(h);
    var el := Elements(NewRange(h - 1, -1, -1));
    assert Along(s, el) == Mirror(SortedColumn(s));
  }

  /** The result of the split search in one column. */
  datatype BestSplit = BestSplit(
    bestValue: real, currentValue: real, featureIndex: int, orderIndex: int, threshold: real,
    deltaUp: Vec, deltaDown: Vec, deltaCurrent: Option<Vec>, validSplit: bool, numberOfObjects: int)

  /** The backward step paired with the i-th forward step: the backward
      pass meets the boundaries in the opposite order. */
  function Mate(up: seq<OneStepInfo>, i: nat): OneStepInfo
    requires i < |up|
  {
    up[|up| - 1 - i]
  }

  /** The loss of cutting after the i-th forward boundary: the forward step
      there plus the backward step that ends at the same cut. */
  function Score(down: seq<OneStepInfo>, up: seq<OneStepInfo>, i: nat): real
    requires |down| == |up| && i < |down|
  {
    down[i].deltaLoss + Mate(up, i).deltaLoss
  }

  function Scores(down: seq<OneStepInfo>, up: seq<OneStepInfo>): (r: seq<real>)
    requires |down| == |up|
    ensures |r| == |down| && forall i :: 0 <= i < |down| ==> r[i] == Score(down, up, i)
  {
    seq(|down|, i requires 0 <= i < |down| => Score(down, up, i))
  }

  /** bs with candidate i recorded as the best: its score, the two weight
      changes, the midpoint of the two boundary values and its index. */
  function Choose(bs: BestSplit, down: seq<OneStepInfo>, up: seq<OneStepInfo>, i: nat): (r: BestSplit)
    requires |down| == |up| && i < |down|
    ensures r.bestValue == Score(down, up, i) && r.orderIndex == i
    ensures r.deltaUp == down[i].deltaWeight && r.deltaDown == Mate(up, i).deltaWeight
    ensures r.threshold == (down[i].interFeature + Mate(up, i).interFeature) / 2.0
    ensures r.currentValue == bs.currentValue && r.featureIndex == bs.featureIndex &&
      r.deltaCurrent == bs.deltaCurrent && r.validSplit == bs.validSplit && r.numberOfObjects == bs.numberOfObjects
  {
    var m := Mate(up, i);
    BestSplit(Score(down, up, i), bs.currentValue, bs.featureIndex, i, (down[i].interFeature + m.interFeature) / 2.0,
              down[i].deltaWeight, m.deltaWeight, bs.deltaCurrent, bs.validSplit, bs.numberOfObjects)
  }

  /** The loop of selectTheBestSplitCluster from candidate i on: a candidate
      replaces the best so far on the first iteration or when its score is
      strictly smaller. */
  function SelectFrom(bs: BestSplit, down: seq<OneStepInfo>, up: seq<OneStepInfo>, i: nat, first: bool): BestSplit
    requires |down| == |up| && i <= |down|
    decreases |down| - i
  {
    if i == |down| then bs.(validSplit := !first)
    else if first || bs.bestValue > Score(down, up, i) then SelectFrom(Choose(bs, down, up, i), down, up, i + 1, false)
    else SelectFrom(bs, down, up, i + 1, first)
  }

  /** With the first i candidates seen, the loop ends on the first minimum
      of all scores. */
  lemma {:induction false} SelectFromRest(b0: BestSplit, down: seq<OneStepInfo>, up: seq<OneStepInfo>, i: nat)
    requires |down| == |up| && 0 < i <= |down|
    ensures SelectFrom(Choose(b0, down, up, FirstMin(Scores(down, up)[..i])), down, up, i, false) ==
      Choose(b0, down, up, FirstMin(Scores(down, up))).(validSplit := true)
    decreases |down| - i
  {
    var sc := Scores(down, up);
    if i == |down| {
      assert sc[..i] == sc;
    } else {
      SelectStep(b0, down, up, i);
      SelectFromRest(b0, down, up, i + 1);
    }
  }

  /** One iteration of the loop keeps the first minimum of the scores seen. */
  lemma SelectStep(b0: BestSplit, down: seq<OneStepInfo>, up: seq<OneStepInfo>, i: nat)
    requires |down| == |up| && 0 < i < |down|
    ensures var sc := Scores(down, up);
      SelectFrom(Choose(b0, down, up, FirstMin(sc[..i])), down, up, i, false) ==
      SelectFrom(Choose(b0, down, up, FirstMin(sc[..i + 1])), down, up, i + 1, false)
  {
    var sc := Scores(down, up);
    var p := FirstMin(sc[..i]);
    assert sc[..i + 1][..i] == sc[..i];
    assert FirstMin(sc[..i + 1]) == if sc[i] < sc[p] then i else p;
    if sc[i] < sc[p] {
      assert Choose(Choose(b0, down, up, p), down, up, i) == Choose(b0, down, up, i);
    }
  }

  /** selectTheBestSplitCluster: the two passes must have the same number of
      steps; the split is valid when there is at least one candidate, and
      then it records the first candidate of least score. */
  function SelectTheBestSplitCluster(bs: BestSplit, numberOfObjects: nat, q: nat,
                                     down: seq<OneStepInfo>, up: seq<OneStepInfo>): (r: Result<BestSplit>)
    ensures r.Success? <==> |down| == |up|
    ensures r.Failure? ==> r.error == ShapeMismatch("pass infos")
    ensures r.Success? ==> (r.value.validSplit <==> |down| > 0)
    ensures r.Success? && |down| == 0 ==>
      r.value == bs.(numberOfObjects := numberOfObjects, featureIndex := q, validSplit := false)
    ensures r.Success? && |down| > 0 ==>
      var i := FirstMin(Scores(down, up));
      r.value == Choose(bs.(numberOfObjects := numberOfObjects, featureIndex := q), down, up, i).(validSplit := true)
  {
    if |down| != |up| then Failure(ShapeMismatch("pass infos"))
    else
      var b0 := bs.(numberOfObjects := numberOfObjects, featureIndex := q);
      if |down| == 0 then Success(SelectFrom(b0, down, up, 0, true))
      else
        assert Scores(down, up)[..1] == [Score(down, up, 0)];
        SelectFromRest(b0, down, up, 1);
        Success(SelectFrom(b0, down, up, 0, true))
  }

  /** allocateArrays: the Hessian x x^T of each row x of the extra features;
      each one is symmetric. */
  function RawHessian(extra: Mat): (raw: seq<Mat>)
    ensures |raw| == |extra|
    ensures forall p :: 0 <= p < |extra| ==>
      Square(raw[p], |extra[p]|) && Symmetric(raw[p]) &&
      forall a, b :: 0 <= a < |extra[p]| && 0 <= b < |extra[p]| ==> raw[p][a][b] == extra[p][a] * extra[p][b]
  {
    seq(|extra|, p requires 0 <= p < |extra| => Outer(extra[p]))
  }

  /** flushIntermediate: the gradient and Hessian sums set back to zero, so
      the backward pass starts afresh. */
  function FlushIntermediate(d: nat): (r: (Vec, Mat))
    ensures |r.0| == d && Square(r.1, d)
    ensures forall a :: 0 <= a < d ==> r.0[a] == 0.0
    ensures forall a, b :: 0 <= a < d && 0 <= b < d ==> r.1[a][b] == 0.0
  {
    (Zeros(d), ZeroMat(d, d))
  }

  /** What the search in column q needs: a well-shaped matrix, a column that
      exists, and one d x d Hessian per row. */
  predicate ScanInputs(em: EMatrix, q: nat, raw: seq<Mat>) {
    Shaped(em) && q < Width(em.inter) && |raw| == |em.inter| &&
    forall p :: 0 <= p < |raw| ==> Square(raw[p], Width(em.extra))
  }

  /** The search state of column q: the rows in the order of that column. */
  function ColumnScan(em: EMatrix, q: nat, bias: Vec, loss: SplitLoss, raw: seq<Mat>,
                      lambda: real, unbalanced: real, solve: Solver): (s: Scan)
    requires ScanInputs(em, q, raw)
    ensures |bias| >= |em.inter| ==> ScanReady(s)
    ensures |s.order| == |em.inter| && s.d == Width(em.extra) && s.q == q && s.em == em && s.bias == bias
    ensures IsPermutation(s.order, |em.inter|)
  {
    var col := Column(em.inter, q);
    var order := SortOrder(col);
    Scan(em, q, order, bias, loss, Width(em.extra), raw, lambda, unbalanced, solve)
  }

  /** In the order of the column scan the column is sorted. */
  lemma ColumnSorted(em: EMatrix, q: nat, bias: Vec, loss: SplitLoss, raw: seq<Mat>,
                     lambda: real, unbalanced: real, solve: Solver)
    requires ScanInputs(em, q, raw) && |bias| >= |em.inter|
    ensures Nondecreasing(SortedColumn(ColumnScan(em, q, bias, loss, raw, lambda, unbalanced, solve)))
  {
    var v := SortedColumn(ColumnScan(em, q, bias, loss, raw, lambda, unbalanced, solve));
    forall i, j | 0 <= i <= j < |v| ensures v[i] <= v[j] {
      SortOrderNondecreasing(Column(em.inter, q), i, j);
    }
  }

  /** The forward pass from zero sums: one step per boundary of the sorted
      column, step i at the i-th boundary b, with the value of row b. */
  lemma DownSteps(s: Scan, g0: Vec, h0: Mat)
    requires ScanReady(s) && |g0| == s.d && Square(h0, s.d) && Fits(s, NewRange(0, |s.order|, 1))
    requires PassOf(s, NewRange(0, |s.order|, 1), g0, h0).Success?
    ensures var v := SortedColumn(s); var bs := Breaks(v, |v|); var fwd := NewRange(0, |s.order|, 1);
      var steps := PassOf(s, fwd, g0, h0).value.steps;
      |Elements(fwd)| == |v| && |steps| == |bs| &&
      forall i :: 0 <= i < |bs| ==>
        steps[i].interFeature == v[bs[i]] && SolvedStep(s, fwd, g0, h0, bs[i]) == Success(steps[i])
  {
    var h := |s.order|;
    var fwd := NewRange(0, h, 1);
    ForwardPass(s);
    StepsContent(s, fwd, g0, h0, h);
  }

  /** The backward pass: one step per boundary of the mirrored column,
      step k solved at its k-th boundary. */
  lemma BackwardSolved(s: Scan, g0: Vec, h0: Mat)
    requires ScanReady(s) && |g0| == s.d && Square(h0, s.d) && Fits(s, NewRange(|s.order| - 1, -1, -1))
    requires PassOf(s, NewRange(|s.order| - 1, -1, -1), g0, h0).Success?
    ensures var h := |s.order|; var rs := Breaks(Mirror(SortedColumn(s)), h); var bwd := NewRange(h - 1, -1, -1);
      var steps := PassOf(s, bwd, g0, h0).value.steps;
      |Elements(bwd)| == h && |steps| == |rs| &&
      forall k :: 0 <= k < |rs| ==> SolvedStep(s, bwd, g0, h0, rs[k]) == Success(steps[k])
  {
    BackwardPass(s);
    StepsContent(s, NewRange(|s.order| - 1, -1, -1), g0, h0, |s.order|);
  }

  /** Step k of the backward pass, at the k-th boundary t of the mirrored
      column, carries the value of row h - 1 - t. */
  lemma BackwardValues(s: Scan, g0: Vec, h0: Mat)
    requires ScanReady(s) && |g0| == s.d && Square(h0, s.d) && Fits(s, NewRange(|s.order| - 1, -1, -1))
    requires PassOf(s, NewRange(|s.order| - 1, -1, -1), g0, h0).Success?
    ensures var h := |s.order|; var rs := Breaks(Mirror(SortedColumn(s)), h);
      var steps := PassOf(s, NewRange(h - 1, -1, -1), g0, h0).value.steps;
      |steps| == |rs| && forall k :: 0 <= k < |rs| ==> steps[k].interFeature == SortedColumn(s)[h - 1 - rs[k]]
  {
    var h := |s.order|;
    var bwd := NewRange(h - 1, -1, -1);
    BackwardPass(s);
    BackwardSolved(s, g0, h0);
    var rs := Breaks(Mirror(SortedColumn(s)), h);
    forall k | 0 <= k < |rs| {
      SolvedValue(s, bwd, g0, h0, rs[k]);
    }
  }

  /** Step k of the backward pass carries the sorted value at position
      h - 1 - t, where t is the k-th boundary of the mirrored column. */
  lemma UpValueAt(s: Scan, k: nat)
    requires ScanReady(s) && UpPass(s).Success?
    requires k < |Breaks(Mirror(SortedColumn(s)), |s.order|)|
    ensures var rs := Breaks(Mirror(SortedColumn(s)), |s.order|);
      |UpPass(s).value.steps| == |rs| &&
      UpPass(s).value.steps[k].interFeature == SortedColumn(s)[|s.order| - 1 - rs[k]]
  {
    BackwardValues(s, Zeros(s.d), ZeroMat(s.d, s.d));
  }

  /** The step solved at iteration b carries the value of the row processed
      there. */
  lemma SolvedValue(s: Scan, r: Range, g0: Vec, h0: Mat, b: int)
    requires ScanReady(s) && Fits(s, r) && |g0| == s.d && Square(h0, s.d)
    requires 0 <= b < |Elements(r)| && SolvedStep(s, r, g0, h0, b).Success?
    ensures SolvedStep(s, r, g0, h0, b).value.interFeature == Value(s, Processed(Elements(r), |s.order|)[b])
  {
  }

  /** The forward pass of a column scan, from zero sums. */
  function DownPass(s: Scan): (r: Result<Pass>)
    requires ScanReady(s)
    ensures r.Failure? ==> r.error == SingularSystem
    ensures r.Success? && |s.order| > 0 ==> r.value.totalDeltaWeight.Some?
  {
    ForwardPass(s);
    PassOf(s, NewRange(0, |s.order|, 1), Zeros(s.d), ZeroMat(s.d, s.d))
  }

  /** The backward pass of a column scan, from the zero sums that
      FlushIntermediate leaves behind. */
  function UpPass(s: Scan): (r: Result<Pass>)
    requires ScanReady(s)
    ensures r.Failure? ==> r.error == SingularSystem
  {
    BackwardPass(s);
    PassOf(s, NewRange(|s.order| - 1, -1, -1), Zeros(s.d), ZeroMat(s.d, s.d))
  }

  /** The split record before selection: the forward totals as the current
      loss and weight change, nothing chosen yet. */
  function Init(down: Pass, d: nat): BestSplit {
    BestSplit(0.0, down.totalDeltaLoss, 0, 0, 0.0, Zeros(d), Zeros(d), down.totalDeltaWeight, false, 0)
  }

  /** scanForSplitCluster: sort the rows by column q, run the forward pass
      from zero sums, flush, run the backward pass and pick the best pairing.
      A zero extra depth is a zero-sized allocation and a short bias an index
      out of range, both panics. */
  function ScanForSplitCluster(em: EMatrix, h: nat, d: nat, q: nat, bias: Vec, loss: SplitLoss, lambda: real,
                     raw: seq<Mat>, unbalanced: real, solve: Solver): (r: Result<BestSplit>)
    requires ScanInputs(em, q, raw) && h == |em.inter| && d == Width(em.extra)
    ensures d == 0 ==> r == Failure(EmptyInput("extra depth"))
    ensures d > 0 && |bias| < h ==> r == Failure(ShapeMismatch("bias"))
    ensures r.Success? ==> r.value.featureIndex == q && r.value.numberOfObjects == h && r.value.deltaCurrent.Some?
  {
    if d == 0 then Failure(EmptyInput("extra depth"))
    else if |bias| < h then Failure(ShapeMismatch("bias"))
    else
      var s := ColumnScan(em, q, bias, loss, raw, lambda, unbalanced, solve);
      var down :- DownPass(s);
      var up :- UpPass(s);
      SelectTheBestSplitCluster(Init(down, d), h, q, down.steps, up.steps)
  }

  /** Both passes have one step per boundary of the sorted column. */
  lemma PassCounts(s: Scan)
    requires ScanReady(s) && DownPass(s).Success? && UpPass(s).Success?
    ensures var n := |Breaks(SortedColumn(s), |s.order|)|;
      |DownPass(s).value.steps| == n && |UpPass(s).value.steps| == n
  {
    ForwardPass(s);
    BackwardPass(s);
    DownSteps(s, Zeros(s.d), ZeroMat(s.d, s.d));
    BackwardSolved(s, Zeros(s.d), ZeroMat(s.d, s.d));
    BreaksMirror(SortedColumn(s));
  }

  /** Past the two panics, a search fails only on a singular system, never
      on the pass-length check; a success is the selection over the steps of
      the two passes of the column scan. */
  lemma ScanOutcome(em: EMatrix, h: nat, d: nat, q: nat, bias: Vec, loss: SplitLoss, lambda: real,
                     raw: seq<Mat>, unbalanced: real, solve: Solver)
    requires ScanInputs(em, q, raw) && h == |em.inter| && d == Width(em.extra) && d > 0 && |bias| >= h
    ensures var s := ColumnScan(em, q, bias, loss, raw, lambda, unbalanced, solve); var r := ScanForSplitCluster(em, h, d, q, bias, loss, lambda, raw, unbalanced, solve);
      ScanReady(s) && |s.order| == h && s.d == d &&
      (r.Success? <==> DownPass(s).Success? && UpPass(s).Success?) &&
      (r.Failure? ==> r.error == SingularSystem) &&
      (r.Success? ==> r.value == SelectTheBestSplitCluster(Init(DownPass(s).value, d), h, q,
                                   DownPass(s).value.steps, UpPass(s).value.steps).value)
  {
    var s := ColumnScan(em, q, bias, loss, raw, lambda, unbalanced, solve);
    if DownPass(s).Success? && UpPass(s).Success? {
      PassCounts(s);
    }
  }

  /** Every row sits somewhere in the sort order. */
  lemma RowPosition(s: Scan, p: nat) returns (k: nat)
    requires IsPermutation(s.order, |s.em.inter|) && p < |s.em.inter|
    ensures k < |s.order| && s.order[k] == p
  {
    PermutationMembers(s.order, |s.em.inter|);
    assert p in s.order;
    k :| 0 <= k < |s.order| && s.order[k] == p;
  }

  /** The sorted column holds two different values exactly when the column
      itself does. */
  lemma SortedDistinct(em: EMatrix, q: nat, bias: Vec, loss: SplitLoss, raw: seq<Mat>,
                       lambda: real, unbalanced: real, solve: Solver)
    requires ScanInputs(em, q, raw) && |bias| >= |em.inter|
    ensures var v := SortedColumn(ColumnScan(em, q, bias, loss, raw, lambda, unbalanced, solve));
      (exists i, j :: 0 <= i < |v| && 0 <= j < |v| && v[i] != v[j]) <==>
      (exists i, j :: 0 <= i < |em.inter| && 0 <= j < |em.inter| && em.inter[i][q] != em.inter[j][q])
  {
    var s := ColumnScan(em, q, bias, loss, raw, lambda, unbalanced, solve);
    var v := SortedColumn(s);
    if exists i, j :: 0 <= i < |v| && 0 <= j < |v| && v[i] != v[j] {
      SortedDistinctColumn(em, q, bias, loss, raw, lambda, unbalanced, solve);
    }
    if exists i, j :: 0 <= i < |em.inter| && 0 <= j < |em.inter| && em.inter[i][q] != em.inter[j][q] {
      ColumnDistinctSorted(em, q, bias, loss, raw, lambda, unbalanced, solve);
    }
  }

  lemma SortedDistinctColumn(em: EMatrix, q: nat, bias: Vec, loss: SplitLoss, raw: seq<Mat>,
                             lambda: real, unbalanced: real, solve: Solver)
    requires ScanInputs(em, q, raw) && |bias| >= |em.inter|
    requires var v := SortedColumn(ColumnScan(em, q, bias, loss, raw, lambda, unbalanced, solve));
      exists i, j :: 0 <= i < |v| && 0 <= j < |v| && v[i] != v[j]
    ensures exists i, j :: 0 <= i < |em.inter| && 0 <= j < |em.inter| && em.inter[i][q] != em.inter[j][q]
  {
    var s := ColumnScan(em, q, bias, loss, raw, lambda, unbalanced, solve);
    var v := SortedColumn(s);
    var i, j :| 0 <= i < |v| && 0 <= j < |v| && v[i] != v[j];
    assert em.inter[s.order[i]][q] != em.inter[s.order[j]][q];
  }

  lemma ColumnDistinctSorted(em: EMatrix, q: nat, bias: Vec, loss: SplitLoss, raw: seq<Mat>,
                             lambda: real, unbalanced: real, solve: Solver)
    requires ScanInputs(em, q, raw) && |bias| >= |em.inter|
    requires exists i, j :: 0 <= i < |em.inter| && 0 <= j < |em.inter| && em.inter[i][q] != em.inter[j][q]
    ensures var v := SortedColumn(ColumnScan(em, q, bias, loss, raw, lambda, unbalanced, solve)); exists i, j :: 0 <= i < |v| && 0 <= j < |v| && v[i] != v[j]
  {
    var s := ColumnScan(em, q, bias, loss, raw, lambda, unbalanced, solve);
    var v := SortedColumn(s);
    var h := |em.inter|;
    var i, j :| 0 <= i < h && 0 <= j < h && em.inter[i][q] != em.inter[j][q];
    var ki := RowPosition(s, i);
    var kj := RowPosition(s, j);
    assert v[ki] != v[kj];
  }

  /** A search finds a valid split exactly when the sorted column has a
      boundary. */
  lemma ScanValidIffBreak(em: EMatrix, h: nat, d: nat, q: nat, bias: Vec, loss: SplitLoss, lambda: real,
                     raw: seq<Mat>, unbalanced: real, solve: Solver)
    requires ScanInputs(em, q, raw) && h == |em.inter| && d == Width(em.extra)
    requires ScanForSplitCluster(em, h, d, q, bias, loss, lambda, raw, unbalanced, solve).Success?
    ensures ScanForSplitCluster(em, h, d, q, bias, loss, lambda, raw, unbalanced, solve).value.validSplit <==> |Breaks(SortedColumn(ColumnScan(em, q, bias, loss, raw, lambda, unbalanced, solve)), h)| > 0
  {
    ScanOutcome(em, h, d, q, bias, loss, lambda, raw, unbalanced, solve);
    var s := ColumnScan(em, q, bias, loss, raw, lambda, unbalanced, solve);
    PassCounts(s);
  }

  /** A search in column q finds a valid split exactly when the column holds
      two different values. */
  lemma ScanValidIffDistinct(em: EMatrix, h: nat, d: nat, q: nat, bias: Vec, loss: SplitLoss, lambda: real,
                     raw: seq<Mat>, unbalanced: real, solve: Solver)
    requires ScanInputs(em, q, raw) && h == |em.inter| && d == Width(em.extra)
    requires ScanForSplitCluster(em, h, d, q, bias, loss, lambda, raw, unbalanced, solve).Success?
    ensures ScanForSplitCluster(em, h, d, q, bias, loss, lambda, raw, unbalanced, solve).value.validSplit <==>
      exists i, j :: 0 <= i < h && 0 <= j < h && em.inter[i][q] != em.inter[j][q]
  {
    ScanValidIffBreak(em, h, d, q, bias, loss, lambda, raw, unbalanced, solve);
    var s := ColumnScan(em, q, bias, loss, raw, lambda, unbalanced, solve);
    ColumnSorted(em, q, bias, loss, raw, lambda, unbalanced, solve);
    BreakIffDistinct(SortedColumn(s));
    SortedDistinct(em, q, bias, loss, raw, lambda, unbalanced, solve);
  }

  /** The statistic of the rows at sort positions 0 .. b, as the forward
      pass solves it from zero sums. */
  function LeftStep(s: Scan, b: nat): Result<OneStepInfo>
    requires ScanReady(s) && b < |s.order|
  {
    ForwardPass(s);
    SolvedStep(s, NewRange(0, |s.order|, 1), Zeros(s.d), ZeroMat(s.d, s.d), b)
  }

  /** The statistic of the rows at sort positions b + 1 .. h - 1, as the
      backward pass solves it from flushed sums. */
  function RightStep(s: Scan, b: nat): Result<OneStepInfo>
    requires ScanReady(s) && b + 1 < |s.order|
  {
    BackwardPass(s);
    SolvedStep(s, NewRange(|s.order| - 1, -1, -1), Zeros(s.d), ZeroMat(s.d, s.d), |s.order| - 2 - b)
  }

  /** The i-th forward step and its backward partner are the statistics of
      the rows below and above the i-th boundary. */
  lemma PairSteps(s: Scan, i: nat)
    requires ScanReady(s) && DownPass(s).Success? && UpPass(s).Success?
    requires i < |Breaks(SortedColumn(s), |s.order|)|
    ensures var bs := Breaks(SortedColumn(s), |s.order|);
      var down, up := DownPass(s).value.steps, UpPass(s).value.steps;
      |down| == |bs| && |up| == |bs| && bs[i] + 1 < |s.order| &&
      LeftStep(s, bs[i]) == Success(down[i]) && RightStep(s, bs[i]) == Success(Mate(up, i))
  {
    PairLeft(s, i);
    PairRight(s, i);
  }

  lemma PairLeft(s: Scan, i: nat)
    requires ScanReady(s) && DownPass(s).Success? && UpPass(s).Success?
    requires i < |Breaks(SortedColumn(s), |s.order|)|
    ensures var bs := Breaks(SortedColumn(s), |s.order|); var down := DownPass(s).value.steps;
      |down| == |bs| && bs[i] + 1 < |s.order| && LeftStep(s, bs[i]) == Success(down[i])
  {
    ForwardPass(s);
    DownSteps(s, Zeros(s.d), ZeroMat(s.d, s.d));
  }

  lemma PairRight(s: Scan, i: nat)
    requires ScanReady(s) && UpPass(s).Success?
    requires i < |Breaks(SortedColumn(s), |s.order|)|
    ensures var bs := Breaks(SortedColumn(s), |s.order|); var up := UpPass(s).value.steps;
      |up| == |bs| && bs[i] + 1 < |s.order| && RightStep(s, bs[i]) == Success(Mate(up, i))
  {
    var h, v := |s.order|, SortedColumn(s);
    var bs := Breaks(v, h);
    assert IsBreak(v, bs[i]);
    MirrorIndex(v, h, i);
    RightStepAt(s, |bs| - 1 - i, bs[i]);
  }

  /** The backward step paired with the forward boundary b: the right-hand
      statistic at b is backward step k when the k-th mirrored boundary is
      h - 2 - b. */
  lemma RightStepAt(s: Scan, k: nat, b: nat)
    requires ScanReady(s) && UpPass(s).Success? && b + 1 < |s.order|
    requires var rs := Breaks(Mirror(SortedColumn(s)), |s.order|); k < |rs| && rs[k] == |s.order| - 2 - b
    ensures var up := UpPass(s).value.steps;
      |up| == |Breaks(Mirror(SortedColumn(s)), |s.order|)| && RightStep(s, b) == Success(up[k])
  {
    var bwd, g0, h0 := NewRange(|s.order| - 1, -1, -1), Zeros(s.d), ZeroMat(s.d, s.d);
    var rs := Breaks(Mirror(SortedColumn(s)), |s.order|);
    assert Fits(s, bwd) && UpPass(s) == PassOf(s, bwd, g0, h0) by {
      BackwardPass(s);
    }
    var steps := UpPass(s).value.steps;
    assert |Elements(bwd)| == |s.order| && |steps| == |rs| && SolvedStep(s, bwd, g0, h0, rs[k]) == Success(steps[k]) by {
      BackwardSolved(s, g0, h0);
    }
    RightStepIs(s, b);
  }

  /** The right-hand statistic is the backward step solved at iteration
      h - 2 - b. */
  lemma RightStepIs(s: Scan, b: nat)
    requires ScanReady(s) && b + 1 < |s.order|
    ensures var bwd := NewRange(|s.order| - 1, -1, -1);
      Fits(s, bwd) && |Elements(bwd)| == |s.order| &&
      RightStep(s, b) == SolvedStep(s, bwd, Zeros(s.d), ZeroMat(s.d, s.d), |s.order| - 2 - b)
  {
    BackwardPass(s);
  }

  /** Both sides of a cut after sort position b can be solved. */
  predicate Cuttable(s: Scan, b: nat)
    requires ScanReady(s)
  {
    b + 1 < |s.order| && LeftStep(s, b).Success? && RightStep(s, b).Success?
  }

  /** The loss of a cut after sort position b: the loss change of the rows
      below plus that of the rows above. */
  function CutLoss(s: Scan, b: nat): real
    requires ScanReady(s) && Cuttable(s, b)
  {
    LeftStep(s, b).value.deltaLoss + RightStep(s, b).value.deltaLoss
  }

  /** Score i of the selection is the loss of the cut at the i-th boundary. */
  lemma PairScore(s: Scan, i: nat)
    requires ScanReady(s) && DownPass(s).Success? && UpPass(s).Success?
    requires i < |Breaks(SortedColumn(s), |s.order|)|
    ensures var bs := Breaks(SortedColumn(s), |s.order|);
      var down, up := DownPass(s).value.steps, UpPass(s).value.steps;
      |down| == |bs| && |up| == |bs| && Cuttable(s, bs[i]) && Score(down, up, i) == CutLoss(s, bs[i])
  {
    PairSteps(s, i);
  }

  /** The valid split of a column scan: the first minimum of the scores of
      the two passes, recorded over the forward totals. */
  function Selected(s: Scan, h: nat, q: nat): BestSplit
    requires ScanReady(s) && DownPass(s).Success? && UpPass(s).Success?
    requires |DownPass(s).value.steps| > 0 && |UpPass(s).value.steps| == |DownPass(s).value.steps|
  {
    var down, up := DownPass(s).value.steps, UpPass(s).value.steps;
    Choose(Init(DownPass(s).value, s.d).(numberOfObjects := h, featureIndex := q), down, up,
           FirstMin(Scores(down, up))).(validSplit := true)
  }

  /** A valid split cuts at a boundary whose two sides can be solved: its
      score is the cut loss there and its weight changes are the two sides'
      solutions. */
  lemma ScanBest(em: EMatrix, h: nat, d: nat, q: nat, bias: Vec, loss: SplitLoss, lambda: real,
                   raw: seq<Mat>, unbalanced: real, solve: Solver)
    requires ScanInputs(em, q, raw) && h == |em.inter| && d == Width(em.extra)
    requires ScanForSplitCluster(em, h, d, q, bias, loss, lambda, raw, unbalanced, solve).Success?
    requires ScanForSplitCluster(em, h, d, q, bias, loss, lambda, raw, unbalanced, solve).value.validSplit
    ensures var s := ColumnScan(em, q, bias, loss, raw, lambda, unbalanced, solve); var bs := Breaks(SortedColumn(s), |s.order|);
      var r := ScanForSplitCluster(em, h, d, q, bias, loss, lambda, raw, unbalanced, solve).value; var t := r.orderIndex;
      ScanReady(s) && |s.order| == h && 0 <= t < |bs| &&
      Cuttable(s, bs[t]) && r.bestValue == CutLoss(s, bs[t]) &&
      r.deltaUp == LeftStep(s, bs[t]).value.deltaWeight && r.deltaDown == RightStep(s, bs[t]).value.deltaWeight
  {
    ScanSelected(em, h, d, q, bias, loss, lambda, raw, unbalanced, solve);
    SelectedBest(ColumnScan(em, q, bias, loss, raw, lambda, unbalanced, solve), h, q);
  }

  lemma SelectedBest(s: Scan, h: nat, q: nat)
    requires ScanReady(s) && DownPass(s).Success? && UpPass(s).Success?
    requires |DownPass(s).value.steps| > 0 && |UpPass(s).value.steps| == |DownPass(s).value.steps|
    ensures var bs := Breaks(SortedColumn(s), |s.order|); var r := Selected(s, h, q); var t := r.orderIndex;
      0 <= t < |bs| && Cuttable(s, bs[t]) && r.bestValue == CutLoss(s, bs[t]) &&
      r.deltaUp == LeftStep(s, bs[t]).value.deltaWeight && r.deltaDown == RightStep(s, bs[t]).value.deltaWeight
  {
    MinCut(s);
  }

  /** No boundary has a smaller cut loss than the chosen one, and every
      earlier boundary a strictly larger one. */
  lemma ScanLeast(em: EMatrix, h: nat, d: nat, q: nat, bias: Vec, loss: SplitLoss, lambda: real,
                   raw: seq<Mat>, unbalanced: real, solve: Solver)
    requires ScanInputs(em, q, raw) && h == |em.inter| && d == Width(em.extra)
    requires ScanForSplitCluster(em, h, d, q, bias, loss, lambda, raw, unbalanced, solve).Success?
    requires ScanForSplitCluster(em, h, d, q, bias, loss, lambda, raw, unbalanced, solve).value.validSplit
    ensures var s := ColumnScan(em, q, bias, loss, raw, lambda, unbalanced, solve); var bs := Breaks(SortedColumn(s), |s.order|);
      var r := ScanForSplitCluster(em, h, d, q, bias, loss, lambda, raw, unbalanced, solve).value; var t := r.orderIndex;
      ScanReady(s) && |s.order| == h && 0 <= t < |bs| &&
      forall i :: 0 <= i < |bs| ==>
        Cuttable(s, bs[i]) && r.bestValue <= CutLoss(s, bs[i]) && (i < t ==> r.bestValue < CutLoss(s, bs[i]))
  {
    ScanSelected(em, h, d, q, bias, loss, lambda, raw, unbalanced, solve);
    SelectedLeast(ColumnScan(em, q, bias, loss, raw, lambda, unbalanced, solve), h, q);
  }

  lemma SelectedLeast(s: Scan, h: nat, q: nat)
    requires ScanReady(s) && DownPass(s).Success? && UpPass(s).Success?
    requires |DownPass(s).value.steps| > 0 && |UpPass(s).value.steps| == |DownPass(s).value.steps|
    ensures var bs := Breaks(SortedColumn(s), |s.order|); var r := Selected(s, h, q); var t := r.orderIndex;
      0 <= t < |bs| &&
      forall i :: 0 <= i < |bs| ==>
        Cuttable(s, bs[i]) && r.bestValue <= CutLoss(s, bs[i]) && (i < t ==> r.bestValue < CutLoss(s, bs[i]))
  {
    MinCut(s);
    MinCutLeast(s);
  }

  /** A valid split records the first minimum of the scores of the two
      passes of the column scan. */
  lemma ScanSelected(em: EMatrix, h: nat, d: nat, q: nat, bias: Vec, loss: SplitLoss, lambda: real,
                     raw: seq<Mat>, unbalanced: real, solve: Solver)
    requires ScanInputs(em, q, raw) && h == |em.inter| && d == Width(em.extra)
    requires ScanForSplitCluster(em, h, d, q, bias, loss, lambda, raw, unbalanced, solve).Success?
    requires ScanForSplitCluster(em, h, d, q, bias, loss, lambda, raw, unbalanced, solve).value.validSplit
    ensures d > 0 && |bias| >= h
    ensures var s := ColumnScan(em, q, bias, loss, raw, lambda, unbalanced, solve);
      ScanReady(s) && |s.order| == h && s.d == d && DownPass(s).Success? && UpPass(s).Success? &&
      |DownPass(s).value.steps| > 0 && |UpPass(s).value.steps| == |DownPass(s).value.steps| &&
      ScanForSplitCluster(em, h, d, q, bias, loss, lambda, raw, unbalanced, solve).value == Selected(s, h, q)
  {
    ScanOutcome(em, h, d, q, bias, loss, lambda, raw, unbalanced, solve);
    PassCounts(ColumnScan(em, q, bias, loss, raw, lambda, unbalanced, solve));
  }

  /** The first minimum of the scores is a boundary whose cut can be
      solved; its score is the cut loss and its weight changes are the two
      sides' solutions. */
  lemma MinCut(s: Scan)
    requires ScanReady(s) && DownPass(s).Success? && UpPass(s).Success?
    requires |DownPass(s).value.steps| > 0
    ensures var bs := Breaks(SortedColumn(s), |s.order|);
      var down, up := DownPass(s).value.steps, UpPass(s).value.steps;
      |down| == |bs| && |up| == |bs| &&
      var t := FirstMin(Scores(down, up));
      t < |bs| && Cuttable(s, bs[t]) && Score(down, up, t) == CutLoss(s, bs[t]) &&
      down[t].deltaWeight == LeftStep(s, bs[t]).value.deltaWeight &&
      Mate(up, t).deltaWeight == RightStep(s, bs[t]).value.deltaWeight
  {
    PassCounts(s);
    PairSteps(s, FirstMin(Scores(DownPass(s).value.steps, UpPass(s).value.steps)));
  }

  /** No boundary has a smaller cut loss than the first minimum, and every
      earlier boundary a larger one. */
  lemma MinCutLeast(s: Scan)
    requires ScanReady(s) && DownPass(s).Success? && UpPass(s).Success?
    requires |DownPass(s).value.steps| > 0
    ensures var bs := Breaks(SortedColumn(s), |s.order|);
      var down, up := DownPass(s).value.steps, UpPass(s).value.steps;
      |down| == |bs| && |up| == |bs| &&
      var t := FirstMin(Scores(down, up));
      forall i :: 0 <= i < |bs| ==>
        Cuttable(s, bs[i]) && Score(down, up, t) <= CutLoss(s, bs[i]) && (i < t ==> Score(down, up, t) < CutLoss(s, bs[i]))
  {
    PassCounts(s);
    var bs := Breaks(SortedColumn(s), |s.order|);
    var down, up := DownPass(s).value.steps, UpPass(s).value.steps;
    var t := FirstMin(Scores(down, up));
    forall i | 0 <= i < |bs|
      ensures Cuttable(s, bs[i]) && Score(down, up, t) <= CutLoss(s, bs[i])
      ensures i < t ==> Score(down, up, t) < CutLoss(s, bs[i])
    {
      PairScore(s, i);
      assert Scores(down, up)[i] == Score(down, up, i);
    }
  }

  /** The t-th forward step and its backward partner carry the two values on
      either side of the t-th boundary. */
  lemma PairValues(s: Scan, t: nat)
    requires ScanReady(s) && DownPass(s).Success? && UpPass(s).Success?
    requires t < |Breaks(SortedColumn(s), |s.order|)|
    ensures var v := SortedColumn(s); var bs := Breaks(v, |s.order|);
      var down, up := DownPass(s).value.steps, UpPass(s).value.steps;
      |down| == |bs| && |up| == |bs| &&
      down[t].interFeature == v[bs[t]] && Mate(up, t).interFeature == v[bs[t] + 1]
  {
    PairDownValue(s, t);
    PairUpValue(s, t);
  }

  lemma PairDownValue(s: Scan, t: nat)
    requires ScanReady(s) && DownPass(s).Success?
    requires t < |Breaks(SortedColumn(s), |s.order|)|
    ensures var v := SortedColumn(s); var bs := Breaks(v, |s.order|); var down := DownPass(s).value.steps;
      |down| == |bs| && down[t].interFeature == v[bs[t]]
  {
    ForwardPass(s);
    DownSteps(s, Zeros(s.d), ZeroMat(s.d, s.d));
  }

  lemma PairUpValue(s: Scan, t: nat)
    requires ScanReady(s) && UpPass(s).Success?
    requires t < |Breaks(SortedColumn(s), |s.order|)|
    ensures var v := SortedColumn(s); var bs := Breaks(v, |s.order|); var up := UpPass(s).value.steps;
      |up| == |bs| && Mate(up, t).interFeature == v[bs[t] + 1]
  {
    var v := SortedColumn(s);
    var bs := Breaks(v, |s.order|);
    MirrorIndex(v, |s.order|, t);
    UpValueAt(s, |bs| - 1 - t);
  }

  /** The split chosen at the first minimum of the scores cuts at boundary
      t, halfway between the values on either side. */
  lemma SelectedCut(s: Scan, h: nat, q: nat) returns (t: nat)
    requires ScanReady(s) && DownPass(s).Success? && UpPass(s).Success?
    requires |DownPass(s).value.steps| > 0 && |UpPass(s).value.steps| == |DownPass(s).value.steps|
    ensures var v := SortedColumn(s); var bs := Breaks(v, |s.order|); var r := Selected(s, h, q);
      t < |bs| && t == r.orderIndex && r.threshold == (v[bs[t]] + v[bs[t] + 1]) / 2.0
  {
    t := CutValues(s);
  }

  /** The first minimum of the scores sits at a boundary t, and the two
      steps paired there carry the values on either side of it. */
  lemma CutValues(s: Scan) returns (t: nat)
    requires ScanReady(s) && DownPass(s).Success? && UpPass(s).Success?
    requires |DownPass(s).value.steps| > 0 && |UpPass(s).value.steps| == |DownPass(s).value.steps|
    ensures var v := SortedColumn(s); var bs := Breaks(v, |s.order|);
      var down, up := DownPass(s).value.steps, UpPass(s).value.steps;
      t == FirstMin(Scores(down, up)) && t < |bs| &&
      (down[t].interFeature + Mate(up, t).interFeature) / 2.0 == (v[bs[t]] + v[bs[t] + 1]) / 2.0
  {
    PassCounts(s);
    t := FirstMin(Scores(DownPass(s).value.steps, UpPass(s).value.steps));
    PairValues(s, t);
  }

  /** The threshold lies halfway between the values c[a] < c[b] of a column,
      and no value of the column lies strictly between those two. */
  predicate NeighbourMidpoint(c: seq<real>, a: int, b: int, threshold: real) {
    0 <= a < |c| && 0 <= b < |c| && c[a] < c[b] && threshold == (c[a] + c[b]) / 2.0 &&
    forall p :: 0 <= p < |c| ==> c[p] <= c[a] || c[p] >= c[b]
  }

  /** The threshold of a valid split is the midpoint of two neighbouring
      values of the column: a smaller value at row a and a larger one at row
      b, with no value of the column strictly between them. */
  lemma ScanThreshold(em: EMatrix, h: nat, d: nat, q: nat, bias: Vec, loss: SplitLoss, lambda: real,
                     raw: seq<Mat>, unbalanced: real, solve: Solver)
    requires ScanInputs(em, q, raw) && h == |em.inter| && d == Width(em.extra)
    requires ScanForSplitCluster(em, h, d, q, bias, loss, lambda, raw, unbalanced, solve).Success?
    requires ScanForSplitCluster(em, h, d, q, bias, loss, lambda, raw, unbalanced, solve).value.validSplit
    ensures var r := ScanForSplitCluster(em, h, d, q, bias, loss, lambda, raw, unbalanced, solve).value;
      exists a, b :: NeighbourMidpoint(Column(em.inter, q), a, b, r.threshold)
  {
    ScanSelected(em, h, d, q, bias, loss, lambda, raw, unbalanced, solve);
    ColumnSorted(em, q, bias, loss, raw, lambda, unbalanced, solve);
    SelectedMidpoint(ColumnScan(em, q, bias, loss, raw, lambda, unbalanced, solve), h, q);
  }

  /** The threshold of the selected split lies halfway between two
      neighbouring values of the column. */
  lemma SelectedMidpoint(s: Scan, h: nat, q: nat)
    requires ScanReady(s) && DownPass(s).Success? && UpPass(s).Success?
    requires |DownPass(s).value.steps| > 0 && |UpPass(s).value.steps| == |DownPass(s).value.steps|
    requires IsPermutation(s.order, |s.em.inter|) && Nondecreasing(SortedColumn(s))
    ensures exists a, b :: NeighbourMidpoint(Column(s.em.inter, s.q), a, b, Selected(s, h, q).threshold)
  {
    var t := SelectedCut(s, h, q);
    MidpointRows(s, t, Selected(s, h, q).threshold);
  }

  /** The midpoint of the values on either side of a boundary of the sorted
      column lies between two rows' values with nothing in between. */
  lemma MidpointRows(s: Scan, t: nat, threshold: real)
    requires ScanReady(s) && IsPermutation(s.order, |s.em.inter|) && Nondecreasing(SortedColumn(s))
    requires var v := SortedColumn(s); var bs := Breaks(v, |s.order|);
      t < |bs| && threshold == (v[bs[t]] + v[bs[t] + 1]) / 2.0
    ensures exists a, b :: NeighbourMidpoint(Column(s.em.inter, s.q), a, b, threshold)
  {
    NeighbourRows(s, t);
    var b := Breaks(SortedColumn(s), |s.order|)[t];
    var lo, hi := s.order[b], s.order[b + 1];
    assert NeighbourMidpoint(Column(s.em.inter, s.q), lo, hi, threshold);
  }

  /** Rows on either side of the t-th boundary of the sorted column: nothing
      in the column lies strictly between their values. */
  lemma NeighbourRows(s: Scan, t: nat)
    requires ScanReady(s) && IsPermutation(s.order, |s.em.inter|) && Nondecreasing(SortedColumn(s))
    requires t < |Breaks(SortedColumn(s), |s.order|)|
    ensures var v := SortedColumn(s); var b := Breaks(v, |s.order|)[t];
      var lo, hi, em, q := s.order[b], s.order[b + 1], s.em, s.q;
      0 <= lo < |em.inter| && 0 <= hi < |em.inter| &&
      em.inter[lo][q] == v[b] && em.inter[hi][q] == v[b + 1] && v[b] < v[b + 1] &&
      forall p :: 0 <= p < |em.inter| ==> em.inter[p][q] <= v[b] || em.inter[p][q] >= v[b + 1]
  {
    var v := SortedColumn(s);
    var b := Breaks(v, |s.order|)[t];
    BreakIffDistinct(v);
    assert IsBreak(v, b);
    forall p | 0 <= p < |s.em.inter| ensures s.em.inter[p][s.q] <= v[b] || s.em.inter[p][s.q] >= v[b + 1] {
      var k := RowPosition(s, p);
      assert v[k] == s.em.inter[p][s.q];
    }
  }
}

=== FILE: ebl_tree.dfy ===
/** One tree of the extra-boost engine, kept as a flat arena: the tree nodes
    in one sequence, addressed by index, and the leaves in a second one. An
    internal node names its two children by their indices in the node
    sequence; a leaf node names its leaf by its index in the leaf sequence. */
module EblTree {
  import opened Wrappers
  import opened Numeric
  import opened EblMatrix
  import opened EblScan

  /** A tree node. LeftIndex and RightIndex are -1 on a leaf node, LeafIndex
      is -1 on an internal node. */
  datatype TreeNode = TreeNode(
    treeNodeId: int, featureNumber: int, threshold: real, leftIndex: int, rightIndex: int,
    leafIndex: int, numberOfObjects: int, currentLoss: real, noSplit: bool)

  predicate IsLeaf(n: TreeNode) {
    n.leafIndex != -1
  }

  /** A node with no children and no leaf: not a leaf, not marked NoSplit. */
  function NewTreeNode(): (n: TreeNode)
    ensures !IsLeaf(n) && n.leftIndex == -1 && n.rightIndex == -1 && !n.noSplit
    ensures n.treeNodeId == 0 && n.featureNumber == 0 && n.numberOfObjects == 0 && n.currentLoss == 0.0
  {
    TreeNode(0, 0, 0.0, -1, -1, -1, 0, 0.0, false)
  }

  /** n is the internal node of split b: it tests b's feature against b's
      threshold and records b's object count and current loss. */
  predicate SplitNodeOf(n: TreeNode, b: BestSplit) {
    !IsLeaf(n) && !n.noSplit && n.featureNumber == b.featureIndex && n.threshold == b.threshold &&
    n.numberOfObjects == b.numberOfObjects && n.currentLoss == b.currentValue
  }

  /** The internal node of a split: the feature, threshold, object count and
      current loss of the split, children not yet attached. */
  function NewTreeNodeFromSplitInfo(split: BestSplit, treeNodeId: int): (n: TreeNode)
    ensures !IsLeaf(n) && n.treeNodeId == treeNodeId && !n.noSplit
    ensures n.featureNumber == split.featureIndex && n.threshold == split.threshold
    ensures n.numberOfObjects == split.numberOfObjects && n.currentLoss == split.currentValue
  {
    NewTreeNode().(treeNodeId := treeNodeId, featureNumber := split.featureIndex, threshold := split.threshold,
                   numberOfObjects := split.numberOfObjects, currentLoss := split.currentValue)
  }

  /** A leaf: the weight vector of its extra features, the record ids of its
      rows and their number. */
  datatype LeafNode = LeafNode(leafNodeId: int, prediction: Vec, recordIds: seq<int>, numberOfObjects: int)

  /** A leaf whose weights are the given weight change scaled by the
      learning rate; no id yet and no record ids. */
  function NewLeafNode(leafData: Vec, numberOfObjects: int, learningRate: real): (leaf: LeafNode)
    ensures |leaf.prediction| == |leafData|
    ensures forall i :: 0 <= i < |leafData| ==> leaf.prediction[i] == leafData[i] * learningRate
    ensures leaf.leafNodeId == -1 && leaf.recordIds == [] && leaf.numberOfObjects == numberOfObjects
  {
    LeafNode(-1, seq(|leafData|, i requires 0 <= i < |leafData| => leafData[i] * learningRate), [], numberOfObjects)
  }

  /** A tree: the extra depth d, the node arena, the leaf arena and one
      learning-curve value per monitored data set. */
  datatype OneTree = OneTree(d: nat, treeNodes: seq<TreeNode>, leafNodes: seq<LeafNode>, learningCurveRow: seq<real>)

  /** The settings of one tree build. The no-split solve of a root leaf
      (solveNoSplitDelta) is a parameter: it maps the data set and the extra
      depth to a weight vector. */
  datatype TreeParams = TreeParams(
    lambda: real, maxDepth: int, learningRate: real, loss: SplitLoss, unbalanced: real,
    solve: Solver, noSplitDelta: (EMatrix, nat) -> Vec)

  lemma RawHessianInputs(em: EMatrix, q: nat)
    requires Shaped(em) && q < Width(em.inter)
    ensures ScanInputs(em, q, RawHessian(em.extra))
  {
  }

  /** The split search in column q of a validated data set. */
  function ColumnSplit(em: EMatrix, bias: Vec, p: TreeParams, q: nat): (r: Result<BestSplit>)
    requires Shaped(em) && q < Width(em.inter)
    ensures r.Success? ==> r.value.featureIndex == q && r.value.numberOfObjects == |em.inter| && |bias| >= |em.inter|
  {
    RawHessianInputs(em, q);
    ScanForSplitCluster(em, |em.inter|, Width(em.extra), q, bias, p.loss, p.lambda, RawHessian(em.extra),
                        p.unbalanced, p.solve)
  }

  /** The split searches of all columns, in column order. */
  function ColumnSplits(em: EMatrix, bias: Vec, p: TreeParams): (cs: seq<Result<BestSplit>>)
    requires Shaped(em)
    ensures |cs| == Width(em.inter)
    ensures forall q :: 0 <= q < |cs| ==> cs[q] == ColumnSplit(em, bias, p, q)
  {
    seq(Width(em.inter), q requires 0 <= q < Width(em.inter) => ColumnSplit(em, bias, p, q))
  }

  /** The outcomes of a sequence of computations run in order: all the
      values when every one succeeds, else the error of the first failure
      (which aborts the rest). */
  function Collect<T>(rs: seq<Result<T>>): (r: Result<seq<T>>)
    ensures r.Success? ==> |r.value| == |rs| && forall q :: 0 <= q < |rs| ==> rs[q] == Success(r.value[q])
  {
    if |rs| == 0 then Success([])
    else
      var prev :- Collect(rs[..|rs| - 1]);
      var last :- rs[|rs| - 1];
      Success(prev + [last])
  }

  /** Collect fails exactly when one computation does, and then with the
      error of the first failing one. */
  lemma {:induction false} CollectFailure<T>(rs: seq<Result<T>>)
    ensures Collect(rs).Success? <==> forall q :: 0 <= q < |rs| ==> rs[q].Success?
    ensures Collect(rs).Failure? ==>
      exists q :: 0 <= q < |rs| && rs[q] == Failure(Collect(rs).error) && forall k :: 0 <= k < q ==> rs[k].Success?
  {
    if |rs| > 0 {
      var front := rs[..|rs| - 1];
      CollectFailure(front);
      assert forall q :: 0 <= q < |front| ==> front[q] == rs[q];
    }
  }

  /** The selection loop of TheBestSplit from column i on: a valid column
      replaces the best so far on the first valid column or when its loss is
      strictly smaller. */
  function SelectColumn(rs: seq<BestSplit>, i: nat, firstTime: bool, minimalLoss: real, bestIndex: nat): (r: Option<nat>)
    requires i <= |rs|
    decreases |rs| - i
  {
    if i == |rs| then (if firstTime then None else Some(bestIndex))
    else if rs[i].validSplit && (firstTime || minimalLoss > rs[i].bestValue) then
      SelectColumn(rs, i + 1, false, rs[i].bestValue, i)
    else SelectColumn(rs, i + 1, firstTime, minimalLoss, bestIndex)
  }

  /** Column k is valid, no valid column has a smaller loss, and every
      earlier valid column a strictly larger one. */
  predicate IsBestColumn(rs: seq<BestSplit>, k: nat) {
    k < |rs| && rs[k].validSplit &&
    (forall j :: 0 <= j < |rs| && rs[j].validSplit ==> rs[k].bestValue <= rs[j].bestValue) &&
    (forall j :: 0 <= j < k && rs[j].validSplit ==> rs[k].bestValue < rs[j].bestValue)
  }

  /** The state of the selection loop after the first i columns. */
  predicate SelectInvariant(rs: seq<BestSplit>, i: nat, firstTime: bool, minimalLoss: real, bestIndex: nat) {
    i <= |rs| &&
    (firstTime ==> forall j :: 0 <= j < i ==> !rs[j].validSplit) &&
    (!firstTime ==> bestIndex < i && minimalLoss == rs[bestIndex].bestValue && IsBestColumn(rs[..i], bestIndex))
  }

  lemma {:induction false} SelectColumnSpec(rs: seq<BestSplit>, i: nat, firstTime: bool, minimalLoss: real, bestIndex: nat)
    requires SelectInvariant(rs, i, firstTime, minimalLoss, bestIndex)
    ensures var r := SelectColumn(rs, i, firstTime, minimalLoss, bestIndex);
      (r.None? <==> forall j :: 0 <= j < |rs| ==> !rs[j].validSplit) &&
      (r.Some? ==> IsBestColumn(rs, r.value))
    decreases |rs| - i
  {
    if i == |rs| {
      assert rs[..i] == rs;
    } else {
      assert rs[..i + 1][..i] == rs[..i];
      if rs[i].validSplit && (firstTime || minimalLoss > rs[i].bestValue) {
        SelectColumnSpec(rs, i + 1, false, rs[i].bestValue, i);
      } else {
        SelectColumnSpec(rs, i + 1, firstTime, minimalLoss, bestIndex);
      }
    }
  }

  /** The best column is unique: the first of the least losses. */
  lemma BestColumnUnique(rs: seq<BestSplit>, a: nat, b: nat)
    requires IsBestColumn(rs, a) && IsBestColumn(rs, b)
    ensures a == b
  {
  }

  /** TheBestSplit, run column by column: validate the dimensions, search
      every column, and return the best valid split, or none when no column
      has one. A panic in the dimensions or in a column search aborts it. */
  function TheBestSplit(em: EMatrix, bias: Vec, p: TreeParams): (r: Result<Option<BestSplit>>)
    requires DenseParts(em)
    ensures r.Success? ==> Shaped(em)
    ensures r.Success? && r.value.Some? ==>
      var b := r.value.value;
      b.validSplit && 0 <= b.featureIndex < Width(em.inter) && b.numberOfObjects == |em.inter| &&
      |bias| >= |em.inter| && ColumnSplit(em, bias, p, b.featureIndex) == Success(b)
  {
    var dims :- ValidatedDimensions(em);
    var rs :- Collect(ColumnSplits(em, bias, p));
    var k := SelectColumn(rs, 0, true, 0.0, 0);
    SelectColumnSpec(rs, 0, true, 0.0, 0);
    if k.None? then Success(None) else Success(Some(rs[k.value]))
  }

  /** Past the dimension check, TheBestSplit fails exactly when a column
      search does; otherwise it finds nothing exactly when no column has a
      valid split, and else the valid column of least loss, the first one
      among equals. */
  lemma TheBestSplitChoice(em: EMatrix, bias: Vec, p: TreeParams)
    requires Shaped(em)
    ensures var r := TheBestSplit(em, bias, p); var w := Width(em.inter);
      (r.Success? <==> forall q :: 0 <= q < w ==> ColumnSplit(em, bias, p, q).Success?) &&
      (r.Success? ==> (Collect(ColumnSplits(em, bias, p)).Success? &&
        var rs := Collect(ColumnSplits(em, bias, p)).value;
        (r.value.None? <==> forall q :: 0 <= q < w ==> !rs[q].validSplit) &&
        (r.value.Some? ==> IsBestColumn(rs, r.value.value.featureIndex))))
  {
    var cs := ColumnSplits(em, bias, p);
    CollectFailure(cs);
    assert ValidatedDimensions(em).Success?;
    if Collect(cs).Success? {
      var rs := Collect(cs).value;
      var k := SelectColumn(rs, 0, true, 0.0, 0);
      SelectColumnSpec(rs, 0, true, 0.0, 0);
      assert TheBestSplit(em, bias, p) == if k.None? then Success(None) else Success(Some(rs[k.value]));
      if k.Some? {
        assert cs[k.value] == Success(rs[k.value]);
      }
    }
  }

  /** Node i of the arena is well formed: it carries its own index, a leaf
      node has no children and names a leaf that carries the same index, and
      an internal node tests a feature below w and names two children that
      come after it in the arena. */
  predicate NodeOk(t: OneTree, i: nat, w: nat)
    requires i < |t.treeNodes|
  {
    var n := t.treeNodes[i];
    n.treeNodeId == i &&
    if IsLeaf(n) then
      n.leftIndex == -1 && n.rightIndex == -1 && 0 <= n.leafIndex < |t.leafNodes| &&
      t.leafNodes[n.leafIndex].leafNodeId == n.leafIndex
    else
      i < n.leftIndex < |t.treeNodes| && i < n.rightIndex < |t.treeNodes| && 0 <= n.featureNumber < w
  }

  /** The number of leaf nodes in a node sequence. */
  function LeafCount(nodes: seq<TreeNode>): nat
    decreases |nodes|
  {
    if |nodes| == 0 then 0 else LeafCount(nodes[..|nodes| - 1]) + (if IsLeaf(nodes[|nodes| - 1]) then 1 else 0)
  }

  /** The objects of all leaves, counted. */
  function ObjectCount(leaves: seq<LeafNode>): int
    decreases |leaves|
  {
    if |leaves| == 0 then 0 else ObjectCount(leaves[..|leaves| - 1]) + leaves[|leaves| - 1].numberOfObjects
  }

  /** The record ids of all leaves, each once per occurrence. */
  function LeafIds(leaves: seq<LeafNode>): multiset<int>
    decreases |leaves|
  {
    if |leaves| == 0 then multiset{} else LeafIds(leaves[..|leaves| - 1]) + multiset(leaves[|leaves| - 1].recordIds)
  }

  /** Building one subtree into t gave r: the arena only grew, the subtree
      occupies the nodes from `id` on with its root at `id`, every one of its
      nodes is well formed, every new leaf carries its own index, and it has
      one leaf more than it has internal nodes. */
  predicate Extends(t: OneTree, r: OneTree, id: nat, h: nat, w: nat) {
    |t.treeNodes| == id < |r.treeNodes| && |t.leafNodes| < |r.leafNodes| &&
    r.treeNodes[..id] == t.treeNodes && r.leafNodes[..|t.leafNodes|] == t.leafNodes &&
    r.d == t.d && r.learningCurveRow == t.learningCurveRow &&
    r.treeNodes[id].numberOfObjects == h &&
    |r.treeNodes| - id == 2 * (|r.leafNodes| - |t.leafNodes|) - 1 &&
    LeafCount(r.treeNodes) == LeafCount(t.treeNodes) + (|r.leafNodes| - |t.leafNodes|) &&
    (forall i :: id <= i < |r.treeNodes| ==> NodeOk(r, i, w)) &&
    (forall k :: |t.leafNodes| <= k < |r.leafNodes| ==> r.leafNodes[k].leafNodeId == k)
  }

  /** The leaf handed down for em describes em: its object count is em's
      height and it has no record ids yet. */
  predicate LeafFor(leafInfo: Option<LeafNode>, em: EMatrix) {
    leafInfo.Some? ==> leafInfo.value.numberOfObjects == |em.inter| && leafInfo.value.recordIds == []
  }

  /** The new leaves hold every object of em once: their object counts add
      up to em's height, and their record ids are em's. */
  predicate Covers(t: OneTree, r: OneTree, em: EMatrix) {
    ObjectCount(r.leafNodes) == ObjectCount(t.leafNodes) + |em.inter| &&
    (|em.recordIds| == |em.inter| ==> LeafIds(r.leafNodes) == LeafIds(t.leafNodes) + multiset(em.recordIds))
  }

  /** When the subtree rooted at `id` is a single leaf, it is the first leaf
      appended to t, and it carries the weights of the leaf handed down. */
  predicate LeafRoot(t: OneTree, r: OneTree, id: nat, leafInfo: Option<LeafNode>) {
    id < |r.treeNodes| && |t.leafNodes| < |r.leafNodes| &&
    (IsLeaf(r.treeNodes[id]) ==>
      r.treeNodes[id].leafIndex == |t.leafNodes| &&
      (leafInfo.Some? ==> r.leafNodes[|t.leafNodes|].prediction == leafInfo.value.prediction))
  }

  /** The split node `id` appended to t has its left subtree built from the
      left half and its right subtree from the right half: the leaves of
      the left subtree come first (up to m) and hold the left half's record
      ids and rows, those of the right subtree follow and hold the right
      half's; a child that is a single leaf carries the weights `up` (left)
      or `down` (right). */
  predicate Children(t: OneTree, f: OneTree, id: nat, halves: Halves, up: Vec, down: Vec) {
    id < |f.treeNodes| &&
    var rid := f.treeNodes[id].rightIndex;
    var m := |t.leafNodes| + (rid - id) / 2;
    id + 1 < rid < |f.treeNodes| && |t.leafNodes| < m < |f.leafNodes| &&
    ObjectCount(f.leafNodes[..m]) == ObjectCount(t.leafNodes) + |halves.left.inter| &&
    ObjectCount(f.leafNodes) == ObjectCount(f.leafNodes[..m]) + |halves.right.inter| &&
    LeafIds(f.leafNodes[..m]) == LeafIds(t.leafNodes) + multiset(halves.left.recordIds) &&
    LeafIds(f.leafNodes) == LeafIds(f.leafNodes[..m]) + multiset(halves.right.recordIds) &&
    (IsLeaf(f.treeNodes[id + 1]) ==>
      f.treeNodes[id + 1].leafIndex == |t.leafNodes| && f.leafNodes[|t.leafNodes|].prediction == up) &&
    (IsLeaf(f.treeNodes[rid]) ==> f.treeNodes[rid].leafIndex == m && f.leafNodes[m].prediction == down)
  }

  /** The weights of a root leaf: the current weight change of the split
      search when there is one, else the no-split solve. */
  function RootDelta(t: OneTree, em: EMatrix, p: TreeParams, bestSplit: Option<BestSplit>): Vec {
    if bestSplit.Some? && bestSplit.value.deltaCurrent.Some? then bestSplit.value.deltaCurrent.value
    else p.noSplitDelta(em, t.d)
  }

  /** The leaf node makeLeafNode appends: em's height, the current loss of
      the split search when there was one, and when marked NoSplit the
      feature -1. */
  function LeafTreeNode(id: nat, h: nat, bestSplit: Option<BestSplit>, markNoSplit: bool, k: nat): (n: TreeNode)
    ensures IsLeaf(n) && n.treeNodeId == id && n.leafIndex == k && n.leftIndex == -1 && n.rightIndex == -1
    ensures n.numberOfObjects == h && n.noSplit == markNoSplit && n.featureNumber == (if markNoSplit then -1 else 0)
    ensures n.currentLoss == (if bestSplit.Some? then bestSplit.value.currentValue else 0.0)
  {
    var node := NewTreeNode().(treeNodeId := id, numberOfObjects := h,
      currentLoss := if bestSplit.Some? then bestSplit.value.currentValue else 0.0);
    (if markNoSplit then node.(noSplit := true, featureNumber := -1) else node).(leafIndex := k)
  }

  /** The leaf makeLeafNode appends: the one handed down, or a new one
      from RootDelta; it takes em's record ids when it has none. */
  function LeafOf(t: OneTree, em: EMatrix, leafInfo: Option<LeafNode>, p: TreeParams,
                  bestSplit: Option<BestSplit>, k: nat): (leaf: LeafNode)
    ensures leaf.leafNodeId == k
    ensures LeafFor(leafInfo, em) ==> leaf.numberOfObjects == |em.inter| && leaf.recordIds == em.recordIds
    ensures leafInfo.Some? ==> leaf.prediction == leafInfo.value.prediction &&
                               leaf.numberOfObjects == leafInfo.value.numberOfObjects
    ensures leafInfo.None? ==> (leaf.numberOfObjects == |em.inter| &&
      var delta := RootDelta(t, em, p, bestSplit);
      |leaf.prediction| == |delta| &&
      forall i :: 0 <= i < |delta| ==> leaf.prediction[i] == delta[i] * p.learningRate)
  {
    var leaf := if leafInfo.Some? then leafInfo.value
                else NewLeafNode(RootDelta(t, em, p, bestSplit), |em.inter|, p.learningRate);
    var leaf' := if leaf.recordIds == [] && |em.recordIds| > 0 then leaf.(recordIds := em.recordIds) else leaf;
    leaf'.(leafNodeId := k)
  }

  function AppendLeaf(t: OneTree, n: TreeNode, leaf: LeafNode): OneTree {
    t.(treeNodes := t.treeNodes + [n], leafNodes := t.leafNodes + [leaf])
  }

  /** Appending a well-formed leaf node and its leaf is a one-node subtree. */
  lemma AppendLeafExtends(t: OneTree, n: TreeNode, leaf: LeafNode, h: nat, w: nat)
    requires IsLeaf(n) && n.treeNodeId == |t.treeNodes| && n.leafIndex == |t.leafNodes| && leaf.leafNodeId == |t.leafNodes|
    requires n.leftIndex == -1 && n.rightIndex == -1 && n.numberOfObjects == h
    ensures var r := AppendLeaf(t, n, leaf);
      Extends(t, r, |t.treeNodes|, h, w) &&
      ObjectCount(r.leafNodes) == ObjectCount(t.leafNodes) + leaf.numberOfObjects &&
      LeafIds(r.leafNodes) == LeafIds(t.leafNodes) + multiset(leaf.recordIds)
  {
    var r := AppendLeaf(t, n, leaf);
    assert r.treeNodes[..|r.treeNodes| - 1] == t.treeNodes;
    assert r.leafNodes[..|r.leafNodes| - 1] == t.leafNodes;
  }

  /** makeLeafNode: append a leaf node for em and its leaf, both carrying
      the leaf's index. */
  function MakeLeafNode(t: OneTree, em: EMatrix, leafInfo: Option<LeafNode>, p: TreeParams,
                        bestSplit: Option<BestSplit>, markNoSplit: bool): (r: (OneTree, nat))
    ensures Extends(t, r.0, r.1, |em.inter|, Width(em.inter))
    ensures LeafFor(leafInfo, em) ==> Covers(t, r.0, em)
    ensures |r.0.treeNodes| == |t.treeNodes| + 1 && |r.0.leafNodes| == |t.leafNodes| + 1
    ensures r.0.treeNodes[r.1] == LeafTreeNode(r.1, |em.inter|, bestSplit, markNoSplit, |t.leafNodes|)
    ensures r.0.leafNodes[|t.leafNodes|] == LeafOf(t, em, leafInfo, p, bestSplit, |t.leafNodes|)
  {
    var id, k := |t.treeNodes|, |t.leafNodes|;
    var n := LeafTreeNode(id, |em.inter|, bestSplit, markNoSplit, k);
    var leaf := LeafOf(t, em, leafInfo, p, bestSplit, k);
    AppendLeafExtends(t, n, leaf, |em.inter|, Width(em.inter));
    (AppendLeaf(t, n, leaf), id)
  }

  /** The recursion measure of BuildTree: the root always tries a split,
      a node below it only while it is above the depth limit. */
  function Fuel(root: bool, depth: int, maxDepth: int): nat {
    (if root then 1 else 0) + (if depth < maxDepth then maxDepth - depth else 0)
  }

  /** A child one level deeper has less depth budget than a parent that was
      allowed to split. */
  lemma FuelDrops(root: bool, child: Option<LeafNode>, depth: int, maxDepth: int)
    requires root || depth < maxDepth
    requires child.Some?
    ensures Fuel(child.None?, depth + 1, maxDepth) < Fuel(root, depth, maxDepth)
  {
  }

  /** A split is tried at the root, and below it only above the depth limit
      and on more than five rows. */
  predicate ShouldSplit(leafInfo: Option<LeafNode>, currentDepth: int, maxDepth: int, h: nat) {
    leafInfo.None? || (currentDepth < maxDepth && h > 5)
  }

  function SetLeft(t: OneTree, id: nat, c: int): (r: OneTree)
    requires id < |t.treeNodes|
  {
    t.(treeNodes := t.treeNodes[id := t.treeNodes[id].(leftIndex := c)])
  }

  function SetRight(t: OneTree, id: nat, c: int): (r: OneTree)
    requires id < |t.treeNodes|
  {
    t.(treeNodes := t.treeNodes[id := t.treeNodes[id].(rightIndex := c)])
  }

  /** BuildTree: build the subtree of em into the arena and return the index
      of its root node. Where a split is tried and the best split is valid,
      an internal node is appended and the two halves are built below it;
      otherwise em becomes a leaf, marked NoSplit when a split was tried in
      vain. `leafInfo` is the leaf the parent prepared (none at the root). */
  function BuildTree(t: OneTree, em: EMatrix, bias: Vec, leafInfo: Option<LeafNode>, currentDepth: int,
                     p: TreeParams): (r: Result<(OneTree, nat)>)
    requires DenseParts(em)
    ensures r.Success? ==> Extends(t, r.value.0, r.value.1, |em.inter|, Width(em.inter))
    ensures r.Success? && LeafFor(leafInfo, em) ==> Covers(t, r.value.0, em)
    ensures r.Success? ==> LeafRoot(t, r.value.0, r.value.1, leafInfo)
    decreases Fuel(leafInfo.None?, currentDepth, p.maxDepth), 2
  {
    if ShouldSplit(leafInfo, currentDepth, p.maxDepth, |em.inter|) then
      var bestSplit :- TheBestSplit(em, bias, p);
      if bestSplit.Some? && bestSplit.value.validSplit then
        GrowSplit(t, em, bias, bestSplit.value, leafInfo.None?, currentDepth, p)
      else
        // tried in vain: no split, or no valid one
        Success(MakeLeafNode(t, em, leafInfo, p, bestSplit, true))
    else
      Success(MakeLeafNode(t, em, leafInfo, p, None, false))
  }

  /** The split branch of BuildTree: append the internal node, split em,
      and build the two halves below it. */
  function GrowSplit(t: OneTree, em: EMatrix, bias: Vec, b: BestSplit, root: bool, currentDepth: int,
                     p: TreeParams): (r: Result<(OneTree, nat)>)
    requires Shaped(em) && 0 <= b.featureIndex < Width(em.inter) && |bias| >= |em.inter|
    requires b.numberOfObjects == |em.inter|
    requires root || currentDepth < p.maxDepth
    ensures r.Success? ==> Extends(t, r.value.0, r.value.1, |em.inter|, Width(em.inter))
    ensures r.Success? ==> Covers(t, r.value.0, em)
    ensures r.Success? ==> (!IsLeaf(r.value.0.treeNodes[r.value.1]) &&
      r.value.0.treeNodes[r.value.1].leftIndex == r.value.1 + 1)
    ensures r.Success? ==> (Split(em, bias, b.featureIndex, b.threshold).Success? &&
      var halves := Split(em, bias, b.featureIndex, b.threshold).value;
      Children(t, r.value.0, r.value.1, halves,
               NewLeafNode(b.deltaUp, |halves.left.inter|, p.learningRate).prediction,
               NewLeafNode(b.deltaDown, |halves.right.inter|, p.learningRate).prediction))
    ensures r.Success? ==> SplitNodeOf(r.value.0.treeNodes[r.value.1], b)
    decreases Fuel(root, currentDepth, p.maxDepth), 1
  {
    var halves :- Split(em, bias, b.featureIndex, b.threshold);
    SplitHalvesOk(em, bias, b.featureIndex, b.threshold);
    GrowHalves(t, em, b, halves, root, currentDepth, p)
  }

  /** What BuildTree relies on about the two halves of a split: both are
      well shaped with the parent's width, their record ids are their rows'
      and together the parent's, and their heights add up to the parent's. */
  predicate HalvesOk(em: EMatrix, s: Halves) {
    Shaped(s.left) && Shaped(s.right) &&
    Width(s.left.inter) == Width(em.inter) && Width(s.right.inter) == Width(em.inter) &&
    |s.left.inter| + |s.right.inter| == |em.inter| &&
    |s.left.recordIds| == |s.left.inter| && |s.right.recordIds| == |s.right.inter| &&
    |em.recordIds| >= |em.inter| &&
    multiset(s.left.recordIds) + multiset(s.right.recordIds) == multiset(em.recordIds[..|em.inter|])
  }

  lemma SplitHalvesOk(em: EMatrix, bias: Vec, f: nat, threshold: real)
    requires Shaped(em) && f < Width(em.inter) && |bias| >= |em.inter|
    requires Split(em, bias, f, threshold).Success?
    ensures HalvesOk(em, Split(em, bias, f, threshold).value)
  {
    SplitShaped(em, bias, f, threshold);
    SplitRecordIds(em, bias, f, threshold);
  }

  /** Append the internal node, build the left half below it with the left
      weight change as its leaf, then the right half with the right one,
      and link both children. */
  function GrowHalves(t: OneTree, em: EMatrix, b: BestSplit, halves: Halves, root: bool, currentDepth: int,
                      p: TreeParams): (r: Result<(OneTree, nat)>)
    requires HalvesOk(em, halves) && 0 <= b.featureIndex < Width(em.inter) && b.numberOfObjects == |em.inter|
    requires root || currentDepth < p.maxDepth
    ensures r.Success? ==> Extends(t, r.value.0, r.value.1, |em.inter|, Width(em.inter))
    ensures r.Success? ==> Covers(t, r.value.0, em)
    ensures r.Success? ==> (!IsLeaf(r.value.0.treeNodes[r.value.1]) &&
      r.value.0.treeNodes[r.value.1].leftIndex == r.value.1 + 1)
    ensures r.Success? ==> Children(t, r.value.0, r.value.1, halves,
      NewLeafNode(b.deltaUp, |halves.left.inter|, p.learningRate).prediction,
      NewLeafNode(b.deltaDown, |halves.right.inter|, p.learningRate).prediction)
    ensures r.Success? ==> SplitNodeOf(r.value.0.treeNodes[r.value.1], b)
    decreases Fuel(root, currentDepth, p.maxDepth), 0
  {
    var id: nat := |t.treeNodes|;
    var t1 := t.(treeNodes := t.treeNodes + [NewTreeNodeFromSplitInfo(b, id)]);
    var leftLeaf := NewLeafNode(b.deltaUp, |halves.left.inter|, p.learningRate);
    var left :- BuildTree(t1, halves.left, halves.leftBias, Some(leftLeaf), currentDepth + 1, p);
    var t2 := SetLeft(left.0, id, left.1);
    var rightLeaf := NewLeafNode(b.deltaDown, |halves.right.inter|, p.learningRate);
    var right :- BuildTree(t2, halves.right, halves.rightBias, Some(rightLeaf), currentDepth + 1, p);
    var f := SetRight(right.0, id, right.1);
    SplitExtends(t, b, |em.inter|, Width(em.inter), t1,
                 left.0, left.1, |halves.left.inter|, Width(halves.left.inter), t2,
                 right.0, right.1, |halves.right.inter|, Width(halves.right.inter), f);
    SplitCovers(t, t1, left.0, t2, right.0, f, em, halves.left, halves.right);
    SplitChildren(t, b, t1, left.0, left.1, t2, right.0, right.1, f, halves, leftLeaf, rightLeaf);
    Success((f, id))
  }

  /** The arena after a split node and its two subtrees is one subtree. */
  lemma SplitExtends(t: OneTree, b: BestSplit, h: nat, w: nat, t1: OneTree,
                     l: OneTree, lid: nat, hl: nat, wl: nat, t2: OneTree,
                     r: OneTree, rid: nat, hr: nat, wr: nat, f: OneTree)
    requires 0 <= b.featureIndex < w && b.numberOfObjects == h && wl == w && wr == w
    requires t1 == t.(treeNodes := t.treeNodes + [NewTreeNodeFromSplitInfo(b, |t.treeNodes|)])
    requires Extends(t1, l, lid, hl, wl)
    requires |t.treeNodes| < |l.treeNodes| && t2 == SetLeft(l, |t.treeNodes|, lid)
    requires Extends(t2, r, rid, hr, wr)
    requires |t.treeNodes| < |r.treeNodes| && f == SetRight(r, |t.treeNodes|, rid)
    ensures Extends(t, f, |t.treeNodes|, h, w)
    ensures !IsLeaf(f.treeNodes[|t.treeNodes|]) && f.treeNodes[|t.treeNodes|].leftIndex == |t.treeNodes| + 1
    ensures SplitNodeOf(f.treeNodes[|t.treeNodes|], b)
  {
    var id := |t.treeNodes|;
    var n := NewTreeNodeFromSplitInfo(b, id);
    SplitPrefix(t, n, t1, l, t2, r, f);
    assert f.treeNodes[id] == n.(leftIndex := id + 1, rightIndex := rid);
    SplitLeafCount(t, n, t1, l, t2, r, f);
    SplitNodesOk(t, n, w, t1, l, t2, r, f, rid);
  }

  /** The prefix before the split node is untouched, and the split node is
      the one appended, with both children linked. */
  lemma SplitPrefix(t: OneTree, n: TreeNode, t1: OneTree, l: OneTree, t2: OneTree, r: OneTree, f: OneTree)
    requires t1 == t.(treeNodes := t.treeNodes + [n])
    requires |t1.treeNodes| <= |l.treeNodes| && l.treeNodes[..|t1.treeNodes|] == t1.treeNodes
    requires |t1.leafNodes| <= |l.leafNodes| && l.leafNodes[..|t1.leafNodes|] == t1.leafNodes
    requires l.d == t1.d && l.learningCurveRow == t1.learningCurveRow
    requires t2 == SetLeft(l, |t.treeNodes|, |t.treeNodes| + 1)
    requires |t2.treeNodes| <= |r.treeNodes| && r.treeNodes[..|t2.treeNodes|] == t2.treeNodes
    requires |t2.leafNodes| <= |r.leafNodes| && r.leafNodes[..|t2.leafNodes|] == t2.leafNodes
    requires r.d == t2.d && r.learningCurveRow == t2.learningCurveRow
    requires exists c :: f == SetRight(r, |t.treeNodes|, c)
    ensures f.treeNodes[..|t.treeNodes|] == t.treeNodes && f.leafNodes[..|t.leafNodes|] == t.leafNodes
    ensures f.d == t.d && f.learningCurveRow == t.learningCurveRow
    ensures f.treeNodes[|t.treeNodes|] == n.(leftIndex := |t.treeNodes| + 1, rightIndex := f.treeNodes[|t.treeNodes|].rightIndex)
    ensures forall i :: |t.treeNodes| < i < |f.treeNodes| ==> f.treeNodes[i] == r.treeNodes[i]
    ensures forall i :: |t.treeNodes| < i < |t2.treeNodes| ==> r.treeNodes[i] == l.treeNodes[i]
    ensures f.leafNodes == r.leafNodes && t2.leafNodes == l.leafNodes
  {
    var id := |t.treeNodes|;
    assert r.treeNodes[id] == t2.treeNodes[id];
    assert l.treeNodes[id] == t1.treeNodes[id] == n;
    forall i | 0 <= i < id ensures f.treeNodes[i] == t.treeNodes[i] {
      assert r.treeNodes[i] == t2.treeNodes[i] == l.treeNodes[i] == t1.treeNodes[i];
    }
    forall i | id < i < |t2.treeNodes| ensures r.treeNodes[i] == l.treeNodes[i] {
      assert r.treeNodes[i] == t2.treeNodes[i];
    }
  }

  lemma LeafCountAppend(s: seq<TreeNode>, x: TreeNode)
    ensures LeafCount(s + [x]) == LeafCount(s) + (if IsLeaf(x) then 1 else 0)
  {
    assert (s + [x])[..|s|] == s;
  }

  /** Changing a node without changing whether it is a leaf keeps the count. */
  lemma {:induction false} LeafCountUpdate(s: seq<TreeNode>, i: nat, x: TreeNode)
    requires i < |s| && IsLeaf(s[i]) == IsLeaf(x)
    ensures LeafCount(s[i := x]) == LeafCount(s)
    decreases |s|
  {
    var n := |s|;
    if i == n - 1 {
      assert s[i := x][..n - 1] == s[..n - 1];
    } else {
      assert s[i := x][..n - 1] == s[..n - 1][i := x];
      LeafCountUpdate(s[..n - 1], i, x);
    }
  }

  /** The split node and the leaves of both subtrees add up. */
  lemma SplitLeafCount(t: OneTree, n: TreeNode, t1: OneTree, l: OneTree, t2: OneTree, r: OneTree, f: OneTree)
    requires !IsLeaf(n) && t1 == t.(treeNodes := t.treeNodes + [n])
    requires |t.treeNodes| < |l.treeNodes| && !IsLeaf(l.treeNodes[|t.treeNodes|])
    requires LeafCount(l.treeNodes) == LeafCount(t1.treeNodes) + (|l.leafNodes| - |t1.leafNodes|)
    requires t2 == SetLeft(l, |t.treeNodes|, |t.treeNodes| + 1)
    requires |t.treeNodes| < |r.treeNodes| && !IsLeaf(r.treeNodes[|t.treeNodes|])
    requires LeafCount(r.treeNodes) == LeafCount(t2.treeNodes) + (|r.leafNodes| - |t2.leafNodes|)
    requires exists c :: f == SetRight(r, |t.treeNodes|, c)
    ensures LeafCount(f.treeNodes) == LeafCount(t.treeNodes) + (|r.leafNodes| - |t.leafNodes|)
  {
    var id := |t.treeNodes|;
    LeafCountAppend(t.treeNodes, n);
    LeafCountUpdate(l.treeNodes, id, l.treeNodes[id].(leftIndex := id + 1));
    LeafCountUpdate(r.treeNodes, id, f.treeNodes[id]);
  }

  /** A well-formed node stays well formed when the arena grows around it. */
  lemma NodeOkGrows(a: OneTree, b: OneTree, i: nat, w: nat)
    requires i < |a.treeNodes| <= |b.treeNodes| && b.treeNodes[i] == a.treeNodes[i]
    requires |a.leafNodes| <= |b.leafNodes| && b.leafNodes[..|a.leafNodes|] == a.leafNodes
    requires NodeOk(a, i, w)
    ensures NodeOk(b, i, w)
  {
    if IsLeaf(a.treeNodes[i]) {
      var k := a.treeNodes[i].leafIndex;
      assert b.leafNodes[k] == b.leafNodes[..|a.leafNodes|][k];
    }
  }

  /** Every node of the split subtree is well formed, and so is every new
      leaf. */
  lemma SplitNodesOk(t: OneTree, n: TreeNode, w: nat, t1: OneTree, l: OneTree, t2: OneTree, r: OneTree, f: OneTree, rid: nat)
    requires !IsLeaf(n) && n.treeNodeId == |t.treeNodes| && 0 <= n.featureNumber < w
    requires t1 == t.(treeNodes := t.treeNodes + [n])
    requires |t1.treeNodes| < |l.treeNodes| && |t1.leafNodes| <= |l.leafNodes|
    requires forall i :: |t1.treeNodes| <= i < |l.treeNodes| ==> NodeOk(l, i, w)
    requires forall k :: |t1.leafNodes| <= k < |l.leafNodes| ==> l.leafNodes[k].leafNodeId == k
    requires t2 == SetLeft(l, |t.treeNodes|, |t.treeNodes| + 1)
    requires |t2.treeNodes| == rid < |r.treeNodes| && |t2.leafNodes| <= |r.leafNodes|
    requires r.leafNodes[..|t2.leafNodes|] == t2.leafNodes
    requires forall i :: rid <= i < |r.treeNodes| ==> NodeOk(r, i, w)
    requires forall k :: |t2.leafNodes| <= k < |r.leafNodes| ==> r.leafNodes[k].leafNodeId == k
    requires f == SetRight(r, |t.treeNodes|, rid)
    requires f.treeNodes[|t.treeNodes|] == n.(leftIndex := |t.treeNodes| + 1, rightIndex := rid)
    requires forall i :: |t.treeNodes| < i < |t2.treeNodes| ==> r.treeNodes[i] == l.treeNodes[i]
    ensures forall i :: |t.treeNodes| <= i < |f.treeNodes| ==> NodeOk(f, i, w)
    ensures forall k :: |t.leafNodes| <= k < |f.leafNodes| ==> f.leafNodes[k].leafNodeId == k
  {
    var id := |t.treeNodes|;
    forall i | id < i < |f.treeNodes| ensures NodeOk(f, i, w) {
      if i < rid {
        NodeOkGrows(l, f, i, w);
      } else {
        NodeOkGrows(r, f, i, w);
      }
    }
    forall k | |t.leafNodes| <= k < |l.leafNodes| ensures f.leafNodes[k].leafNodeId == k {
      assert f.leafNodes[k] == r.leafNodes[..|t2.leafNodes|][k];
    }
  }

  /** The two subtrees below a split node are those of the two halves, in
      that order. */
  lemma SplitChildren(t: OneTree, b: BestSplit, t1: OneTree, l: OneTree, lid: nat, t2: OneTree,
                      r: OneTree, rid: nat, f: OneTree, halves: Halves, leftLeaf: LeafNode, rightLeaf: LeafNode)
    requires t1 == t.(treeNodes := t.treeNodes + [NewTreeNodeFromSplitInfo(b, |t.treeNodes|)])
    requires Extends(t1, l, lid, |halves.left.inter|, Width(halves.left.inter))
    requires |t.treeNodes| < |l.treeNodes| && t2 == SetLeft(l, |t.treeNodes|, lid)
    requires Extends(t2, r, rid, |halves.right.inter|, Width(halves.right.inter))
    requires |t.treeNodes| < |r.treeNodes| && f == SetRight(r, |t.treeNodes|, rid)
    requires |halves.left.recordIds| == |halves.left.inter| && |halves.right.recordIds| == |halves.right.inter|
    requires Covers(t1, l, halves.left) && Covers(t2, r, halves.right)
    requires LeafRoot(t1, l, lid, Some(leftLeaf)) && LeafRoot(t2, r, rid, Some(rightLeaf))
    ensures Children(t, f, |t.treeNodes|, halves, leftLeaf.prediction, rightLeaf.prediction)
  {
    ExtendsShape(t1, l, lid, |halves.left.inter|, Width(halves.left.inter));
    ExtendsShape(t2, r, rid, |halves.right.inter|, Width(halves.right.inter));
    SubtreesInOrder(t, t1, l, lid, t2, r, rid, f, halves, leftLeaf, rightLeaf);
  }

  /** The arena facts of Extends without its per-node ones. */
  lemma ExtendsShape(t: OneTree, r: OneTree, id: nat, h: nat, w: nat)
    requires Extends(t, r, id, h, w)
    ensures id == |t.treeNodes| < |r.treeNodes| && r.treeNodes[..id] == t.treeNodes
    ensures |t.leafNodes| < |r.leafNodes| && r.leafNodes[..|t.leafNodes|] == t.leafNodes
    ensures |r.treeNodes| - id == 2 * (|r.leafNodes| - |t.leafNodes|) - 1
  {
  }

  lemma SubtreesInOrder(t: OneTree, t1: OneTree, l: OneTree, lid: nat, t2: OneTree,
                        r: OneTree, rid: nat, f: OneTree, halves: Halves, leftLeaf: LeafNode, rightLeaf: LeafNode)
    requires lid == |t1.treeNodes| < |l.treeNodes| && l.treeNodes[..lid] == t1.treeNodes
    requires |t1.leafNodes| < |l.leafNodes| && l.leafNodes[..|t1.leafNodes|] == t1.leafNodes
    requires |l.treeNodes| - lid == 2 * (|l.leafNodes| - |t1.leafNodes|) - 1
    requires t1.leafNodes == t.leafNodes && |t1.treeNodes| == |t.treeNodes| + 1
    requires t2 == SetLeft(l, |t.treeNodes|, lid)
    requires rid == |t2.treeNodes| < |r.treeNodes| && r.treeNodes[..rid] == t2.treeNodes
    requires |t2.leafNodes| < |r.leafNodes| && r.leafNodes[..|t2.leafNodes|] == t2.leafNodes
    requires f == SetRight(r, |t.treeNodes|, rid)
    requires |halves.left.recordIds| == |halves.left.inter| && |halves.right.recordIds| == |halves.right.inter|
    requires Covers(t1, l, halves.left) && Covers(t2, r, halves.right)
    requires LeafRoot(t1, l, lid, Some(leftLeaf)) && LeafRoot(t2, r, rid, Some(rightLeaf))
    ensures Children(t, f, |t.treeNodes|, halves, leftLeaf.prediction, rightLeaf.prediction)
  {
    var id := |t.treeNodes|;
    var m := |l.leafNodes|;
    assert f.treeNodes[id].rightIndex == rid == |l.treeNodes|;
    assert m == |t.leafNodes| + (rid - id) / 2;
    assert f.leafNodes == r.leafNodes && f.leafNodes[..m] == l.leafNodes;
    assert f.treeNodes[id + 1] == r.treeNodes[id + 1] == l.treeNodes[id + 1];
    assert f.treeNodes[rid] == r.treeNodes[rid];
  }

  /** The leaves of the two halves hold every object of the split data set
      once. */
  lemma SplitCovers(t: OneTree, t1: OneTree, l: OneTree, t2: OneTree, r: OneTree, f: OneTree,
                    em: EMatrix, left: EMatrix, right: EMatrix)
    requires t1.leafNodes == t.leafNodes && t2.leafNodes == l.leafNodes && f.leafNodes == r.leafNodes
    requires Covers(t1, l, left) && Covers(t2, r, right)
    requires |left.inter| + |right.inter| == |em.inter|
    requires |left.recordIds| == |left.inter| && |right.recordIds| == |right.inter|
    requires |em.recordIds| >= |em.inter|
    requires multiset(left.recordIds) + multiset(right.recordIds) == multiset(em.recordIds[..|em.inter|])
    ensures Covers(t, f, em)
  {
    if |em.recordIds| == |em.inter| {
      assert em.recordIds[..|em.inter|] == em.recordIds;
    }
  }

  /** A well-formed tree over w interpolating features: a root at index 0,
      every node well formed, every leaf carrying its own index, one leaf
      node per leaf and one leaf more than internal nodes. */
  predicate ValidTree(t: OneTree, w: nat) {
    |t.treeNodes| > 0 &&
    (forall i :: 0 <= i < |t.treeNodes| ==> NodeOk(t, i, w)) &&
    (forall k :: 0 <= k < |t.leafNodes| ==> t.leafNodes[k].leafNodeId == k) &&
    LeafCount(t.treeNodes) == |t.leafNodes| &&
    |t.leafNodes| == (|t.treeNodes| - LeafCount(t.treeNodes)) + 1
  }

  /** NewTree: a tree of extra depth d = the width of the extra features,
      built from the root at depth 0. */
  function NewTree(em: EMatrix, bias: Vec, p: TreeParams): (r: Result<OneTree>)
    requires DenseParts(em)
    ensures r.Success? ==> ValidTree(r.value, Width(em.inter))
    ensures r.Success? ==> (r.value.d == Width(em.extra) && r.value.learningCurveRow == [] &&
      r.value.treeNodes[0].numberOfObjects == |em.inter|)
    ensures r.Success? ==> ObjectCount(r.value.leafNodes) == |em.inter|
    ensures r.Success? && |em.recordIds| == |em.inter| ==> LeafIds(r.value.leafNodes) == multiset(em.recordIds)
  {
    var t0 := OneTree(Width(em.extra), [], [], []);
    var built :- BuildTree(t0, em, bias, None, 0, p);
    assert built.0.treeNodes[..0] == [] && built.0.leafNodes[..0] == [];
    Success(built.0)
  }

  /** The root of t is the node of the best split over all columns when the
      search found one: the split node of that column's search, with the
      leaves of the left half carrying its scaled up delta and those of the
      right half its scaled down delta. */
  predicate RootIsBestSplit(em: EMatrix, bias: Vec, p: TreeParams, t: OneTree)
    requires DenseParts(em)
  {
    TheBestSplit(em, bias, p).Success? &&
    (TheBestSplit(em, bias, p).value.Some? ==>
      var b := TheBestSplit(em, bias, p).value.value;
      |t.treeNodes| > 0 && SplitNodeOf(t.treeNodes[0], b) &&
      Shaped(em) && 0 <= b.featureIndex < Width(em.inter) && |bias| >= |em.inter| &&
      Split(em, bias, b.featureIndex, b.threshold).Success? &&
      var halves := Split(em, bias, b.featureIndex, b.threshold).value;
      Children(OneTree(Width(em.extra), [], [], []), t, 0, halves,
               NewLeafNode(b.deltaUp, |halves.left.inter|, p.learningRate).prediction,
               NewLeafNode(b.deltaDown, |halves.right.inter|, p.learningRate).prediction))
  }

  /** A tree NewTree builds has the best split over all columns at its root,
      when the search found one. */
  lemma NewTreeRoot(em: EMatrix, bias: Vec, p: TreeParams)
    requires DenseParts(em) && NewTree(em, bias, p).Success?
    ensures RootIsBestSplit(em, bias, p, NewTree(em, bias, p).value)
  {
    var t0 := OneTree(Width(em.extra), [], [], []);
    var r := BuildTree(t0, em, bias, None, 0, p).value;
    ExtendsShape(t0, r.0, r.1, |em.inter|, Width(em.inter));
    RootSplit(t0, em, bias, 0, p);
  }

  /** A root that is split is the node of the best split over all columns,
      with the left half's leaves carrying the scaled up delta and the right
      half's the scaled down delta. */
  lemma RootSplit(t: OneTree, em: EMatrix, bias: Vec, currentDepth: int, p: TreeParams)
    requires DenseParts(em) && BuildTree(t, em, bias, None, currentDepth, p).Success?
    ensures TheBestSplit(em, bias, p).Success?
    ensures TheBestSplit(em, bias, p).value.Some? ==>
      var b := TheBestSplit(em, bias, p).value.value;
      var (r, id) := BuildTree(t, em, bias, None, currentDepth, p).value;
      id < |r.treeNodes| && SplitNodeOf(r.treeNodes[id], b) &&
      Shaped(em) && 0 <= b.featureIndex < Width(em.inter) && |bias| >= |em.inter| &&
      Split(em, bias, b.featureIndex, b.threshold).Success? &&
      var halves := Split(em, bias, b.featureIndex, b.threshold).value;
      Children(t, r, id, halves,
               NewLeafNode(b.deltaUp, |halves.left.inter|, p.learningRate).prediction,
               NewLeafNode(b.deltaDown, |halves.right.inter|, p.learningRate).prediction)
  {
    BuildTreeStep(t, em, bias, None, currentDepth, p);
  }

  /** One step of BuildTree: whether the node is a leaf is decided by the
      split condition and the search alone. */
  lemma BuildTreeStep(t: OneTree, em: EMatrix, bias: Vec, leafInfo: Option<LeafNode>, currentDepth: int,
                      p: TreeParams)
    requires DenseParts(em) && BuildTree(t, em, bias, leafInfo, currentDepth, p).Success?
    ensures var r := BuildTree(t, em, bias, leafInfo, currentDepth, p).value;
      var tried := ShouldSplit(leafInfo, currentDepth, p.maxDepth, |em.inter|);
      var bs := TheBestSplit(em, bias, p);
      (tried ==> bs.Success?) &&
      (IsLeaf(r.0.treeNodes[r.1]) <==> !tried || bs.value.None?) &&
      (!tried ==> r == MakeLeafNode(t, em, leafInfo, p, None, false)) &&
      (tried && bs.value.None? ==> r == MakeLeafNode(t, em, leafInfo, p, None, true)) &&
      (tried && bs.value.Some? ==>
        var b := bs.value.value;
        Shaped(em) && 0 <= b.featureIndex < Width(em.inter) && |bias| >= |em.inter| &&
        b.numberOfObjects == |em.inter| && (leafInfo.None? || currentDepth < p.maxDepth) &&
        BuildTree(t, em, bias, leafInfo, currentDepth, p) == GrowSplit(t, em, bias, b, leafInfo.None?, currentDepth, p))
  {
    var r := BuildTree(t, em, bias, leafInfo, currentDepth, p);
    if ShouldSplit(leafInfo, currentDepth, p.maxDepth, |em.inter|) {
      var bs := TheBestSplit(em, bias, p);
      if bs.value.Some? {
        assert bs.value.value.validSplit;
        assert r == GrowSplit(t, em, bias, bs.value.value, leafInfo.None?, currentDepth, p);
      }
    }
  }

  /** A root that ends up a leaf is one whose split search found nothing: it
      is marked NoSplit with feature -1 and loss 0, and its weights are the
      no-split solve scaled by the learning rate. The current weight change
      of a search never reaches a leaf: a search that returns a split returns
      a valid one, and a valid one is always split. */
  lemma RootLeaf(t: OneTree, em: EMatrix, bias: Vec, currentDepth: int, p: TreeParams)
    requires DenseParts(em) && BuildTree(t, em, bias, None, currentDepth, p).Success?
    ensures var (r, id) := BuildTree(t, em, bias, None, currentDepth, p).value;
      (IsLeaf(r.treeNodes[id]) <==> TheBestSplit(em, bias, p) == Success(None)) &&
      (IsLeaf(r.treeNodes[id]) ==>
        var n, leaf, delta := r.treeNodes[id], r.leafNodes[|t.leafNodes|], p.noSplitDelta(em, t.d);
        n.noSplit && n.featureNumber == -1 && n.currentLoss == 0.0 &&
        |leaf.prediction| == |delta| &&
        forall i :: 0 <= i < |delta| ==> leaf.prediction[i] == delta[i] * p.learningRate)
  {
    BuildTreeStep(t, em, bias, None, currentDepth, p);
    var r := BuildTree(t, em, bias, None, currentDepth, p).value;
    if IsLeaf(r.0.treeNodes[r.1]) {
      NoSplitLeaf(t, em, p, r);
    }
  }

  /** The leaf a root gets when its search found nothing. */
  lemma NoSplitLeaf(t: OneTree, em: EMatrix, p: TreeParams, r: (OneTree, nat))
    requires r == MakeLeafNode(t, em, None, p, None, true)
    ensures var n, leaf, delta := r.0.treeNodes[r.1], r.0.leafNodes[|t.leafNodes|], p.noSplitDelta(em, t.d);
      n.noSplit && n.featureNumber == -1 && n.currentLoss == 0.0 &&
      |leaf.prediction| == |delta| &&
      forall i :: 0 <= i < |delta| ==> leaf.prediction[i] == delta[i] * p.learningRate
  {
    assert r.0.leafNodes[|t.leafNodes|] == LeafOf(t, em, None, p, None, |t.leafNodes|);
  }

  /** Below the root a node is a leaf when it is at the depth limit or has at
      most five rows, or when its split search found nothing; a leaf keeps
      the weights its parent handed down, and it is marked NoSplit exactly
      when a split was tried. */
  lemma ChildLeaf(t: OneTree, em: EMatrix, bias: Vec, leaf: LeafNode, currentDepth: int, p: TreeParams)
    requires DenseParts(em) && BuildTree(t, em, bias, Some(leaf), currentDepth, p).Success?
    ensures var (r, id) := BuildTree(t, em, bias, Some(leaf), currentDepth, p).value;
      var tried := ShouldSplit(Some(leaf), currentDepth, p.maxDepth, |em.inter|);
      (IsLeaf(r.treeNodes[id]) <==> !tried || TheBestSplit(em, bias, p) == Success(None)) &&
      (IsLeaf(r.treeNodes[id]) ==>
        r.treeNodes[id].noSplit == tried && r.leafNodes[|t.leafNodes|].prediction == leaf.prediction)
  {
    BuildTreeStep(t, em, bias, Some(leaf), currentDepth, p);
  }

  /** The search in column q finds a valid split exactly when the column
      holds two different values. */
  lemma ColumnValidIffDistinct(em: EMatrix, bias: Vec, p: TreeParams, q: nat)
    requires Shaped(em) && q < Width(em.inter) && ColumnSplit(em, bias, p, q).Success?
    ensures ColumnSplit(em, bias, p, q).value.validSplit <==>
      exists i, j :: 0 <= i < |em.inter| && 0 <= j < |em.inter| && em.inter[i][q] != em.inter[j][q]
  {
    RawHessianInputs(em, q);
    ScanValidIffDistinct(em, |em.inter|, Width(em.extra), q, bias, p.loss, p.lambda, RawHessian(em.extra),
                         p.unbalanced, p.solve);
  }

  /** Every interpolating feature is constant on the rows. */
  predicate ConstantFeatures(em: EMatrix)
    requires Shaped(em)
  {
    forall q, i, j :: 0 <= q < Width(em.inter) && 0 <= i < |em.inter| && 0 <= j < |em.inter| ==>
      em.inter[i][q] == em.inter[j][q]
  }

  /** When every column search succeeds, none of them finds a valid split
      exactly when every interpolating feature is constant. */
  lemma NoValidIffConstant(em: EMatrix, bias: Vec, p: TreeParams)
    requires Shaped(em)
    requires forall q :: 0 <= q < Width(em.inter) ==> ColumnSplit(em, bias, p, q).Success?
    ensures (forall q :: 0 <= q < Width(em.inter) ==> !ColumnSplit(em, bias, p, q).value.validSplit) <==>
      ConstantFeatures(em)
  {
    var w, h := Width(em.inter), |em.inter|;
    if forall q :: 0 <= q < w ==> !ColumnSplit(em, bias, p, q).value.validSplit {
      forall q, i, j | 0 <= q < w && 0 <= i < h && 0 <= j < h ensures em.inter[i][q] == em.inter[j][q] {
        ColumnValidIffDistinct(em, bias, p, q);
      }
    }
    if ConstantFeatures(em) {
      forall q | 0 <= q < w ensures !ColumnSplit(em, bias, p, q).value.validSplit {
        ColumnValidIffDistinct(em, bias, p, q);
      }
    }
  }

  /** The search over all columns finds nothing exactly when every
      interpolating feature is constant (provided every column search
      succeeds). */
  lemma BestSplitNoneIffConstant(em: EMatrix, bias: Vec, p: TreeParams)
    requires Shaped(em) && TheBestSplit(em, bias, p).Success?
    ensures TheBestSplit(em, bias, p).value.None? <==> ConstantFeatures(em)
  {
    TheBestSplitChoice(em, bias, p);
    var cs := ColumnSplits(em, bias, p);
    var rs := Collect(cs).value;
    forall q | 0 <= q < Width(em.inter) ensures ColumnSplit(em, bias, p, q).value == rs[q] {
      assert cs[q] == ColumnSplit(em, bias, p, q);
    }
    NoValidIffConstant(em, bias, p);
  }

  /** A tree is the single root leaf, marked NoSplit, exactly when every
      interpolating feature is constant on the rows. */
  lemma ConstantFeaturesSingleNode(em: EMatrix, bias: Vec, p: TreeParams)
    requires DenseParts(em) && NewTree(em, bias, p).Success?
    ensures Shaped(em)
    ensures var t := NewTree(em, bias, p).value;
      (|t.treeNodes| == 1 && t.treeNodes[0].noSplit) <==> ConstantFeatures(em)
  {
    var t0 := OneTree(Width(em.extra), [], [], []);
    BuildTreeStep(t0, em, bias, None, 0, p);
    RootLeaf(t0, em, bias, 0, p);
    BestSplitNoneIffConstant(em, bias, p);
    var t := NewTree(em, bias, p).value;
    assert NodeOk(t, 0, Width(em.inter));
  }
}

=== FILE: masks.dfy ===
/** Boolean row masks and the order-preserving selection of masked rows
    (the `slice*` helpers of the Poisson engine and the row partition of the
    extra-boost engine). */
module Masks {
  import opened Wrappers

  /** Number of true entries among the first n of the mask. */
  function CountTrue(mask: seq<bool>, n: nat): nat
    requires n <= |mask|
  {
    if n == 0 then 0 else CountTrue(mask, n - 1) + (if mask[n - 1] then 1 else 0)
  }

  /** The positions i < n whose mask entry is true, in ascending order. */
  function Selected(mask: seq<bool>, n: nat): (r: seq<nat>)
    requires n <= |mask|
    ensures |r| == CountTrue(mask, n)
    ensures forall k :: 0 <= k < |r| ==> r[k] < n && mask[r[k]]
    ensures forall a, b :: 0 <= a < b < |r| ==> r[a] < r[b]
    ensures forall i :: 0 <= i < n && mask[i] ==> i in r
  {
    if n == 0 then []
    else Selected(mask, n - 1) + (if mask[n - 1] then [n - 1] else [])
  }

  /** The entries of xs whose mask entry is true, in their original order
      (FilterAt states which entry lands where). */
  function Filter<T>(xs: seq<T>, mask: seq<bool>): (r: seq<T>)
    requires |xs| <= |mask|
    ensures |r| == |Selected(mask, |xs|)| == CountTrue(mask, |xs|)
  {
    var s := Selected(mask, |xs|);
    seq(|s|, k requires 0 <= k < |s| => xs[s[k]])
  }

  /** The k-th kept entry is the entry of the k-th selected row. */
  lemma FilterAt<T>(xs: seq<T>, mask: seq<bool>, k: nat)
    requires |xs| <= |mask| && k < |Filter(xs, mask)|
    ensures Selected(mask, |xs|)[k] < |xs| && mask[Selected(mask, |xs|)[k]]
    ensures Filter(xs, mask)[k] == xs[Selected(mask, |xs|)[k]]
  {
  }

  /** Every kept entry, as FilterAt states it. */
  lemma FilterAll<T>(xs: seq<T>, mask: seq<bool>)
    requires |xs| <= |mask|
    ensures forall k :: 0 <= k < |Filter(xs, mask)| ==> Filter(xs, mask)[k] == xs[Selected(mask, |xs|)[k]]
  {
    forall k | 0 <= k < |Filter(xs, mask)| ensures Filter(xs, mask)[k] == xs[Selected(mask, |xs|)[k]] {
      FilterAt(xs, mask, k);
    }
  }

  /** The optional variants leave an absent array absent. */
  function FilterOpt<T>(xs: Option<seq<T>>, mask: seq<bool>): (r: Option<seq<T>>)
    requires xs.Some? ==> |xs.value| <= |mask|
    ensures r.None? <==> xs.None?
    ensures xs.Some? ==> r.value == Filter(xs.value, mask)
  {
    match xs
    case None => None
    case Some(v) => Some(Filter(v, mask))
  }

  function Not(mask: seq<bool>): (r: seq<bool>)
    ensures |r| == |mask|
    ensures forall i :: 0 <= i < |mask| ==> r[i] == !mask[i]
  {
    seq(|mask|, i requires 0 <= i < |mask| => !mask[i])
  }

  /** A mask and its complement share out every row exactly once. */
  lemma {:induction false} CountComplement(mask: seq<bool>, n: nat)
    requires n <= |mask|
    ensures CountTrue(mask, n) + CountTrue(Not(mask), n) == n
  {
    if n > 0 {
      CountComplement(mask, n - 1);
    }
  }

  /** Two arrays of the same height filtered by the same mask stay aligned:
      the k-th kept entry of each comes from the same source row. */
  lemma FilterAligned<T, U>(xs: seq<T>, ys: seq<U>, mask: seq<bool>, k: nat)
    requires |xs| == |ys| <= |mask|
    requires k < |Filter(xs, mask)|
    ensures k < |Filter(ys, mask)|
    ensures exists p :: 0 <= p < |xs| && mask[p] && Filter(xs, mask)[k] == xs[p] && Filter(ys, mask)[k] == ys[p]
  {
    FilterAt(xs, mask, k);
    FilterAt(ys, mask, k);
    var p := Selected(mask, |xs|)[k];
    assert 0 <= p < |xs| && mask[p] && Filter(xs, mask)[k] == xs[p] && Filter(ys, mask)[k] == ys[p];
  }

  lemma {:induction false} CountTrueBound(mask: seq<bool>, n: nat)
    requires n <= |mask|
    ensures CountTrue(mask, n) <= n
  {
    if n > 0 {
      CountTrueBound(mask, n - 1);
    }
  }

  /** A row whose mask entry is true is counted. */
  lemma {:induction false} CountTruePositive(mask: seq<bool>, n: nat, i: nat)
    requires i < n <= |mask| && mask[i]
    ensures CountTrue(mask, n) >= 1
  {
    if i < n - 1 {
      CountTruePositive(mask, n - 1, i);
    }
  }
  /** Filtering a sequence extended by one entry keeps that entry exactly
      when its mask entry is true. */
  lemma FilterSnoc<T>(xs: seq<T>, mask: seq<bool>)
    requires 0 < |xs| <= |mask|
    ensures Filter(xs, mask) ==
      Filter(xs[..|xs| - 1], mask) + (if mask[|xs| - 1] then [xs[|xs| - 1]] else [])
  {
    var n := |xs| - 1;
    var a, b := Filter(xs, mask), Filter(xs[..n], mask);
    assert Selected(mask, |xs[..n]|) == Selected(mask, n);
    forall k | 0 <= k < |b| ensures a[k] == b[k] {
      FilterAt(xs, mask, k);
      FilterAt(xs[..n], mask, k);
    }
    if mask[n] {
      FilterAt(xs, mask, |b|);
    }
  }

  lemma MultisetSnoc<T>(xs: seq<T>)
    requires |xs| > 0
    ensures multiset(xs) == multiset(xs[..|xs| - 1]) + multiset{xs[|xs| - 1]}
  {
    assert xs == xs[..|xs| - 1] + [xs[|xs| - 1]];
  }

  /** Filter written as a left-to-right scan: keep the last entry exactly
      when its mask entry is true. */
  function Keep<T>(xs: seq<T>, mask: seq<bool>): seq<T>
    requires |xs| <= |mask|
  {
    if |xs| == 0 then []
    else Keep(xs[..|xs| - 1], mask) + (if mask[|xs| - 1] then [xs[|xs| - 1]] else [])
  }

  lemma {:induction false} KeepIsFilter<T>(xs: seq<T>, mask: seq<bool>)
    requires |xs| <= |mask|
    ensures Keep(xs, mask) == Filter(xs, mask)
    decreases |xs|
  {
    if |xs| > 0 {
      KeepIsFilter(xs[..|xs| - 1], mask);
      FilterSnoc(xs, mask);
    }
  }

  lemma {:induction false} KeepPartition<T>(xs: seq<T>, mask: seq<bool>, other: seq<bool>)
    requires |xs| <= |mask| && |other| == |mask|
    requires forall i :: 0 <= i < |mask| ==> other[i] == !mask[i]
    ensures multiset(Keep(xs, mask)) + multiset(Keep(xs, other)) == multiset(xs)
    decreases |xs|
  {
    if |xs| > 0 {
      var n := |xs| - 1;
      KeepPartition(xs[..n], mask, other);
      assert xs == xs[..n] + [xs[n]];
    }
  }

  /** A mask and its complement share the entries of a sequence out between
      them: together the two filtered sequences hold every entry once. */
  lemma FilterPartition<T>(xs: seq<T>, mask: seq<bool>, other: seq<bool>)
    requires |xs| <= |mask| && |other| == |mask|
    requires forall i :: 0 <= i < |mask| ==> other[i] == !mask[i]
    ensures multiset(Filter(xs, mask)) + multiset(Filter(xs, other)) == multiset(xs)
  {
    KeepPartition(xs, mask, other);
    KeepIsFilter(xs, mask);
    KeepIsFilter(xs, other);
  }
}

=== FILE: metrics.dfy ===
/** The average-rank ROC AUC of the Python package: scores are ranked in
    ascending order with tied scores sharing the mean of their 1-based
    positions, and the AUC is the Mann-Whitney statistic computed from the
    rank sum of the positive examples. */
module RocAuc {
  import opened Wrappers
  import opened Numeric
  import opened Ordering

  // ------------------------------------------------------------- counting

  /** The two counts that define an average rank: values below v, values
      equal to v. */
  datatype Test = Below(v: real) | Tie(v: real)

  predicate Passes(t: Test, x: real) {
    match t
    case Below(v) => x < v
    case Tie(v) => x == v
  }

  /** Number of entries of ys that pass t. */
  function Count(ys: seq<real>, t: Test): (c: nat)
    ensures c <= |ys|
  {
    if |ys| == 0 then 0
    else Count(ys[..|ys| - 1], t) + (if Passes(t, ys[|ys| - 1]) then 1 else 0)
  }

  lemma {:induction false} CountAppend(a: seq<real>, b: seq<real>, t: Test)
    ensures Count(a + b, t) == Count(a, t) + Count(b, t)
    decreases |b|
  {
    if |b| == 0 {
      assert a + b == a;
    } else {
      var b', x := b[..|b| - 1], b[|b| - 1];
      assert a + b == (a + b') + [x];
      assert (a + b)[..|a + b| - 1] == a + b';
      CountAppend(a, b', t);
    }
  }

  /** When exactly the entries at positions lo .. hi-1 pass, the count is
      hi - lo. */
  lemma {:induction false} CountRange(ys: seq<real>, t: Test, lo: nat, hi: nat)
    requires lo <= hi
    requires forall k :: 0 <= k < |ys| ==> (Passes(t, ys[k]) <==> lo <= k < hi)
    ensures Count(ys, t) == (if hi < |ys| then hi else |ys|) - (if lo < |ys| then lo else |ys|)
    decreases |ys|
  {
    if |ys| > 0 {
      CountRange(ys[..|ys| - 1], t, lo, hi);
    }
  }

  /** The values of xs at the positions listed in s. */
  function Gather(xs: seq<real>, s: seq<nat>): (r: seq<real>)
    requires InRange(s, |xs|)
    ensures |r| == |s|
    ensures forall k :: 0 <= k < |s| ==> r[k] == xs[s[k]]
  {
    seq(|s|, k requires 0 <= k < |s| => xs[s[k]])
  }

  function One(t: Test, x: real): nat {
    if Passes(t, x) then 1 else 0
  }

  lemma CountMiddle(a: seq<real>, x: real, b: seq<real>, t: Test)
    ensures Count(a + [x] + b, t) == Count(a + b, t) + One(t, x)
  {
    CountAppend(a + [x], b, t);
    CountAppend(a, [x], t);
    CountAppend(a, b, t);
    assert [x][..0] == [];
  }

  /** Position i taken out of a visiting order. */
  lemma GatherRemove(xs: seq<real>, u: seq<nat>, i: nat)
    requires InRange(u, |xs|) && i < |u|
    ensures InRange(u[..i], |xs|) && InRange(u[i + 1..], |xs|) && InRange(u[..i] + u[i + 1..], |xs|)
    ensures Gather(xs, u) == Gather(xs, u[..i]) + [xs[u[i]]] + Gather(xs, u[i + 1..])
    ensures Gather(xs, u[..i] + u[i + 1..]) == Gather(xs, u[..i]) + Gather(xs, u[i + 1..])
  {
    var a, b := u[..i], u[i + 1..];
    assert InRange(a, |xs|) && InRange(b, |xs|) && InRange([u[i]], |xs|);
    assert Gather(xs, u) == Gather(xs, a) + [xs[u[i]]] + Gather(xs, b) by {
      assert u == a + [u[i]] + b;
      GatherConcat(xs, a, [u[i]]);
      GatherConcat(xs, a + [u[i]], b);
    }
    GatherConcat(xs, a, b);
  }

  /** Gathering along two orders one after the other. */
  lemma GatherConcat(xs: seq<real>, a: seq<nat>, b: seq<nat>)
    requires InRange(a, |xs|) && InRange(b, |xs|)
    ensures InRange(a + b, |xs|) && Gather(xs, a + b) == Gather(xs, a) + Gather(xs, b)
  {
    var ab := a + b;
    assert forall k :: 0 <= k < |ab| ==> ab[k] == if k < |a| then a[k] else b[k - |a|];
  }

  /** Taking position i out of a visiting order takes its value out of the
      count. */
  lemma CountRemove(xs: seq<real>, u: seq<nat>, i: nat, t: Test)
    requires InRange(u, |xs|) && i < |u|
    ensures InRange(u[..i] + u[i + 1..], |xs|)
    ensures multiset(u) == multiset(u[..i] + u[i + 1..]) + multiset{u[i]}
    ensures Count(Gather(xs, u), t) == Count(Gather(xs, u[..i] + u[i + 1..]), t) + One(t, xs[u[i]])
  {
    assert u == u[..i] + [u[i]] + u[i + 1..];
    GatherRemove(xs, u, i);
    CountMiddle(Gather(xs, u[..i]), xs[u[i]], Gather(xs, u[i + 1..]), t);
  }

  /** Where the last position of s sits in u, a rearrangement of s; with
      both taken out, the rest are still rearrangements of each other. */
  lemma MatchLast(s: seq<nat>, u: seq<nat>) returns (i: nat)
    requires |s| > 0 && multiset(s) == multiset(u)
    ensures i < |u| && u[i] == s[|s| - 1]
    ensures multiset(s[..|s| - 1]) == multiset(u[..i] + u[i + 1..])
  {
    var n := |s| - 1;
    var x := s[n];
    assert s == s[..n] + [x];
    assert x in multiset(u) by { assert x in multiset(s); }
    i :| 0 <= i < |u| && u[i] == x;
    assert u == u[..i] + [x] + u[i + 1..];
    assert multiset(s[..n]) == multiset(s) - multiset{x};
  }

  lemma GatherDropLast(xs: seq<real>, s: seq<nat>)
    requires InRange(s, |xs|) && |s| > 0
    ensures InRange(s[..|s| - 1], |xs|)
    ensures Gather(xs, s)[..|s| - 1] == Gather(xs, s[..|s| - 1])
  {
  }

  /** Counting does not depend on the order the positions are visited in. */
  lemma {:induction false} CountPermuted(xs: seq<real>, s: seq<nat>, u: seq<nat>, t: Test)
    requires InRange(s, |xs|) && InRange(u, |xs|) && multiset(s) == multiset(u)
    ensures Count(Gather(xs, s), t) == Count(Gather(xs, u), t)
    decreases |s|
  {
    if |s| > 0 {
      var i := MatchLast(s, u);
      CountRemove(xs, u, i, t);
      GatherDropLast(xs, s);
      CountPermuted(xs, s[..|s| - 1], u[..i] + u[i + 1..], t);
    }
  }

  // ---------------------------------------------------------- average rank

  /** The average rank of position p: the values below xs[p] come first, and
      the run of values equal to xs[p] shares the mean of its 1-based
      positions. */
  function MidRank(xs: seq<real>, p: nat): real
    requires p < |xs|
  {
    Count(xs, Below(xs[p])) as real + (Count(xs, Tie(xs[p])) as real + 1.0) / 2.0
  }

  function MidRanks(xs: seq<real>): (r: seq<real>)
    ensures |r| == |xs|
    ensures forall p :: 0 <= p < |xs| ==> r[p] == MidRank(xs, p)
  {
    seq(|xs|, p requires 0 <= p < |xs| => MidRank(xs, p))
  }

  /** A run of the sorted order: positions i .. j-1 of `order` hold equal
      values, and the values before and after the run differ from them. */
  predicate IsRun(xs: seq<real>, order: seq<nat>, i: nat, j: nat)
    requires InRange(order, |xs|)
  {
    && i < j <= |order|
    && (i > 0 ==> xs[order[i - 1]] != xs[order[i]])
    && (forall k :: i <= k < j ==> xs[order[k]] == xs[order[i]])
    && (j < |order| ==> xs[order[j]] != xs[order[i]])
  }

  /** Around a run of the sorted values: the positions before it hold
      smaller values and the positions after it larger ones. */
  lemma RunBounds(xs: seq<real>, i: nat, j: nat)
    requires IsRun(xs, SortOrder(xs), i, j)
    ensures forall k :: 0 <= k < |xs| ==>
      (xs[SortOrder(xs)[k]] < xs[SortOrder(xs)[i]] <==> k < i)
    ensures forall k :: 0 <= k < |xs| ==>
      (xs[SortOrder(xs)[k]] == xs[SortOrder(xs)[i]] <==> i <= k < j)
  {
    var order := SortOrder(xs);
    forall k | 0 <= k < |xs| ensures (xs[order[k]] < xs[order[i]] <==> k < i) && (xs[order[k]] == xs[order[i]] <==> i <= k < j) {
      if k < i {
        assert xs[order[k]] <= xs[order[i - 1]];
      } else if j <= k {
        assert xs[order[j]] <= xs[order[k]];
      }
    }
  }

  /** In the stable sort order, the run at positions i .. j-1 has i values
      below it and j - i values equal to it, so every member of the run has
      average rank 0.5 * (i + j - 1) + 1. */
  lemma RunRank(xs: seq<real>, i: nat, j: nat)
    requires IsRun(xs, SortOrder(xs), i, j)
    ensures forall k :: i <= k < j ==> MidRank(xs, SortOrder(xs)[k]) == 0.5 * (i + j - 1) as real + 1.0
  {
    var order := SortOrder(xs);
    var sv := Gather(xs, order);
    var v := sv[i];
    assert Gather(xs, Iota(|xs|)) == xs;
    CountPermuted(xs, order, Iota(|xs|), Below(v));
    CountPermuted(xs, order, Iota(|xs|), Tie(v));
    RunBounds(xs, i, j);
    CountRange(sv, Below(v), 0, i);
    CountRange(sv, Tie(v), i, j);
  }

  /** ranks[idx] = v: every position listed in idx gets v, the others keep
      their value. */
  method SetAt(ranks: seq<real>, idx: seq<nat>, v: real) returns (r: seq<real>)
    requires InRange(idx, |ranks|)
    ensures |r| == |ranks|
    ensures forall p :: 0 <= p < |r| ==> r[p] == if p in idx then v else ranks[p]
  {
    r := ranks;
    var k := 0;
    while k < |idx|
      invariant 0 <= k <= |idx| && |r| == |ranks|
      invariant forall p :: 0 <= p < |r| ==> r[p] == if p in idx[..k] then v else ranks[p]
    {
      assert idx[..k + 1] == idx[..k] + [idx[k]];
      r := r[idx[k] := v];
      k := k + 1;
    }
    assert idx[..k] == idx;
  }

  /** After the run at sorted positions i .. j-1 has been given its rank,
      every position up to j carries its average rank. */
  lemma RunAssigned(values: seq<real>, before: seq<real>, after: seq<real>, i: nat, j: nat)
    requires i < j <= |values| == |before| == |after|
    requires forall p :: 0 <= p < |after| ==>
      after[p] == if p in SortOrder(values)[i..j] then 0.5 * (i + j - 1) as real + 1.0 else before[p]
    requires RankedUpTo(values, before, i)
    requires forall k :: i <= k < j ==> MidRank(values, SortOrder(values)[k]) == 0.5 * (i + j - 1) as real + 1.0
    ensures RankedUpTo(values, after, j)
  {
    var order := SortOrder(values);
    PermutationMembers(order, |values|);
    forall l | 0 <= l < j ensures after[order[l]] == MidRank(values, order[l]) {
      if l < i {
        assert order[l] !in order[i..j];
      } else {
        assert order[l] == order[i..j][l - i];
      }
    }
  }

  /** The end of the run of values equal to the one at sorted position i. */
  method RunEnd(values: seq<real>, order: seq<nat>, i: nat) returns (j: nat)
    requires InRange(order, |values|) && i < |order|
    ensures i < j <= |order|
    ensures forall k :: i <= k < j ==> values[order[k]] == values[order[i]]
    ensures j < |order| ==> values[order[j]] != values[order[i]]
  {
    j := i + 1;
    while j < |order| && values[order[j]] == values[order[i]]
      invariant i < j <= |order|
      invariant forall k :: i <= k < j ==> values[order[k]] == values[order[i]]
    {
      j := j + 1;
    }
  }

  /** The positions at sorted places 0 .. i-1 carry their average rank. */
  ghost predicate RankedUpTo(values: seq<real>, ranks: seq<real>, i: nat)
    requires i <= |values| == |ranks|
  {
    forall k :: 0 <= k < i ==> ranks[SortOrder(values)[k]] == MidRank(values, SortOrder(values)[k])
  }

  /** _average_ranks: a stable argsort of the values, then one pass over the
      runs of equal values in sorted order, giving every member of the run
      at positions i .. j-1 the rank 0.5 * (i + j - 1) + 1. */
  method AverageRanks(values: seq<real>) returns (ranks: seq<real>)
    ensures ranks == MidRanks(values)
  {
    var n := |values|;
    var order := SortOrder(values);
    ranks := Zeros(n);
    var i := 0;
    while i < n
      invariant 0 <= i <= n && |ranks| == n
      invariant 0 < i < n ==> values[order[i - 1]] != values[order[i]]
      invariant RankedUpTo(values, ranks, i)
    {
      var j := RunEnd(values, order, i);
      var avg := 0.5 * (i + j - 1) as real + 1.0;
      RunRank(values, i, j);
      ghost var before := ranks;
      ranks := SetAt(ranks, order[i..j], avg);
      RunAssigned(values, before, ranks, i, j);
      i := j;
    }
    RankedAll(values, ranks);
  }

  lemma RankedAll(values: seq<real>, ranks: seq<real>)
    requires |values| == |ranks| && RankedUpTo(values, ranks, |values|)
    ensures ranks == MidRanks(values)
  {
    var order := SortOrder(values);
    PermutationMembers(order, |values|);
    forall p | 0 <= p < |values| ensures ranks[p] == MidRank(values, p) {
      assert p in order;
      var k :| 0 <= k < |values| && order[k] == p;
    }
  }

  // ------------------------------------------------------ pairwise scores

  /** The Mann-Whitney score of a against b: 1 when b is lower, 1/2 on a
      tie, 0 when b is higher. */
  function Win(a: real, b: real): real {
    if b < a then 1.0 else if b == a then 0.5 else 0.0
  }

  /** a scored against every entry of ys. */
  function Score(a: real, ys: seq<real>): real {
    if |ys| == 0 then 0.0 else Score(a, ys[..|ys| - 1]) + Win(a, ys[|ys| - 1])
  }

  /** Every entry of ys scored against b. */
  function Against(ys: seq<real>, b: real): real {
    if |ys| == 0 then 0.0 else Against(ys[..|ys| - 1], b) + Win(ys[|ys| - 1], b)
  }

  /** Every entry of xs scored against every entry of ys. */
  function PairScore(xs: seq<real>, ys: seq<real>): real {
    if |xs| == 0 then 0.0 else PairScore(xs[..|xs| - 1], ys) + Score(xs[|xs| - 1], ys)
  }

  lemma {:induction false} ScoreBounds(a: real, ys: seq<real>)
    ensures 0.0 <= Score(a, ys) <= |ys| as real
    decreases |ys|
  {
    if |ys| > 0 {
      ScoreBounds(a, ys[..|ys| - 1]);
    }
  }

  lemma {:induction false} PairScoreBounds(xs: seq<real>, ys: seq<real>)
    ensures 0.0 <= PairScore(xs, ys) <= (|xs| * |ys|) as real
    decreases |xs|
  {
    if |xs| > 0 {
      PairScoreBounds(xs[..|xs| - 1], ys);
      ScoreBounds(xs[|xs| - 1], ys);
    }
  }

  /** A score counts the entries below a in full and the ties by half. */
  lemma {:induction false} ScoreCounts(a: real, ys: seq<real>)
    ensures Score(a, ys) == Count(ys, Below(a)) as real + Count(ys, Tie(a)) as real / 2.0
    decreases |ys|
  {
    if |ys| > 0 {
      ScoreCounts(a, ys[..|ys| - 1]);
    }
  }

  /** The average rank of a value is one half more than its score against
      all the values. */
  lemma MidRankScore(xs: seq<real>, p: nat)
    requires p < |xs|
    ensures MidRank(xs, p) == Score(xs[p], xs) + 0.5
  {
    ScoreCounts(xs[p], xs);
  }

  /** a against ys and ys against a share out one point per entry. */
  lemma {:induction false} ScoreComplement(a: real, ys: seq<real>)
    ensures Score(a, ys) + Against(ys, a) == |ys| as real
    decreases |ys|
  {
    if |ys| > 0 {
      ScoreComplement(a, ys[..|ys| - 1]);
    }
  }

  lemma {:induction false} PairScoreAppendRight(xs: seq<real>, ys: seq<real>, b: real)
    ensures PairScore(xs, ys + [b]) == PairScore(xs, ys) + Against(xs, b)
    decreases |xs|
  {
    assert (ys + [b])[..|ys|] == ys;
    if |xs| > 0 {
      PairScoreAppendRight(xs[..|xs| - 1], ys, b);
    }
  }

  lemma {:induction false} PairScoreEmpty(xs: seq<real>, ys: seq<real>)
    requires |ys| == 0
    ensures PairScore(xs, ys) == 0.0
    decreases |xs|
  {
    if |xs| > 0 {
      PairScoreEmpty(xs[..|xs| - 1], ys);
    }
  }

  /** xs against ys and ys against xs share out one point per pair. */
  lemma {:induction false} PairScoreSymmetric(xs: seq<real>, ys: seq<real>)
    ensures PairScore(xs, ys) + PairScore(ys, xs) == (|xs| * |ys|) as real
    decreases |ys|
  {
    if |ys| > 0 {
      var ys', b := ys[..|ys| - 1], ys[|ys| - 1];
      assert ys == ys' + [b];
      PairScoreSymmetric(xs, ys');
      PairScoreAppendRight(xs, ys', b);
      ScoreComplement(b, xs);
      assert (|xs| * |ys|) as real == (|xs| * |ys'|) as real + |xs| as real;
    } else {
      PairScoreEmpty(xs, ys);
    }
  }

  /** The scores of entries p .. of xs against zs, each plus one half, sum
      to the pair score of xs against zs plus half the length of xs. */
  lemma {:induction false} TotalScores(xs: seq<real>, zs: seq<real>, g: seq<real>)
    requires |g| == |xs|
    requires forall p :: 0 <= p < |xs| ==> g[p] == Score(xs[p], zs) + 0.5
    ensures Total(g) == PairScore(xs, zs) + |xs| as real / 2.0
    decreases |xs|
  {
    if |xs| > 0 {
      var n := |xs| - 1;
      SumCongruent(g, g[..n], 0, n);
      TotalScores(xs[..n], zs, g[..n]);
    }
  }

  /** The average ranks of n values sum to n(n+1)/2. */
  lemma RankSum(xs: seq<real>)
    ensures Total(MidRanks(xs)) == (|xs| * (|xs| + 1)) as real / 2.0
  {
    var n := |xs|;
    forall p | 0 <= p < n ensures MidRanks(xs)[p] == Score(xs[p], xs) + 0.5 {
      MidRankScore(xs, p);
    }
    TotalScores(xs, xs, MidRanks(xs));
    PairScoreSymmetric(xs, xs);
  }

  /** Equal values share their average rank, and a smaller value has a
      strictly smaller one; every average rank lies between 1 and n. */
  lemma RankOrder(xs: seq<real>, p: nat, q: nat)
    requires p < |xs| && q < |xs|
    ensures xs[p] == xs[q] ==> MidRank(xs, p) == MidRank(xs, q)
    ensures xs[p] < xs[q] ==> MidRank(xs, p) < MidRank(xs, q)
    ensures 1.0 <= MidRank(xs, p) <= |xs| as real
  {
    MidRankScore(xs, p);
    MidRankScore(xs, q);
    if xs[p] < xs[q] {
      ScoreGap(xs[p], xs[q], xs, p);
    }
    ScoreSelf(xs, p);
  }

  /** A larger value scores at least as much against ys, and half a point
      more for every ... entry equal to the smaller value; here: at least
      one half more when the smaller value occurs at position k. */
  lemma {:induction false} ScoreGap(a: real, b: real, ys: seq<real>, k: nat)
    requires a < b && k < |ys| && ys[k] == a
    ensures Score(b, ys) >= Score(a, ys) + 0.5
    decreases |ys|
  {
    var n := |ys| - 1;
    if k < n {
      ScoreGap(a, b, ys[..n], k);
    } else {
      ScoreGrows(a, b, ys[..n]);
    }
  }

  lemma {:induction false} ScoreGrows(a: real, b: real, ys: seq<real>)
    requires a <= b
    ensures Score(a, ys) <= Score(b, ys)
    decreases |ys|
  {
    if |ys| > 0 {
      ScoreGrows(a, b, ys[..|ys| - 1]);
    }
  }

  /** A value scored against a sequence it occurs in gets at least the half
      point of its own tie and at most all but that half point. */
  lemma {:induction false} ScoreSelf(xs: seq<real>, p: nat)
    requires p < |xs|
    ensures 0.5 <= Score(xs[p], xs) <= |xs| as real - 0.5
  {
    ScoreAround(xs[p], xs, p);
  }

  lemma {:induction false} ScoreAround(a: real, ys: seq<real>, k: nat)
    requires k < |ys| && ys[k] == a
    ensures 0.5 <= Score(a, ys) <= |ys| as real - 0.5
    decreases |ys|
  {
    var n := |ys| - 1;
    if k < n {
      ScoreAround(a, ys[..n], k);
    } else {
      ScoreBounds(a, ys[..n]);
    }
  }

  // ---------------------------------------------------------------- labels

  /** The scores whose label is 1 (keep = true) or is not 1 (keep = false),
      in their original order. */
  function Select(ys: seq<real>, labels: seq<real>, keep: bool): (r: seq<real>)
    requires |ys| == |labels|
    ensures |r| <= |ys|
  {
    if |ys| == 0 then []
    else
      var n := |ys| - 1;
      Select(ys[..n], labels[..n], keep) + (if (labels[n] == 1.0) == keep then [ys[n]] else [])
  }

  /** Labels that are all 0 or 1. */
  predicate Binary(labels: seq<real>) {
    forall k :: 0 <= k < |labels| ==> labels[k] == 0.0 || labels[k] == 1.0
  }

  /** ranks[y_true == 1].sum(): the ranks of the examples labelled 1. */
  function PosRankSum(labels: seq<real>, ranks: seq<real>): real
    requires |labels| == |ranks|
  {
    if |labels| == 0 then 0.0
    else
      var n := |labels| - 1;
      PosRankSum(labels[..n], ranks[..n]) + (if labels[n] == 1.0 then ranks[n] else 0.0)
  }

  /** For 0/1 labels, the label total is the number of examples labelled 1,
      and the two selections share out the examples. */
  lemma {:induction false} LabelCounts(ys: seq<real>, labels: seq<real>)
    requires |ys| == |labels| && Binary(labels)
    ensures Total(labels) == |Select(ys, labels, true)| as real
    ensures |Select(ys, labels, true)| + |Select(ys, labels, false)| == |labels|
    decreases |ys|
  {
    if |ys| > 0 {
      var n := |ys| - 1;
      SumCongruent(labels, labels[..n], 0, n);
      assert Total(labels) == Total(labels[..n]) + labels[n];
      LabelCounts(ys[..n], labels[..n]);
      var pos, neg := Select(ys[..n], labels[..n], true), Select(ys[..n], labels[..n], false);
      if labels[n] == 1.0 {
        assert Select(ys, labels, true) == pos + [ys[n]] && Select(ys, labels, false) == neg;
      } else {
        assert Select(ys, labels, true) == pos && Select(ys, labels, false) == neg + [ys[n]];
      }
    }
  }

  /** A score against all the values is the score against the values
      labelled 1 plus the score against the others. */
  lemma ScoreSnoc(a: real, ys: seq<real>, y: real)
    ensures Score(a, ys + [y]) == Score(a, ys) + Win(a, y)
  {
    assert (ys + [y])[..|ys|] == ys;
  }

  lemma {:induction false} ScoreSplit(a: real, ys: seq<real>, labels: seq<real>)
    requires |ys| == |labels|
    ensures Score(a, ys) == Score(a, Select(ys, labels, true)) + Score(a, Select(ys, labels, false))
    decreases |ys|
  {
    if |ys| > 0 {
      var n := |ys| - 1;
      ScoreSplit(a, ys[..n], labels[..n]);
      var pos, neg := Select(ys[..n], labels[..n], true), Select(ys[..n], labels[..n], false);
      if labels[n] == 1.0 {
        assert Select(ys, labels, true) == pos + [ys[n]] && Select(ys, labels, false) == neg;
        ScoreSnoc(a, pos, ys[n]);
      } else {
        assert Select(ys, labels, true) == pos && Select(ys, labels, false) == neg + [ys[n]];
        ScoreSnoc(a, neg, ys[n]);
      }
    }
  }

  lemma {:induction false} PairScoreSplit(xs: seq<real>, ys: seq<real>, labels: seq<real>)
    requires |ys| == |labels|
    ensures PairScore(xs, ys) == PairScore(xs, Select(ys, labels, true)) + PairScore(xs, Select(ys, labels, false))
    decreases |xs|
  {
    if |xs| > 0 {
      PairScoreSplit(xs[..|xs| - 1], ys, labels);
      ScoreSplit(xs[|xs| - 1], ys, labels);
    }
  }

  /** The rank sum of the examples labelled 1, with every rank one half
      more than a score against zs, is the pair score of their values
      against zs plus half their number. */
  lemma {:induction false} PosRankSumScores(labels: seq<real>, xs: seq<real>, zs: seq<real>, g: seq<real>)
    requires |labels| == |xs| == |g|
    requires forall p :: 0 <= p < |xs| ==> g[p] == Score(xs[p], zs) + 0.5
    ensures PosRankSum(labels, g) == PairScore(Select(xs, labels, true), zs) + |Select(xs, labels, true)| as real / 2.0
    decreases |xs|
  {
    if |xs| > 0 {
      var n := |xs| - 1;
      PosRankSumScores(labels[..n], xs[..n], zs, g[..n]);
      var pos := Select(xs[..n], labels[..n], true);
      if labels[n] == 1.0 {
        assert (pos + [xs[n]])[..|pos|] == pos;
        assert PairScore(pos + [xs[n]], zs) == PairScore(pos, zs) + Score(xs[n], zs);
        assert |pos + [xs[n]]| as real / 2.0 == |pos| as real / 2.0 + 0.5;
      } else {
        assert Select(xs, labels, true) == pos;
      }
    }
  }

  // ------------------------------------------------------------------- AUC

  /** The formula of roc_auc_score on given ranks: no value (NaN) when the
      label total or its complement is zero, otherwise the positive rank sum
      less its least possible value, over the number of pairs. */
  function AucFromRanks(yTrue: seq<real>, ranks: seq<real>): (r: Option<real>)
    requires |yTrue| == |ranks|
    ensures r.None? <==> Total(yTrue) == 0.0 || |yTrue| as real - Total(yTrue) == 0.0
  {
    var nPos := Total(yTrue);
    var nNeg := |yTrue| as real - nPos;
    if nPos == 0.0 || nNeg == 0.0 then None
    else Some(RankFormula(PosRankSum(yTrue, ranks), nPos, nNeg))
  }

  /** The positive rank sum less its least possible value n_pos(n_pos+1)/2,
      over the number of (positive, negative) pairs. */
  function RankFormula(rankSumPos: real, nPos: real, nNeg: real): real
    requires nPos != 0.0 && nNeg != 0.0
  {
    (rankSumPos - nPos * (nPos + 1.0) / 2.0) / (nPos * nNeg)
  }

  lemma FractionBounds(x: real, d: real)
    requires 0.0 <= x <= d && d > 0.0
    ensures 0.0 <= x / d <= 1.0
  {
  }

  /** The Mann-Whitney statistic: the fraction of (positive, negative) pairs
      in which the positive scores higher, ties counting one half. */
  function MannWhitney(yTrue: seq<real>, yScore: seq<real>): (r: Option<real>)
    requires |yTrue| == |yScore|
    ensures r.Some? ==> 0.0 <= r.value <= 1.0
  {
    var pos, neg := Select(yScore, yTrue, true), Select(yScore, yTrue, false);
    if |pos| == 0 || |neg| == 0 then None
    else
      PairScoreBounds(pos, neg);
      FractionBounds(PairScore(pos, neg), (|pos| * |neg|) as real);
      Some(PairScore(pos, neg) / (|pos| * |neg|) as real)
  }

  lemma HalfSquare(rs: real, whole: real, self: real, u: real, n: nat)
    requires rs == whole + n as real / 2.0 && whole == self + u && self + self == (n * n) as real
    ensures rs == u + n as real * (n as real + 1.0) / 2.0
  {
    assert (n * n) as real == n as real * n as real;
  }

  /** Every average rank is one half more than the score of its value
      against all the values. */
  lemma RanksAreScores(xs: seq<real>)
    ensures forall k :: 0 <= k < |xs| ==> MidRanks(xs)[k] == Score(xs[k], xs) + 0.5
  {
    forall k | 0 <= k < |xs| ensures MidRanks(xs)[k] == Score(xs[k], xs) + 0.5 {
      MidRankScore(xs, k);
    }
  }

  /** The positives' rank sum is its least value p(p+1)/2 plus the pair
      score of the positives against the negatives. */
  lemma PosRankSumPairs(yTrue: seq<real>, yScore: seq<real>)
    requires |yTrue| == |yScore|
    ensures var pos, neg := Select(yScore, yTrue, true), Select(yScore, yTrue, false);
      PosRankSum(yTrue, MidRanks(yScore)) ==
        PairScore(pos, neg) + |pos| as real * (|pos| as real + 1.0) / 2.0
  {
    var pos, neg := Select(yScore, yTrue, true), Select(yScore, yTrue, false);
    RanksAreScores(yScore);
    PosRankSumScores(yTrue, yScore, yScore, MidRanks(yScore));
    PairScoreSplit(pos, yScore, yTrue);
    PairScoreSymmetric(pos, pos);
    HalfSquare(PosRankSum(yTrue, MidRanks(yScore)), PairScore(pos, yScore), PairScore(pos, pos), PairScore(pos, neg),
               |pos|);
  }

  lemma PairsFraction(rs: real, u: real, np: nat, nq: nat, tp: real, tq: real)
    requires np > 0 && nq > 0 && tp == np as real && tq == nq as real
    requires rs == u + np as real * (np as real + 1.0) / 2.0
    ensures RankFormula(rs, tp, tq) == u / (np * nq) as real
  {
    assert (np * nq) as real == tp * tq;
  }

  /** For 0/1 labels the rank formula is the Mann-Whitney statistic: the
      positives' rank sum exceeds its least value p(p+1)/2 by exactly the
      pair score of the positives against the negatives. */
  lemma AucIsMannWhitney(yTrue: seq<real>, yScore: seq<real>)
    requires |yTrue| == |yScore| && Binary(yTrue)
    ensures AucFromRanks(yTrue, MidRanks(yScore)) == MannWhitney(yTrue, yScore)
  {
    var pos, neg := Select(yScore, yTrue, true), Select(yScore, yTrue, false);
    LabelCounts(yScore, yTrue);
    if |pos| > 0 && |neg| > 0 {
      PosRankSumPairs(yTrue, yScore);
      var rs, tp, tq := PosRankSum(yTrue, MidRanks(yScore)), Total(yTrue), |yTrue| as real - Total(yTrue);
      assert tp == |pos| as real && tq == |neg| as real;
      PairsFraction(rs, PairScore(pos, neg), |pos|, |neg|, tp, tq);

    }
  }

  /** roc_auc_score: inputs of different lengths are rejected; with no
      positive or no negative label the score is NaN (None); otherwise it is
      computed from the average ranks of the scores. */
  method RocAucScore(yTrue: seq<real>, yScore: seq<real>) returns (r: Result<Option<real>>)
    ensures r.Failure? <==> |yTrue| != |yScore|
    ensures r.Success? ==> r.value == AucFromRanks(yTrue, MidRanks(yScore))
    ensures r.Success? && Binary(yTrue) ==> r.value == MannWhitney(yTrue, yScore)
    ensures r.Success? && Binary(yTrue) && r.value.Some? ==> 0.0 <= r.value.value <= 1.0
  {
    if |yTrue| != |yScore| {
      return Failure(ShapeMismatch("roc_auc_score expects 1D arrays of equal length"));
    }
    var nPos := Total(yTrue);
    var nNeg := |yTrue| as real - nPos;
    if nPos == 0.0 || nNeg == 0.0 {
      r := Success(None);
    } else {
      var ranks := AverageRanks(yScore);
      r := Success(AucFromRanks(yTrue, ranks));
    }
    if Binary(yTrue) {
      AucIsMannWhitney(yTrue, yScore);
    }
  }
}

=== FILE: numeric.dfy ===
/** Exact-arithmetic stand-ins for the float64 vectors and dense matrices of
    both engines, with the finite sums that the prefix-sum tables compute. */
module Numeric {
  import opened Wrappers

  type Vec = seq<real>
  type Mat = seq<seq<real>>

  function Abs(x: real): (r: real)
    ensures r >= 0.0
    ensures r == x || r == -x
  {
    if x < 0.0 then -x else x
  }

  /** Division as the engines use it; a zero divisor (an IEEE infinity or NaN
      in the source) yields 0 here. */
  function FDiv(a: real, b: real): (r: real)
    ensures b != 0.0 ==> r * b == a
  {
    if b == 0.0 then 0.0 else a / b
  }

  /** Every row of `m` has exactly `c` entries. */
  predicate IsRect<T>(m: seq<seq<T>>, c: nat) {
    forall i :: 0 <= i < |m| ==> |m[i]| == c
  }

  /** The width of a rectangular table, read from its first row (0 when empty). */
  function Width<T>(m: seq<seq<T>>): nat {
    if |m| == 0 then 0 else |m[0]|
  }

  /** Column j of a table. */
  function Column<T>(m: seq<seq<T>>, j: nat): (r: seq<T>)
    requires forall i :: 0 <= i < |m| ==> j < |m[i]|
    ensures |r| == |m|
    ensures forall i :: 0 <= i < |m| ==> r[i] == m[i][j]
  {
    seq(|m|, i requires 0 <= i < |m| => m[i][j])
  }

  /** Sum of xs[lo..hi). */
  function Sum(xs: seq<real>, lo: int, hi: int): real
    requires 0 <= lo <= hi <= |xs|
    decreases hi - lo
  {
    if lo == hi then 0.0 else Sum(xs, lo, hi - 1) + xs[hi - 1]
  }

  function Total(xs: seq<real>): real {
    Sum(xs, 0, |xs|)
  }

  lemma {:induction false} SumSplit(xs: seq<real>, lo: int, mid: int, hi: int)
    requires 0 <= lo <= mid <= hi <= |xs|
    ensures Sum(xs, lo, hi) == Sum(xs, lo, mid) + Sum(xs, mid, hi)
    decreases hi - mid
  {
    if mid < hi {
      SumSplit(xs, lo, mid, hi - 1);
    }
  }

  lemma {:induction false} SumFront(xs: seq<real>, lo: int, hi: int)
    requires 0 <= lo < hi <= |xs|
    ensures Sum(xs, lo, hi) == xs[lo] + Sum(xs, lo + 1, hi)
  {
    SumSplit(xs, lo, lo + 1, hi);
  }

  /** Sums depend only on the entries inside the range. */
  lemma {:induction false} SumCongruent(xs: seq<real>, ys: seq<real>, lo: int, hi: int)
    requires 0 <= lo <= hi <= |xs| && hi <= |ys|
    requires forall k :: lo <= k < hi ==> xs[k] == ys[k]
    ensures Sum(xs, lo, hi) == Sum(ys, lo, hi)
    decreases hi - lo
  {
    if lo < hi {
      SumCongruent(xs, ys, lo, hi - 1);
    }
  }

  lemma {:induction false} SumShift(xs: seq<real>, lo: int, hi: int)
    requires 1 <= lo <= hi <= |xs|
    ensures Sum(xs[1..], lo - 1, hi - 1) == Sum(xs, lo, hi)
    decreases hi - lo
  {
    if lo < hi {
      SumShift(xs, lo, hi - 1);
    }
  }

  /** Running sums from the front: entry i is data[0] + ... + data[i]
      (the recurrence out[i] = data[i] + out[i-1]). */
  function PrefixSums(xs: seq<real>): (r: seq<real>)
    ensures |r| == |xs|
    ensures forall i :: 0 <= i < |xs| ==> r[i] == Sum(xs, 0, i + 1)
    decreases |xs|
  {
    if |xs| == 0 then []
    else
      var p := PrefixSums(xs[..|xs| - 1]);
      assert forall i :: 0 <= i < |p| ==> p[i] == Sum(xs, 0, i + 1) by {
        forall i | 0 <= i < |p| ensures p[i] == Sum(xs, 0, i + 1) {
          SumCongruent(xs[..|xs| - 1], xs, 0, i + 1);
        }
      }
      p + [if |p| == 0 then xs[|xs| - 1] else xs[|xs| - 1] + p[|p| - 1]]
  }

  /** Running sums from the back: entry i is data[i] + ... + data[n-1]
      (the recurrence out[i] = data[i] + out[i+1]). */
  function SuffixSums(xs: seq<real>): (r: seq<real>)
    ensures |r| == |xs|
    ensures forall i :: 0 <= i < |xs| ==> r[i] == Sum(xs, i, |xs|)
    decreases |xs|
  {
    if |xs| == 0 then []
    else
      var s := SuffixSums(xs[1..]);
      assert forall i :: 1 <= i < |xs| ==> s[i - 1] == Sum(xs, i, |xs|) by {
        forall i | 1 <= i < |xs| {
          SumShift(xs, i, |xs|);
        }
      }
      assert (if |s| == 0 then xs[0] else xs[0] + s[0]) == Sum(xs, 0, |xs|) by {
        SumFront(xs, 0, |xs|);
        if |s| > 0 {
          SumShift(xs, 1, |xs|);
        }
      }
      [if |s| == 0 then xs[0] else xs[0] + s[0]] + s
  }

  /** Forward and backward running sums meet: the rows up to i plus the rows
      from i+1 on give the whole column. */
  lemma PrefixSuffixMeet(xs: seq<real>, i: int)
    requires 0 <= i < |xs| - 1
    ensures PrefixSums(xs)[i] + SuffixSums(xs)[i + 1] == PrefixSums(xs)[|xs| - 1]
    ensures PrefixSums(xs)[|xs| - 1] == SuffixSums(xs)[0]
  {
    SumSplit(xs, 0, i + 1, |xs|);
  }

  function Dot(a: Vec, b: Vec): real
    requires |a| == |b|
    decreases |a|
  {
    if |a| == 0 then 0.0 else Dot(a[..|a| - 1], b[..|b| - 1]) + a[|a| - 1] * b[|b| - 1]
  }

  function Zeros(n: nat): (r: Vec)
    ensures |r| == n
    ensures forall i :: 0 <= i < n ==> r[i] == 0.0
  {
    seq(n, i => 0.0)
  }

  function ZeroMat(n: nat, m: nat): (r: Mat)
    ensures |r| == n && IsRect(r, m)
    ensures forall i, j :: 0 <= i < n && 0 <= j < m ==> r[i][j] == 0.0
  {
    seq(n, i => Zeros(m))
  }

  function VecAdd(a: Vec, b: Vec): (r: Vec)
    requires |a| == |b|
    ensures |r| == |a|
    ensures forall i :: 0 <= i < |a| ==> r[i] == a[i] + b[i]
  {
    seq(|a|, i requires 0 <= i < |a| => a[i] + b[i])
  }

  lemma VecAddAssoc(a: Vec, b: Vec, c: Vec)
    requires |a| == |b| == |c|
    ensures VecAdd(VecAdd(a, b), c) == VecAdd(a, VecAdd(b, c))
  {
  }

  function VecScale(c: real, a: Vec): (r: Vec)
    ensures |r| == |a|
    ensures forall i :: 0 <= i < |a| ==> r[i] == c * a[i]
  {
    seq(|a|, i requires 0 <= i < |a| => c * a[i])
  }

  function MatAdd(a: Mat, b: Mat): (r: Mat)
    requires |a| == |b|
    requires forall i :: 0 <= i < |a| ==> |a[i]| == |b[i]|
    ensures |r| == |a|
    ensures forall i :: 0 <= i < |a| ==> |r[i]| == |a[i]|
    ensures forall i, j :: 0 <= i < |a| && 0 <= j < |a[i]| ==> r[i][j] == a[i][j] + b[i][j]
  {
    seq(|a|, i requires 0 <= i < |a| => VecAdd(a[i], b[i]))
  }

  function MatScale(c: real, m: Mat): (r: Mat)
    ensures |r| == |m|
    ensures forall i :: 0 <= i < |m| ==> |r[i]| == |m[i]|
    ensures forall i, j :: 0 <= i < |m| && 0 <= j < |m[i]| ==> r[i][j] == c * m[i][j]
  {
    seq(|m|, i requires 0 <= i < |m| => VecScale(c, m[i]))
  }

  /** The d x d matrix x x^T. */
  function Outer(x: Vec): (r: Mat)
    ensures |r| == |x| && IsRect(r, |x|)
    ensures forall i, j :: 0 <= i < |x| && 0 <= j < |x| ==> r[i][j] == x[i] * x[j]
  {
    seq(|x|, i requires 0 <= i < |x| => seq(|x|, j requires 0 <= j < |x| => x[i] * x[j]))
  }

  /** m + lambda I: lambda added to the diagonal only. */
  function AddDiag(m: Mat, lambda: real): (r: Mat)
    ensures |r| == |m|
    ensures forall i :: 0 <= i < |m| ==> |r[i]| == |m[i]|
    ensures forall i, j :: 0 <= i < |m| && 0 <= j < |m[i]| ==>
      r[i][j] == (if i == j then m[i][j] + lambda else m[i][j])
  {
    seq(|m|, i requires 0 <= i < |m| =>
      seq(|m[i]|, j requires 0 <= j < |m[i]| => if i == j then m[i][j] + lambda else m[i][j]))
  }

  function MatVec(m: Mat, v: Vec): (r: Vec)
    requires IsRect(m, |v|)
    ensures |r| == |m|
  {
    seq(|m|, i requires 0 <= i < |m| => Dot(m[i], v))
  }

  function Negate(v: Vec): (r: Vec)
    ensures |r| == |v| && forall d :: 0 <= d < |v| ==> r[d] == -v[d]
  {
    seq(|v|, d requires 0 <= d < |v| => -v[d])
  }

  lemma NegateTwice(v: Vec)
    ensures Negate(Negate(v)) == v
  {
    assert forall d :: 0 <= d < |v| ==> Negate(Negate(v))[d] == v[d];
  }

  lemma {:induction false} DotNegate(a: Vec, v: Vec)
    requires |a| == |v|
    ensures Dot(a, Negate(v)) == -Dot(a, v)
    decreases |a|
  {
    if |a| > 0 {
      var n := |a| - 1;
      assert Negate(v)[..n] == Negate(v[..n]);
      DotNegate(a[..n], v[..n]);
    }
  }

  /** A matrix applied to -v gives minus the matrix applied to v. */
  lemma MatVecNegate(m: Mat, v: Vec)
    requires IsRect(m, |v|)
    ensures MatVec(m, Negate(v)) == Negate(MatVec(m, v))
  {
    forall i | 0 <= i < |m| ensures MatVec(m, Negate(v))[i] == Negate(MatVec(m, v))[i] {
      DotNegate(m[i], v);
    }
  }

  predicate Symmetric(m: Mat)
    requires IsRect(m, |m|)
  {
    forall i, j :: 0 <= i < |m| && 0 <= j < |m| ==> m[i][j] == m[j][i]
  }

  /** A linear solver for a regularised system A w = g: None when A is
      singular (the source's error or panic). */
  type Solver = (Mat, Vec) -> Option<Vec>

  /** A solver is sound when every answer it gives solves the system and has
      the right length. */
  ghost predicate SoundSolver(solve: Solver) {
    forall a: Mat, g: Vec ::
      IsRect(a, |g|) && |a| == |g| && solve(a, g).Some? ==>
        |solve(a, g).value| == |g| && MatVec(a, solve(a, g).value) == g
  }
}

=== FILE: ordering.dfy ===
/** The stable ascending argsort both engines use to order the rows of a
    feature column: ascending value, equal values by ascending row index. */
module Ordering {

  /** Row a comes before row b in the sort order of column `col`. */
  predicate KeyLess(col: seq<real>, a: nat, b: nat)
    requires a < |col| && b < |col|
  {
    col[a] < col[b] || (col[a] == col[b] && a < b)
  }

  /** All entries of `s` are row indices of `col`. */
  predicate InRange(s: seq<nat>, n: nat) {
    forall k :: 0 <= k < |s| ==> s[k] < n
  }

  predicate SortedBy(col: seq<real>, s: seq<nat>)
    requires InRange(s, |col|)
  {
    forall a, b :: 0 <= a < b < |s| ==> KeyLess(col, s[a], s[b])
  }

  function Iota(n: nat): (r: seq<nat>)
    ensures |r| == n
    ensures forall i :: 0 <= i < n ==> r[i] == i
  {
    seq(n, i => i)
  }

  /** `s` lists each of 0 .. n-1 exactly once. */
  predicate IsPermutation(s: seq<nat>, n: nat) {
    |s| == n && multiset(s) == multiset(Iota(n))
  }

  lemma KeyLessTransitive(col: seq<real>, a: nat, b: nat, c: nat)
    requires a < |col| && b < |col| && c < |col|
    requires KeyLess(col, a, b) && KeyLess(col, b, c)
    ensures KeyLess(col, a, c)
  {
  }

  /** Insert row k after every row that precedes it in the column order. */
  function Insert(col: seq<real>, s: seq<nat>, k: nat): (r: seq<nat>)
    requires InRange(s, |col|) && k < |col|
    ensures |r| == |s| + 1
    ensures multiset(r) == multiset(s) + multiset{k}
    ensures InRange(r, |col|)
    decreases |s|
  {
    if |s| == 0 then [k]
    else if KeyLess(col, k, s[0]) then [k] + s
    else
      assert s == [s[0]] + s[1..];
      [s[0]] + Insert(col, s[1..], k)
  }

  lemma InsertMembers(col: seq<real>, s: seq<nat>, k: nat, x: nat)
    requires InRange(s, |col|) && k < |col|
    requires x in Insert(col, s, k)
    ensures x in s || x == k
  {
  }

  /** Every row in `s` comes after `a` in the column order. */
  predicate AllAfter(col: seq<real>, a: nat, s: seq<nat>)
    requires a < |col| && InRange(s, |col|)
  {
    forall j :: 0 <= j < |s| ==> KeyLess(col, a, s[j])
  }

  lemma ConsSorted(col: seq<real>, a: nat, s: seq<nat>)
    requires a < |col| && InRange(s, |col|)
    requires SortedBy(col, s) && AllAfter(col, a, s)
    ensures InRange([a] + s, |col|) && SortedBy(col, [a] + s)
  {
  }

  lemma {:induction false} InsertSorted(col: seq<real>, s: seq<nat>, k: nat)
    requires InRange(s, |col|) && k < |col|
    requires SortedBy(col, s) && k !in s
    ensures SortedBy(col, Insert(col, s, k))
    decreases |s|
  {
    if |s| == 0 {
    } else if KeyLess(col, k, s[0]) {
      forall j | 0 <= j < |s| ensures KeyLess(col, k, s[j]) {
        if j > 0 {
          KeyLessTransitive(col, k, s[0], s[j]);
        }
      }
      ConsSorted(col, k, s);
    } else {
      assert s == [s[0]] + s[1..];
      var t := Insert(col, s[1..], k);
      InsertSorted(col, s[1..], k);
      forall j | 0 <= j < |t| ensures KeyLess(col, s[0], t[j]) {
        assert t[j] in t;
        InsertMembers(col, s[1..], k, t[j]);
        if t[j] != k {
          var i :| 0 <= i < |s[1..]| && s[1..][i] == t[j];
          assert s[i + 1] == t[j];
        }
      }
      ConsSorted(col, s[0], t);
    }
  }

  /** Inserting row n-1 into a sorted order of rows 0 .. n-2 gives a sorted
      order of rows 0 .. n-1. */
  lemma InsertLast(col: seq<real>, s: seq<nat>, n: nat)
    requires 0 < n <= |col| && |s| == n - 1
    requires multiset(s) == multiset(Iota(n - 1)) && InRange(s, n - 1)
    requires InRange(s, |col|) && SortedBy(col, s)
    ensures multiset(Insert(col, s, n - 1)) == multiset(Iota(n))
    ensures InRange(Insert(col, s, n - 1), n)
    ensures SortedBy(col, Insert(col, s, n - 1))
  {
    assert (n - 1) !in s;
    InsertSorted(col, s, n - 1);
    assert Iota(n) == Iota(n - 1) + [n - 1];
    var r := Insert(col, s, n - 1);
    forall k | 0 <= k < |r| ensures r[k] < n {
      assert r[k] in multiset(r);
      if r[k] != n - 1 {
        assert r[k] in multiset(s);
      }
    }
  }

  function SortPrefix(col: seq<real>, n: nat): (r: seq<nat>)
    requires n <= |col|
    ensures |r| == n
    ensures multiset(r) == multiset(Iota(n))
    ensures InRange(r, n)
    ensures SortedBy(col, r)
  {
    if n == 0 then []
    else
      var s := SortPrefix(col, n - 1);
      assert InRange(s, |col|);
      InsertLast(col, s, n);
      Insert(col, s, n - 1)
  }

  /** The stable argsort of one column: a permutation of the row indices in
      ascending value, equal values in ascending row index. */
  function SortOrder(col: seq<real>): (r: seq<nat>)
    ensures IsPermutation(r, |col|)
    ensures InRange(r, |col|)
    ensures forall a, b :: 0 <= a < b < |r| ==>
      col[r[a]] < col[r[b]] || (col[r[a]] == col[r[b]] && r[a] < r[b])
  {
    SortPrefix(col, |col|)
  }

  lemma SortOrderNondecreasing(col: seq<real>, a: int, b: int)
    requires 0 <= a <= b < |col|
    ensures col[SortOrder(col)[a]] <= col[SortOrder(col)[b]]
  {
  }

  lemma PermutationMembers(s: seq<nat>, n: nat)
    requires IsPermutation(s, n)
    ensures InRange(s, n)
    ensures forall i :: 0 <= i < n ==> i in s
    ensures forall a, b :: 0 <= a < b < |s| ==> s[a] != s[b]
  {
    forall k | 0 <= k < |s| ensures s[k] < n {
      assert s[k] in multiset(Iota(n));
      var j :| 0 <= j < n && Iota(n)[j] == s[k];
    }
    forall i | 0 <= i < n ensures i in s {
      assert Iota(n)[i] == i;
      assert i in multiset(Iota(n));
    }
    forall a, b | 0 <= a < b < |s| ensures s[a] != s[b] {
      if s[a] == s[b] {
        var v := s[a];
        assert multiset(Iota(n))[v] <= 1 by { IotaCountAtMostOne(n, v); }
        MultisetTwo(s, a, b);
      }
    }
  }

  lemma {:induction false} IotaCountAtMostOne(n: nat, v: nat)
    ensures multiset(Iota(n))[v] <= 1
  {
    if n > 0 {
      assert Iota(n) == Iota(n - 1) + [n - 1];
      IotaCountAtMostOne(n - 1, v);
      if v == n - 1 {
        assert v !in multiset(Iota(n - 1));
      }
    }
  }

  lemma MultisetTwo<T>(s: seq<T>, a: int, b: int)
    requires 0 <= a < b < |s| && s[a] == s[b]
    ensures multiset(s)[s[a]] >= 2
  {
    assert s == s[..a] + [s[a]] + s[a + 1..b] + [s[b]] + s[b + 1..];
  }

  lemma SortedHeadsEqual(col: seq<real>, s: seq<nat>, t: seq<nat>)
    requires InRange(s, |col|) && InRange(t, |col|)
    requires multiset(s) == multiset(t) && |s| > 0
    requires SortedBy(col, s) && SortedBy(col, t)
    ensures |t| > 0 && s[0] == t[0]
  {
    assert s[0] in multiset(t);
    var j :| 0 <= j < |t| && t[j] == s[0];
    assert t[0] in multiset(s);
    var i :| 0 <= i < |s| && s[i] == t[0];
  }

  lemma SortedTail(col: seq<real>, s: seq<nat>)
    requires InRange(s, |col|) && SortedBy(col, s) && |s| > 0
    ensures InRange(s[1..], |col|) && SortedBy(col, s[1..])
  {
  }

  /** There is exactly one ordering of a set of rows that is strictly sorted
      by the column order: any permutation sorted that way is the argsort. */
  lemma {:induction false} SortedUnique(col: seq<real>, s: seq<nat>, t: seq<nat>)
    requires InRange(s, |col|) && InRange(t, |col|)
    requires multiset(s) == multiset(t)
    requires SortedBy(col, s) && SortedBy(col, t)
    ensures s == t
    decreases |s|
  {
    if |s| == 0 {
      assert |t| == |multiset(t)| == 0;
    } else {
      SortedHeadsEqual(col, s, t);
      assert s == [s[0]] + s[1..];
      assert t == [t[0]] + t[1..];
      assert multiset(s[1..]) == multiset(s) - multiset{s[0]};
      assert multiset(t[1..]) == multiset(t) - multiset{t[0]};
      SortedTail(col, s);
      SortedTail(col, t);
      SortedUnique(col, s[1..], t[1..]);
    }
  }

  /** Position of the first minimum of a non-empty sequence: later entries
      replace the running minimum only when strictly smaller, so the
      earliest entry wins ties. */
  function FirstMin(col: seq<real>): (r: nat)
    requires |col| > 0
    ensures r < |col|
    ensures forall k :: 0 <= k < |col| ==> col[r] <= col[k]
    ensures forall k :: 0 <= k < r ==> col[r] < col[k]
    decreases |col|
  {
    if |col| == 1 then 0
    else
      var p := FirstMin(col[..|col| - 1]);
      if col[|col| - 1] < col[p] then |col| - 1 else p
  }
}

=== FILE: poisson_booster.dfy ===
/** The legacy Poisson booster: a sequence of trees trained one after the
    other, each on the running sum of the predictions of the trees before
    it, and predicting by adding up the trees' values row by row. */
module PoissonBooster {
  import opened Wrappers
  import opened Numeric
  import opened PoissonTypes
  import opened PoissonMatrix
  import opened PoissonWholeLoss
  import opened PoissonTree

  datatype Booster = Booster(trees: seq<Tree>)

  // --------------------------------------------------------- one tree, rows

  /** The extra features handed to row i: none when the matrix has none; a
      row past the end of the extra matrix is an index panic. */
  function RowExtra(extra: Option<Mat>, i: nat): Result<Option<Vec>> {
    match extra
    case None => Success(None)
    case Some(x) => if i < |x| then Success(Some(x[i])) else Failure(ShapeMismatch("extra features shorter than rows"))
  }

  /** The prediction of one tree for row i. */
  function RowPredict(t: Tree, inter: Mat, extra: Option<Mat>, i: nat): Result<real>
    requires i < |inter|
  {
    var e :- RowExtra(extra, i);
    Predict(t, inter[i], e)
  }

  /** Every one of the first n rows has a prediction. */
  predicate RowsPredict(t: Tree, inter: Mat, extra: Option<Mat>, n: nat)
    requires n <= |inter|
  {
    forall i :: 0 <= i < n ==> RowPredict(t, inter, extra, i).Success?
  }

  /** The predictions of the first n rows, in row order, stopping at the
      first row that fails. */
  function PredictRows(t: Tree, inter: Mat, extra: Option<Mat>, n: nat): (r: Result<Vec>)
    requires n <= |inter|
    ensures r.Success? <==> RowsPredict(t, inter, extra, n)
    ensures r.Success? ==> |r.value| == n
    ensures r.Success? ==> forall i :: 0 <= i < n ==> r.value[i] == RowPredict(t, inter, extra, i).value
    decreases n
  {
    if n == 0 then Success([])
    else
      var p :- PredictRows(t, inter, extra, n - 1);
      var v :- RowPredict(t, inter, extra, n - 1);
      Success(p + [v])
  }

  /** predictTree: one tree's prediction for every row of a matrix. */
  function PredictTree(t: Tree, inter: Mat, extra: Option<Mat>): (r: Result<Vec>)
    ensures r.Success? <==> RowsPredict(t, inter, extra, |inter|)
    ensures r.Success? ==> |r.value| == |inter|
    ensures r.Success? ==> forall i :: 0 <= i < |inter| ==> r.value[i] == RowPredict(t, inter, extra, i).value
  {
    PredictRows(t, inter, extra, |inter|)
  }

  /** Errors are reported in row order: when rows 0..k-1 predict and row k
      does not, the whole prediction fails with row k's error. */
  lemma {:induction false} PredictRowsFirstError(t: Tree, inter: Mat, extra: Option<Mat>, k: nat, n: nat)
    requires k < n <= |inter|
    requires RowsPredict(t, inter, extra, k) && RowPredict(t, inter, extra, k).Failure?
    ensures PredictRows(t, inter, extra, n) == Failure(RowPredict(t, inter, extra, k).error)
    decreases n
  {
    if n - 1 > k {
      PredictRowsFirstError(t, inter, extra, k, n - 1);
    } else {
      assert PredictRows(t, inter, extra, n - 1).Success?;
    }
  }

  // -------------------------------------------------------- several trees

  /** Every tree of the sequence predicts every row. */
  predicate TreesPredict(trees: seq<Tree>, inter: Mat, extra: Option<Mat>) {
    forall k :: 0 <= k < |trees| ==> PredictTree(trees[k], inter, extra).Success?
  }

  /** The sum, row by row, of the predictions of the trees, added tree after
      tree starting from zero; the first tree that fails ends the sum. */
  function SumTrees(trees: seq<Tree>, inter: Mat, extra: Option<Mat>): (r: Result<Vec>)
    ensures r.Success? <==> TreesPredict(trees, inter, extra)
    ensures r.Success? ==> |r.value| == |inter|
    decreases |trees|
  {
    if |trees| == 0 then Success(Zeros(|inter|))
    else
      var n := |trees| - 1;
      assert forall k :: 0 <= k < n ==> trees[..n][k] == trees[k];
      var acc :- SumTrees(trees[..n], inter, extra);
      var p :- PredictTree(trees[n], inter, extra);
      Success(VecAdd(acc, p))
  }

  /** The values the trees give row i. */
  function RowValues(trees: seq<Tree>, inter: Mat, extra: Option<Mat>, i: nat): (r: seq<real>)
    requires TreesPredict(trees, inter, extra) && i < |inter|
    ensures |r| == |trees|
    ensures forall k :: 0 <= k < |trees| ==> r[k] == PredictTree(trees[k], inter, extra).value[i]
  {
    seq(|trees|, k requires 0 <= k < |trees| => PredictTree(trees[k], inter, extra).value[i])
  }

  /** Row i of the sum is the total of the values every tree gives row i. */
  lemma {:induction false} SumTreesRow(trees: seq<Tree>, inter: Mat, extra: Option<Mat>, i: nat)
    requires TreesPredict(trees, inter, extra) && i < |inter|
    ensures SumTrees(trees, inter, extra).value[i] == Total(RowValues(trees, inter, extra, i))
    decreases |trees|
  {
    var vs := RowValues(trees, inter, extra, i);
    if |trees| > 0 {
      var n := |trees| - 1;
      assert TreesPredict(trees[..n], inter, extra) by {
        forall k | 0 <= k < n ensures PredictTree(trees[..n][k], inter, extra).Success? {
          assert trees[..n][k] == trees[k];
        }
      }
      SumTreesRow(trees[..n], inter, extra, i);
      SumCongruent(RowValues(trees[..n], inter, extra, i), vs, 0, n);
    }
  }

  /** Both runs of a concatenation predict when the whole does. */
  lemma TreesPredictParts(a: seq<Tree>, b: seq<Tree>, inter: Mat, extra: Option<Mat>)
    requires TreesPredict(a + b, inter, extra)
    ensures TreesPredict(a, inter, extra) && TreesPredict(b, inter, extra)
  {
    forall k | 0 <= k < |a| ensures PredictTree(a[k], inter, extra).Success? {
      assert (a + b)[k] == a[k];
    }
    forall k | 0 <= k < |b| ensures PredictTree(b[k], inter, extra).Success? {
      assert (a + b)[|a| + k] == b[k];
    }
  }

  /** The sum over a non-empty run is the sum over all but its last tree
      plus the last tree's prediction. */
  lemma SumTreesLast(trees: seq<Tree>, inter: Mat, extra: Option<Mat>)
    requires |trees| > 0 && TreesPredict(trees, inter, extra)
    ensures SumTrees(trees[..|trees| - 1], inter, extra).Success?
    ensures SumTrees(trees, inter, extra).value ==
      VecAdd(SumTrees(trees[..|trees| - 1], inter, extra).value, PredictTree(trees[|trees| - 1], inter, extra).value)
  {
    var n := |trees| - 1;
    assert forall k :: 0 <= k < n ==> trees[..n][k] == trees[k];
  }

  /** The sum over two runs of trees is the sum of the two sums. */
  lemma {:induction false} SumTreesAppend(a: seq<Tree>, b: seq<Tree>, inter: Mat, extra: Option<Mat>)
    requires TreesPredict(a + b, inter, extra)
    ensures SumTrees(a, inter, extra).Success? && SumTrees(b, inter, extra).Success?
    ensures SumTrees(a + b, inter, extra).value == VecAdd(SumTrees(a, inter, extra).value, SumTrees(b, inter, extra).value)
    decreases |b|
  {
    TreesPredictParts(a, b, inter, extra);
    var left := SumTrees(a, inter, extra).value;
    if |b| == 0 {
      assert a + b == a;
      assert VecAdd(left, Zeros(|inter|)) == left;
    } else {
      var n := |b| - 1;
      var ab := a + b;
      var last := |ab| - 1;
      assert last == |a| + n;
      assert ab[..last] == a + b[..n];
      assert ab[last] == b[n];
      SumTreesLast(ab, inter, extra);
      SumTreesLast(b, inter, extra);
      SumTreesAppend(a, b[..n], inter, extra);
      var front, rest := SumTrees(a + b[..n], inter, extra).value, SumTrees(b[..n], inter, extra).value;
      var p := PredictTree(b[n], inter, extra).value;
      assert SumTrees(ab, inter, extra).value == VecAdd(front, p);
      assert SumTrees(b, inter, extra).value == VecAdd(rest, p);
      assert front == VecAdd(left, rest);
      VecAddAssoc(left, rest, p);
    }
  }

  /** A single tree on top of nothing: its sum is its own prediction. */
  lemma SumOneTree(t: Tree, inter: Mat, extra: Option<Mat>)
    requires PredictTree(t, inter, extra).Success?
    ensures SumTrees([t], inter, extra) == PredictTree(t, inter, extra)
  {
    assert [t][..0] == [];
    var p := PredictTree(t, inter, extra).value;
    assert VecAdd(Zeros(|inter|), p) == p;
  }

  /** Booster.Predict: the sum of the predictions of all trees, an error
      for a booster without trees. */
  function BoosterPredict(b: Booster, inter: Mat, extra: Option<Mat>): (r: Result<Vec>)
    ensures |b.trees| == 0 ==> r == Failure(EmptyInput("empty booster"))
    ensures r.Success? <==> |b.trees| > 0 && TreesPredict(b.trees, inter, extra)
    ensures r.Success? ==> |r.value| == |inter|
    ensures |b.trees| > 0 ==> r == SumTrees(b.trees, inter, extra)
  {
    if |b.trees| == 0 then Failure(EmptyInput("empty booster"))
    else SumTrees(b.trees, inter, extra)
  }

  // ------------------------------------------------------------- training

  /** The bias a stage trains on after the trees `done`: none before the
      first tree, then the summed predictions on the training rows. */
  function StageBias(done: seq<Tree>, m: PMatrix): Option<seq<real>> {
    if |done| == 0 then None
    else
      match SumTrees(done, m.featuresInter, m.featuresExtra)
      case Success(v) => Some(v)
      case Failure(_) => None
  }

  predicate ZeroFree(v: Vec) {
    forall i :: 0 <= i < |v| ==> v[i] != 0.0
  }

  /** Whether v holds an exact zero, scanning from the front. */
  method FindZero(v: Vec) returns (found: bool)
    ensures found <==> !ZeroFree(v)
  {
    found := false;
    var i := 0;
    while i < |v|
      invariant 0 <= i <= |v|
      invariant forall k :: 0 <= k < i ==> v[k] != 0.0
    {
      if v[i] == 0.0 {
        return true;
      }
      i := i + 1;
    }
  }

  /** The tree builder one stage calls on the running bias: buildTree with
      the training matrix and parameters fixed. */
  type Grower = Option<seq<real>> -> Result<Tree>

  /** What a run of training leaves behind: tree s is what the builder made
      of the bias of the trees before it, every tree predicts the training
      rows and, when zeros are checked, no running sum has a zero. */
  predicate Trained(grow: Grower, m: PMatrix, checkZero: bool, trees: seq<Tree>) {
    && (forall s :: 0 <= s < |trees| ==> grow(StageBias(trees[..s], m)) == Success(trees[s]))
    && TreesPredict(trees, m.featuresInter, m.featuresExtra)
    && (checkZero ==> forall s :: 1 <= s <= |trees| ==> ZeroFree(SumTrees(trees[..s], m.featuresInter, m.featuresExtra).value))
  }

  /** Adding one stage's tree to a trained prefix. */
  lemma TrainedExtend(grow: Grower, m: PMatrix, checkZero: bool, trees: seq<Tree>, t: Tree)
    requires Trained(grow, m, checkZero, trees)
    requires grow(StageBias(trees, m)) == Success(t)
    requires PredictTree(t, m.featuresInter, m.featuresExtra).Success?
    requires checkZero ==> ZeroFree(SumTrees(trees + [t], m.featuresInter, m.featuresExtra).value)
    ensures Trained(grow, m, checkZero, trees + [t])
  {
    var next := trees + [t];
    var inter, extra := m.featuresInter, m.featuresExtra;
    forall s | 0 <= s < |next| ensures grow(StageBias(next[..s], m)) == Success(next[s]) {
      if s < |trees| {
        assert next[..s] == trees[..s];
      } else {
        assert next[..s] == trees;
      }
    }
    forall k | 0 <= k < |next| ensures PredictTree(next[k], inter, extra).Success? {
      if k < |trees| {
        assert next[k] == trees[k];
      }
    }
    if checkZero {
      forall s | 1 <= s <= |next| ensures ZeroFree(SumTrees(next[..s], inter, extra).value) {
        if s <= |trees| {
          assert next[..s] == trees[..s];
        } else {
          assert next[..s] == next;
        }
      }
    }
  }

  /** Train: numBoostRound stages, each building a tree on the running sum
      of the earlier trees' predictions and adding its own predictions to
      that sum; with zero checking on, a zero anywhere in the sum aborts.
      The builder is the parameter `grow`; see TrainTrees for buildTree. */
  method Train(checkZero: bool, matrix: Option<PMatrix>, numBoostRound: int, grow: Grower)
    returns (r: Result<Booster>)
    ensures matrix.None? ==> r == Failure(InvalidModel("nil matrix"))
    ensures r.Success? ==> matrix.Some? && |r.value.trees| == Max(0, numBoostRound)
    ensures r.Success? ==> Trained(grow, matrix.value, checkZero, r.value.trees)
  {
    if matrix.None? {
      return Failure(InvalidModel("nil matrix"));
    }
    var m := matrix.value;
    var trees: seq<Tree> := [];
    var bias: Option<seq<real>> := None;
    var stage := 0;
    while stage < numBoostRound
      invariant 0 <= stage == |trees| <= Max(0, numBoostRound)
      invariant Trained(grow, m, checkZero, trees)
      invariant bias == StageBias(trees, m)
    {
      var next := Stage(checkZero, m, trees, bias, grow);
      if next.Failure? {
        return Failure(next.error);
      }
      trees := trees + [next.value.0];
      bias := Some(next.value.1);
      stage := stage + 1;
    }
    return Success(Booster(trees));
  }

  /** One stage of Train: build a tree on the current bias, predict the
      training rows with it, add the predictions to the running sum and, if
      asked, reject a sum with a zero. */
  method Stage(checkZero: bool, m: PMatrix, trees: seq<Tree>, bias: Option<seq<real>>, grow: Grower)
    returns (r: Result<(Tree, Vec)>)
    requires Trained(grow, m, checkZero, trees) && bias == StageBias(trees, m)
    ensures r.Success? ==> Trained(grow, m, checkZero, trees + [r.value.0])
    ensures r.Success? ==> Some(r.value.1) == StageBias(trees + [r.value.0], m)
  {
    var built := grow(bias);
    if built.Failure? {
      return Failure(built.error);
    }
    var t := built.value;
    var preds := PredictTree(t, m.featuresInter, m.featuresExtra);
    if preds.Failure? {
      return Failure(preds.error);
    }
    var sum := StageSum(trees, t, m, bias, preds.value);
    if checkZero {
      var zero := FindZero(sum);
      if zero {
        return Failure(InvalidModel("zero prediction"));
      }
    }
    TrainedExtend(grow, m, checkZero, trees, t);
    return Success((t, sum));
  }

  /** Train with buildTree as the builder: tree s is the tree buildTree
      makes of the training matrix and the summed predictions of trees
      0..s-1 (no bias for the first). */
  method TrainTrees(params: TreeBuildParams, matrix: Option<PMatrix>, numBoostRound: int, num: Numerics)
    returns (r: Result<Booster>)
    requires matrix.Some? ==> Valid(matrix.value)
    ensures matrix.None? ==> r == Failure(InvalidModel("nil matrix"))
    ensures r.Success? ==> matrix.Some? && |r.value.trees| == Max(0, numBoostRound)
    ensures r.Success? ==> forall s :: 0 <= s < |r.value.trees| ==>
      BuildTree(params, matrix.value, StageBias(r.value.trees[..s], matrix.value), num) == Success(r.value.trees[s])
    ensures r.Success? ==> TreesPredict(r.value.trees, matrix.value.featuresInter, matrix.value.featuresExtra)
  {
    if matrix.None? {
      return Failure(InvalidModel("nil matrix"));
    }
    var m := matrix.value;
    var grow: Grower := bias => BuildTree(params, m, bias, num);
    r := Train(params.checkZero, matrix, numBoostRound, grow);
  }

  /** The running sum after one more stage: the new predictions themselves
      after the first stage, the old sum plus them afterwards. */
  method StageSum(trees: seq<Tree>, t: Tree, m: PMatrix, bias: Option<seq<real>>, preds: Vec) returns (sum: Vec)
    requires TreesPredict(trees, m.featuresInter, m.featuresExtra)
    requires bias == StageBias(trees, m)
    requires PredictTree(t, m.featuresInter, m.featuresExtra) == Success(preds)
    ensures TreesPredict(trees + [t], m.featuresInter, m.featuresExtra)
    ensures sum == SumTrees(trees + [t], m.featuresInter, m.featuresExtra).value
  {
    var inter := m.featuresInter;
    var extra := m.featuresExtra;
    var next := trees + [t];
    assert next[..|trees|] == trees;
    assert TreesPredict(next, inter, extra) by {
      forall k | 0 <= k < |next| ensures PredictTree(next[k], inter, extra).Success? {
      }
    }
    if bias.None? {
      assert |trees| == 0;
      SumOneTree(t, inter, extra);
      assert next == [t];
      sum := preds;
    } else {
      var acc := bias.value;
      sum := acc;
      var i := 0;
      while i < |sum|
        invariant |sum| == |acc| == |preds| == |inter|
        invariant 0 <= i <= |sum|
        invariant forall k :: 0 <= k < i ==> sum[k] == acc[k] + preds[k]
        invariant forall k :: i <= k < |sum| ==> sum[k] == acc[k]
      {
        sum := sum[i := sum[i] + preds[i]];
        i := i + 1;
      }
      assert sum == VecAdd(acc, preds);
    }
  }
}

=== FILE: poisson_extra_loss.dfy ===
/** The two split-loss variants of the legacy Poisson engine that fit a
    vector leaf value over the extra features: for every split position and
    feature they accumulate, with running sums down the sort order, one
    regularised linear system for the rows above the split and one for the
    rows below, and solve both. */
module PoissonExtraLoss {
  import opened Wrappers
  import opened Numeric
  import opened PoissonUtils
  import opened PoissonTypes
  import opened PoissonMatrix
  import opened PoissonLinear
  import opened PoissonLoss

  /** The running-sum tables the leaf systems are read from: entry [i][j] of
      the forward tables covers sorted rows 0 .. i of feature j, entry [i][j]
      of the backward tables sorted rows i .. rows-1. */
  datatype Systems = Systems(
    hessUp: seq<seq<Mat>>,
    hessDown: seq<seq<Mat>>,
    gradUp: seq<seq<Vec>>,
    gradDown: seq<seq<Vec>>)

  predicate SystemsShape(s: Systems, rows: nat, cols: nat, depth: nat) {
    && |s.hessUp| == rows && Is4D(s.hessUp, cols, depth)
    && |s.hessDown| == rows && Is4D(s.hessDown, cols, depth)
    && |s.gradUp| == rows && Is3D(s.gradUp, cols, depth)
    && |s.gradDown| == rows && Is3D(s.gradDown, cols, depth)
  }

  /** The solution of the forward system at (i, j). */
  function UpSolution(solve: Solver, s: Systems, cols: nat, depth: nat, regLambda: real, i: int, j: int): Option<Vec>
    requires SystemsShape(s, |s.hessUp|, cols, depth) && 0 <= i < |s.hessUp| && 0 <= j < cols
  {
    SolveLinearSystem(solve, s.hessUp[i][j], s.gradUp[i][j], regLambda)
  }

  /** The solution of the backward system at (i, j). */
  function DownSolution(solve: Solver, s: Systems, cols: nat, depth: nat, regLambda: real, i: int, j: int): Option<Vec>
    requires SystemsShape(s, |s.hessUp|, cols, depth) && 0 <= i < |s.hessUp| && 0 <= j < cols
  {
    SolveLinearSystem(solve, s.hessDown[i][j], s.gradDown[i][j], regLambda)
  }

  predicate Solvable(solve: Solver, s: Systems, cols: nat, depth: nat, regLambda: real)
    requires SystemsShape(s, |s.hessUp|, cols, depth)
  {
    forall i, j :: 0 <= i < |s.hessUp| && 0 <= j < cols ==>
      UpSolution(solve, s, cols, depth, regLambda, i, j).Some? && DownSolution(solve, s, cols, depth, regLambda, i, j).Some?
  }

  /** A rows x cols table of weight vectors of depth entries each. */
  predicate WeightsShape(w: seq<seq<Vec>>, rows: nat, cols: nat, depth: nat) {
    |w| == rows && Is3D(w, cols, depth)
  }

  /** The solving loops shared by both variants: every forward and backward
      system is solved, and the first failure aborts the whole computation. */
  function SolveAll(solve: Solver, s: Systems, cols: nat, depth: nat, regLambda: real): (r: Result<(seq<seq<Vec>>, seq<seq<Vec>>)>)
    requires SystemsShape(s, |s.hessUp|, cols, depth)
    ensures r.Failure? <==> !Solvable(solve, s, cols, depth, regLambda)
    ensures r.Success? ==>
      && WeightsShape(r.value.0, |s.hessUp|, cols, depth) && WeightsShape(r.value.1, |s.hessUp|, cols, depth)
      && (forall i, j :: 0 <= i < |s.hessUp| && 0 <= j < cols ==>
            && Some(r.value.0[i][j]) == UpSolution(solve, s, cols, depth, regLambda, i, j)
            && Some(r.value.1[i][j]) == DownSolution(solve, s, cols, depth, regLambda, i, j))
  {
    var rows := |s.hessUp|;
    if !Solvable(solve, s, cols, depth, regLambda) then Failure(SingularSystem)
    else
      Success((
        seq(rows, i requires 0 <= i < rows =>
          seq(cols, j requires 0 <= j < cols => UpSolution(solve, s, cols, depth, regLambda, i, j).value)),
        seq(rows, i requires 0 <= i < rows =>
          seq(cols, j requires 0 <= j < cols => DownSolution(solve, s, cols, depth, regLambda, i, j).value))))
  }

  // ------------------------------------------------------------ first tree

  /** The extra-feature row of every cell, in each feature's sort order. */
  function SortedExtra(m: PMatrix): (r: seq<seq<Vec>>)
    requires Valid(m) && m.featuresExtra.Some?
    ensures |r| == m.Height() && Is3D(r, m.Cols(), Depth(m))
    ensures forall i, j :: 0 <= i < m.Height() && 0 <= j < m.Cols() ==> r[i][j] == m.featuresExtra.value[m.gax[i][j]]
  {
    GatherExtra(m.featuresExtra.value, m.gax)
  }

  /** x x^T for the extra row x of every cell. */
  function OuterProducts(xs: seq<seq<Vec>>, cols: nat, depth: nat): (r: seq<seq<Mat>>)
    requires Is3D(xs, cols, depth)
    ensures |r| == |xs| && Is4D(r, cols, depth)
    ensures forall i, j, a, b :: 0 <= i < |xs| && 0 <= j < cols && 0 <= a < depth && 0 <= b < depth ==>
      r[i][j][a][b] == xs[i][j][a] * xs[i][j][b]
  {
    seq(|xs|, i requires 0 <= i < |xs| => seq(cols, j requires 0 <= j < cols => Outer(xs[i][j])))
  }

  /** The extra row of every cell scaled by the cell's weight. */
  function ScaledRows(w: Mat, xs: seq<seq<Vec>>, cols: nat, depth: nat): (r: seq<seq<Vec>>)
    requires Is3D(xs, cols, depth) && |w| == |xs| && IsRect(w, cols)
    ensures |r| == |xs| && Is3D(r, cols, depth)
    ensures forall i, j, d :: 0 <= i < |xs| && 0 <= j < cols && 0 <= d < depth ==>
      r[i][j][d] == w[i][j] * xs[i][j][d]
  {
    seq(|xs|, i requires 0 <= i < |xs| => seq(cols, j requires 0 <= j < cols => VecScale(w[i][j], xs[i][j])))
  }

  /** The systems of the first tree: running sums of x x^T (left) and of
      f x (right) over the sorted rows. */
  function FirstExtraSystems(m: PMatrix): (s: Systems)
    requires Valid(m) && m.featuresExtra.Some? && m.Cols() > 0
    ensures SystemsShape(s, m.Height(), m.Cols(), Depth(m))
  {
    var cols, depth := m.Cols(), Depth(m);
    var xs := SortedExtra(m);
    var left := OuterProducts(xs, cols, depth);
    var right := ScaledRows(GatherVector(m.freqs, m.gax), xs, cols, depth);
    Systems(
      CumsumForward4D(left, cols, depth), CumsumBackward4D(left, cols, depth),
      CumsumForward3D(right, cols, depth), CumsumBackward3D(right, cols, depth))
  }

  /** x[a] x[b] for the extra row x of every sorted position of feature j. */
  function ProductColumn(m: PMatrix, j: int, a: int, b: int): (r: seq<real>)
    requires Valid(m) && m.featuresExtra.Some?
    requires 0 <= j < m.Cols() && 0 <= a < Depth(m) && 0 <= b < Depth(m)
    ensures |r| == m.Height()
  {
    var e := m.featuresExtra.value;
    seq(m.Height(), k requires 0 <= k < m.Height() => e[m.gax[k][j]][a] * e[m.gax[k][j]][b])
  }

  /** w[row] x[d] for the extra row x of every sorted position of feature j. */
  function WeightedColumn(m: PMatrix, w: seq<real>, j: int, d: int): (r: seq<real>)
    requires Valid(m) && m.featuresExtra.Some? && |w| == m.Height()
    requires 0 <= j < m.Cols() && 0 <= d < Depth(m)
    ensures |r| == m.Height()
  {
    var e := m.featuresExtra.value;
    seq(m.Height(), k requires 0 <= k < m.Height() => w[m.gax[k][j]] * e[m.gax[k][j]][d])
  }

  /** The left-hand running sums of the first tree are sums of x x^T over the
      sorted rows above (forward) and from (backward) the position. */
  lemma FirstExtraHessSums(m: PMatrix, i: int, j: int, a: int, b: int)
    requires Valid(m) && m.featuresExtra.Some? && m.Cols() > 0
    requires 0 <= i < m.Height() && 0 <= j < m.Cols() && 0 <= a < Depth(m) && 0 <= b < Depth(m)
    ensures FirstExtraSystems(m).hessUp[i][j][a][b] == Sum(ProductColumn(m, j, a, b), 0, i + 1)
    ensures FirstExtraSystems(m).hessDown[i][j][a][b] == Sum(ProductColumn(m, j, a, b), i, m.Height())
  {
    var cols, depth := m.Cols(), Depth(m);
    var xs := SortedExtra(m);
    var left := OuterProducts(xs, cols, depth);
    var f, p := Fiber4(left, cols, depth, j, a, b), ProductColumn(m, j, a, b);
    forall k | 0 <= k < m.Height() ensures f[k] == p[k] {
      assert xs[k][j] == m.featuresExtra.value[m.gax[k][j]];
    }
    assert f == p;
    assert FirstExtraSystems(m).hessUp == CumsumForward4D(left, cols, depth);
    assert FirstExtraSystems(m).hessDown == CumsumBackward4D(left, cols, depth);
  }

  /** The right-hand running sums of the first tree are sums of f x over the
      same rows. */
  lemma FirstExtraGradSums(m: PMatrix, i: int, j: int, d: int)
    requires Valid(m) && m.featuresExtra.Some? && m.Cols() > 0
    requires 0 <= i < m.Height() && 0 <= j < m.Cols() && 0 <= d < Depth(m)
    ensures FirstExtraSystems(m).gradUp[i][j][d] == Sum(WeightedColumn(m, m.freqs, j, d), 0, i + 1)
    ensures FirstExtraSystems(m).gradDown[i][j][d] == Sum(WeightedColumn(m, m.freqs, j, d), i, m.Height())
  {
    var cols, depth := m.Cols(), Depth(m);
    var xs := SortedExtra(m);
    var right := ScaledRows(GatherVector(m.freqs, m.gax), xs, cols, depth);
    var f, p := Fiber3(right, cols, depth, j, d), WeightedColumn(m, m.freqs, j, d);
    forall k | 0 <= k < m.Height() ensures f[k] == p[k] {
      assert xs[k][j] == m.featuresExtra.value[m.gax[k][j]];
    }
    assert f == p;
    assert FirstExtraSystems(m).gradUp == CumsumForward3D(right, cols, depth);
    assert FirstExtraSystems(m).gradDown == CumsumBackward3D(right, cols, depth);
  }

  /** Split losses of the first tree: each part contributes minus the dot
      product of its weights with its right-hand side; the part below split
      position i is the backward system at i+1. */
  function FirstExtraTotal(s: Systems, up: seq<seq<Vec>>, down: seq<seq<Vec>>, cols: nat, depth: nat): (r: Mat)
    requires |s.hessUp| > 0 && SystemsShape(s, |s.hessUp|, cols, depth)
    requires WeightsShape(up, |s.hessUp|, cols, depth) && WeightsShape(down, |s.hessUp|, cols, depth)
    ensures |r| == |s.hessUp| - 1 && IsRect(r, cols)
    ensures forall i, j :: 0 <= i < |s.hessUp| - 1 && 0 <= j < cols ==>
      r[i][j] == -Dot(up[i][j], s.gradUp[i][j]) - Dot(down[i + 1][j], s.gradDown[i + 1][j])
  {
    var rows := |s.hessUp|;
    seq(rows - 1, i requires 0 <= i < rows - 1 =>
      seq(cols, j requires 0 <= j < cols =>
        -Dot(up[i][j], s.gradUp[i][j]) - Dot(down[i + 1][j], s.gradDown[i + 1][j])))
  }

  /** The whole node's weights for every feature: the forward solution at the
      last sorted row. */
  function LastRow(up: seq<seq<Vec>>, cols: nat): (r: Mat)
    requires |up| > 0 && |up[|up| - 1]| == cols
    ensures |r| == cols && forall j :: 0 <= j < cols ==> r[j] == up[|up| - 1][j]
  {
    seq(cols, j requires 0 <= j < cols => up[|up| - 1][j])
  }

  /** wholeLossFirstTreeExtra: the leaf weights of each part solve its
      regularised system. Fails when the extra features are missing, when
      there is no interpolating feature, or when any system cannot be
      solved. */
  function WholeLossFirstTreeExtra(m: PMatrix, params: TreeBuildParams, solve: Solver): (r: Result<LossResult>)
    requires Valid(m)
    ensures r.Failure? <==>
      || m.featuresExtra.None? || m.Cols() == 0
      || !Solvable(solve, FirstExtraSystems(m), m.Cols(), Depth(m), params.regLambda)
    ensures r.Success? ==>
      var s := FirstExtraSystems(m);
      var w := SolveAll(solve, s, m.Cols(), Depth(m), params.regLambda);
      && w.Success?
      && r.value.totalLoss == FirstExtraTotal(s, w.value.0, w.value.1, m.Cols(), Depth(m))
      && r.value.sortedThresholds == TakeAlongAxis(m.featuresInter, m.gax)
      && r.value.deltaUp == w.value.0
      && r.value.deltaDown == w.value.1[1..]
      && r.value.deltaCurrent == LastRow(w.value.0, m.Cols())
  {
    if m.featuresExtra.None? then Failure(InvalidModel("missing extra features"))
    else if m.Cols() == 0 then Failure(ShapeMismatch("no interpolating features"))
    else
      var cols, depth := m.Cols(), Depth(m);
      var s := FirstExtraSystems(m);
      var w :- SolveAll(solve, s, cols, depth, params.regLambda);
      Success(LossResult(
        FirstExtraTotal(s, w.0, w.1, cols, depth),
        TakeAlongAxis(m.featuresInter, m.gax),
        w.0,
        w.1[1..],
        LastRow(w.0, cols)))
  }

  /** A solved system of a sound solver: the answer satisfies it. */
  lemma SolvedCell(solve: Solver, h: Mat, g: Vec, depth: nat, regLambda: real, w: Vec)
    requires SoundSolver(solve)
    requires |h| == depth && IsRect(h, depth) && |g| == depth
    requires Some(w) == SolveLinearSystem(solve, h, g, regLambda)
    ensures MatVec(Regularised(h, regLambda), w) == g
  {
    SolveLinearSystemSolves(solve, h, g, regLambda);
    assert g[..depth] == g;
  }

  /** With a sound solver, every weight vector SolveAll returns solves its
      regularised system. */
  lemma SolveAllSolves(solve: Solver, s: Systems, cols: nat, depth: nat, regLambda: real, i: int, j: int)
    requires SoundSolver(solve) && SystemsShape(s, |s.hessUp|, cols, depth)
    requires SolveAll(solve, s, cols, depth, regLambda).Success?
    requires 0 <= i < |s.hessUp| && 0 <= j < cols
    ensures var w := SolveAll(solve, s, cols, depth, regLambda).value;
      && MatVec(Regularised(s.hessUp[i][j], regLambda), w.0[i][j]) == s.gradUp[i][j]
      && MatVec(Regularised(s.hessDown[i][j], regLambda), w.1[i][j]) == s.gradDown[i][j]
  {
    var w := SolveAll(solve, s, cols, depth, regLambda).value;
    assert Some(w.0[i][j]) == UpSolution(solve, s, cols, depth, regLambda, i, j);
    assert Some(w.1[i][j]) == DownSolution(solve, s, cols, depth, regLambda, i, j);
    SolvedCell(solve, s.hessUp[i][j], s.gradUp[i][j], depth, regLambda, w.0[i][j]);
    SolvedCell(solve, s.hessDown[i][j], s.gradDown[i][j], depth, regLambda, w.1[i][j]);
  }

  // ------------------------------------------------------------ next trees

  function Curvature(f: real, b: real, xp: real, xq: real): real {
    FDiv(f * xp * xq, b * b)
  }

  function Ratio(f: real, b: real, xd: real): real {
    FDiv(f * xd, b)
  }

  /** f x x^T / b^2: the curvature of one row's Poisson loss in the leaf
      weights at the current prediction b. */
  function CurvatureCell(f: real, b: real, x: Vec): (r: Mat)
    ensures |r| == |x| && IsRect(r, |x|)
    ensures forall p, q :: 0 <= p < |x| && 0 <= q < |x| ==> r[p][q] == FDiv(f * x[p] * x[q], b * b)
  {
    seq(|x|, p requires 0 <= p < |x| => seq(|x|, q requires 0 <= q < |x| => Curvature(f, b, x[p], x[q])))
  }

  /** f x / b: the data part of one row's gradient. */
  function RatioCell(f: real, b: real, x: Vec): (r: Vec)
    ensures |r| == |x|
    ensures forall d :: 0 <= d < |x| ==> r[d] == FDiv(f * x[d], b)
  {
    seq(|x|, d requires 0 <= d < |x| => Ratio(f, b, x[d]))
  }

  function ScaledOuterProducts(f: Mat, b: Mat, xs: seq<seq<Vec>>, cols: nat, depth: nat): (r: seq<seq<Mat>>)
    requires Is3D(xs, cols, depth) && |f| == |xs| && IsRect(f, cols) && |b| == |xs| && IsRect(b, cols)
    ensures |r| == |xs| && Is4D(r, cols, depth)
    ensures forall i, j :: 0 <= i < |xs| && 0 <= j < cols ==> r[i][j] == CurvatureCell(f[i][j], b[i][j], xs[i][j])
  {
    seq(|xs|, i requires 0 <= i < |xs| => seq(cols, j requires 0 <= j < cols =>
      CurvatureCell(f[i][j], b[i][j], xs[i][j])))
  }

  function ScaledRatios(f: Mat, b: Mat, xs: seq<seq<Vec>>, cols: nat, depth: nat): (r: seq<seq<Vec>>)
    requires Is3D(xs, cols, depth) && |f| == |xs| && IsRect(f, cols) && |b| == |xs| && IsRect(b, cols)
    ensures |r| == |xs| && Is3D(r, cols, depth)
    ensures forall i, j :: 0 <= i < |xs| && 0 <= j < cols ==> r[i][j] == RatioCell(f[i][j], b[i][j], xs[i][j])
  {
    seq(|xs|, i requires 0 <= i < |xs| => seq(cols, j requires 0 <= j < cols =>
      RatioCell(f[i][j], b[i][j], xs[i][j])))
  }

  /** The exposure part minus the data part: objects * psi - sums of f x / b. */
  function ExposureMinus(objects: Mat, psi: seq<real>, sums: seq<seq<Vec>>, cols: nat, depth: nat): (r: seq<seq<Vec>>)
    requires Is3D(sums, cols, depth) && |objects| == |sums| && IsRect(objects, cols) && |psi| == depth
    ensures |r| == |sums| && Is3D(r, cols, depth)
    ensures forall i, j, d :: 0 <= i < |sums| && 0 <= j < cols && 0 <= d < depth ==>
      r[i][j][d] == objects[i][j] * psi[d] - sums[i][j][d]
  {
    seq(|sums|, i requires 0 <= i < |sums| => seq(cols, j requires 0 <= j < cols =>
      seq(depth, d requires 0 <= d < depth => objects[i][j] * psi[d] - sums[i][j][d])))
  }

  /** What a later extra tree needs before any system is built. */
  predicate NextExtraReady(m: PMatrix, bias: seq<real>) {
    Valid(m) && m.featuresExtra.Some? && m.psi.Some? && |bias| == m.Height() && m.Cols() > 0
  }

  /** The systems of a later tree: running sums of the curvature (left) and
      the gradient psi * (distinct objects) - sum f x / b (right), forward
      and backward. */
  function NextExtraSystems(m: PMatrix, bias: seq<real>): (s: Systems)
    requires NextExtraReady(m, bias)
    ensures SystemsShape(s, m.Height(), m.Cols(), Depth(m))
  {
    var cols, depth := m.Cols(), Depth(m);
    var xs := SortedExtra(m);
    var f, b := GatherVector(m.freqs, m.gax), GatherVector(bias, m.gax);
    var hess := ScaledOuterProducts(f, b, xs, cols, depth);
    var right := NextRatios(m, bias);
    var objectsUp := CountObjects(m.bjids, m.gax);
    var objectsDown := CountObjectsBackward(m.bjids, m.gax);
    Systems(
      CumsumForward4D(hess, cols, depth), CumsumBackward4D(hess, cols, depth),
      ExposureMinus(objectsUp, m.psi.value, CumsumForward3D(right, cols, depth), cols, depth),
      ExposureMinus(objectsDown, m.psi.value, CumsumBackward3D(right, cols, depth), cols, depth))
  }

  /** f x_a x_b / b^2 for every sorted position of feature j. */
  function CurvatureColumn(m: PMatrix, bias: seq<real>, j: int, a: int, b: int): (r: seq<real>)
    requires Valid(m) && m.featuresExtra.Some? && |bias| == m.Height()
    requires 0 <= j < m.Cols() && 0 <= a < Depth(m) && 0 <= b < Depth(m)
    ensures |r| == m.Height()
  {
    var e := m.featuresExtra.value;
    seq(m.Height(), k requires 0 <= k < m.Height() =>
      Curvature(m.freqs[m.gax[k][j]], bias[m.gax[k][j]], e[m.gax[k][j]][a], e[m.gax[k][j]][b]))
  }

  /** f x_d / b for every sorted position of feature j. */
  function RatioColumn(m: PMatrix, bias: seq<real>, j: int, d: int): (r: seq<real>)
    requires Valid(m) && m.featuresExtra.Some? && |bias| == m.Height()
    requires 0 <= j < m.Cols() && 0 <= d < Depth(m)
    ensures |r| == m.Height()
  {
    var e := m.featuresExtra.value;
    seq(m.Height(), k requires 0 <= k < m.Height() =>
      Ratio(m.freqs[m.gax[k][j]], bias[m.gax[k][j]], e[m.gax[k][j]][d]))
  }

  /** The left-hand running sums of a later tree are sums of f x x^T / b^2
      over the sorted rows above (forward) and from (backward) the position. */
  lemma NextExtraHessSums(m: PMatrix, bias: seq<real>, i: int, j: int, a: int, b: int)
    requires NextExtraReady(m, bias)
    requires 0 <= i < m.Height() && 0 <= j < m.Cols() && 0 <= a < Depth(m) && 0 <= b < Depth(m)
    ensures NextExtraSystems(m, bias).hessUp[i][j][a][b] == Sum(CurvatureColumn(m, bias, j, a, b), 0, i + 1)
    ensures NextExtraSystems(m, bias).hessDown[i][j][a][b] == Sum(CurvatureColumn(m, bias, j, a, b), i, m.Height())
  {
    var cols, depth := m.Cols(), Depth(m);
    var xs := SortedExtra(m);
    var f, b' := GatherVector(m.freqs, m.gax), GatherVector(bias, m.gax);
    var hess := ScaledOuterProducts(f, b', xs, cols, depth);
    var fib, p := Fiber4(hess, cols, depth, j, a, b), CurvatureColumn(m, bias, j, a, b);
    forall k | 0 <= k < m.Height() ensures fib[k] == p[k] {
      assert xs[k][j] == m.featuresExtra.value[m.gax[k][j]];
    }
    assert fib == p;
    assert NextExtraSystems(m, bias).hessUp == CumsumForward4D(hess, cols, depth);
    assert NextExtraSystems(m, bias).hessDown == CumsumBackward4D(hess, cols, depth);
  }

  /** f x / b at every sorted position of a later tree. */
  function NextRatios(m: PMatrix, bias: seq<real>): (r: seq<seq<Vec>>)
    requires NextExtraReady(m, bias)
    ensures |r| == m.Height() && Is3D(r, m.Cols(), Depth(m))
  {
    ScaledRatios(GatherVector(m.freqs, m.gax), GatherVector(bias, m.gax), SortedExtra(m), m.Cols(), Depth(m))
  }

  lemma NextRatiosFiber(m: PMatrix, bias: seq<real>, j: int, d: int)
    requires NextExtraReady(m, bias)
    requires 0 <= j < m.Cols() && 0 <= d < Depth(m)
    ensures Fiber3(NextRatios(m, bias), m.Cols(), Depth(m), j, d) == RatioColumn(m, bias, j, d)
  {
    var xs := SortedExtra(m);
    var fib, p := Fiber3(NextRatios(m, bias), m.Cols(), Depth(m), j, d), RatioColumn(m, bias, j, d);
    forall k | 0 <= k < m.Height() ensures fib[k] == p[k] {
      assert xs[k][j] == m.featuresExtra.value[m.gax[k][j]];
    }
  }

  /** The right-hand sides of a later tree: psi times the number of distinct
      objects in the part, minus the sum of f x / b over the part's rows. */
  lemma NextExtraGradSums(m: PMatrix, bias: seq<real>, i: int, j: int, d: int)
    requires NextExtraReady(m, bias)
    requires 0 <= i < m.Height() && 0 <= j < m.Cols() && 0 <= d < Depth(m)
    ensures NextExtraSystems(m, bias).gradUp[i][j][d] ==
      CountObjects(m.bjids, m.gax)[i][j] * m.psi.value[d] - Sum(RatioColumn(m, bias, j, d), 0, i + 1)
    ensures NextExtraSystems(m, bias).gradDown[i][j][d] ==
      CountObjectsBackward(m.bjids, m.gax)[i][j] * m.psi.value[d] - Sum(RatioColumn(m, bias, j, d), i, m.Height())
  {
    var cols, depth := m.Cols(), Depth(m);
    var right := NextRatios(m, bias);
    NextRatiosFiber(m, bias, j, d);
    var s := NextExtraSystems(m, bias);
    assert s.gradUp == ExposureMinus(CountObjects(m.bjids, m.gax), m.psi.value, CumsumForward3D(right, cols, depth), cols, depth);
    assert s.gradDown == ExposureMinus(CountObjectsBackward(m.bjids, m.gax), m.psi.value, CumsumBackward3D(right, cols, depth), cols, depth);
  }

  /** The leaf weights of a later tree: minus every solution. */
  function NegateAll(w: seq<seq<Vec>>, cols: nat, depth: nat): (r: seq<seq<Vec>>)
    requires WeightsShape(w, |w|, cols, depth)
    ensures WeightsShape(r, |w|, cols, depth)
    ensures forall i, j :: 0 <= i < |w| && 0 <= j < cols ==> r[i][j] == Negate(w[i][j])
  {
    seq(|w|, i requires 0 <= i < |w| => seq(cols, j requires 0 <= j < cols => Negate(w[i][j])))
  }

  /** Split losses of a later tree: each part contributes minus the dot
      product of its gradient with its weights. */
  function NextExtraTotal(s: Systems, up: seq<seq<Vec>>, down: seq<seq<Vec>>, cols: nat, depth: nat): (r: Mat)
    requires |s.hessUp| > 0 && SystemsShape(s, |s.hessUp|, cols, depth)
    requires WeightsShape(up, |s.hessUp|, cols, depth) && WeightsShape(down, |s.hessUp|, cols, depth)
    ensures |r| == |s.hessUp| - 1 && IsRect(r, cols)
    ensures forall i, j :: 0 <= i < |s.hessUp| - 1 && 0 <= j < cols ==>
      r[i][j] == -Dot(s.gradUp[i][j], up[i][j]) - Dot(s.gradDown[i + 1][j], down[i + 1][j])
  {
    var rows := |s.hessUp|;
    seq(rows - 1, i requires 0 <= i < rows - 1 =>
      seq(cols, j requires 0 <= j < cols =>
        -Dot(s.gradUp[i][j], up[i][j]) - Dot(s.gradDown[i + 1][j], down[i + 1][j])))
  }

  /** The loss of a later tree with extra features: the split losses of the
      negated solutions, the sorted thresholds, the upper weights of every
      candidate, the lower weights from the second sorted row on, and the
      weights of the whole node (the last forward system). */
  predicate NextExtraLoss(m: PMatrix, bias: seq<real>, solve: Solver, regLambda: real, l: LossResult)
    requires NextExtraReady(m, bias)
    requires Solvable(solve, NextExtraSystems(m, bias), m.Cols(), Depth(m), regLambda)
  {
    var s := NextExtraSystems(m, bias);
    var w := SolveAll(solve, s, m.Cols(), Depth(m), regLambda);
    var up, down := NegateAll(w.value.0, m.Cols(), Depth(m)), NegateAll(w.value.1, m.Cols(), Depth(m));
    && l.totalLoss == NextExtraTotal(s, up, down, m.Cols(), Depth(m))
    && l.sortedThresholds == TakeAlongAxis(m.featuresInter, m.gax)
    && l.deltaUp == up[..m.Height() - 1]
    && l.deltaDown == down[1..]
    && l.deltaCurrent == LastRow(up, m.Cols())
  }

  /** wholeLossNextTreeExtra: the leaf weights of each part are minus the
      solution of its regularised system. Fails, in this order, when the extra
      features are missing, when psi is missing, when the bias does not have
      one entry per row, when there is no interpolating feature, or when any
      system cannot be solved. */
  function WholeLossNextTreeExtra(m: PMatrix, params: TreeBuildParams, bias: seq<real>, solve: Solver): (r: Result<LossResult>)
    requires Valid(m)
    ensures m.featuresExtra.None? ==> r == Failure(InvalidModel("missing extra features"))
    ensures m.featuresExtra.Some? && m.psi.None? ==> r == Failure(InvalidModel("missing psi for extra Poisson loss"))
    ensures m.featuresExtra.Some? && m.psi.Some? && |bias| != m.Height() ==> r == Failure(ShapeMismatch("bias length mismatch"))
    ensures r.Failure? <==>
      !NextExtraReady(m, bias) || !Solvable(solve, NextExtraSystems(m, bias), m.Cols(), Depth(m), params.regLambda)
    ensures r.Success? ==> NextExtraLoss(m, bias, solve, params.regLambda, r.value)
  {
    if m.featuresExtra.None? then Failure(InvalidModel("missing extra features"))
    else if m.psi.None? then Failure(InvalidModel("missing psi for extra Poisson loss"))
    else if |bias| != m.Height() then Failure(ShapeMismatch("bias length mismatch"))
    else if m.Cols() == 0 then Failure(ShapeMismatch("no interpolating features"))
    else
      var rows, cols, depth := m.Height(), m.Cols(), Depth(m);
      var s := NextExtraSystems(m, bias);
      var w :- SolveAll(solve, s, cols, depth, params.regLambda);
      var up, down := NegateAll(w.0, cols, depth), NegateAll(w.1, cols, depth);
      Success(LossResult(
        NextExtraTotal(s, up, down, cols, depth),
        TakeAlongAxis(m.featuresInter, m.gax),
        up[..rows - 1],
        down[1..],
        LastRow(up, cols)))
  }

  /** With a sound solver the negated solutions a later tree uses as its
      weights solve H w = -g for both parts of every candidate: they are the
      Newton step of the quadratic model of the loss. */
  lemma NegatedWeightsSolve(solve: Solver, s: Systems, cols: nat, depth: nat, regLambda: real, i: int, j: int)
    requires SoundSolver(solve) && SystemsShape(s, |s.hessUp|, cols, depth)
    requires SolveAll(solve, s, cols, depth, regLambda).Success?
    requires 0 <= i < |s.hessUp| && 0 <= j < cols
    ensures var w := SolveAll(solve, s, cols, depth, regLambda).value;
      && MatVec(Regularised(s.hessUp[i][j], regLambda), NegateAll(w.0, cols, depth)[i][j]) == Negate(s.gradUp[i][j])
      && MatVec(Regularised(s.hessDown[i][j], regLambda), NegateAll(w.1, cols, depth)[i][j]) == Negate(s.gradDown[i][j])
  {
    var w := SolveAll(solve, s, cols, depth, regLambda).value;
    SolveAllSolves(solve, s, cols, depth, regLambda, i, j);
    MatVecNegate(Regularised(s.hessUp[i][j], regLambda), w.0[i][j]);
    MatVecNegate(Regularised(s.hessDown[i][j], regLambda), w.1[i][j]);
  }
}

=== FILE: poisson_linear.dfy ===
/** solveLinearSystem of the legacy Poisson engine: the regularised linear
    system (H + lambda I) w = g of one leaf, handed to a dense solver. */
module PoissonLinear {
  import opened Wrappers
  import opened Numeric

  /** The d x d left-hand side: the leading d x d block of hess with lambda
      added to its diagonal, where d is the number of rows of hess. */
  function Regularised(hess: Mat, regLambda: real): (r: Mat)
    requires forall i :: 0 <= i < |hess| ==> |hess[i]| >= |hess|
    ensures |r| == |hess| && IsRect(r, |hess|)
    ensures forall i, j :: 0 <= i < |hess| && 0 <= j < |hess| ==>
      r[i][j] == (if i == j then hess[i][j] + regLambda else hess[i][j])
  {
    var d := |hess|;
    seq(d, i requires 0 <= i < d =>
      seq(d, j requires 0 <= j < d => if i == j then hess[i][j] + regLambda else hess[i][j]))
  }

  /** A solver answer read back entry by entry into a fresh vector of d
      entries. */
  function Fit(w: Vec, d: nat): (r: Vec)
    ensures |r| == d
    ensures |w| == d ==> r == w
    ensures forall i :: 0 <= i < d && i < |w| ==> r[i] == w[i]
  {
    seq(d, i requires 0 <= i < d => if i < |w| then w[i] else 0.0)
  }

  /** solveLinearSystem: None when the dense solver reports a singular
      system, and also for an empty system (a zero-sized dense matrix is
      refused). The right-hand side is read up to the size of hess. */
  function SolveLinearSystem(solve: Solver, hess: Mat, grad: Vec, regLambda: real): (r: Option<Vec>)
    requires forall i :: 0 <= i < |hess| ==> |hess[i]| >= |hess|
    requires |grad| >= |hess|
    ensures r.Some? <==> |hess| > 0 && solve(Regularised(hess, regLambda), grad[..|hess|]).Some?
    ensures r.Some? ==> |r.value| == |hess|
  {
    var d := |hess|;
    if d == 0 then None
    else
      match solve(Regularised(hess, regLambda), grad[..d])
      case None => None
      case Some(w) => Some(Fit(w, d))
  }

  /** With a sound solver, every answer solves the regularised system. */
  lemma SolveLinearSystemSolves(solve: Solver, hess: Mat, grad: Vec, regLambda: real)
    requires SoundSolver(solve)
    requires forall i :: 0 <= i < |hess| ==> |hess[i]| >= |hess|
    requires |grad| >= |hess|
    requires SolveLinearSystem(solve, hess, grad, regLambda).Some?
    ensures MatVec(Regularised(hess, regLambda), SolveLinearSystem(solve, hess, grad, regLambda).value) == grad[..|hess|]
  {
    var a, g := Regularised(hess, regLambda), grad[..|hess|];
    assert IsRect(a, |g|) && |a| == |g|;
    assert |solve(a, g).value| == |g|;
  }
}

=== FILE: poisson_loss.dfy ===
/** The split-candidate losses of the legacy Poisson engine (WholeLoss and its
    four variants). For every feature j and split position i (the first i+1
    rows of column j's sort order go up, the rest down) each variant fits a
    leaf value to both parts and reports the summed loss. Every variant
    computes its group statistics with running sums over the sorted rows;
    the contracts state them as plain sums over the sorted positions. */
module PoissonLoss {
  import opened Wrappers
  import opened Numeric
  import opened PoissonUtils
  import opened PoissonTypes
  import opened PoissonMatrix

  /** values[] read down the sort order of column j. */
  function SortedValues<T>(values: seq<T>, gax: Gax, j: nat): (r: seq<T>)
    requires GaxIndexes(gax, |values|) && j < Width(gax)
    ensures |r| == |gax|
    ensures forall k :: 0 <= k < |gax| ==> r[k] == values[gax[k][j]]
  {
    seq(|gax|, k requires 0 <= k < |gax| => values[gax[k][j]])
  }

  lemma SortedColumn<T>(values: seq<T>, gax: Gax, j: nat)
    requires GaxIndexes(gax, |values|) && j < Width(gax)
    ensures Column(GatherVector(values, gax), j) == SortedValues(values, gax, j)
  {
  }

  // ------------------------------------------------------------ first tree

  /** Maximum-likelihood Poisson rate of `count` rows whose frequencies add
      up to `sum`: their mean. */
  function Rate(count: real, sum: real): real
    requires count > 0.0
  {
    sum / count
  }

  /** Poisson negative log-likelihood (without the constant term) of `count`
      rows with frequency total `sum` under their own maximum-likelihood rate. */
  function NegLogLik(log: real -> real, count: real, sum: real): real
    requires count > 0.0
  {
    count * Rate(count, sum) - log(Rate(count, sum)) * sum
  }

  /** Rate of the sorted rows lo .. hi-1. */
  function GroupRate(xs: seq<real>, lo: int, hi: int): real
    requires 0 <= lo < hi <= |xs|
  {
    Rate((hi - lo) as real, Sum(xs, lo, hi))
  }

  /** Loss of the sorted rows lo .. hi-1 under their own rate. */
  function GroupLoss(log: real -> real, xs: seq<real>, lo: int, hi: int): real
    requires 0 <= lo < hi <= |xs|
  {
    NegLogLik(log, (hi - lo) as real, Sum(xs, lo, hi))
  }

  /** Entry (i, j) of the forward running sums of a per-row vector gathered
      along the sort orders: the total of the first i+1 sorted rows. */
  function PrefixTotal(v: seq<real>, gax: Gax, i: int, j: int): (r: real)
    requires GaxIndexes(gax, |v|) && 0 <= i < |gax| && 0 <= j < Width(gax)
    ensures r == Sum(SortedValues(v, gax, j), 0, i + 1)
  {
    SortedColumn(v, gax, j);
    CumsumForward2D(GatherVector(v, gax))[i][j]
  }

  /** Entry (i, j) of the backward running sums: the total of sorted rows i
      to the last. */
  function SuffixTotal(v: seq<real>, gax: Gax, i: int, j: int): (r: real)
    requires GaxIndexes(gax, |v|) && 0 <= i < |gax| && 0 <= j < Width(gax)
    ensures r == Sum(SortedValues(v, gax, j), i, |gax|)
  {
    SortedColumn(v, gax, j);
    CumsumBackward2D(GatherVector(v, gax))[i][j]
  }

  /** Total of the sorted rows after the split at position i: the last
      forward running sum minus the one at the split. */
  function DownTotal(v: seq<real>, gax: Gax, i: int, j: int): (r: real)
    requires GaxIndexes(gax, |v|) && 0 <= i < |gax| && 0 <= j < Width(gax)
    ensures r == Sum(SortedValues(v, gax, j), i + 1, |gax|)
  {
    SumSplit(SortedValues(v, gax, j), 0, i + 1, |gax|);
    PrefixTotal(v, gax, |gax| - 1, j) - PrefixTotal(v, gax, i, j)
  }

  /** Leaf value of the part above the split: its mean frequency. */
  function UpRate(freqs: seq<real>, gax: Gax, i: int, j: int): (r: real)
    requires GaxIndexes(gax, |freqs|) && 0 <= i < |gax| && 0 <= j < Width(gax)
    ensures r == GroupRate(SortedValues(freqs, gax, j), 0, i + 1)
  {
    Rate((i + 1) as real, PrefixTotal(freqs, gax, i, j))
  }

  /** Leaf value of the part below the split: its mean frequency. */
  function DownRate(freqs: seq<real>, gax: Gax, i: int, j: int): (r: real)
    requires GaxIndexes(gax, |freqs|) && 0 <= i < |gax| - 1 && 0 <= j < Width(gax)
    ensures r == GroupRate(SortedValues(freqs, gax, j), i + 1, |gax|)
  {
    Rate((|gax| - (i + 1)) as real, DownTotal(freqs, gax, i, j))
  }

  /** Poisson loss of the part above the split under its own rate. */
  function UpLoss(log: real -> real, freqs: seq<real>, gax: Gax, i: int, j: int): (r: real)
    requires GaxIndexes(gax, |freqs|) && 0 <= i < |gax| && 0 <= j < Width(gax)
    ensures r == GroupLoss(log, SortedValues(freqs, gax, j), 0, i + 1)
  {
    NegLogLik(log, (i + 1) as real, PrefixTotal(freqs, gax, i, j))
  }

  /** Poisson loss of the part below the split under its own rate. */
  function DownLoss(log: real -> real, freqs: seq<real>, gax: Gax, i: int, j: int): (r: real)
    requires GaxIndexes(gax, |freqs|) && 0 <= i < |gax| - 1 && 0 <= j < Width(gax)
    ensures r == GroupLoss(log, SortedValues(freqs, gax, j), i + 1, |gax|)
  {
    NegLogLik(log, (|gax| - (i + 1)) as real, DownTotal(freqs, gax, i, j))
  }

  /** Loss of one split candidate of the first tree: both parts' own Poisson
      losses plus the unbalance penalty of the split position. */
  function FirstSplitLoss(log: real -> real, unbalancedPenalty: real, freqs: seq<real>, gax: Gax, i: int, j: int): (r: real)
    requires GaxIndexes(gax, |freqs|) && 0 <= i < |gax| - 1 && 0 <= j < Width(gax)
    ensures r ==
      GroupLoss(log, SortedValues(freqs, gax, j), 0, i + 1)
      + GroupLoss(log, SortedValues(freqs, gax, j), i + 1, |gax|)
      + EdgePenalty(|gax|)[i] * unbalancedPenalty
  {
    UpLoss(log, freqs, gax, i, j) + DownLoss(log, freqs, gax, i, j) + EdgePenalty(|gax|)[i] * unbalancedPenalty
  }

  /** Split losses of the first tree: both parts' own Poisson losses plus
      the unbalance penalty of the split position. */
  function FirstTreeTotal(m: PMatrix, params: TreeBuildParams, log: real -> real): (r: Mat)
    requires Valid(m)
    ensures |r| == m.Height() - 1 && IsRect(r, m.Cols())
    ensures forall i, j :: 0 <= i < m.Height() - 1 && 0 <= j < m.Cols() ==>
      r[i][j] == FirstSplitLoss(log, params.unbalancedPenalty, m.freqs, m.gax, i, j)
  {
    var rows, cols := m.Height(), m.Cols();
    seq(rows - 1, i requires 0 <= i < rows - 1 =>
      seq(cols, j requires 0 <= j < cols =>
        FirstSplitLoss(log, params.unbalancedPenalty, m.freqs, m.gax, i, j)))
  }

  /** Leaf values of the parts above each split: their mean frequencies. */
  function FirstTreeUp(m: PMatrix): (r: seq<Mat>)
    requires Valid(m)
    ensures |r| == m.Height() - 1
    ensures forall i :: 0 <= i < m.Height() - 1 ==> |r[i]| == m.Cols()
    ensures forall i, j :: 0 <= i < m.Height() - 1 && 0 <= j < m.Cols() ==>
      r[i][j] == [GroupRate(SortedValues(m.freqs, m.gax, j), 0, i + 1)]
  {
    var rows, cols := m.Height(), m.Cols();
    seq(rows - 1, i requires 0 <= i < rows - 1 =>
      seq(cols, j requires 0 <= j < cols => [UpRate(m.freqs, m.gax, i, j)]))
  }

  /** Leaf values of the parts below each split: their mean frequencies. */
  function FirstTreeDown(m: PMatrix): (r: seq<Mat>)
    requires Valid(m)
    ensures |r| == m.Height() - 1
    ensures forall i :: 0 <= i < m.Height() - 1 ==> |r[i]| == m.Cols()
    ensures forall i, j :: 0 <= i < m.Height() - 1 && 0 <= j < m.Cols() ==>
      r[i][j] == [GroupRate(SortedValues(m.freqs, m.gax, j), i + 1, m.Height())]
  {
    var rows, cols := m.Height(), m.Cols();
    seq(rows - 1, i requires 0 <= i < rows - 1 =>
      seq(cols, j requires 0 <= j < cols => [DownRate(m.freqs, m.gax, i, j)]))
  }

  /** wholeLossFirstTree: the scalar Poisson loss of the first tree. Each part
      of a split gets its mean frequency as leaf value; the split loss is the
      two parts' Poisson losses plus the unbalance penalty of the position;
      the whole node's value is the mean frequency of all rows. */
  function WholeLossFirstTree(m: PMatrix, params: TreeBuildParams, log: real -> real): (r: Result<LossResult>)
    requires Valid(m)
    ensures r.Success?
    ensures r.value.totalLoss == FirstTreeTotal(m, params, log)
    ensures r.value.sortedThresholds == TakeAlongAxis(m.featuresInter, m.gax)
    ensures r.value.deltaUp == FirstTreeUp(m) && r.value.deltaDown == FirstTreeDown(m)
    ensures |r.value.deltaCurrent| == m.Cols()
    ensures forall j :: 0 <= j < m.Cols() ==>
      r.value.deltaCurrent[j] == [GroupRate(SortedValues(m.freqs, m.gax, j), 0, m.Height())]
  {
    var rows, cols := m.Height(), m.Cols();
    if rows == 0 then Failure(EmptyInput("empty dataset"))
    else
      Success(LossResult(
        FirstTreeTotal(m, params, log),
        TakeAlongAxis(m.featuresInter, m.gax),
        FirstTreeUp(m),
        FirstTreeDown(m),
        seq(cols, j requires 0 <= j < cols => [UpRate(m.freqs, m.gax, rows - 1, j)])))
  }

  // ------------------------------------------------------------- next trees

  /** Gradient of the Poisson loss at the current prediction, per row: 1 - f/b. */
  function NextGrad(freqs: seq<real>, bias: seq<real>): (r: Vec)
    requires |bias| == |freqs|
    ensures |r| == |freqs|
  {
    seq(|freqs|, k requires 0 <= k < |freqs| => 1.0 - FDiv(freqs[k], bias[k]))
  }

  /** Curvature of the Poisson loss at the current prediction, per row: f/b^2. */
  function NextHess(freqs: seq<real>, bias: seq<real>): (r: Vec)
    requires |bias| == |freqs|
    ensures |r| == |freqs|
  {
    seq(|freqs|, k requires 0 <= k < |freqs| => FDiv(FDiv(freqs[k], bias[k]), bias[k]))
  }

  /** The second-order model of the loss change when a leaf adds delta to the
      prediction of rows with gradient total g and curvature total h, under
      L2 regularisation lambda. */
  function Quadratic(g: real, h: real, regLambda: real, delta: real): real {
    g * delta + (h + regLambda) * delta * delta / 2.0
  }

  /** The Newton step -g / (h + lambda). */
  function NewtonStep(g: real, h: real, regLambda: real): (r: real)
    ensures h + regLambda != 0.0 ==> r * (h + regLambda) == -g
  {
    FDiv(-g, h + regLambda)
  }

  /** The score of a Newton step, -g^2 / (h + lambda). */
  function NewtonGain(g: real, h: real, regLambda: real): (r: real)
    ensures h + regLambda > 0.0 ==> r <= 0.0
  {
    FDiv(-(g * g), h + regLambda)
  }

  /** With positive curvature the Newton step minimises the quadratic model,
      and the score is twice the model's minimum. */
  lemma NewtonStepMinimises(g: real, h: real, regLambda: real, delta: real)
    requires h + regLambda > 0.0
    ensures Quadratic(g, h, regLambda, NewtonStep(g, h, regLambda)) <= Quadratic(g, h, regLambda, delta)
    ensures NewtonGain(g, h, regLambda) == 2.0 * Quadratic(g, h, regLambda, NewtonStep(g, h, regLambda))
  {
    var c := h + regLambda;
    var s := NewtonStep(g, h, regLambda);
    assert s * c == -g;
    assert Quadratic(g, h, regLambda, delta) - Quadratic(g, h, regLambda, s) == c * (delta - s) * (delta - s) / 2.0 by {
      assert g == -(s * c);
    }
    assert (delta - s) * (delta - s) >= 0.0;
    assert c * ((delta - s) * (delta - s)) >= 0.0;
    assert NewtonGain(g, h, regLambda) * c == -(g * g);
    assert 2.0 * Quadratic(g, h, regLambda, s) == g * s;
  }

  /** A leaf value raised to at least lo. */
  function ClampBelow(x: real, lo: real): (r: real)
    ensures r >= lo && r >= x
    ensures r == x || r == lo
  {
    if x < lo then lo else x
  }

  /** Leaf value of the part above the split in a later tree: the Newton step
      of its gradient and curvature totals, raised so that the new prediction
      of the row at the split stays at least lambda. */
  function NextUpDelta(regLambda: real, freqs: seq<real>, bias: seq<real>, gax: Gax, i: int, j: int): (r: real)
    requires |bias| == |freqs| && GaxIndexes(gax, |freqs|) && 0 <= i < |gax| && 0 <= j < Width(gax)
    ensures r == ClampBelow(
      NewtonStep(Sum(SortedValues(NextGrad(freqs, bias), gax, j), 0, i + 1),
                 Sum(SortedValues(NextHess(freqs, bias), gax, j), 0, i + 1), regLambda),
      regLambda - bias[gax[i][j]])
  {
    var g, h := NextGrad(freqs, bias), NextHess(freqs, bias);
    var step := NewtonStep(PrefixTotal(g, gax, i, j), PrefixTotal(h, gax, i, j), regLambda);
    ClampBelow(step, regLambda - bias[gax[i][j]])
  }

  /** Leaf value of the part below the split in a later tree, raised by the
      bias of the first row below the split. */
  function NextDownDelta(regLambda: real, freqs: seq<real>, bias: seq<real>, gax: Gax, i: int, j: int): (r: real)
    requires |bias| == |freqs| && GaxIndexes(gax, |freqs|) && 0 <= i < |gax| - 1 && 0 <= j < Width(gax)
    ensures r == ClampBelow(
      NewtonStep(Sum(SortedValues(NextGrad(freqs, bias), gax, j), i + 1, |gax|),
                 Sum(SortedValues(NextHess(freqs, bias), gax, j), i + 1, |gax|), regLambda),
      regLambda - bias[gax[i + 1][j]])
  {
    var g, h := NextGrad(freqs, bias), NextHess(freqs, bias);
    var step := NewtonStep(SuffixTotal(g, gax, i + 1, j), SuffixTotal(h, gax, i + 1, j), regLambda);
    ClampBelow(step, regLambda - bias[gax[i + 1][j]])
  }

  /** Loss of one split candidate of a later tree: the Newton scores of both
      parts. */
  function NextSplitLoss(regLambda: real, freqs: seq<real>, bias: seq<real>, gax: Gax, i: int, j: int): (r: real)
    requires |bias| == |freqs| && GaxIndexes(gax, |freqs|) && 0 <= i < |gax| - 1 && 0 <= j < Width(gax)
    ensures r ==
      NewtonGain(Sum(SortedValues(NextGrad(freqs, bias), gax, j), 0, i + 1),
                 Sum(SortedValues(NextHess(freqs, bias), gax, j), 0, i + 1), regLambda)
      + NewtonGain(Sum(SortedValues(NextGrad(freqs, bias), gax, j), i + 1, |gax|),
                   Sum(SortedValues(NextHess(freqs, bias), gax, j), i + 1, |gax|), regLambda)
  {
    var g, h := NextGrad(freqs, bias), NextHess(freqs, bias);
    NewtonGain(PrefixTotal(g, gax, i, j), PrefixTotal(h, gax, i, j), regLambda)
    + NewtonGain(SuffixTotal(g, gax, i + 1, j), SuffixTotal(h, gax, i + 1, j), regLambda)
  }

  /** Split losses of a later tree, one per candidate. */
  function NextTreeTotal(regLambda: real, freqs: seq<real>, bias: seq<real>, gax: Gax): (r: Mat)
    requires |bias| == |freqs| && |gax| > 0 && GaxIndexes(gax, |freqs|)
    ensures |r| == |gax| - 1 && IsRect(r, Width(gax))
    ensures forall i, j :: 0 <= i < |gax| - 1 && 0 <= j < Width(gax) ==>
      r[i][j] == NextSplitLoss(regLambda, freqs, bias, gax, i, j)
  {
    seq(|gax| - 1, i requires 0 <= i < |gax| - 1 =>
      seq(Width(gax), j requires 0 <= j < Width(gax) => NextSplitLoss(regLambda, freqs, bias, gax, i, j)))
  }

  /** Leaf values above every split of a later tree. */
  function NextTreeUp(regLambda: real, freqs: seq<real>, bias: seq<real>, gax: Gax): (r: seq<Mat>)
    requires |bias| == |freqs| && |gax| > 0 && GaxIndexes(gax, |freqs|)
    ensures |r| == |gax| - 1
    ensures forall i :: 0 <= i < |gax| - 1 ==> |r[i]| == Width(gax)
    ensures forall i, j :: 0 <= i < |gax| - 1 && 0 <= j < Width(gax) ==>
      r[i][j] == [NextUpDelta(regLambda, freqs, bias, gax, i, j)]
  {
    seq(|gax| - 1, i requires 0 <= i < |gax| - 1 =>
      seq(Width(gax), j requires 0 <= j < Width(gax) => [NextUpDelta(regLambda, freqs, bias, gax, i, j)]))
  }

  /** Leaf values below every split of a later tree. */
  function NextTreeDown(regLambda: real, freqs: seq<real>, bias: seq<real>, gax: Gax): (r: seq<Mat>)
    requires |bias| == |freqs| && |gax| > 0 && GaxIndexes(gax, |freqs|)
    ensures |r| == |gax| - 1
    ensures forall i :: 0 <= i < |gax| - 1 ==> |r[i]| == Width(gax)
    ensures forall i, j :: 0 <= i < |gax| - 1 && 0 <= j < Width(gax) ==>
      r[i][j] == [NextDownDelta(regLambda, freqs, bias, gax, i, j)]
  {
    seq(|gax| - 1, i requires 0 <= i < |gax| - 1 =>
      seq(Width(gax), j requires 0 <= j < Width(gax) => [NextDownDelta(regLambda, freqs, bias, gax, i, j)]))
  }

  /** wholeLossNextTree: the scalar Newton step of a later tree. Fails when
      the bias does not have one entry per row. */
  function WholeLossNextTree(m: PMatrix, params: TreeBuildParams, bias: seq<real>): (r: Result<LossResult>)
    requires Valid(m)
    ensures r.Failure? <==> |bias| != m.Height()
    ensures r.Success? ==>
      && r.value.sortedThresholds == TakeAlongAxis(m.featuresInter, m.gax)
      && r.value.totalLoss == NextTreeTotal(params.regLambda, m.freqs, bias, m.gax)
      && r.value.deltaUp == NextTreeUp(params.regLambda, m.freqs, bias, m.gax)
      && r.value.deltaDown == NextTreeDown(params.regLambda, m.freqs, bias, m.gax)
      && |r.value.deltaCurrent| == m.Cols()
      && (forall j :: 0 <= j < m.Cols() ==>
            r.value.deltaCurrent[j] == [NextUpDelta(params.regLambda, m.freqs, bias, m.gax, m.Height() - 1, j)])
  {
    var rows, cols, lambda := m.Height(), m.Cols(), params.regLambda;
    if |bias| != rows then Failure(ShapeMismatch("bias length mismatch"))
    else
      Success(LossResult(
        NextTreeTotal(lambda, m.freqs, bias, m.gax),
        TakeAlongAxis(m.featuresInter, m.gax),
        NextTreeUp(lambda, m.freqs, bias, m.gax),
        NextTreeDown(lambda, m.freqs, bias, m.gax),
        seq(cols, j requires 0 <= j < cols => [NextUpDelta(lambda, m.freqs, bias, m.gax, rows - 1, j)])))
  }

  /** Every leaf value a later tree proposes keeps the new prediction of the
      row it was clamped against at or above lambda. */
  lemma NextDeltasKeepRatePositive(m: PMatrix, params: TreeBuildParams, bias: seq<real>, i: int, j: int)
    requires Valid(m) && |bias| == m.Height()
    requires 0 <= i < m.Height() - 1 && 0 <= j < m.Cols()
    ensures WholeLossNextTree(m, params, bias).value.deltaUp[i][j][0] + bias[m.gax[i][j]] >= params.regLambda
    ensures WholeLossNextTree(m, params, bias).value.deltaDown[i][j][0] + bias[m.gax[i + 1][j]] >= params.regLambda
  {
  }
}

=== FILE: poisson_matrix.dfy ===
/** The training matrix of the legacy Poisson engine: per-row object ids,
    frequencies (event counts), interpolating features that the trees split
    on, optional extra features that leaf weights multiply, and the per-column
    sort orders of the interpolating features. */
module PoissonMatrix {
  import opened Wrappers
  import opened Numeric
  import opened Masks
  import opened PoissonUtils

  /** A basis function of time. */
  type TimeFunc = real -> real

  datatype PMatrix = PMatrix(
    bjids: seq<int>,
    freqs: seq<real>,
    featuresInter: Mat,
    featuresExtra: Option<Mat>,
    time: Option<seq<real>>,
    functions: seq<TimeFunc>,
    psi: Option<seq<real>>,
    gax: Gax)
  {
    function Height(): nat {
      |bjids|
    }

    /** Number of interpolating features. */
    function Cols(): nat {
      Width(featuresInter)
    }
  }

  /** What every constructed matrix satisfies: equal heights, a non-empty
      rectangular feature table whose sort orders are stored, frequencies of
      at least 1, a rectangular extra table of the same height and, when both
      are present, a psi of the extra width. */
  predicate Valid(m: PMatrix) {
    && |m.freqs| == |m.bjids| == |m.featuresInter|
    && IsGaxOf(m.featuresInter, m.gax)
    && GaxIndexes(m.gax, |m.bjids|) && Width(m.gax) == Width(m.featuresInter)
    && (forall i :: 0 <= i < |m.freqs| ==> m.freqs[i] >= 1.0)
    && (m.featuresExtra.Some? ==>
          |m.featuresExtra.value| == |m.bjids| && IsRect(m.featuresExtra.value, |m.featuresExtra.value[0]|))
    && (m.featuresExtra.Some? && m.psi.Some? ==> |m.psi.value| == |m.featuresExtra.value[0]|)
    && (m.psi.Some? ==> |m.psi.value| > 0)
    && (m.time.Some? ==> |m.time.value| == |m.bjids|)
  }

  /** Width of the extra features of a valid matrix (0 when absent). */
  function Depth(m: PMatrix): nat
    requires Valid(m)
  {
    if m.featuresExtra.Some? then |m.featuresExtra.value[0]| else 0
  }

  /** Frequencies below 1 are raised to 1. */
  function ClampFreqs(freqs: seq<real>): (r: seq<real>)
    ensures |r| == |freqs|
    ensures forall i :: 0 <= i < |freqs| ==> r[i] >= 1.0 && r[i] >= freqs[i]
    ensures forall i :: 0 <= i < |freqs| ==> r[i] == freqs[i] || r[i] == 1.0
  {
    seq(|freqs|, i requires 0 <= i < |freqs| => if freqs[i] < 1.0 then 1.0 else freqs[i])
  }

  /** The construction errors of NewPMatrixFromDense, in the order they are checked. */
  predicate DenseRejects(bjids: seq<int>, freqs: seq<real>, featuresInter: Mat,
                         featuresExtra: Option<Mat>, psi: Option<seq<real>>) {
    || |bjids| != |freqs| || |bjids| != |featuresInter|
    || |featuresInter| == 0
    || !IsRect(featuresInter, |featuresInter[0]|)
    || (featuresExtra.Some? &&
         (|featuresExtra.value| != |featuresInter|
          || !IsRect(featuresExtra.value, |featuresExtra.value[0]|)
          || (psi.Some? && |psi.value| != |featuresExtra.value[0]|)))
  }

  /** NewPMatrixFromDense: validates the arrays, clamps the frequencies,
      stores an empty psi as absent and computes the sort orders. */
  function NewPMatrixFromDense(bjids: seq<int>, freqs: seq<real>, featuresInter: Mat,
                               featuresExtra: Option<Mat>, psi: Option<seq<real>>): (r: Result<PMatrix>)
    ensures r.Failure? <==> DenseRejects(bjids, freqs, featuresInter, featuresExtra, psi)
    ensures r.Success? ==>
      && Valid(r.value)
      && r.value.bjids == bjids && r.value.freqs == ClampFreqs(freqs)
      && r.value.featuresInter == featuresInter && r.value.featuresExtra == featuresExtra
      && r.value.time.None? && r.value.functions == []
      && r.value.psi == (if psi.Some? && |psi.value| > 0 then psi else None)
      && MakeGax(featuresInter) == Success(r.value.gax)
  {
    if |bjids| != |freqs| || |bjids| != |featuresInter| then
      Failure(ShapeMismatch("bjids, freqs, and features_inter must have the same length"))
    else if |featuresInter| == 0 then Failure(EmptyInput("empty features_inter"))
    else if !IsRect(featuresInter, |featuresInter[0]|) then
      Failure(ShapeMismatch("inconsistent features_inter width"))
    else if featuresExtra.Some? && |featuresExtra.value| != |featuresInter| then
      Failure(ShapeMismatch("features_extra length mismatch"))
    else if featuresExtra.Some? && !IsRect(featuresExtra.value, |featuresExtra.value[0]|) then
      Failure(ShapeMismatch("inconsistent features_extra width"))
    else if featuresExtra.Some? && psi.Some? && |psi.value| != |featuresExtra.value[0]| then
      Failure(ShapeMismatch("psi length mismatch"))
    else
      var gax := MakeGax(featuresInter);
      Success(PMatrix(bjids, ClampFreqs(freqs), featuresInter, featuresExtra, None, [],
                      if psi.Some? && |psi.value| > 0 then psi else None, gax.value))
  }

  /** Extra features sampled from the basis functions: row i holds every
      function evaluated at time[i]. */
  function SampleFunctions(functions: seq<TimeFunc>, time: seq<real>): (r: Mat)
    ensures |r| == |time| && IsRect(r, |functions|)
    ensures forall i, k :: 0 <= i < |time| && 0 <= k < |functions| ==> r[i][k] == functions[k](time[i])
  {
    seq(|time|, i requires 0 <= i < |time| =>
      seq(|functions|, k requires 0 <= k < |functions| => functions[k](time[i])))
  }

  /** Rectangle-rule integral of every basis function over the grid tRange,
      with the step tRange[1] - tRange[0]. */
  function IntegrateFunctions(functions: seq<TimeFunc>, tRange: seq<real>): (r: seq<real>)
    requires |tRange| >= 2
    ensures |r| == |functions|
    ensures forall k :: 0 <= k < |functions| ==>
      r[k] == Total(seq(|tRange|, t requires 0 <= t < |tRange| => functions[k](tRange[t]))) * (tRange[1] - tRange[0])
  {
    seq(|functions|, k requires 0 <= k < |functions| =>
      Total(seq(|tRange|, t requires 0 <= t < |tRange| => functions[k](tRange[t]))) * (tRange[1] - tRange[0]))
  }

  /** NewPMatrixFromIterables: validates the lengths, clamps the frequencies,
      samples the extra features from the basis functions when both they and
      the times are non-empty (and integrates psi when the grid has at least
      two points), then computes the sort orders, which fails on an empty or
      ragged feature table. */
  function NewPMatrixFromIterables(bjids: seq<int>, freqs: seq<real>, featuresInter: Mat,
                                   functions: seq<TimeFunc>, tRange: seq<real>,
                                   time: Option<seq<real>>): (r: Result<PMatrix>)
    ensures r.Failure? <==>
      || |bjids| != |freqs| || |bjids| != |featuresInter|
      || (time.Some? && |time.value| != |bjids|)
      || MakeGax(featuresInter).Failure?
    ensures r.Success? ==>
      && Valid(r.value)
      && r.value.bjids == bjids && r.value.freqs == ClampFreqs(freqs)
      && r.value.featuresInter == featuresInter && r.value.functions == functions
      && r.value.time == (if time.Some? && |time.value| > 0 then time else None)
      && (r.value.featuresExtra.Some? <==> |functions| > 0 && time.Some? && |time.value| > 0)
      && (r.value.featuresExtra.Some? ==> r.value.featuresExtra.value == SampleFunctions(functions, time.value))
      && (r.value.psi.Some? <==> r.value.featuresExtra.Some? && |tRange| >= 2)
      && (r.value.psi.Some? ==> r.value.psi.value == IntegrateFunctions(functions, tRange))
      && MakeGax(featuresInter) == Success(r.value.gax)
  {
    if |bjids| != |freqs| || |bjids| != |featuresInter| then
      Failure(ShapeMismatch("bjids, freqs, and features_inter must have the same length"))
    else if time.Some? && |time.value| != |bjids| then
      Failure(ShapeMismatch("time length mismatch"))
    else
      var sampled := |functions| > 0 && time.Some? && |time.value| > 0;
      var extra := if sampled then Some(SampleFunctions(functions, time.value)) else None;
      var psi := if sampled && |tRange| >= 2 then Some(IntegrateFunctions(functions, tRange)) else None;
      var gax :- MakeGax(featuresInter);
      Success(PMatrix(bjids, ClampFreqs(freqs), featuresInter, extra,
                      if time.Some? && |time.value| > 0 then time else None, functions, psi, gax))
  }

  /** GetSlice: the sub-matrix of the rows whose mask entry is true. Fails on
      a mask of the wrong length and, because the sort orders are recomputed,
      on a mask that keeps no row. */
  function GetSlice(m: PMatrix, mask: seq<bool>): (r: Result<PMatrix>)
    requires Valid(m)
    ensures r.Failure? <==> |mask| != m.Height() || CountTrue(mask, |mask|) == 0
    ensures r.Success? ==>
      && Valid(r.value)
      && r.value.Height() == CountTrue(mask, |mask|)
      && r.value.bjids == Filter(m.bjids, mask)
      && r.value.freqs == Filter(m.freqs, mask)
      && r.value.featuresInter == Filter(m.featuresInter, mask)
      && r.value.featuresExtra == FilterOpt(m.featuresExtra, mask)
      && r.value.time == FilterOpt(m.time, mask)
      && r.value.functions == m.functions && r.value.psi == m.psi
      && MakeGax(r.value.featuresInter) == Success(r.value.gax)
  {
    if |mask| != |m.bjids| then Failure(ShapeMismatch("mask length mismatch"))
    else
      var inter := Filter(m.featuresInter, mask);
      SliceRect(m.featuresInter, mask, m.Cols());
      var gax :- MakeGax(inter);
      SliceValid(m, mask, gax);
      Success(Slice(m, mask, gax))
  }

  /** The filtered arrays of `m` with the given sort orders. */
  function Slice(m: PMatrix, mask: seq<bool>, gax: Gax): PMatrix
    requires Valid(m) && |mask| == m.Height()
  {
    PMatrix(Filter(m.bjids, mask), Filter(m.freqs, mask), Filter(m.featuresInter, mask),
            FilterOpt(m.featuresExtra, mask), FilterOpt(m.time, mask), m.functions, m.psi, gax)
  }

  lemma SliceValid(m: PMatrix, mask: seq<bool>, gax: Gax)
    requires Valid(m) && |mask| == m.Height()
    requires MakeGax(Filter(m.featuresInter, mask)) == Success(gax)
    ensures Valid(Slice(m, mask, gax))
  {
    var s := Slice(m, mask, gax);
    var n := CountTrue(mask, |mask|);
    assert |s.freqs| == |s.bjids| == |s.featuresInter| == n;
    SliceAtLeastOne(m.freqs, mask);
    SliceExtra(m, mask);
    if m.time.Some? {
      assert |s.time.value| == n;
    }
  }

  /** Kept frequencies are still at least 1. */
  lemma SliceAtLeastOne(freqs: seq<real>, mask: seq<bool>)
    requires |freqs| <= |mask|
    requires forall i :: 0 <= i < |freqs| ==> freqs[i] >= 1.0
    ensures forall k :: 0 <= k < |Filter(freqs, mask)| ==> Filter(freqs, mask)[k] >= 1.0
  {
    FilterAll(freqs, mask);
  }

  /** The kept rows of a rectangular table form a rectangular table of the same width. */
  lemma SliceRect(t: Mat, mask: seq<bool>, c: nat)
    requires |t| <= |mask| && IsRect(t, c)
    ensures IsRect(Filter(t, mask), c)
    ensures |Filter(t, mask)| > 0 ==> |Filter(t, mask)[0]| == c
  {
    FilterAll(t, mask);
  }

  lemma SliceExtra(m: PMatrix, mask: seq<bool>)
    requires Valid(m) && |mask| == m.Height()
    ensures m.featuresExtra.Some? ==> IsRect(Filter(m.featuresExtra.value, mask), Depth(m))
    ensures m.featuresExtra.Some? && CountTrue(mask, |mask|) > 0 ==> |Filter(m.featuresExtra.value, mask)[0]| == Depth(m)
  {
    if m.featuresExtra.Some? {
      SliceRect(m.featuresExtra.value, mask, Depth(m));
    }
  }

  /** A slice on complementary masks shares the rows out: the two parts'
      heights add up to the parent's. */
  lemma GetSliceComplement(m: PMatrix, mask: seq<bool>)
    requires Valid(m) && |mask| == m.Height()
    requires GetSlice(m, mask).Success? && GetSlice(m, Not(mask)).Success?
    ensures GetSlice(m, mask).value.Height() + GetSlice(m, Not(mask)).value.Height() == m.Height()
  {
    CountComplement(mask, |mask|);
  }
}

=== FILE: poisson_split.dfy ===
/** Choosing the split of one node of the legacy Poisson engine: the best
    candidate row of every feature, the features tried in order of their best
    loss, and the row masks of the first feature that admits a threshold. */
module PoissonSplit {
  import opened Wrappers
  import opened Numeric
  import opened Ordering
  import opened Masks
  import opened PoissonUtils
  import opened PoissonTypes
  import opened PoissonMatrix
  import opened PoissonLoss
  import opened PoissonExtraLoss
  import opened PoissonWholeLoss

  /** The table shapes every loss variant produces for a matrix of `rows`
      rows and `cols` features. */
  predicate LossShape(loss: LossResult, rows: nat, cols: nat) {
    && rows > 0
    && |loss.totalLoss| == rows - 1 && IsRect(loss.totalLoss, cols)
    && |loss.sortedThresholds| == rows && IsRect(loss.sortedThresholds, cols)
    && |loss.deltaUp| >= rows - 1 && |loss.deltaDown| >= rows - 1
    && (forall i :: 0 <= i < rows - 1 ==> |loss.deltaUp[i]| == cols && |loss.deltaDown[i]| == cols)
  }

  /** A loss that fits its matrix and whose thresholds are the feature
      columns in sorted order. */
  predicate LossFits(m: PMatrix, l: Result<LossResult>)
    requires Valid(m)
  {
    l.Success? ==>
      LossShape(l.value, m.Height(), m.Cols()) && l.value.sortedThresholds == TakeAlongAxis(m.featuresInter, m.gax)
  }

  lemma FirstTreeFits(m: PMatrix, params: TreeBuildParams, log: real -> real)
    requires Valid(m)
    ensures LossFits(m, WholeLossFirstTree(m, params, log))
  {
  }

  lemma FirstTreeExtraFits(m: PMatrix, params: TreeBuildParams, solve: Solver)
    requires Valid(m)
    ensures LossFits(m, WholeLossFirstTreeExtra(m, params, solve))
  {
    var l := WholeLossFirstTreeExtra(m, params, solve);
    if l.Success? {
      var w := SolveAll(solve, FirstExtraSystems(m), m.Cols(), Depth(m), params.regLambda).value;
      assert l.value.deltaUp == w.0 && l.value.deltaDown == w.1[1..];
    }
  }

  lemma NextTreeFits(m: PMatrix, params: TreeBuildParams, bias: seq<real>)
    requires Valid(m)
    ensures LossFits(m, WholeLossNextTree(m, params, bias))
  {
  }

  lemma NextTreeExtraFits(m: PMatrix, params: TreeBuildParams, bias: seq<real>, solve: Solver)
    requires Valid(m)
    ensures LossFits(m, WholeLossNextTreeExtra(m, params, bias, solve))
  {
    var l := WholeLossNextTreeExtra(m, params, bias, solve);
    if l.Success? {
      var s := NextExtraSystems(m, bias);
      var w := SolveAll(solve, s, m.Cols(), Depth(m), params.regLambda).value;
      var up, down := NegateAll(w.0, m.Cols(), Depth(m)), NegateAll(w.1, m.Cols(), Depth(m));
      assert l.value.deltaUp == up[..m.Height() - 1] && l.value.deltaDown == down[1..];
    }
  }

  /** Every successful loss fits its matrix, and its thresholds are the
      feature columns in sorted order. */
  lemma WholeLossFits(m: PMatrix, params: TreeBuildParams, bias: Option<seq<real>>, num: Numerics)
    requires Valid(m) && WholeLoss(m, params, bias, num).Success?
    ensures LossShape(WholeLoss(m, params, bias, num).value, m.Height(), m.Cols())
    ensures WholeLoss(m, params, bias, num).value.sortedThresholds == TakeAlongAxis(m.featuresInter, m.gax)
  {
    match VariantOf(m, bias)
    case FirstTree => FirstTreeFits(m, params, num.log);
    case FirstTreeExtra => FirstTreeExtraFits(m, params, num.solve);
    case NextTree => NextTreeFits(m, params, bias.value);
    case NextTreeExtra => NextTreeExtraFits(m, params, bias.value, num.solve);
  }

  // ------------------------------------------------------- best row per feature

  /** bestIndex of every feature. */
  function BestIndices(totalLoss: Mat, cols: nat): (r: seq<nat>)
    requires |totalLoss| > 0 && IsRect(totalLoss, cols)
    ensures |r| == cols
    ensures forall j :: 0 <= j < cols ==> r[j] < |totalLoss|
    ensures forall j, k :: 0 <= j < cols && 0 <= k < |totalLoss| ==> totalLoss[r[j]][j] <= totalLoss[k][j]
    ensures forall j, k :: 0 <= j < cols && 0 <= k < r[j] ==> totalLoss[r[j]][j] < totalLoss[k][j]
  {
    seq(cols, j requires 0 <= j < cols => FirstMin(Column(totalLoss, j)))
  }

  /** minLoss of every feature: its loss at its best row. */
  function MinLosses(totalLoss: Mat, best: seq<nat>, cols: nat): (r: seq<real>)
    requires IsRect(totalLoss, cols) && |best| == cols
    requires forall j :: 0 <= j < cols ==> best[j] < |totalLoss|
    ensures |r| == cols
    ensures forall j :: 0 <= j < cols ==> r[j] == totalLoss[best[j]][j]
  {
    seq(cols, j requires 0 <= j < cols => totalLoss[best[j]][j])
  }

  /** The threshold every feature would use, or None when smartThreshold
      rejects its sorted column. */
  function Thresholds(sorted: Mat, best: seq<nat>, cols: nat): (r: seq<Option<real>>)
    requires IsRect(sorted, cols) && |best| == cols
    ensures |r| == cols
    ensures forall j :: 0 <= j < cols ==> r[j] == SmartThreshold(Column(sorted, j), best[j])
  {
    seq(cols, j requires 0 <= j < cols => SmartThreshold(Column(sorted, j), best[j]))
  }

  /** The first position from k on, in the order the features are tried,
      whose feature admits a threshold (|order| when none does). */
  function FirstTried(thr: seq<Option<real>>, order: seq<nat>, k: nat): (p: nat)
    requires InRange(order, |thr|) && k <= |order|
    ensures k <= p <= |order|
    ensures forall q :: k <= q < p ==> thr[order[q]].None?
    ensures p < |order| ==> thr[order[p]].Some?
    decreases |order| - k
  {
    if k == |order| then k
    else if thr[order[k]].Some? then k
    else FirstTried(thr, order, k + 1)
  }

  /** When every feature of a full order was tried without success, no
      feature admits a threshold. */
  lemma NoneTriedNoneLeft(thr: seq<Option<real>>, order: seq<nat>)
    requires IsPermutation(order, |thr|) && InRange(order, |thr|)
    requires forall q :: 0 <= q < |order| ==> thr[order[q]].None?
    ensures forall j :: 0 <= j < |thr| ==> thr[j].None?
  {
    PermutationMembers(order, |thr|);
    forall j | 0 <= j < |thr| ensures thr[j].None? {
      assert j in order;
      var q :| 0 <= q < |order| && order[q] == j;
    }
  }

  /** The split on feature f at threshold thr: rows strictly below the
      threshold go left, all others right. */
  function MakeSplit(m: PMatrix, loss: LossResult, f: nat, idx: nat, thr: real): (r: SplitResult)
    requires Valid(m) && LossShape(loss, m.Height(), m.Cols())
    requires f < m.Cols() && idx < m.Height() - 1
    ensures |r.leftMask| == |r.rightMask| == m.Height()
    ensures forall i :: 0 <= i < m.Height() ==> (r.leftMask[i] <==> m.featuresInter[i][f] < thr)
    ensures r.rightMask == Not(r.leftMask)
    ensures r.threshold == thr && r.featureIndex == f && r.featureOffset == idx
    ensures r.totalHeight == m.Height() - 1
    ensures r.deltaUp == CopyOrNil(loss.deltaUp[idx][f]) && r.deltaDown == CopyOrNil(loss.deltaDown[idx][f])
    ensures r.deltaCurrent == if |loss.deltaCurrent| > f then CopyOrNil(loss.deltaCurrent[f]) else None
  {
    var left := seq(m.Height(), i requires 0 <= i < m.Height() => m.featuresInter[i][f] < thr);
    SplitResult(
      left, Not(left),
      CopyOrNil(loss.deltaUp[idx][f]), CopyOrNil(loss.deltaDown[idx][f]),
      thr, f, idx, m.Height() - 1,
      if |loss.deltaCurrent| > f then CopyOrNil(loss.deltaCurrent[f]) else None)
  }

  /** The order in which Split tries the features: ascending best loss, ties
      by ascending feature index. */
  function FeatureOrder(loss: LossResult, rows: nat, cols: nat): (r: seq<nat>)
    requires LossShape(loss, rows, cols) && rows > 1
    ensures IsPermutation(r, cols) && InRange(r, cols)
  {
    var best := BestIndices(loss.totalLoss, cols);
    SortOrder(MinLosses(loss.totalLoss, best, cols))
  }

  /** The chosen candidate of a split: feature, its best row, threshold. */
  datatype Choice = Choice(feature: nat, offset: nat, threshold: real)

  /** The feature Split settles on: None when there is no candidate row or
      when no feature admits a threshold; otherwise the first feature, in the
      order above, that does, with its best row and its threshold. */
  function ChooseFeature(loss: LossResult, rows: nat, cols: nat): (r: Option<Choice>)
    requires LossShape(loss, rows, cols)
    ensures r.None? <==>
      || rows <= 1
      || forall j :: 0 <= j < cols ==>
           Thresholds(loss.sortedThresholds, BestIndices(loss.totalLoss, cols), cols)[j].None?
    ensures r.Some? ==>
      var best := BestIndices(loss.totalLoss, cols);
      && rows > 1 && r.value.feature < cols
      && r.value.offset == best[r.value.feature]
      && Some(r.value.threshold) == SmartThreshold(Column(loss.sortedThresholds, r.value.feature), r.value.offset)
  {
    if rows <= 1 then None
    else
      var best := BestIndices(loss.totalLoss, cols);
      var order := FeatureOrder(loss, rows, cols);
      var thr := Thresholds(loss.sortedThresholds, best, cols);
      var p := FirstTried(thr, order, 0);
      if p == |order| then
        NoneTriedNoneLeft(thr, order);
        None
      else
        var f := order[p];
        Some(Choice(f, best[f], thr[f].value))
  }

  /** The split Split returns for a computed loss. */
  function ChooseSplit(m: PMatrix, loss: LossResult): (r: Option<SplitResult>)
    requires Valid(m) && LossShape(loss, m.Height(), m.Cols())
    ensures r.None? <==> ChooseFeature(loss, m.Height(), m.Cols()).None?
    ensures r.Some? ==>
      var c := ChooseFeature(loss, m.Height(), m.Cols()).value;
      r.value == MakeSplit(m, loss, c.feature, c.offset, c.threshold)
  {
    match ChooseFeature(loss, m.Height(), m.Cols())
    case None => None
    case Some(c) => Some(MakeSplit(m, loss, c.feature, c.offset, c.threshold))
  }

  /** Trying features in ascending order of a key: every feature whose key
      is strictly below that of the first success was tried before it and
      failed. */
  lemma TriedInKeyOrder(key: seq<real>, thr: seq<Option<real>>, g: nat)
    requires |key| == |thr| && g < |thr|
    requires FirstTried(thr, SortOrder(key), 0) < |thr|
    requires key[g] < key[SortOrder(key)[FirstTried(thr, SortOrder(key), 0)]]
    ensures thr[g].None?
  {
    var order := SortOrder(key);
    var p := FirstTried(thr, order, 0);
    PermutationMembers(order, |key|);
    assert g in order;
    var q :| 0 <= q < |order| && order[q] == g;
    if q >= p {
      SortOrderNondecreasing(key, p, q);
      assert false;
    }
  }

  /** The features are tried in ascending order of their best loss: every
      feature whose best loss is strictly below that of the chosen one was
      tried first and admitted no threshold. */
  lemma ChosenFeatureMinimal(loss: LossResult, rows: nat, cols: nat, g: nat)
    requires LossShape(loss, rows, cols) && ChooseFeature(loss, rows, cols).Some?
    requires g < cols
    ensures var best := BestIndices(loss.totalLoss, cols);
      var minLoss := MinLosses(loss.totalLoss, best, cols);
      minLoss[g] < minLoss[ChooseFeature(loss, rows, cols).value.feature] ==>
        Thresholds(loss.sortedThresholds, best, cols)[g].None?
  {
    var best := BestIndices(loss.totalLoss, cols);
    var minLoss := MinLosses(loss.totalLoss, best, cols);
    var thr := Thresholds(loss.sortedThresholds, best, cols);
    if minLoss[g] < minLoss[ChooseFeature(loss, rows, cols).value.feature] {
      TriedInKeyOrder(minLoss, thr, g);
    }
  }

  /** A threshold smartThreshold picks on a sorted feature column has a row
      of the feature table strictly below it and a row not below it. */
  lemma ThresholdSeparatesRows(features: Mat, gax: Gax, f: nat, idx: int, t: real) returns (below: nat, above: nat)
    requires GaxIndexes(gax, |features|) && f < Width(gax)
    requires forall p :: 0 <= p < |features| ==> Width(gax) <= |features[p]|
    requires Some(t) == SmartThreshold(Column(TakeAlongAxis(features, gax), f), idx)
    ensures below < |features| && features[below][f] < t
    ensures above < |features| && !(features[above][f] < t)
  {
    var col := Column(TakeAlongAxis(features, gax), f);
    SmartThresholdSeparates(col, idx);
    var a :| 0 <= a < |col| && col[a] < t;
    var b :| 0 <= b < |col| && !(col[b] < t);
    assert col[a] == features[gax[a][f]][f];
    assert col[b] == features[gax[b][f]][f];
    below, above := gax[a][f], gax[b][f];
  }

  /** A split whose threshold has a row on each side selects a row in each
      mask. */
  lemma MasksNonEmpty(m: PMatrix, loss: LossResult, f: nat, idx: nat, t: real, a: int, b: int)
    requires Valid(m) && LossShape(loss, m.Height(), m.Cols())
    requires f < m.Cols() && idx < m.Height() - 1
    requires 0 <= a < m.Height() && m.featuresInter[a][f] < t
    requires 0 <= b < m.Height() && !(m.featuresInter[b][f] < t)
    ensures MakeSplit(m, loss, f, idx, t).leftMask[a] && MakeSplit(m, loss, f, idx, t).rightMask[b]
  {
  }

  /** The chosen threshold leaves at least one row of the node on each side:
      both masks select something. */
  lemma SplitIsProper(m: PMatrix, loss: LossResult)
    requires Valid(m) && LossShape(loss, m.Height(), m.Cols())
    requires loss.sortedThresholds == TakeAlongAxis(m.featuresInter, m.gax)
    requires ChooseSplit(m, loss).Some?
    ensures exists i :: 0 <= i < m.Height() && ChooseSplit(m, loss).value.leftMask[i]
    ensures exists i :: 0 <= i < m.Height() && ChooseSplit(m, loss).value.rightMask[i]
  {
    var c := ChooseFeature(loss, m.Height(), m.Cols()).value;
    var a, b := ThresholdSeparatesRows(m.featuresInter, m.gax, c.feature, c.offset, c.threshold);
    MasksNonEmpty(m, loss, c.feature, c.offset, c.threshold, a, b);
    var r := ChooseSplit(m, loss).value;
    assert r == MakeSplit(m, loss, c.feature, c.offset, c.threshold);
    assert 0 <= a < m.Height() && r.leftMask[a];
    assert 0 <= b < m.Height() && r.rightMask[b];
  }

  /** Split: fails on a missing matrix and passes on any error of the loss
      computation; otherwise the split chosen from the loss. */
  function Split(m: Option<PMatrix>, bias: Option<seq<real>>, params: TreeBuildParams, num: Numerics): (r: Result<Option<SplitResult>>)
    requires m.Some? ==> Valid(m.value)
    ensures m.None? ==> r.Failure?
    ensures m.Some? && WholeLoss(m.value, params, bias, num).Failure? ==>
      r == Failure(WholeLoss(m.value, params, bias, num).error)
    ensures m.Some? && WholeLoss(m.value, params, bias, num).Success? ==>
      LossShape(WholeLoss(m.value, params, bias, num).value, m.value.Height(), m.value.Cols()) &&
      r == Success(ChooseSplit(m.value, WholeLoss(m.value, params, bias, num).value))
  {
    if m.None? then Failure(InvalidModel("nil matrix"))
    else
      var loss :- WholeLoss(m.value, params, bias, num);
      WholeLossFits(m.value, params, bias, num);
      Success(ChooseSplit(m.value, loss))
  }

  /** The masks of a chosen split: complements of the node's height, row i
      left iff its feature value is below the threshold, at least one row on
      each side. */
  predicate ProperSplit(m: PMatrix, s: SplitResult)
    requires Valid(m)
  {
    && |s.leftMask| == m.Height() && s.rightMask == Not(s.leftMask)
    && s.featureIndex < m.Cols()
    && (forall i :: 0 <= i < m.Height() ==> (s.leftMask[i] <==> m.featuresInter[i][s.featureIndex] < s.threshold))
    && CountTrue(s.leftMask, |s.leftMask|) > 0 && CountTrue(s.rightMask, |s.rightMask|) > 0
  }

  /** Every split ChooseSplit picks on the node's own thresholds is proper. */
  lemma ChosenSplitProper(m: PMatrix, loss: LossResult)
    requires Valid(m) && LossShape(loss, m.Height(), m.Cols())
    requires loss.sortedThresholds == TakeAlongAxis(m.featuresInter, m.gax)
    requires ChooseSplit(m, loss).Some?
    ensures ProperSplit(m, ChooseSplit(m, loss).value)
  {
    var s := ChooseSplit(m, loss).value;
    SplitIsProper(m, loss);
    var a :| 0 <= a < m.Height() && s.leftMask[a];
    var b :| 0 <= b < m.Height() && s.rightMask[b];
    CountTruePositive(s.leftMask, |s.leftMask|, a);
    CountTruePositive(s.rightMask, |s.rightMask|, b);
  }

  /** What the tree builder relies on: a split returned by Split is proper
      and comes from a loss that accepted the bias. */
  lemma SplitFacts(m: PMatrix, bias: Option<seq<real>>, params: TreeBuildParams, num: Numerics)
    requires Valid(m) && Split(Some(m), bias, params, num).Success?
    requires Split(Some(m), bias, params, num).value.Some?
    ensures ProperSplit(m, Split(Some(m), bias, params, num).value.value)
    ensures bias.Some? ==> |bias.value| == m.Height()
  {
    WholeLossFailures(m, params, bias, num);
    var loss := WholeLoss(m, params, bias, num).value;
    ChosenSplitProper(m, loss);
  }
}

=== FILE: poisson_tree.dfy ===
/** The pointer trees of the legacy Poisson engine: prediction by descent
    and the recursive, depth-limited builder. */
module PoissonTree {
  import opened Wrappers
  import opened Numeric
  import opened Masks
  import opened PoissonTypes
  import opened PoissonMatrix
  import opened PoissonWholeLoss
  import opened PoissonSplit

  /** A node of the tree, or the nil pointer. A leaf has two nil children;
      its value is a single number or a weight vector for the extra features. */
  datatype Tree =
    | Nil
    | Node(left: Tree, right: Tree, featureIndex: int, threshold: real, leafValue: Vec, depth: int)

  predicate IsLeaf(t: Tree) {
    t.Node? && t.left.Nil? && t.right.Nil?
  }

  /** A tree without dangling pointers: every node is a leaf or has two
      non-nil children. */
  predicate WellFormed(t: Tree) {
    t.Node? && (IsLeaf(t) || (t.left.Node? && t.right.Node? && WellFormed(t.left) && WellFormed(t.right)))
  }

  // ----------------------------------------------------------------- predict

  /** w . x summed from the first entry on, as the prediction loop does. */
  method LeafDot(w: Vec, x: Vec) returns (value: real)
    requires |w| == |x|
    ensures value == Dot(w, x)
  {
    value := 0.0;
    var i := 0;
    while i < |w|
      invariant 0 <= i <= |w|
      invariant value == Dot(w[..i], x[..i])
    {
      assert w[..i + 1][..i] == w[..i] && x[..i + 1][..i] == x[..i];
      value := value + w[i] * x[i];
      i := i + 1;
    }
    assert w[..i] == w && x[..i] == x;
  }

  /** The value of a leaf: a one-entry leaf ignores the extra features; a
      longer one needs extra features of its own length and returns their
      dot product with the weights. */
  function LeafPredict(value: Vec, extra: Option<Vec>): (r: Result<real>)
    ensures |value| == 0 ==> r.Failure?
    ensures |value| == 1 ==> r == Success(value[0])
    ensures |value| > 1 ==> (r.Success? <==> extra.Some? && |extra.value| == |value|)
    ensures |value| > 1 && r.Success? ==> r.value == Dot(value, extra.value)
  {
    if |value| == 0 then Failure(InvalidModel("empty leaf value"))
    else if |value| == 1 then Success(value[0])
    else if extra.None? then Failure(InvalidModel("missing extra features for vector leaf"))
    else if |extra.value| != |value| then Failure(ShapeMismatch("extra feature dimension mismatch"))
    else Success(Dot(value, extra.value))
  }

  /** Predict: descend left while the row's feature value is below the
      node's threshold, right otherwise, and evaluate the leaf reached. */
  function Predict(t: Tree, inter: Vec, extra: Option<Vec>): (r: Result<real>)
    ensures t.Nil? ==> r.Failure?
    ensures IsLeaf(t) ==> r == LeafPredict(t.leafValue, extra)
    ensures t.Node? && !IsLeaf(t) && !(0 <= t.featureIndex < |inter|) ==> r.Failure?
    ensures t.Node? && !IsLeaf(t) && 0 <= t.featureIndex < |inter| ==>
      r == Predict(if inter[t.featureIndex] < t.threshold then t.left else t.right, inter, extra)
  {
    if t.Nil? then Failure(InvalidModel("nil tree"))
    else if IsLeaf(t) then LeafPredict(t.leafValue, extra)
    else if t.featureIndex < 0 || t.featureIndex >= |inter| then Failure(ShapeMismatch("feature index out of range"))
    else if inter[t.featureIndex] < t.threshold then Predict(t.left, inter, extra)
    else Predict(t.right, inter, extra)
  }

  /** Every split node of the tree tests a feature below `cols`. */
  predicate FeaturesBelow(t: Tree, cols: nat) {
    t.Node? ==> (IsLeaf(t) || (0 <= t.featureIndex < cols && FeaturesBelow(t.left, cols) && FeaturesBelow(t.right, cols)))
  }

  /** The leaf a row reaches. */
  function Route(t: Tree, inter: Vec): (leaf: Tree)
    requires WellFormed(t) && FeaturesBelow(t, |inter|)
    ensures IsLeaf(leaf)
  {
    if IsLeaf(t) then t
    else if inter[t.featureIndex] < t.threshold then Route(t.left, inter)
    else Route(t.right, inter)
  }

  /** On a well-formed tree whose features exist in the row, prediction can
      only fail at the leaf: it is the value of the leaf the row reaches. */
  lemma {:induction false} PredictAtRoute(t: Tree, inter: Vec, extra: Option<Vec>)
    requires WellFormed(t) && FeaturesBelow(t, |inter|)
    ensures Predict(t, inter, extra) == LeafPredict(Route(t, inter).leafValue, extra)
  {
    if !IsLeaf(t) {
      if inter[t.featureIndex] < t.threshold {
        PredictAtRoute(t.left, inter, extra);
      } else {
        PredictAtRoute(t.right, inter, extra);
      }
    }
  }

  // ------------------------------------------------------------------- build

  /** priorFinish: the root never stops early; any other node stops when
      its parent already sits at the depth limit. */
  function PriorFinish(params: TreeBuildParams, parentDepth: Option<int>): (r: bool)
    ensures r <==> parentDepth.Some? && params.maxDepth <= parentDepth.value
  {
    match parentDepth
    case None => false
    case Some(d) => params.maxDepth <= d
  }

  /** The factor a leaf value is scaled by: 1 in the first tree, the
      learning rate afterwards. */
  function LeafScale(params: TreeBuildParams, firstTree: bool): real {
    if firstTree then 1.0 else params.learningRate
  }

  /** leafFromPrediction: the prediction handed down by the parent, scaled
      entry by entry. */
  function LeafFromPrediction(prediction: Option<Vec>, params: TreeBuildParams, firstTree: bool): (r: Result<Tree>)
    ensures r.Failure? <==> prediction.None?
    ensures r.Success? ==> IsLeaf(r.value) && WellFormed(r.value)
    ensures r.Success? ==> r.value.leafValue == VecScale(LeafScale(params, firstTree), prediction.value)
  {
    match prediction
    case None => Failure(InvalidModel("missing leaf prediction"))
    case Some(p) => Success(Node(Nil, Nil, 0, 0.0, VecScale(LeafScale(params, firstTree), p), 0))
  }

  /** A leaf as the builder makes it, with what the builder's contract
      needs to know about it. */
  function BuilderLeaf(prediction: Option<Vec>, params: TreeBuildParams, firstTree: bool, depth: int, cols: nat): (r: Result<Tree>)
    ensures r == LeafFromPrediction(prediction, params, firstTree)
    ensures r.Success? ==> IsLeaf(r.value) && WellFormed(r.value) && FeaturesBelow(r.value, cols)
    ensures r.Success? ==> DepthsFrom(r.value, depth, Max(1, params.maxDepth))
  {
    LeafFromPrediction(prediction, params, firstTree)
  }

  /** The depth a new node gets: 1 at the root, one more than its parent
      elsewhere. */
  function NodeDepth(parentDepth: Option<int>): int {
    match parentDepth
    case None => 1
    case Some(d) => d + 1
  }

  /** Every split node sits at depth d below its ancestors' depths, with
      children one level deeper, and no deeper than `bound`. */
  predicate DepthsFrom(t: Tree, d: int, bound: int) {
    t.Node? ==> (IsLeaf(t) || (t.depth == d && d <= bound && DepthsFrom(t.left, d + 1, bound) && DepthsFrom(t.right, d + 1, bound)))
  }

  function Max(a: int, b: int): int {
    if a < b then b else a
  }

  function SliceBias(bias: Option<seq<real>>, mask: seq<bool>): (r: Option<seq<real>>)
    requires bias.Some? ==> |bias.value| <= |mask|
    ensures r.None? <==> bias.None?
    ensures bias.Some? ==> r.value == Filter(bias.value, mask)
  {
    FilterOpt(bias, mask)
  }

  /** What the builder knows about a split returned by Split. */
  predicate SplitFits(m: PMatrix, bias: Option<seq<real>>, s: SplitResult) {
    && |s.leftMask| == m.Height() && s.rightMask == Not(s.leftMask)
    && s.featureIndex < m.Cols()
    && (bias.Some? ==> |bias.value| == m.Height())
  }

  /** Split as the builder sees it: the same result, with the facts the
      builder relies on. */
  function NodeSplit(m: PMatrix, bias: Option<seq<real>>, params: TreeBuildParams, num: Numerics): (r: Result<Option<SplitResult>>)
    requires Valid(m)
    ensures r.Success? && r.value.Some? ==> SplitFits(m, bias, r.value.value)
  {
    var r := Split(Some(m), bias, params, num);
    if r.Success? && r.value.Some? then
      SplitFacts(m, bias, params, num);
      r
    else r
  }

  /** buildTreeHelper. A node becomes a leaf carrying the parent's prediction
      when the depth limit is reached or when no split is found; otherwise
      the split is carried out below. */
  function BuildTreeHelper(params: TreeBuildParams, m: PMatrix, bias: Option<seq<real>>,
                           parentDepth: Option<int>, prediction: Option<Vec>, num: Numerics): (r: Result<Tree>)
    requires Valid(m)
    ensures r.Success? ==> WellFormed(r.value) && FeaturesBelow(r.value, m.Cols())
    ensures r.Success? ==> DepthsFrom(r.value, NodeDepth(parentDepth), Max(1, params.maxDepth))
    ensures PriorFinish(params, parentDepth) ==> r == LeafFromPrediction(prediction, params, bias.None?)
    ensures !PriorFinish(params, parentDepth) && Split(Some(m), bias, params, num).Failure? ==>
      r == Failure(Split(Some(m), bias, params, num).error)
    ensures !PriorFinish(params, parentDepth) && Split(Some(m), bias, params, num) == Success(None) ==>
      r == LeafFromPrediction(prediction, params, bias.None?)
    ensures !PriorFinish(params, parentDepth) && Split(Some(m), bias, params, num).Success? ==>
      var sp := Split(Some(m), bias, params, num).value;
      sp.Some? && SmallSides(m, sp.value) ==> r == LeafFromPrediction(prediction, params, bias.None?)
    ensures prediction.None? && r.Success? ==> !IsLeaf(r.value)
    decreases m.Height(), 2
  {
    if PriorFinish(params, parentDepth) then BuilderLeaf(prediction, params, bias.None?, NodeDepth(parentDepth), m.Cols())
    else BuildBelow(params, m, bias, NodeDepth(parentDepth), prediction, num)
  }

  /** buildTreeHelper below the depth limit: a leaf when no split is found
      (a failure when there is no prediction to put in it), otherwise the
      split is carried out. */
  function BuildBelow(params: TreeBuildParams, m: PMatrix, bias: Option<seq<real>>, depth: int,
                      prediction: Option<Vec>, num: Numerics): (r: Result<Tree>)
    requires Valid(m) && depth <= Max(1, params.maxDepth)
    ensures r.Success? ==> WellFormed(r.value) && FeaturesBelow(r.value, m.Cols())
    ensures r.Success? ==> DepthsFrom(r.value, depth, Max(1, params.maxDepth))
    ensures prediction.None? && r.Success? ==> !IsLeaf(r.value)
    ensures Split(Some(m), bias, params, num).Failure? ==> r == Failure(Split(Some(m), bias, params, num).error)
    ensures Split(Some(m), bias, params, num) == Success(None) ==> r == LeafFromPrediction(prediction, params, bias.None?)
    ensures Split(Some(m), bias, params, num).Success? ==>
      var sp := Split(Some(m), bias, params, num).value;
      sp.Some? && SmallSides(m, sp.value) ==> r == LeafFromPrediction(prediction, params, bias.None?)
    decreases m.Height(), 1
  {
    var split :- NodeSplit(m, bias, params, num);
    if split.None? then BuilderLeaf(prediction, params, bias.None?, depth, m.Cols())
    else BuildSplit(params, m, bias, depth, split.value, prediction, num)
  }

  /** The rest of buildTreeHelper once a split is found: a leaf when a side
      would have fewer than two rows, otherwise a node at `depth` whose
      children are built on the complementary row sets of the split, the
      left one from the upper delta and the right one from the lower. */
  function BuildSplit(params: TreeBuildParams, m: PMatrix, bias: Option<seq<real>>, depth: int,
                      s: SplitResult, prediction: Option<Vec>, num: Numerics): (r: Result<Tree>)
    requires Valid(m) && SplitFits(m, bias, s) && depth <= Max(1, params.maxDepth)
    ensures r.Success? ==> WellFormed(r.value) && FeaturesBelow(r.value, m.Cols())
    ensures r.Success? ==> DepthsFrom(r.value, depth, Max(1, params.maxDepth))
    ensures prediction.None? && r.Success? ==> !IsLeaf(r.value)
    ensures r.Success? && !IsLeaf(r.value) ==>
      r.value.featureIndex == s.featureIndex && r.value.threshold == s.threshold && r.value.depth == depth
    ensures GetSlice(m, s.leftMask).Failure? ==> r == Failure(GetSlice(m, s.leftMask).error)
    ensures GetSlice(m, s.leftMask).Success? && GetSlice(m, s.rightMask).Failure? ==>
      r == Failure(GetSlice(m, s.rightMask).error)
    ensures SmallSides(m, s) ==> r == LeafFromPrediction(prediction, params, bias.None?)
    decreases m.Height(), 0
  {
    var left :- ChildSlice(m, s.leftMask);
    var right :- ChildSlice(m, s.rightMask);
    if left.Height() < 2 || right.Height() < 2 then BuilderLeaf(prediction, params, bias.None?, depth, m.Cols())
    else
      CountComplement(s.leftMask, |s.leftMask|);
      var l :- BuildTreeHelper(params, left, SliceBias(bias, s.leftMask), Some(depth), s.deltaUp, num);
      var r :- BuildTreeHelper(params, right, SliceBias(bias, s.rightMask), Some(depth), s.deltaDown, num);
      assert left.Cols() == m.Cols() && right.Cols() == m.Cols();
      assert FeaturesBelow(l, m.Cols()) && FeaturesBelow(r, m.Cols());
      assert NodeDepth(Some(depth)) == depth + 1;
      assert DepthsFrom(l, depth + 1, Max(1, params.maxDepth));
      assert DepthsFrom(r, depth + 1, Max(1, params.maxDepth));
      Success(Join(l, r, s, depth, m.Cols(), Max(1, params.maxDepth)))
  }

  /** Both sides of the split can be sliced, and one of them has fewer
      than two rows: the builder then makes a leaf instead. */
  predicate SmallSides(m: PMatrix, s: SplitResult)
    requires Valid(m)
  {
    && GetSlice(m, s.leftMask).Success? && GetSlice(m, s.rightMask).Success?
    && (GetSlice(m, s.leftMask).value.Height() < 2 || GetSlice(m, s.rightMask).value.Height() < 2)
  }

  /** The part of GetSlice the builder uses: the child is a valid matrix
      with the kept rows and the parent's features. */
  function ChildSlice(m: PMatrix, mask: seq<bool>): (r: Result<PMatrix>)
    requires Valid(m) && |mask| == m.Height()
    ensures r.Success? ==> Valid(r.value) && r.value.Height() == CountTrue(mask, |mask|) && r.value.Cols() == m.Cols()
  {
    var r := GetSlice(m, mask);
    if r.Success? then
      SliceRect(m.featuresInter, mask, m.Cols());
      r
    else r
  }

  /** A split carried out builds its children on the two row sets of the
      split, each with at least two rows: the left one on the rows of the
      left mask with the upper delta as its prediction, the right one on the
      remaining rows with the lower delta, both one level deeper and with the
      bias restricted to their rows. */
  lemma BuildSplitChildren(params: TreeBuildParams, m: PMatrix, bias: Option<seq<real>>, depth: int,
                           s: SplitResult, prediction: Option<Vec>, num: Numerics, t: Tree)
    requires Valid(m) && SplitFits(m, bias, s) && depth <= Max(1, params.maxDepth)
    requires BuildSplit(params, m, bias, depth, s, prediction, num) == Success(t) && !IsLeaf(t)
    ensures GetSlice(m, s.leftMask).Success? && Valid(GetSlice(m, s.leftMask).value)
    ensures GetSlice(m, s.rightMask).Success? && Valid(GetSlice(m, s.rightMask).value)
    ensures GetSlice(m, s.leftMask).value.Height() >= 2 && GetSlice(m, s.rightMask).value.Height() >= 2
    ensures BuildTreeHelper(params, GetSlice(m, s.leftMask).value, SliceBias(bias, s.leftMask), Some(depth), s.deltaUp, num)
      == Success(t.left)
    ensures BuildTreeHelper(params, GetSlice(m, s.rightMask).value, SliceBias(bias, s.rightMask), Some(depth), s.deltaDown, num)
      == Success(t.right)
  {
    var left, right := ChildSlice(m, s.leftMask), ChildSlice(m, s.rightMask);
    assert left.Success? && right.Success? && !SmallSides(m, s);
  }

  /** A split node over two built subtrees. */
  function Join(l: Tree, r: Tree, s: SplitResult, depth: int, cols: nat, bound: int): (t: Tree)
    requires WellFormed(l) && WellFormed(r) && FeaturesBelow(l, cols) && FeaturesBelow(r, cols)
    requires DepthsFrom(l, depth + 1, bound) && DepthsFrom(r, depth + 1, bound)
    requires s.featureIndex < cols && depth <= bound
    ensures WellFormed(t) && FeaturesBelow(t, cols) && DepthsFrom(t, depth, bound) && !IsLeaf(t)
    ensures t.left == l && t.right == r
    ensures t.featureIndex == s.featureIndex && t.threshold == s.threshold && t.depth == depth
  {
    Node(l, r, s.featureIndex, s.threshold, [], depth)
  }

  /** buildTree: the root, built without a parent or a prediction. */
  function BuildTree(params: TreeBuildParams, m: PMatrix, bias: Option<seq<real>>, num: Numerics): (r: Result<Tree>)
    requires Valid(m)
    ensures r.Success? ==> WellFormed(r.value) && FeaturesBelow(r.value, m.Cols())
    ensures r.Success? ==> !IsLeaf(r.value) && r.value.depth == 1
    ensures r.Success? ==> DepthsFrom(r.value, 1, Max(1, params.maxDepth))
    ensures Split(Some(m), bias, params, num).Failure? ==> r == Failure(Split(Some(m), bias, params, num).error)
    ensures Split(Some(m), bias, params, num) == Success(None) ==> r.Failure?
    ensures Split(Some(m), bias, params, num).Success? ==>
      var sp := Split(Some(m), bias, params, num).value;
      sp.Some? && SmallSides(m, sp.value) ==> r.Failure?
  {
    BuildTreeHelper(params, m, bias, None, None, num)
  }
}

=== FILE: poisson_types.dfy ===
/** Records shared by the legacy Poisson engine: tree-building parameters,
    the per-candidate loss tables and the chosen split. */
module PoissonTypes {
  import opened Wrappers
  import opened Numeric

  datatype TreeBuildParams = TreeBuildParams(
    maxDepth: int,
    learningRate: real,
    unbalancedPenalty: real,
    regLambda: real,
    checkZero: bool)

  /** Loss of every split candidate. Row i of totalLoss is the split after
      sorted position i, column j the feature; the delta tables hold, per
      candidate, the leaf values of the part above (up) and below (down) the
      split; deltaCurrent holds, per feature, the value for the whole node. */
  datatype LossResult = LossResult(
    totalLoss: Mat,
    sortedThresholds: Mat,
    deltaUp: seq<Mat>,
    deltaDown: seq<Mat>,
    deltaCurrent: Mat)

  /** The chosen split. An absent delta stands for a nil slice (the copy of an
      empty one). */
  datatype SplitResult = SplitResult(
    leftMask: seq<bool>,
    rightMask: seq<bool>,
    deltaUp: Option<Vec>,
    deltaDown: Option<Vec>,
    threshold: real,
    featureIndex: nat,
    featureOffset: nat,
    totalHeight: nat,
    deltaCurrent: Option<Vec>)

  /** A copy made by appending to a nil slice: nil when the source is empty. */
  function CopyOrNil(v: Vec): (r: Option<Vec>)
    ensures r.None? <==> |v| == 0
    ensures r.Some? ==> r.value == v
  {
    if |v| == 0 then None else Some(v)
  }
}

=== FILE: poisson_utils.dfy ===
/** Array utilities of the legacy Poisson engine: the unbalance penalty, the
    per-column sort orders (the "gax" table: gax[row][col] is the source row
    at sorted position `row` of column `col`), gathering along those orders,
    running sums, object counting and the split threshold. */
module PoissonUtils {
  import opened Wrappers
  import opened Numeric
  import opened Ordering

  type Gax = seq<seq<nat>>

  // ---------------------------------------------------------------- penalty

  /** Unbalance penalty for the n-1 split positions of n sorted rows: the
      distance of each position from n/2; empty (nil) when n <= 1. */
  function EdgePenalty(n: int): (r: seq<real>)
    ensures n <= 1 ==> r == []
    ensures n > 1 ==> |r| == n - 1
    ensures forall i :: 0 <= i < |r| ==> r[i] == Abs(i as real - n as real / 2.0) && r[i] >= 0.0
  {
    if n <= 1 then []
    else seq(n - 1, i requires 0 <= i < n - 1 => Abs(i as real - n as real / 2.0))
  }

  /** The penalty falls towards position n/2 and grows away from it. */
  lemma EdgePenaltyShape(n: int, i: int, j: int)
    requires 0 <= i < j < n - 1
    ensures j as real <= n as real / 2.0 ==> EdgePenalty(n)[i] > EdgePenalty(n)[j]
    ensures i as real >= n as real / 2.0 ==> EdgePenalty(n)[i] < EdgePenalty(n)[j]
  {
  }

  // ------------------------------------------------------------ sort orders

  /** Column j of the gax table, i.e. the sort order of feature j. */
  function GaxColumn(gax: Gax, j: nat): seq<nat>
    requires IsRect(gax, Width(gax)) && j < Width(gax)
  {
    seq(|gax|, i requires 0 <= i < |gax| => gax[i][j])
  }

  /** `gax` holds, column by column, the stable ascending argsort of `features`. */
  predicate IsGaxOf(features: Mat, gax: Gax) {
    && |features| > 0
    && IsRect(features, |features[0]|)
    && |gax| == |features|
    && IsRect(gax, |features[0]|)
    && forall j :: 0 <= j < |features[0]| ==>
         IsPermutation(GaxColumn(gax, j), |features|) &&
         InRange(GaxColumn(gax, j), |features|) &&
         SortedBy(Column(features, j), GaxColumn(gax, j))
  }

  /** The column sort orders laid out as a table indexed [position][column]. */
  function Transpose(orders: seq<seq<nat>>, rows: nat): (r: Gax)
    requires IsRect(orders, rows)
    ensures |r| == rows && IsRect(r, |orders|)
    ensures forall i, j :: 0 <= i < rows && 0 <= j < |orders| ==> r[i][j] == orders[j][i]
  {
    seq(rows, i requires 0 <= i < rows => seq(|orders|, j requires 0 <= j < |orders| => orders[j][i]))
  }

  /** The sort orders of all columns of a rectangular, non-empty table. */
  function ColumnOrders(features: Mat): (r: seq<seq<nat>>)
    requires |features| > 0 && IsRect(features, |features[0]|)
    ensures |r| == |features[0]| && IsRect(r, |features|)
    ensures forall j :: 0 <= j < |r| ==>
      IsPermutation(r[j], |features|) && InRange(r[j], |features|) && SortedBy(Column(features, j), r[j])
  {
    seq(|features[0]|, j requires 0 <= j < |features[0]| => SortOrder(Column(features, j)))
  }

  lemma TransposeGax(features: Mat)
    requires |features| > 0 && IsRect(features, |features[0]|)
    ensures IsGaxOf(features, Transpose(ColumnOrders(features), |features|))
  {
    var orders := ColumnOrders(features);
    var gax := Transpose(orders, |features|);
    forall j | 0 <= j < |features[0]| ensures GaxColumn(gax, j) == orders[j] {
    }
  }

  /** Per-column stable argsort; fails on an empty feature set or rows of
      differing width. */
  function MakeGax(features: Mat): (r: Result<Gax>)
    ensures r.Failure? <==> |features| == 0 || !IsRect(features, |features[0]|)
    ensures r.Success? ==> IsGaxOf(features, r.value)
    ensures r.Success? ==> GaxIndexes(r.value, |features|) && Width(r.value) == |features[0]|
  {
    if |features| == 0 then Failure(EmptyInput("empty features"))
    else if !IsRect(features, |features[0]|) then Failure(ShapeMismatch("inconsistent feature widths"))
    else
      TransposeGax(features);
      GaxOfIndexes(features, Transpose(ColumnOrders(features), |features|));
      Success(Transpose(ColumnOrders(features), |features|))
  }

  /** Sort orders are determined by the features alone: any table satisfying
      the argsort contract is the one MakeGax computes. */
  lemma GaxUnique(features: Mat, g1: Gax, g2: Gax)
    requires IsGaxOf(features, g1) && IsGaxOf(features, g2)
    ensures g1 == g2
  {
    var cols := |features[0]|;
    forall j | 0 <= j < cols ensures GaxColumn(g1, j) == GaxColumn(g2, j) {
      SortedUnique(Column(features, j), GaxColumn(g1, j), GaxColumn(g2, j));
    }
    forall i | 0 <= i < |g1| ensures g1[i] == g2[i] {
      forall j | 0 <= j < cols ensures g1[i][j] == g2[i][j] {
        assert GaxColumn(g1, j)[i] == g1[i][j];
        assert GaxColumn(g2, j)[i] == g2[i][j];
      }
    }
  }

  /** Entry i, j of gax is a row of `values`. */
  predicate GaxIndexes(gax: Gax, n: nat) {
    IsRect(gax, Width(gax)) && forall i, j :: 0 <= i < |gax| && 0 <= j < |gax[i]| ==> gax[i][j] < n
  }

  lemma GaxOfIndexes(features: Mat, gax: Gax)
    requires IsGaxOf(features, gax)
    ensures GaxIndexes(gax, |features|) && Width(gax) == |features[0]|
  {
    forall i, j | 0 <= i < |gax| && 0 <= j < |gax[i]| ensures gax[i][j] < |features| {
      assert GaxColumn(gax, j)[i] == gax[i][j];
    }
  }

  // -------------------------------------------------------------- gathering

  /** out[i][j] = features[gax[i][j]][j]: column j in its own sorted order. */
  function TakeAlongAxis(features: Mat, gax: Gax): (r: Mat)
    requires GaxIndexes(gax, |features|)
    requires forall p :: 0 <= p < |features| ==> Width(gax) <= |features[p]|
    ensures |r| == |gax| && IsRect(r, Width(gax))
    ensures forall i, j :: 0 <= i < |gax| && 0 <= j < Width(gax) ==> r[i][j] == features[gax[i][j]][j]
  {
    if |gax| == 0 then []
    else
      var cols := |gax[0]|;
      seq(|gax|, i requires 0 <= i < |gax| =>
        seq(cols, j requires 0 <= j < cols => features[gax[i][j]][j]))
  }

  /** Gathering a column along its own argsort yields a non-decreasing column. */
  lemma SortedThresholdsNondecreasing(features: Mat, gax: Gax, j: nat, a: int, b: int)
    requires IsGaxOf(features, gax)
    requires j < |features[0]| && 0 <= a <= b < |features|
    ensures GaxIndexes(gax, |features|) && Width(gax) == |features[0]|
    ensures TakeAlongAxis(features, gax)[a][j] <= TakeAlongAxis(features, gax)[b][j]
  {
    GaxOfIndexes(features, gax);
    var col := Column(features, j);
    var g := GaxColumn(gax, j);
    assert g[a] == gax[a][j] && g[b] == gax[b][j];
    if a < b {
      assert KeyLess(col, g[a], g[b]);
    }
  }

  /** out[i][j] = values[gax[i][j]]: a per-row vector in every column's order. */
  function GatherVector<T>(values: seq<T>, gax: Gax): (r: seq<seq<T>>)
    requires GaxIndexes(gax, |values|)
    ensures |r| == |gax| && IsRect(r, Width(gax))
    ensures forall i, j :: 0 <= i < |gax| && 0 <= j < Width(gax) ==> r[i][j] == values[gax[i][j]]
  {
    if |gax| == 0 then []
    else
      var cols := |gax[0]|;
      seq(|gax|, i requires 0 <= i < |gax| =>
        seq(cols, j requires 0 <= j < cols => values[gax[i][j]]))
  }

  /** out[i][j] = the extra-feature row values[gax[i][j]]. */
  function GatherExtra(values: Mat, gax: Gax): (r: seq<seq<seq<real>>>)
    requires GaxIndexes(gax, |values|)
    requires IsRect(values, Width(values))
    ensures |r| == |gax|
    ensures forall i :: 0 <= i < |gax| ==> |r[i]| == Width(gax)
    ensures forall i, j :: 0 <= i < |gax| && 0 <= j < Width(gax) ==> r[i][j] == values[gax[i][j]]
  {
    GatherVector(values, gax)
  }

  // ------------------------------------------------------------ running sums

  /** The shape of a rows x cols x depth table. */
  predicate Is3D(t: seq<seq<seq<real>>>, cols: nat, depth: nat) {
    forall i :: 0 <= i < |t| ==> |t[i]| == cols && IsRect(t[i], depth)
  }

  /** The shape of a rows x cols x depth x depth table. */
  predicate Is4D(t: seq<seq<seq<seq<real>>>>, cols: nat, depth: nat) {
    forall i :: 0 <= i < |t| ==>
      (|t[i]| == cols && forall j :: 0 <= j < cols ==> |t[i][j]| == depth && IsRect(t[i][j], depth))
  }

  function Fiber3(t: seq<seq<seq<real>>>, cols: nat, depth: nat, j: nat, k: nat): (r: seq<real>)
    requires Is3D(t, cols, depth) && j < cols && k < depth
    ensures |r| == |t| && forall i :: 0 <= i < |t| ==> r[i] == t[i][j][k]
  {
    seq(|t|, i requires 0 <= i < |t| => t[i][j][k])
  }

  function Fiber4(t: seq<seq<seq<seq<real>>>>, cols: nat, depth: nat, j: nat, k: nat, l: nat): (r: seq<real>)
    requires Is4D(t, cols, depth) && j < cols && k < depth && l < depth
    ensures |r| == |t| && forall i :: 0 <= i < |t| ==> r[i] == t[i][j][k][l]
  {
    seq(|t|, i requires 0 <= i < |t| => t[i][j][k][l])
  }

  /** Column-wise running sums from the first row: out[i][j] = data[0][j] + ... + data[i][j]. */
  function CumsumForward2D(data: Mat): (r: Mat)
    requires IsRect(data, Width(data))
    ensures |r| == |data| && IsRect(r, Width(data))
    ensures forall i, j :: 0 <= i < |data| && 0 <= j < Width(data) ==> r[i][j] == Sum(Column(data, j), 0, i + 1)
  {
    if |data| == 0 then []
    else
      var cols := |data[0]|;
      var sums := seq(cols, j requires 0 <= j < cols => PrefixSums(Column(data, j)));
      seq(|data|, i requires 0 <= i < |data| => seq(cols, j requires 0 <= j < cols => sums[j][i]))
  }

  /** Column-wise running sums from the last row: out[i][j] = data[i][j] + ... + data[n-1][j]. */
  function CumsumBackward2D(data: Mat): (r: Mat)
    requires IsRect(data, Width(data))
    ensures |r| == |data| && IsRect(r, Width(data))
    ensures forall i, j :: 0 <= i < |data| && 0 <= j < Width(data) ==> r[i][j] == Sum(Column(data, j), i, |data|)
  {
    if |data| == 0 then []
    else
      var cols := |data[0]|;
      var sums := seq(cols, j requires 0 <= j < cols => SuffixSums(Column(data, j)));
      seq(|data|, i requires 0 <= i < |data| => seq(cols, j requires 0 <= j < cols => sums[j][i]))
  }

  /** Forward and backward running sums meet at every split position. */
  lemma CumsumMeet2D(data: Mat, i: int, j: int)
    requires IsRect(data, Width(data))
    requires 0 <= i < |data| - 1 && 0 <= j < Width(data)
    ensures CumsumForward2D(data)[i][j] + CumsumBackward2D(data)[i + 1][j] == CumsumForward2D(data)[|data| - 1][j]
    ensures CumsumForward2D(data)[|data| - 1][j] == CumsumBackward2D(data)[0][j]
  {
    SumSplit(Column(data, j), 0, i + 1, |data|);
  }

  function CumsumForward3D(data: seq<seq<seq<real>>>, cols: nat, depth: nat): (r: seq<seq<seq<real>>>)
    requires Is3D(data, cols, depth)
    requires |data| > 0 ==> cols > 0
    ensures |r| == |data| && Is3D(r, cols, depth)
    ensures forall i, j, k :: 0 <= i < |data| && 0 <= j < cols && 0 <= k < depth ==>
      r[i][j][k] == Sum(Fiber3(data, cols, depth, j, k), 0, i + 1)
  {
    if |data| == 0 then []
    else
      var sums := seq(cols, j requires 0 <= j < cols =>
        seq(depth, k requires 0 <= k < depth => PrefixSums(Fiber3(data, cols, depth, j, k))));
      seq(|data|, i requires 0 <= i < |data| =>
        seq(cols, j requires 0 <= j < cols => seq(depth, k requires 0 <= k < depth => sums[j][k][i])))
  }

  function CumsumBackward3D(data: seq<seq<seq<real>>>, cols: nat, depth: nat): (r: seq<seq<seq<real>>>)
    requires Is3D(data, cols, depth)
    requires |data| > 0 ==> cols > 0
    ensures |r| == |data| && Is3D(r, cols, depth)
    ensures forall i, j, k :: 0 <= i < |data| && 0 <= j < cols && 0 <= k < depth ==>
      r[i][j][k] == Sum(Fiber3(data, cols, depth, j, k), i, |data|)
  {
    if |data| == 0 then []
    else
      var sums := seq(cols, j requires 0 <= j < cols =>
        seq(depth, k requires 0 <= k < depth => SuffixSums(Fiber3(data, cols, depth, j, k))));
      seq(|data|, i requires 0 <= i < |data| =>
        seq(cols, j requires 0 <= j < cols => seq(depth, k requires 0 <= k < depth => sums[j][k][i])))
  }

  function CumsumForward4D(data: seq<seq<seq<seq<real>>>>, cols: nat, depth: nat): (r: seq<seq<seq<seq<real>>>>)
    requires Is4D(data, cols, depth)
    requires |data| > 0 ==> cols > 0
    ensures |r| == |data| && Is4D(r, cols, depth)
    ensures forall i, j, k, l :: 0 <= i < |data| && 0 <= j < cols && 0 <= k < depth && 0 <= l < depth ==>
      r[i][j][k][l] == Sum(Fiber4(data, cols, depth, j, k, l), 0, i + 1)
  {
    if |data| == 0 then []
    else
      var sums := seq(cols, j requires 0 <= j < cols =>
        seq(depth, k requires 0 <= k < depth =>
          seq(depth, l requires 0 <= l < depth => PrefixSums(Fiber4(data, cols, depth, j, k, l)))));
      seq(|data|, i requires 0 <= i < |data| =>
        seq(cols, j requires 0 <= j < cols =>
          seq(depth, k requires 0 <= k < depth => seq(depth, l requires 0 <= l < depth => sums[j][k][l][i]))))
  }

  function CumsumBackward4D(data: seq<seq<seq<seq<real>>>>, cols: nat, depth: nat): (r: seq<seq<seq<seq<real>>>>)
    requires Is4D(data, cols, depth)
    requires |data| > 0 ==> cols > 0
    ensures |r| == |data| && Is4D(r, cols, depth)
    ensures forall i, j, k, l :: 0 <= i < |data| && 0 <= j < cols && 0 <= k < depth && 0 <= l < depth ==>
      r[i][j][k][l] == Sum(Fiber4(data, cols, depth, j, k, l), i, |data|)
  {
    if |data| == 0 then []
    else
      var sums := seq(cols, j requires 0 <= j < cols =>
        seq(depth, k requires 0 <= k < depth =>
          seq(depth, l requires 0 <= l < depth => SuffixSums(Fiber4(data, cols, depth, j, k, l)))));
      seq(|data|, i requires 0 <= i < |data| =>
        seq(cols, j requires 0 <= j < cols =>
          seq(depth, k requires 0 <= k < depth => seq(depth, l requires 0 <= l < depth => sums[j][k][l][i]))))
  }

  /** Forward and backward running sums of a 3D table meet at every split
      position. */
  lemma CumsumMeet3D(data: seq<seq<seq<real>>>, cols: nat, depth: nat, i: int, j: int, k: int)
    requires Is3D(data, cols, depth) && (|data| > 0 ==> cols > 0)
    requires 0 <= i < |data| - 1 && 0 <= j < cols && 0 <= k < depth
    ensures CumsumForward3D(data, cols, depth)[i][j][k] + CumsumBackward3D(data, cols, depth)[i + 1][j][k]
         == CumsumForward3D(data, cols, depth)[|data| - 1][j][k]
  {
    SumSplit(Fiber3(data, cols, depth, j, k), 0, i + 1, |data|);
  }

  /** Forward and backward running sums of a 4D table meet at every split
      position. */
  lemma CumsumMeet4D(data: seq<seq<seq<seq<real>>>>, cols: nat, depth: nat, i: int, j: int, k: int, l: int)
    requires Is4D(data, cols, depth) && (|data| > 0 ==> cols > 0)
    requires 0 <= i < |data| - 1 && 0 <= j < cols && 0 <= k < depth && 0 <= l < depth
    ensures CumsumForward4D(data, cols, depth)[i][j][k][l] + CumsumBackward4D(data, cols, depth)[i + 1][j][k][l]
         == CumsumForward4D(data, cols, depth)[|data| - 1][j][k][l]
  {
    SumSplit(Fiber4(data, cols, depth, j, k, l), 0, i + 1, |data|);
  }

  // -------------------------------------------------------- object counting

  /** Rows 0 .. n-1 of `ids` as a set of object ids. */
  function IdsUpTo(ids: seq<int>, n: nat): set<int>
    requires n <= |ids|
  {
    set k | 0 <= k < n :: ids[k]
  }

  /** Number of positions 1 .. i where the id differs from the previous row's. */
  function Changes(ids: seq<int>, i: nat): nat
    requires i < |ids|
  {
    if i == 0 then 0 else Changes(ids, i - 1) + (if ids[i] != ids[i - 1] then 1 else 0)
  }

  /** Running count along one sorted column: 1 at the first row, then one
      more at every row whose id differs from the previous row's. */
  function RunCounts(ids: seq<int>): (r: seq<nat>)
    ensures |r| == |ids|
    ensures forall i :: 0 <= i < |ids| ==> r[i] == 1 + Changes(ids, i)
  {
    seq(|ids|, i requires 0 <= i < |ids| => 1 + Changes(ids, i))
  }

  /** Each object's rows are contiguous: wherever the id changes, the new id
      has not appeared earlier in the column. */
  predicate Grouped(ids: seq<int>) {
    forall i :: 0 < i < |ids| && ids[i] != ids[i - 1] ==> ids[i] !in ids[..i]
  }

  lemma IdsUpToStep(ids: seq<int>, i: nat)
    requires i < |ids|
    ensures IdsUpTo(ids, i + 1) == IdsUpTo(ids, i) + {ids[i]}
  {
  }

  /** In a grouped column an id that differs from the previous row's has not
      been seen before. */
  lemma FreshId(ids: seq<int>, i: nat)
    requires Grouped(ids) && 0 < i < |ids| && ids[i] != ids[i - 1]
    ensures ids[i] !in IdsUpTo(ids, i)
  {
  }

  /** The running count is at least the number of distinct ids seen and at most
      the number of rows. */
  lemma {:induction false} RunCountsBounds(ids: seq<int>, i: nat)
    requires i < |ids|
    ensures |IdsUpTo(ids, i + 1)| <= RunCounts(ids)[i] <= i + 1
  {
    var r := RunCounts(ids);
    IdsUpToStep(ids, i);
    if i == 0 {
      assert IdsUpTo(ids, 0) == {};
    } else {
      RunCountsBounds(ids, i - 1);
      assert r[i] == r[i - 1] + (if ids[i] != ids[i - 1] then 1 else 0);
      var prev := IdsUpTo(ids, i);
      if ids[i] == ids[i - 1] {
        assert ids[i] in prev;
        assert prev + {ids[i]} == prev;
      }
    }
  }

  /** In a grouped column the set of ids seen grows exactly where the id
      changes. */
  lemma GroupedStep(ids: seq<int>, i: nat)
    requires Grouped(ids) && 0 < i < |ids|
    ensures |IdsUpTo(ids, i + 1)| == |IdsUpTo(ids, i)| + (if ids[i] != ids[i - 1] then 1 else 0)
  {
    IdsUpToStep(ids, i);
    var prev := IdsUpTo(ids, i);
    if ids[i] == ids[i - 1] {
      assert ids[i] in prev;
      assert prev + {ids[i]} == prev;
    } else {
      FreshId(ids, i);
    }
  }

  /** When every object's rows are contiguous in the column order, the
      running count is exactly the number of distinct ids seen. */
  lemma {:induction false} RunCountsGrouped(ids: seq<int>, i: nat)
    requires i < |ids| && Grouped(ids)
    ensures RunCounts(ids)[i] == |IdsUpTo(ids, i + 1)|
  {
    if i == 0 {
      IdsUpToStep(ids, 0);
      assert IdsUpTo(ids, 0) == {};
    } else {
      RunCountsGrouped(ids, i - 1);
      GroupedStep(ids, i);
    }
  }

  /** countObjects: the running count of distinct object ids down each column's
      sort order, as floating-point values. */
  function CountObjects(bjids: seq<int>, gax: Gax): (r: Mat)
    requires GaxIndexes(gax, |bjids|)
    ensures |r| == |gax| && IsRect(r, Width(gax))
    ensures forall i, j :: 0 <= i < |gax| && 0 <= j < Width(gax) ==>
      r[i][j] == RunCounts(Column(GatherVector(bjids, gax), j))[i] as real
  {
    if |gax| == 0 then []
    else
      var cols := |gax[0]|;
      var rect := GatherVector(bjids, gax);
      var counts := seq(cols, j requires 0 <= j < cols => RunCounts(Column(rect, j)));
      seq(|gax|, i requires 0 <= i < |gax| => seq(cols, j requires 0 <= j < cols => counts[j][i] as real))
  }

  /** Every column of countObjects starts at 1 and grows by 0 or 1 per row,
      by 1 exactly where the object id changes. */
  lemma CountObjectsSteps(bjids: seq<int>, gax: Gax, i: int, j: int)
    requires GaxIndexes(gax, |bjids|) && 0 <= j < Width(gax) && 0 < i < |gax|
    ensures CountObjects(bjids, gax)[0][j] == 1.0
    ensures CountObjects(bjids, gax)[i][j] - CountObjects(bjids, gax)[i - 1][j] ==
      if bjids[gax[i][j]] != bjids[gax[i - 1][j]] then 1.0 else 0.0
  {
  }

  /** The object-counting test of the repository: its ids gathered along the
      sort orders of its feature table give, column by column, the running
      counts the test expects (column j of CountObjects is RunCounts of the
      gathered column j). */
  lemma CountObjectsExample()
    ensures
      var rect := GatherVector([101, 101, 101, 102, 102, 103], [[0, 5, 4], [1, 4, 3], [2, 3, 1], [3, 2, 0], [4, 1, 2], [5, 0, 5]]);
      && RunCounts(Column(rect, 0)) == [1, 1, 1, 2, 2, 3]
      && RunCounts(Column(rect, 1)) == [1, 2, 2, 3, 3, 3]
      && RunCounts(Column(rect, 2)) == [1, 1, 2, 2, 2, 3]
  {
    var rect := GatherVector([101, 101, 101, 102, 102, 103], [[0, 5, 4], [1, 4, 3], [2, 3, 1], [3, 2, 0], [4, 1, 2], [5, 0, 5]]);
    assert Column(rect, 0) == [101, 101, 101, 102, 102, 103];
    assert Column(rect, 1) == [103, 102, 102, 101, 101, 101];
    assert Column(rect, 2) == [102, 102, 101, 101, 101, 103];
    ExampleRuns();
  }

  /** Run counts of the three gathered id columns of that test. */
  lemma ExampleRuns()
    ensures RunCounts([101, 101, 101, 102, 102, 103]) == [1, 1, 1, 2, 2, 3]
    ensures RunCounts([103, 102, 102, 101, 101, 101]) == [1, 2, 2, 3, 3, 3]
    ensures RunCounts([102, 102, 101, 101, 101, 103]) == [1, 1, 2, 2, 2, 3]
  {
    var r0 := RunCounts([101, 101, 101, 102, 102, 103]);
    assert r0[0] == 1 && r0[1] == 1 && r0[2] == 1 && r0[3] == 2 && r0[4] == 2 && r0[5] == 3;
    var r1 := RunCounts([103, 102, 102, 101, 101, 101]);
    assert r1[0] == 1 && r1[1] == 2 && r1[2] == 2 && r1[3] == 3 && r1[4] == 3 && r1[5] == 3;
    var r2 := RunCounts([102, 102, 101, 101, 101, 103]);
    assert r2[0] == 1 && r2[1] == 1 && r2[2] == 2 && r2[3] == 2 && r2[4] == 2 && r2[5] == 3;
  }

  /** reverseGax / reverse2DFloat: the rows in reverse order. */
  function ReverseRows<T>(rows: seq<T>): (r: seq<T>)
    ensures |r| == |rows|
    ensures forall i :: 0 <= i < |rows| ==> r[i] == rows[|rows| - 1 - i]
  {
    seq(|rows|, i requires 0 <= i < |rows| => rows[|rows| - 1 - i])
  }

  lemma ReverseRowsInvolution<T>(rows: seq<T>)
    ensures ReverseRows(ReverseRows(rows)) == rows
  {
  }

  /** A sort-order table read bottom-up is still a table of row indexes of
      the same width. */
  lemma ReverseGaxIndexes(gax: Gax, n: nat)
    requires GaxIndexes(gax, n)
    ensures GaxIndexes(ReverseRows(gax), n) && Width(ReverseRows(gax)) == Width(gax)
  {
  }

  /** The backward object counts of the next-tree loss: countObjects run over
      the reversed sort orders and reversed back, so that entry i counts the
      id changes met going up each column from its last sorted row to row i. */
  function CountObjectsBackward(bjids: seq<int>, gax: Gax): (r: Mat)
    requires GaxIndexes(gax, |bjids|)
    ensures |r| == |gax| && IsRect(r, Width(gax))
  {
    ReverseGaxIndexes(gax, |bjids|);
    ReverseRows(CountObjects(bjids, ReverseRows(gax)))
  }

  /** Column j of the backward counts, entry i: the forward count over the
      reversed sort orders at the position row i has once reversed (which
      ReversedColumn relates to the reversed id column). */
  lemma CountObjectsBackwardColumn(bjids: seq<int>, gax: Gax, j: nat)
    requires GaxIndexes(gax, |bjids|) && j < Width(gax)
    ensures GaxIndexes(ReverseRows(gax), |bjids|)
    ensures forall i :: 0 <= i < |gax| ==>
      CountObjectsBackward(bjids, gax)[i][j] == CountObjects(bjids, ReverseRows(gax))[|gax| - 1 - i][j]
  {
    ReverseGaxIndexes(gax, |bjids|);
    var c := CountObjects(bjids, ReverseRows(gax));
    var r := CountObjectsBackward(bjids, gax);
    assert r == ReverseRows(c);
    forall i | 0 <= i < |gax| ensures r[i][j] == c[|gax| - 1 - i][j] {
      ReverseRowsEntry(c, i);
    }
  }

  lemma ReverseRowsEntry<T>(rows: seq<T>, i: nat)
    requires i < |rows|
    ensures ReverseRows(rows)[i] == rows[|rows| - 1 - i]
  {
  }

  /** Gathering ids along the reversed sort orders gives each id column
      reversed, so the forward counts over the reversed orders are the run
      counts of the reversed id columns. */
  lemma ReversedColumn(bjids: seq<int>, gax: Gax, j: nat)
    requires GaxIndexes(gax, |bjids|) && j < Width(gax)
    ensures GaxIndexes(ReverseRows(gax), |bjids|) && Width(ReverseRows(gax)) == Width(gax)
    ensures Column(GatherVector(bjids, ReverseRows(gax)), j) == ReverseRows(Column(GatherVector(bjids, gax), j))
  {
    ReverseGaxIndexes(gax, |bjids|);
    var a, b := Column(GatherVector(bjids, ReverseRows(gax)), j), ReverseRows(Column(GatherVector(bjids, gax), j));
    assert |a| == |b|;
    forall i | 0 <= i < |a| ensures a[i] == b[i] {
    }
  }

  // ---------------------------------------------------------------- threshold

  predicate Nondecreasing(xs: seq<real>) {
    forall a, b :: 0 <= a <= b < |xs| ==> xs[a] <= xs[b]
  }

  /** The distinct values of `vals` in order of first appearance after each
      change (uniq), and for every position the index of its value in uniq. */
  function Dedup(vals: seq<real>): (r: (seq<real>, seq<nat>))
    ensures |r.1| == |vals|
    ensures |vals| == 0 <==> |r.0| == 0
    ensures |vals| > 0 ==> r.1[0] == 0 && r.1[|vals| - 1] == |r.0| - 1
    ensures forall i :: 0 <= i < |vals| ==> r.1[i] < |r.0| && r.0[r.1[i]] == vals[i]
    decreases |vals|
  {
    if |vals| == 0 then ([], [])
    else if |vals| == 1 then ([vals[0]], [0])
    else
      var n := |vals|;
      var prev := Dedup(vals[..n - 1]);
      var u := prev.0;
      var ix := prev.1;
      assert u[|u| - 1] == vals[n - 2] by {
        assert u[ix[n - 2]] == vals[..n - 1][n - 2];
      }
      if vals[n - 1] != u[|u| - 1] then
        (u + [vals[n - 1]], ix + [|u|])
      else
        (u, ix + [|u| - 1])
  }

  /** Neighbouring distinct values differ. */
  lemma {:induction false} DedupAdjacent(vals: seq<real>, k: int)
    requires 0 <= k < |Dedup(vals).0| - 1
    ensures Dedup(vals).0[k] != Dedup(vals).0[k + 1]
    decreases |vals|
  {
    var n := |vals|;
    var u := Dedup(vals[..n - 1]).0;
    if k + 1 < |u| {
      DedupAdjacent(vals[..n - 1], k);
    }
  }

  /** Every distinct value comes from the input. */
  lemma {:induction false} DedupMembers(vals: seq<real>, k: int)
    requires 0 <= k < |Dedup(vals).0|
    ensures Dedup(vals).0[k] in vals
    decreases |vals|
  {
    var n := |vals|;
    if n > 1 {
      var u := Dedup(vals[..n - 1]).0;
      if k < |u| {
        DedupMembers(vals[..n - 1], k);
        assert vals[..n - 1] <= vals;
      }
    }
  }

  /** On sorted input the distinct values are strictly increasing. */
  lemma {:induction false} DedupStrict(vals: seq<real>, a: int, b: int)
    requires Nondecreasing(vals)
    requires 0 <= a < b < |Dedup(vals).0|
    ensures Dedup(vals).0[a] < Dedup(vals).0[b]
    decreases |vals|
  {
    var n := |vals|;
    var u := Dedup(vals[..n - 1]).0;
    assert Nondecreasing(vals[..n - 1]);
    if b < |u| {
      DedupStrict(vals[..n - 1], a, b);
    } else {
      var ix := Dedup(vals[..n - 1]).1;
      assert u[ix[n - 2]] == vals[n - 2];
      if a < |u| - 1 {
        DedupStrict(vals[..n - 1], a, |u| - 1);
      }
    }
  }

  /** The clamped position smartThreshold starts from. */
  function ClampIndex(idx: int, n: nat): (c: nat)
    requires n > 0
    ensures c < n
    ensures 0 <= idx < n ==> c == idx
    ensures idx < 0 ==> c == 0
    ensures idx >= n ==> c == n - 1
  {
    if idx < 0 then 0 else if idx >= n then n - 1 else idx
  }

  /** Two values of the column whose midpoint is `t`. */
  predicate IsMidpoint(vals: seq<real>, t: real) {
    exists a, b :: 0 <= a < |vals| && 0 <= b < |vals| && vals[a] != vals[b] && t == (vals[a] + vals[b]) / 2.0
  }

  /** A column all of whose values are equal. */
  predicate Constant(vals: seq<real>) {
    forall i :: 0 <= i < |vals| ==> vals[i] == vals[0]
  }

  /** smartThreshold: the midpoint between the distinct value at (clamped)
      position idx and the next distinct value, or the previous one when idx
      lies in the last run. None when there are fewer than two values or
      fewer than two distinct ones. */
  function SmartThreshold(sortedValues: seq<real>, idx: int): (r: Option<real>)
    ensures r.None? <==> |sortedValues| < 2 || Constant(sortedValues)
    ensures r.Some? ==> IsMidpoint(sortedValues, r.value)
  {
    if |sortedValues| < 2 then None
    else
      var d := Dedup(sortedValues);
      var uniq := d.0;
      var indices := d.1;
      if |uniq| < 2 then
        assert Constant(sortedValues) by {
          forall i | 0 <= i < |sortedValues| ensures sortedValues[i] == sortedValues[0] {
            assert uniq[indices[i]] == sortedValues[i];
          }
        }
        None
      else
        var c := ClampIndex(idx, |indices|);
        var k := if indices[c] > |uniq| - 2 then |uniq| - 2 else indices[c];
        DedupAdjacent(sortedValues, 0);
        DedupAdjacent(sortedValues, k);
        assert !Constant(sortedValues) by {
          DedupMembers(sortedValues, 1);
          assert uniq[0] == sortedValues[0];
          var j :| 0 <= j < |sortedValues| && sortedValues[j] == uniq[1];
        }
        DedupMembers(sortedValues, k);
        DedupMembers(sortedValues, k + 1);
        var a :| 0 <= a < |sortedValues| && sortedValues[a] == uniq[k];
        var b :| 0 <= b < |sortedValues| && sortedValues[b] == uniq[k + 1];
        assert sortedValues[a] != sortedValues[b];
        Some((uniq[k] + uniq[k + 1]) / 2.0)
  }

  /** Any threshold strictly between two values leaves at least one value on
      each side of the `value < threshold` test. */
  lemma SmartThresholdSeparates(sortedValues: seq<real>, idx: int)
    requires SmartThreshold(sortedValues, idx).Some?
    ensures exists a :: 0 <= a < |sortedValues| && sortedValues[a] < SmartThreshold(sortedValues, idx).value
    ensures exists b :: 0 <= b < |sortedValues| && !(sortedValues[b] < SmartThreshold(sortedValues, idx).value)
  {
    var t := SmartThreshold(sortedValues, idx).value;
    var a, b :| 0 <= a < |sortedValues| && 0 <= b < |sortedValues| &&
      sortedValues[a] != sortedValues[b] && t == (sortedValues[a] + sortedValues[b]) / 2.0;
    if sortedValues[a] < sortedValues[b] {
      assert sortedValues[a] < t;
    } else {
      assert sortedValues[b] < t;
    }
  }

  /** On a sorted column the threshold cuts exactly after the run holding the
      clamped position c (or before it, when that run is the last one): row i
      falls below the threshold iff its value is <= the value at c (< for the
      last run). */
  lemma SmartThresholdPartition(sortedValues: seq<real>, idx: int, i: int)
    requires Nondecreasing(sortedValues)
    requires SmartThreshold(sortedValues, idx).Some?
    requires 0 <= i < |sortedValues|
    ensures var n := |sortedValues|;
      var c := ClampIndex(idx, n);
      sortedValues[i] < SmartThreshold(sortedValues, idx).value <==>
        if sortedValues[c] == sortedValues[n - 1] then sortedValues[i] < sortedValues[c]
        else sortedValues[i] <= sortedValues[c]
  {
    var n := |sortedValues|;
    var d := Dedup(sortedValues);
    var uniq, indices := d.0, d.1;
    var c := ClampIndex(idx, n);
    var k := if indices[c] > |uniq| - 2 then |uniq| - 2 else indices[c];
    var t := (uniq[k] + uniq[k + 1]) / 2.0;
    assert SmartThreshold(sortedValues, idx).value == t;
    DedupStrict(sortedValues, k, k + 1);
    assert sortedValues[i] < t <==> indices[i] <= k by {
      if indices[i] < k {
        DedupStrict(sortedValues, indices[i], k);
      } else if indices[i] > k + 1 {
        DedupStrict(sortedValues, k + 1, indices[i]);
      }
    }
    assert sortedValues[c] == sortedValues[n - 1] <==> indices[c] == |uniq| - 1 by {
      if indices[c] < |uniq| - 1 {
        DedupStrict(sortedValues, indices[c], |uniq| - 1);
      }
    }
    assert indices[i] <= indices[c] <==> sortedValues[i] <= sortedValues[c] by {
      if indices[i] < indices[c] {
        DedupStrict(sortedValues, indices[i], indices[c]);
      } else if indices[i] > indices[c] {
        DedupStrict(sortedValues, indices[c], indices[i]);
      }
    }
  }
}

=== FILE: poisson_whole_loss.dfy ===
/** The entry point of the loss computation: which of the four variants a
    node uses depends only on whether a bias is given (a later tree) and on
    whether the matrix carries extra features. */
module PoissonWholeLoss {
  import opened Wrappers
  import opened Numeric
  import opened PoissonTypes
  import opened PoissonMatrix
  import opened PoissonLoss
  import opened PoissonExtraLoss

  /** The abstract numerics the loss needs: the logarithm of the first tree
      and the linear solver of the extra variants. */
  datatype Numerics = Numerics(log: real -> real, solve: Solver)

  /** The four variants, named by (first or later tree, with or without extra features). */
  datatype Variant = FirstTree | FirstTreeExtra | NextTree | NextTreeExtra

  function VariantOf(m: PMatrix, bias: Option<seq<real>>): Variant {
    match (bias, m.featuresExtra)
    case (None, None) => FirstTree
    case (None, Some(_)) => FirstTreeExtra
    case (Some(_), None) => NextTree
    case (Some(_), Some(_)) => NextTreeExtra
  }

  /** WholeLoss: a missing bias means the first tree. */
  function WholeLoss(m: PMatrix, params: TreeBuildParams, bias: Option<seq<real>>, num: Numerics): (r: Result<LossResult>)
    requires Valid(m)
    ensures bias.None? && m.featuresExtra.None? ==> r == WholeLossFirstTree(m, params, num.log)
    ensures bias.None? && m.featuresExtra.Some? ==> r == WholeLossFirstTreeExtra(m, params, num.solve)
    ensures bias.Some? && m.featuresExtra.None? ==> r == WholeLossNextTree(m, params, bias.value)
    ensures bias.Some? && m.featuresExtra.Some? ==> r == WholeLossNextTreeExtra(m, params, bias.value, num.solve)
  {
    match VariantOf(m, bias)
    case FirstTree => WholeLossFirstTree(m, params, num.log)
    case FirstTreeExtra => WholeLossFirstTreeExtra(m, params, num.solve)
    case NextTree => WholeLossNextTree(m, params, bias.value)
    case NextTreeExtra => WholeLossNextTreeExtra(m, params, bias.value, num.solve)
  }

  /** The failures of WholeLoss: the first tree without extra features never
      fails; a later tree fails exactly on a bias of the wrong length when no
      extra features are present; with extra features the bias length and
      psi are checked as well. */
  lemma WholeLossFailures(m: PMatrix, params: TreeBuildParams, bias: Option<seq<real>>, num: Numerics)
    requires Valid(m)
    ensures bias.None? && m.featuresExtra.None? ==> WholeLoss(m, params, bias, num).Success?
    ensures bias.Some? && m.featuresExtra.None? ==>
      (WholeLoss(m, params, bias, num).Failure? <==> |bias.value| != m.Height())
    ensures bias.Some? && m.featuresExtra.Some? && m.psi.None? ==> WholeLoss(m, params, bias, num).Failure?
    ensures bias.Some? && |bias.value| != m.Height() ==> WholeLoss(m, params, bias, num).Failure?
  {
  }
}

=== FILE: wrappers.dfy ===
/** Failure-compatible wrappers shared by both engines.
    `Option` stands for Go's nil-able values, `Result` for a value-or-error
    return (and for a panic, which aborts the current computation). */
module Wrappers {

  datatype Option<+T> = None | Some(value: T) {
    predicate IsFailure() {
      None?
    }

    function PropagateFailure<U>(): Option<U>
      requires None?
    {
      None
    }

    function Extract(): T
      requires Some?
    {
      value
    }
  }

  /** The kinds of errors the engines report (Go error strings and panics). */
  datatype Error =
    | ShapeMismatch(what: string)
    | EmptyInput(what: string)
    | SingularSystem
    | InvalidModel(what: string)

  datatype Result<+T> = Success(value: T) | Failure(error: Error) {
    predicate IsFailure() {
      Failure?
    }

    function PropagateFailure<U>(): Result<U>
      requires Failure?
    {
      Failure(error)
    }

    function Extract(): T
      requires Success?
    {
      value
    }
  }
}
